=== FILE: README.md ===
# c4d-prototype-converter, modelled in Dafny

The c4d-prototype-converter is a Cinema 4D plugin. It turns a Python
prototype into a plugin project, and it comes in two parts.

- **Script converter.** It turns a command script from the script manager
  into a command plugin.
- **Prototype converter.** It turns a Python object, tag, or other
  prototype with user data into a plugin. The output has a plugin file, a
  description resource, a header of C++ symbols, a string table and an
  icon.

Both parts rewrite the prototype's code with lib2to3 fixers, fill a small
Jinja-like template, and lay out the files the plugin consists of.

This project models the core of that system as pure functions over
immutable values:

- **Rewriting code.** `Cst` is the lossless syntax tree. The fixers are
  `FuncDef`, `Reindent`, `FutureImports` and `Docstrings`. `Pipeline` sorts
  the fixers. `Scripts` holds the entry points that glue the outputs
  together.
- **The template engine.** `Scanner` is the regex scanner. `Jinja` is the
  tag stack and the renderer.
- **Supporting structures.** `Generics` covers generic classes and
  `HashDict`. `Nodes` is the parent-linked tree of utils.py. `Paths` holds
  `path_parents`. `FileTree` is `file_tree`, and `FileListWidget` is the
  file list widget. `BaseDialog` covers the dialog's virtual widget ids.
  `RefReplace` is `unicode_refreplace`.
- **The prototype converter.** `UserData` is the user-data tree. `Symbols`
  is the symbol map. `DescLayout` is the description resource text.
  `ProtoConverter` covers the converter's settings, files and checks.
- **The script converter.** `ScriptConv` covers its metadata, `autofill`,
  files, checks, template context and README.

`Errors`, `Text`, `PyRepr` and `PluginNaming` hold shared helpers:
Python's exceptions, string primitives, `repr` of a string, and the plugin
name derivations.

Python exceptions are values of `Errors.Error`, carried in a
`Result<T>`; a member that raises in the source returns `Err` here with
the same exception class. A message the source builds itself is modelled
as built, `{!r}` included (`PyRepr`); the messages Python writes for a
missing key or attribute are reduced to the class or the attribute name,
and `IndexError` and `NameError` carry no message at all. Mutable Python objects (nodes,
dialogs, dictionaries) are values, and every operation returns the
updated value. Where the source calls into Cinema 4D, the file system or
`eval`, the model takes the answer as a parameter. Those parameters are
listed below.

Two copies of most of the converter exist in the source: the current one
under `ui/` and an older one in `plugin_main.py` (and, for the fixers,
`refactor.py` beside the older `codeconv.py`). Where the copies differ,
both are modelled and a lemma relates them.

## Model

| member | source | states |
|---|---|---|
| Paths.Dirname | c4d_prototype_converter/ui/FileList.py:17 | `os.path.dirname`: a prefix of the path; it equals the path exactly for the empty path and for a run of slashes; it is empty for a path without a `/` |
| Paths.Basename | c4d_prototype_converter/ui/FileList.py:101 | `os.path.basename`: the suffix of the path after its last `/`, holding no `/` |
| Paths.PathParents | c4d_prototype_converter/ui/FileList.py:9-20 | the generator yields the path itself first |
| Paths.ParentsLoopChain | c4d_prototype_converter/ui/FileList.py:15-20 | the loop's output climbs by `dirname`, ends at a stopping point (empty or repeated `dirname`), and passes no stopping point before |
| Paths.PathParentsChain | c4d_prototype_converter/ui/FileList.py:9-20 | each yielded item is the `dirname` of the one before; the last is a stopping point; no item strictly between the first and last is one; a root given as the path is yielded again right after |
| Paths.RootYieldedTwice | c4d_prototype_converter/ui/FileList.py:14-20 | `/` is yielded twice, because `prev` starts as `None` |
| Paths.RelativeParents | c4d_prototype_converter/ui/FileList.py:9-20 | `a/b/c` yields `a/b/c`, `a/b`, `a` |
| Paths.WalkOrderWellChained | c4d_prototype_converter/ui/FileList.py:44 | read outermost first, as `file_tree` walks it, the chain starts at a stopping point and each item's `dirname` is the item before |
| Paths.JoinName | c4d_prototype_converter/ui/FileList.py:106 | `os.path.join(a, name)` for a name without `/` ends in the name, preceded by `a` or `a + "/"` as `a` ends in `/` or not; its base name is the name |
| Paths.JoinAllNames | c4d_prototype_converter/plugin_main.py:367-383 | joining names without `/` under a directory keeps the directory as a prefix and ends in the last name |
| Paths.SplitExt | c4d_prototype_converter/ui/ScriptConverter.py:145 | `os.path.splitext`: the two parts concatenate to the path, and a non-empty extension starts with `.` and holds no further `.` or `/` |
| Paths.SplitExtSuffix | c4d_prototype_converter/ui/ScriptConverter.py:145 | splitting a root followed by an extension gives back the root and the extension |
| FileTree.EmptyInv | c4d_prototype_converter/ui/FileList.py:30-31 | the empty tree satisfies the tree invariant |
| FileTree.PlaceNewKeepsInv | c4d_prototype_converter/ui/FileList.py:45-50 | creating the entry for a path not seen before keeps the invariant and records the path under the new entry |
| FileTree.PlaceOldKeepsTree | c4d_prototype_converter/ui/FileList.py:45-46 | a path that already has an entry reuses it and changes nothing |
| FileTree.PlaceNewForest | c4d_prototype_converter/ui/FileList.py:47-50 | the new entry is `Data(path, path != filename, data)`, attached under the parent entry when there is one, and the forest stays linked |
| FileTree.GrownDense | c4d_prototype_converter/ui/FileList.py:45-50 | adding an entry keeps the entries numbered densely |
| FileTree.GrownOneEntryPerPath | c4d_prototype_converter/ui/FileList.py:45-50 | adding an entry keeps one entry per path |
| FileTree.GrownTopsParentless | c4d_prototype_converter/ui/FileList.py:43-49 | an entry for a stopping point (a top-level path) has no parent |
| FileTree.GrownParentIsDirEntry | c4d_prototype_converter/ui/FileList.py:43-52 | every other entry's parent is the entry of its `dirname` |
| FileTree.GrownParentIsDirname | c4d_prototype_converter/ui/FileList.py:43-52 | a parentless entry is a stopping point and a child's path climbs to its parent's by `dirname` |
| FileTree.GrownParentsOlder | c4d_prototype_converter/ui/FileList.py:47-49 | a parent entry was always created before its children |
| FileTree.GrownDirFlags | c4d_prototype_converter/ui/FileList.py:47 | an entry is a directory exactly when its path differs from the item's file name |
| FileTree.WalkStep | c4d_prototype_converter/ui/FileList.py:44-52 | one step of the walk over a chain keeps the invariant and records the step's path |
| FileTree.WalkKeepsInv | c4d_prototype_converter/ui/FileList.py:43-52 | the walk over a whole chain succeeds and keeps the invariant |
| FileTree.WalkEntries | c4d_prototype_converter/ui/FileList.py:44-52 | after the walk the entries are the old ones plus the walked paths, old paths keeping their entries |
| FileTree.BuildInv | c4d_prototype_converter/ui/FileList.py:42-52 | the loop over all items succeeds and keeps the invariant |
| FileTree.BuildEntries | c4d_prototype_converter/ui/FileList.py:42-52 | the tree has an entry for a path exactly when some item's `path_parents` contains it |
| FileTree.Roots | c4d_prototype_converter/ui/FileList.py:56 | the roots are exactly the parentless entries, each once |
| FileTree.TreeRanked | c4d_prototype_converter/ui/FileList.py:47-49 | creation order ranks the forest: parents rank above their children, so every parent chain ends |
| FileTree.RootAbove | c4d_prototype_converter/ui/FileList.py:56-59 | every entry lies in the subtree of some root |
| FileTree.FlatListsTree | c4d_prototype_converter/ui/FileList.py:57-60 | the flat result lists every entry exactly once |
| FileTree.FileTreeOf | c4d_prototype_converter/ui/FileList.py:23-62 | the result tree keeps the invariant and has one entry per path prefix of the items; the result lists the roots (or, flat, all entries), each once |
| FileTree.FileTree | c4d_prototype_converter/ui/FileList.py:23-62 | without a key each item is its own file name; the result keeps the tree invariant, has an entry exactly for each path prefix an item contributes, lists the roots (or, flat, every entry) and holds no entry twice |
| FileTree.FileTreeOld | c4d_prototype_converter/plugin_main.py:132-168 | the older copy has no default key: with items and no key it raises `TypeError` when the generator runs; without items it returns an empty tree; with a key it is the current `file_tree` |
| FileListWidget.NewFileList | c4d_prototype_converter/ui/FileList.py:78-84 | a fresh widget has no rows, no optional ids and overwrite off |
| FileListWidget.SortFiles | c4d_prototype_converter/ui/FileList.py:87 | the files are a permutation of the input, sorted by lower-cased path |
| FileListWidget.StrLeTotal | c4d_prototype_converter/ui/FileList.py:87 | Python's string order is total |
| FileListWidget.StrLeTrans | c4d_prototype_converter/ui/FileList.py:87 | Python's string order is transitive |
| FileListWidget.SortedPairwise | c4d_prototype_converter/ui/FileList.py:87 | in a sorted list every earlier file sorts before every later one |
| FileListWidget.SetFiles | c4d_prototype_converter/ui/FileList.py:86-91 | the flat rows list each tree entry once; the tree has an entry for exactly the path prefixes of the files; the optional ids are those given; the parent path is kept |
| FileListWidget.SortedFilesContribute | c4d_prototype_converter/ui/FileList.py:87-89 | sorting does not change which paths the tree holds |
| FileListWidget.SetOverwrite | c4d_prototype_converter/ui/FileList.py:93-94 | only the overwrite flag changes |
| FileListWidget.LabelShape | c4d_prototype_converter/ui/FileList.py:100-103 | a label is two spaces per level, then the base name, and ends in `/` exactly for a directory |
| FileListWidget.RowColour | c4d_prototype_converter/ui/FileList.py:107-114 | a row is coloured only for an existing file: blue if optional, else yellow if overwriting, else red |
| FileListWidget.ValidRenderable | c4d_prototype_converter/ui/FileList.py:96-99 | a widget after `set_files` can be rendered: its rows are linked, ranked nodes |
| FileListWidget.RenderRow | c4d_prototype_converter/ui/FileList.py:99-114 | a row's text is the label at the node's depth, and its colour is the colour of that node |
| FileListWidget.Render | c4d_prototype_converter/ui/FileList.py:96-115 | one row per flat node, in order, each fitting its node |
| Nodes.Deref | c4d_prototype_converter/utils.py:40-43 | calling a reference gives its node while the node is alive, and None for an empty reference or a dead node |
| Nodes.DeadRefTruthy | c4d_prototype_converter/utils.py:40-46 | `__bool__` only asks whether the reference was set: a dead reference is truthy although calling it gives None |
| Nodes.NewNode | c4d_prototype_converter/utils.py:75-85 | an unbound `Node` raises `TypeError`; with no data class any argument raises `TypeError("<name> takes no arguments")`; otherwise the data class builds the data, and its error propagates; a new node has no parent and no children |
| Nodes.GetItem | c4d_prototype_converter/utils.py:90-93 | dict data is indexed by key (`KeyError` when absent); other data is read by attribute (`AttributeError` when absent) |
| Nodes.Get | c4d_prototype_converter/utils.py:105-109 | the lookup, with the default where the lookup would fail |
| Nodes.SetItem | c4d_prototype_converter/utils.py:95-103 | only dict data can be changed, and it accepts any key; assigning a field of namedtuple data raises `setattr`'s `AttributeError("can't set attribute")`; any other key raises `AttributeError("<type> has no attribute <key>")` |
| Nodes.SetThenGet | c4d_prototype_converter/utils.py:90-103 | after a successful set, reading the key gives the value and other keys read as before |
| Nodes.SetNodeItem | c4d_prototype_converter/utils.py:95-103 | setting an item changes only that node's data |
| Nodes.RemoveFirst | c4d_prototype_converter/utils.py:119 | `list.remove` drops the first occurrence, or raises `ValueError` when there is none |
| Nodes.RemoveFirstMembers | c4d_prototype_converter/utils.py:119 | on a list without duplicates, removal leaves every other element and keeps the list free of duplicates |
| Nodes.Remove | c4d_prototype_converter/utils.py:116-120 | afterwards the node has no parent; when its parent is absent or dead only the reference is cleared |
| Nodes.RemoveFromParentDetaches | c4d_prototype_converter/utils.py:116-120 | a node with a live parent leaves that parent's children and loses its parent |
| Nodes.RemoveParentlessDetaches | c4d_prototype_converter/utils.py:116-120 | a parentless node only has its reference cleared |
| Nodes.RemoveDetaches | c4d_prototype_converter/utils.py:116-120 | on a linked forest `remove` never fails and detaches the node |
| Nodes.DetachedLinked | c4d_prototype_converter/utils.py:116-120 | detaching keeps the parent and child links consistent |
| Nodes.RemoveKeepsLinked | c4d_prototype_converter/utils.py:116-120 | after `remove` the forest stays linked, no node lists the removed one, and data, other parents and other children are unchanged |
| Nodes.AddChild | c4d_prototype_converter/utils.py:111-114 | the child's parent becomes the new parent and it is the last of that parent's children |
| Nodes.AttachShape | c4d_prototype_converter/utils.py:113-114 | attaching a detached node appends it and sets its parent, changing nothing else |
| Nodes.AttachedLinked | c4d_prototype_converter/utils.py:113-114 | attaching a detached node keeps the forest linked |
| Nodes.AddChildKeepsLinked | c4d_prototype_converter/utils.py:111-114 | on a linked forest `add_child` succeeds, keeps it linked, makes the new parent the only one listing the child, and changes no data, no other parent and no other child list |
| Nodes.AddChildKept | c4d_prototype_converter/utils.py:111-114 | `add_child` keeps every node's data and every other node's parent |
| Nodes.InsertFreshKeepsLinked | c4d_prototype_converter/utils.py:84-85 | a new node with no parent and no children keeps a forest linked |
| Nodes.VisitModes | c4d_prototype_converter/utils.py:122-128 | `with_root` adds the node before its subtree (pre-order) or after it (post-order); without the root the mode makes no difference |
| Nodes.VisitCoversSubtree | c4d_prototype_converter/utils.py:122-128 | `visit` reaches exactly the nodes of the subtree |
| Nodes.VisitAllCovers | c4d_prototype_converter/utils.py:125-126 | visiting a list of children reaches exactly the nodes of their subtrees |
| Nodes.SubtreesDisjoint | c4d_prototype_converter/utils.py:125-126 | the subtrees of two siblings share no node |
| Nodes.VisitNoDups | c4d_prototype_converter/utils.py:122-128 | in a linked forest `visit` calls the function on each node at most once |
| Nodes.VisitAllNoDups | c4d_prototype_converter/utils.py:125-126 | visiting distinct siblings reaches each node at most once |
| Nodes.ParentRanksHigher | c4d_prototype_converter/utils.py:130-137 | in a linked, ranked forest a parent ranks above its child, so the walk up ends |
| Nodes.AncestorNext | c4d_prototype_converter/utils.py:133 | one step of the loop moves to the parent of the current ancestor |
| Nodes.Depth | c4d_prototype_converter/utils.py:130-137 | the count is the number of ancestors passed before the chain ends or one meets the stop condition; every ancestor counted is live and fails the condition |
| Generics.Normalise | c4d_prototype_converter/generics.py:42-45 | a bare name becomes a one-element tuple; the name is the first element, and there is a default exactly when the tuple is longer |
| Generics.MisorderedIff | c4d_prototype_converter/generics.py:40-49 | the loop, with `had_optional` tracked, finds an offender exactly when some argument without a default follows one with a default |
| Generics.Declare | c4d_prototype_converter/generics.py:37-53 | a class without `__generic_args__` raises `TypeError`; otherwise the arguments are normalised, in order, and the class starts unbound; as written it never rejects an argument list |
| Generics.DeclareChecksOrder | c4d_prototype_converter/generics.py:40-49 | the corrected declaration succeeds exactly when defaults trail; otherwise it raises `ValueError` naming a non-default argument that follows a default |
| Generics.MinArgs | c4d_prototype_converter/generics.py:69-75 | the required count is the position of the first argument with a default |
| Generics.BindArgs | c4d_prototype_converter/generics.py:80-88 | the given arguments fill the first positions and defaults fill the rest; a missing default fails the `assert` |
| Generics.Subscript | c4d_prototype_converter/generics.py:62-94 | binding works on the base class; fewer arguments than required raise `TypeError("<name> takes at least …")`; the bound class keeps the base's arguments and binds each one to the given value or its default |
| Generics.RebindFromBase | c4d_prototype_converter/generics.py:63 | binding an already bound class is binding its base |
| Generics.TrailingDefaultsNeverAssert | c4d_prototype_converter/generics.py:76-88 | when defaults trail, a failed binding is always the `TypeError`, never the `assert` |
| Generics.DeclaredNeverAsserts | c4d_prototype_converter/generics.py:37-94 | a class the corrected declaration accepts never reaches the `assert` |
| Generics.MisorderedAcceptedAsWritten | c4d_prototype_converter/generics.py:40-50 | as written, `[('a', x), 'b']` is accepted, and binding no arguments then fails the `assert` |
| Generics.MisorderedRejected | c4d_prototype_converter/generics.py:46-49 | the corrected declaration rejects `[('a', x), 'b']` with the `ValueError` naming `b` |
| Generics.NewHashDict | c4d_prototype_converter/generics.py:118-121 | an unbound dictionary raises `TypeError`; a bound one starts empty with the bound hash function |
| Generics.Keys | c4d_prototype_converter/generics.py:157-159 | iteration yields the unwrapped keys, one per entry |
| Generics.FindKey | c4d_prototype_converter/generics.py:111-114 | the first stored key whose hash and `==` both answer the lookup, or none |
| Generics.GetItem | c4d_prototype_converter/generics.py:126-128 | the value stored under a matching key, or `KeyError` exactly when none matches |
| Generics.Get | c4d_prototype_converter/generics.py:164-166 | the stored value, or the default when no key matches |
| Generics.KeysAfterSet | c4d_prototype_converter/generics.py:130-132 | assigning adds the key at the end when no key matches, and keeps the keys otherwise |
| Generics.SetThenGet | c4d_prototype_converter/generics.py:126-132 | a key equal to itself reads back the value just assigned |
| Generics.SetKeepsOthers | c4d_prototype_converter/generics.py:126-132 | assigning one key leaves the value of a key answered by a different entry unchanged |
| Generics.DelItem | c4d_prototype_converter/generics.py:134-136 | deleting removes the matching entry, or raises `KeyError` exactly when none matches |
| Generics.DelThenMissing | c4d_prototype_converter/generics.py:134-142 | after deleting the one entry that answers a key, the key is no longer contained |
| Generics.SetDefault | c4d_prototype_converter/generics.py:168-170 | a present key keeps its value and returns it; an absent one gets the value, which is returned |
| Generics.Specialize | c4d_prototype_converter/generics.py:176-185 | the decorator registers the function for the type and returns it unchanged |
| Generics.SpecializeThenHash | c4d_prototype_converter/generics.py:183-188 | after registering, values of exactly that type hash with the function and all others as before |
| Generics.UnregisteredUsesBuiltin | c4d_prototype_converter/generics.py:188 | with nothing registered, `HashDict` uses the built-in `hash` |
| BaseDialog.NewDialog | c4d_prototype_converter/c4dutils.py:101-106 | a new dialog has no widgets, an empty cache, no edit texts, and its counter at 9000000 |
| BaseDialog.AllocId | c4d_prototype_converter/c4dutils.py:108-115 | the id returned is the counter's old value and the counter moves on by one; nothing else changes |
| BaseDialog.AllocConsecutive | c4d_prototype_converter/c4dutils.py:108-115 | `n` allocations return `n` consecutive ids from the counter and advance it by `n` |
| BaseDialog.AllocFromFirstId | c4d_prototype_converter/c4dutils.py:105-115 | a fresh dialog hands out 9000000, 9000001, … |
| BaseDialog.Put | c4d_prototype_converter/c4dutils.py:194 | storing a widget sets that key only, keeps the iteration order consistent, and leaves cache, counter and edit texts alone |
| BaseDialog.FindKey | c4d_prototype_converter/c4dutils.py:129-132 | the first `id.*` key of a widget whose value is the id, with `id.` cut off, or none when no such key exists |
| BaseDialog.Lookup | c4d_prototype_converter/c4dutils.py:127-135 | the scan over widgets in iteration order finds a widget holding the id exactly when one exists, and answers with its key name and widget id; otherwise `(None, param_id)` |
| BaseDialog.LookupUnique | c4d_prototype_converter/c4dutils.py:127-135 | when one widget position holds the id, the scan answers exactly that |
| BaseDialog.ReverseMapId | c4d_prototype_converter/c4dutils.py:117-137 | the answer is cached under the id and earlier cache entries stay; with a sound cache the answer is the scan's |
| BaseDialog.ReverseMapIdMemoised | c4d_prototype_converter/c4dutils.py:124-125 | asking again gives the same answer and changes nothing |
| BaseDialog.ReverseOfHeldId | c4d_prototype_converter/c4dutils.py:117-137 | an id some widget allocated maps back to that widget and key |
| BaseDialog.IdValues | c4d_prototype_converter/c4dutils.py:147-150 | the values of a widget's `id.*` keys, and only those |
| BaseDialog.ForwardMapId | c4d_prototype_converter/c4dutils.py:139-152 | a virtual widget yields the ids it allocated; any other id yields itself |
| BaseDialog.ForwardThenReverse | c4d_prototype_converter/c4dutils.py:117-152 | every id a virtual widget forwards to maps back to that widget |
| BaseDialog.AddFileSelector | c4d_prototype_converter/c4dutils.py:184-198 | a type other than `load`, `save` or `directory` raises `ValueError` with `invalid type: ` and the type's `repr`; otherwise two ids are allocated, the widget holding them is stored under `param_id`, and the text id becomes an edit text |
| BaseDialog.AddFileSelectorNamesType | c4d_prototype_converter/c4dutils.py:185-186 | the message of an unknown type holds it as a literal that reads back as the type |
| BaseDialog.NewDialogValid | c4d_prototype_converter/c4dutils.py:101-106 | a new dialog satisfies the invariant and its cache is sound |
| BaseDialog.AddFileSelectorValid | c4d_prototype_converter/c4dutils.py:184-194 | adding a file selector keeps the invariant; no earlier widget holds the two new ids |
| BaseDialog.AddFileSelectorReverse | c4d_prototype_converter/c4dutils.py:184-194 | the scan maps the two new ids back to `("string", param_id)` and `("button", param_id)` |
| BaseDialog.AddFileSelectorForward | c4d_prototype_converter/c4dutils.py:139-152 | the new widget forwards to exactly its two allocated ids |
| BaseDialog.LookupSnoc | c4d_prototype_converter/c4dutils.py:128-133 | a widget after the others that does not hold the id does not change the scan's answer |
| BaseDialog.AddFileSelectorKeepsCache | c4d_prototype_converter/c4dutils.py:117-137 | adding a selector keeps the cache sound when neither new id was asked about before |
| BaseDialog.StaleReverseMapping | c4d_prototype_converter/c4dutils.py:124-136 | an id asked about before its widget exists stays cached as `(None, id)` although the scan would now find the widget |
| UserData.ParamIdsKeys | c4d_prototype_converter/ui/PrototypeConverter.py:34-36 | every parameter's id gets a node; each id maps to the node of an entry carrying that id |
| UserData.ParamIdsLast | c4d_prototype_converter/ui/PrototypeConverter.py:34-36 | a repeated id keeps the node of its last entry, since a later assignment overwrites |
| UserData.FreshLinked | c4d_prototype_converter/ui/PrototypeConverter.py:32-40 | freshly built nodes, all parentless and childless, form a linked forest |
| UserData.WithMainGroup | c4d_prototype_converter/ui/PrototypeConverter.py:32-42 | after the first loop the proxy root is parentless, the main group is its child, and there is one node per parameter |
| UserData.LoopInit | c4d_prototype_converter/ui/PrototypeConverter.py:44-45 | the second loop's invariant holds before its first pass |
| UserData.LoopStep | c4d_prototype_converter/ui/PrototypeConverter.py:45-53 | one pass attaches the entry's node under its parent group's node, or the root, and keeps the invariant |
| UserData.LoopStepOk | c4d_prototype_converter/ui/PrototypeConverter.py:48-53 | the `add_child` in each pass cannot fail |
| UserData.LoopDone | c4d_prototype_converter/ui/PrototypeConverter.py:44-55 | after the loop the forest is linked, data is unchanged, nodes no entry names keep their parent, and each node's parent is set by the last entry naming it |
| UserData.AttachAll | c4d_prototype_converter/ui/PrototypeConverter.py:44-53 | the whole loop keeps the invariant; starting from nodes that are still parentless, each parent's children end up as the parameters naming it, in parameter order |
| UserData.UserdataTree | c4d_prototype_converter/ui/PrototypeConverter.py:23-55 | the result is linked with one node per parameter plus root and main group; the root has no parent; unless a parameter reuses the main group's id the main group stays under the root; each parameter's node hangs under its parent group's node; with distinct ids, the root's only child is the main group and every node's children are the parameters naming it as parent, in parameter order |
| UserData.RootUntouched | c4d_prototype_converter/ui/PrototypeConverter.py:44-53 | no entry moves the proxy root |
| UserData.MainUntouched | c4d_prototype_converter/ui/PrototypeConverter.py:38-53 | no entry moves the main group unless a parameter reuses its id |
| UserData.ParentSlotDistinct | c4d_prototype_converter/ui/PrototypeConverter.py:47-51 | with distinct ids, a parameter whose parent is the main group hangs under it, one whose parent is another parameter under that one, and one whose parent is unknown under the root |
| Symbols.TranslateBaseShape | c4d_prototype_converter/ui/PrototypeConverter.py:143 | a translated name holds only upper-case letters, digits and `_`, and neither starts nor ends with `_` |
| Symbols.CandidateInjective | c4d_prototype_converter/ui/PrototypeConverter.py:149 | different suffix indices give different symbols, index 0 giving the bare base |
| Symbols.FirstFree | c4d_prototype_converter/ui/PrototypeConverter.py:147-151 | the loop stops at the first index whose candidate is not yet a symbol |
| Symbols.NewSymbolMap | c4d_prototype_converter/ui/PrototypeConverter.py:134-140 | a new map has no symbols, its prefix, and the next id 1000 |
| Symbols.TranslateName | c4d_prototype_converter/ui/PrototypeConverter.py:142-153 | without `unique` the result is the base (with the prefix when asked); with `unique` it is not yet a symbol |
| Symbols.TranslateNameFirstFree | c4d_prototype_converter/ui/PrototypeConverter.py:146-152 | with `unique`, the result is the base with the smallest suffix whose symbol is free |
| Symbols.TranslateNameFreshBase | c4d_prototype_converter/ui/PrototypeConverter.py:146-152 | a base that is not a symbol yet is used unchanged |
| Symbols.SymbolName | c4d_prototype_converter/ui/PrototypeConverter.py:166-174 | the short name, or else the name; a group adds `_GROUP`; other parameters are prefixed by the parent's name and a space when the parent has a name |
| Symbols.AllocateSymbol | c4d_prototype_converter/ui/PrototypeConverter.py:155-184 | an unnamed separator gets nothing and changes nothing; otherwise the symbol is the unique translation of the name, its value the current id, the id moves on by one, and the symbol is registered in all three maps |
| Symbols.NewSymbolMapInv | c4d_prototype_converter/ui/PrototypeConverter.py:134-140 | a new map satisfies the invariant: ids distinct, below the counter and from 1000 on; every symbol listed once |
| Symbols.AllocateKeepsInv | c4d_prototype_converter/ui/PrototypeConverter.py:155-184 | allocation keeps the invariant |
| Symbols.AllocateAllConsecutive | c4d_prototype_converter/ui/PrototypeConverter.py:176-179 | a run of allocations gives consecutive ids from the counter, one per named parameter |
| Symbols.AllocateFromThousand | c4d_prototype_converter/ui/PrototypeConverter.py:135 | a fresh map numbers its symbols 1000, 1001, … |
| Symbols.GetCycleSymbol | c4d_prototype_converter/ui/PrototypeConverter.py:186-194 | the node's symbol, allocated first if it has none, then `_` and the cycle name translated without prefix or suffix; an unnamed separator gives `TypeError`, since `None + '_'` fails |
| ProtoConverter.PluginTypeInfo | c4d_prototype_converter/ui/PrototypeConverter.py:225-236 | no link or an unknown base gives nothing; otherwise a one-letter resource prefix with `<prefix>base` as resource base; a plugin type exists exactly for objects, tags and shaders |
| ProtoConverter.NewConverter | c4d_prototype_converter/ui/PrototypeConverter.py:207-223 | a symbol mode other than `c4d` or `c4ddev` fails the `assert`; otherwise every setting is stored, the plugin id stripped in the current copy and kept as given in the older one (plugin_main.py:319-335) |
| ProtoConverter.NewConverterStripsId | c4d_prototype_converter/ui/PrototypeConverter.py:214 | the stored id is a slice of the given id with no whitespace at either end |
| ProtoConverter.ResourceNameShape | c4d_prototype_converter/ui/PrototypeConverter.py:243-245 | the resource name is the type's prefix then the lower-cased word characters of the name; it holds only word characters and never a `/` |
| ProtoConverter.SymbolPrefixShape | c4d_prototype_converter/ui/PrototypeConverter.py:246-247 | the symbol prefix is made of symbol characters and ends in exactly one `_` |
| ProtoConverter.FilledName | c4d_prototype_converter/ui/PrototypeConverter.py:239-242 | the plugin name is kept, else the linked object's name, else the default; never empty |
| ProtoConverter.Autofill | c4d_prototype_converter/ui/PrototypeConverter.py:238-253 | only empty fields are filled, the older copy (plugin_main.py:350-363) leaving the icon alone; all other settings are unchanged |
| ProtoConverter.AutofillDerives | c4d_prototype_converter/ui/PrototypeConverter.py:243-253 | an empty resource name, symbol prefix, directory or icon gets its derived value: resource name, symbol prefix, `<write dir>/plugins/<dashed name>`, default icon |
| ProtoConverter.AutofillIdempotent | c4d_prototype_converter/ui/PrototypeConverter.py:238-253 | running `autofill` twice changes nothing more |
| ProtoConverter.AutofillFills | c4d_prototype_converter/ui/PrototypeConverter.py:238-253 | afterwards name, symbol prefix and directory are set; a derived prefix ends in `_`; a derived directory lies under the write directory and ends in the dashed name |
| ProtoConverter.Files | c4d_prototype_converter/ui/PrototypeConverter.py:255-274 | `directory` is always present, as the directory or else the plugin name; the four resource files are present exactly with `write_resources`; the plugin exactly with the stub and a plugin type; the icon exactly with an icon file |
| ProtoConverter.ResourceFiles | c4d_prototype_converter/ui/PrototypeConverter.py:263-268 | exactly the four resource keys |
| ProtoConverter.ResourcePath | c4d_prototype_converter/ui/PrototypeConverter.py:257 | a resource path lies under the parent and ends in its file name |
| ProtoConverter.ResourceFilesLayout | c4d_prototype_converter/ui/PrototypeConverter.py:263-268 | the resource files lie under the parent and are named `c4d_symbols.h`, `<name>.h`, `<name>.res` and `<name>.str` |
| ProtoConverter.PluginFileLayout | c4d_prototype_converter/ui/PrototypeConverter.py:269-270 | the plugin file lies directly in the parent directory and is named `<dashed name>.pyp` |
| ProtoConverter.IconFileLayout | c4d_prototype_converter/ui/PrototypeConverter.py:271-273 | the icon lies under the parent and is named after the plugin with the icon file's extension |
| ProtoConverter.FirstClash | c4d_prototype_converter/ui/PrototypeConverter.py:293-297 | the first file in iteration order that is set, not optional and exists, or none exactly when there is none |
| ProtoConverter.Validate | c4d_prototype_converter/ui/PrototypeConverter.py:280-287 | passes exactly with a directory, a link, in the current copy an all-digit id, and an existing icon when one is set; the errors are the `RuntimeError`s and `IOError` of the source, in its order |
| ProtoConverter.OverwriteCheck | c4d_prototype_converter/ui/PrototypeConverter.py:292-299 | without overwrite, a clashing file raises `IOError("File … already exists")`; a missing `c4d_symbols` entry raises `KeyError` |
| ProtoConverter.CreateCheck | c4d_prototype_converter/ui/PrototypeConverter.py:279-299 | validation errors come first, then the overwrite check on the files; passing requires `write_resources` |
| ScriptConv.TagAt | c4d_prototype_converter/ui/ScriptConverter.py:88 | which of `Name-US:` and `Description-US:` starts at a position, if either |
| ScriptConv.FirstTag | c4d_prototype_converter/ui/ScriptConverter.py:88 | the leftmost position at or after `p` where a tag starts, and that tag; none exactly when no position holds one |
| ScriptConv.FirstTagAtFirstMatch | c4d_prototype_converter/ui/ScriptConverter.py:88 | the search stops at the first position holding a tag |
| ScriptConv.TaggedLine | c4d_prototype_converter/ui/ScriptConverter.py:88-92 | a line whose first tag is at the end of `pre` yields that field with the rest of the line, stripped |
| ScriptConv.LineFields | c4d_prototype_converter/ui/ScriptConverter.py:88 | one match attempt per line, in order (`re.M` with `.*` stopping at the line end) |
| ScriptConv.LastField | c4d_prototype_converter/ui/ScriptConverter.py:88-92 | a field's value is the one on the last line declaring it, so a later line overrides an earlier one; none when no line declares it |
| ScriptConv.GetMetadata | c4d_prototype_converter/ui/ScriptConverter.py:80-94 | a script that is not a file has no metadata; otherwise the name and the description are each the value on the last line declaring them, and are `None` exactly when no line declares them |
| ScriptConv.LastFieldIsLast | c4d_prototype_converter/ui/ScriptConverter.py:88-94 | the dict built from the `findall` matches keeps, for each key, the value of the last match, and lacks the key exactly when no line matches it |
| ScriptConv.NewConverterAsWritten | c4d_prototype_converter/ui/ScriptConverter.py:96-107 | as written, the help text passed in is dropped and `plugin_help` starts as `None`; every other setting is stored |
| ScriptConv.NewConverter | c4d_prototype_converter/ui/ScriptConverter.py:96-107 | the corrected constructor stores the help text; nothing else differs |
| ScriptConv.FirstIcon | c4d_prototype_converter/ui/ScriptConverter.py:128-131 | the first of `.tif`, `.tiff`, `.png`, `.jpg` after the script's stem that names a file, or none exactly when none does |
| ScriptConv.FilledName | c4d_prototype_converter/ui/ScriptConverter.py:110-118 | the plugin name is kept, else the metadata name, else the script's base name without extension; without a script it is the default |
| ScriptConv.Autofill | c4d_prototype_converter/ui/ScriptConverter.py:109-135 | the name is filled as above; an empty directory becomes `<write dir>/plugins/<dashed name>`; an empty help text becomes the metadata description; a set icon is kept; all other settings are unchanged |
| ScriptConv.AutofillIcon | c4d_prototype_converter/ui/ScriptConverter.py:126-135 | an empty icon becomes the first existing icon beside the script, else the default icon |
| ScriptConv.AutofillNamesAfterScript | c4d_prototype_converter/ui/ScriptConverter.py:110-116 | the name comes from the last `Name-US:` line when its value is non-empty, and otherwise from the script's base name |
| ScriptConv.AutofillIdempotent | c4d_prototype_converter/ui/ScriptConverter.py:109-135 | running `autofill` twice changes nothing more |
| ScriptConv.PluginHelpDiscarded | c4d_prototype_converter/ui/ScriptConverter.py:96-125 | when the script has no description, the help text given to the constructor is lost as written, and kept by the corrected constructor |
| ScriptConv.PluginHelpDiscardedExample | c4d_prototype_converter/ui/ScriptConverter.py:100 | a converter built with help `Shows a cube` for a script `cube.py` that cannot be read ends with no help text |
| ScriptConv.PluginFile | c4d_prototype_converter/ui/ScriptConverter.py:139-142 | the plugin file lies under the parent and is named `<dashed name>.pyp` |
| ScriptConv.IconFile | c4d_prototype_converter/ui/ScriptConverter.py:144-146 | the icon lies under the parent and is named after the plugin file with the icon's extension |
| ScriptConv.ReadmeFile | c4d_prototype_converter/ui/ScriptConverter.py:147-148 | the README lies under the parent and is named `README.md` |
| ScriptConv.Files | c4d_prototype_converter/ui/ScriptConverter.py:137-149 | `directory` and `plugin` are always present, the directory being the directory or else the plugin name; the icon is present exactly with an icon file; the README exactly with `write_readme` |
| ScriptConv.FilesLayout | c4d_prototype_converter/ui/ScriptConverter.py:137-149 | every file lies under the parent with the names above |
| ScriptConv.LegacyFiles | c4d_prototype_converter/plugin_main.py:1069-1079 | the older `files` gives directory and plugin like the current one; with an icon set it raises `NameError`, since `j` and `f` are undefined there |
| ScriptConv.LegacyAutofill | c4d_prototype_converter/plugin_main.py:1058-1067 | the older `autofill` names the plugin after the script's base name, else the default, and fills the directory the same way; it touches nothing else |
| ScriptConv.AutofillAgreesWithLegacy | c4d_prototype_converter/plugin_main.py:1058-1067 | when the script declares no name, both copies choose the same name and directory |
| ScriptConv.FirstExisting | c4d_prototype_converter/ui/ScriptConverter.py:153-156 | the first file in iteration order that exists, or none exactly when no file exists |
| ScriptConv.CreateCheck | c4d_prototype_converter/ui/ScriptConverter.py:151-158 | passes exactly when overwriting or no file exists, and the id is all digits; the errors are `IOError("File … already exists")` for an existing file, checked first, and `ValueError("Converter.plugin_id is invalid")` |
| ScriptConv.ContextOf | c4d_prototype_converter/ui/ScriptConverter.py:163-174 | the template gets the name, the help text, the class name as the name's word characters, the icon as `res/icons/<base name>` when there is one, the member code with two spaces before each line, and the script's future line, code and docstring |
| ScriptConv.ContextIconMatchesFiles | c4d_prototype_converter/ui/ScriptConverter.py:144-168 | the template's icon is `res/icons/<dashed name><extension>`, the file `files` names |
| ScriptConv.ReadmeBody | c4d_prototype_converter/ui/ScriptConverter.py:197-199 | the docstring is stripped of whitespace, then of `"` at both ends when it starts with one, else of `'` when it starts with that |
| ScriptConv.Readme | c4d_prototype_converter/ui/ScriptConverter.py:200-201 | the README is `# <name>`, a blank line, the body and a line break |
| ScriptConv.ReadmeUnquotes | c4d_prototype_converter/ui/ScriptConverter.py:197-199 | a body wrapped in runs of one quote character comes out without them |
| DescLayout.OutputIsJoin | c4d_prototype_converter/plugin_main.py:708-728 | writing each line followed by a line break gives the lines joined by line breaks, with one final break |
| DescLayout.OutputSplits | c4d_prototype_converter/plugin_main.py:708-728 | lines without breaks can be read back from the written text |
| DescLayout.PadDeeper | c4d_prototype_converter/plugin_main.py:545-547 | the indentation at `depth + 1` is the indentation at `depth` and one more unit |
| DescLayout.UnpadPadAll | c4d_prototype_converter/plugin_main.py:722-724 | cutting the indentation off again gives back the original lines |
| DescLayout.Keep | c4d_prototype_converter/plugin_main.py:715-719 | the properties go to the multi-line list exactly when they hold a line break |
| DescLayout.KeepPartitions | c4d_prototype_converter/plugin_main.py:715-719 | the single-line and multi-line lists together are the properties, none lost and none added |
| DescLayout.PropertyLinesRejoin | c4d_prototype_converter/plugin_main.py:722-724 | the lines written for a multi-line property, unindented and rejoined, are the property |
| DescLayout.PlainBody | c4d_prototype_converter/plugin_main.py:720-724 | every line between the braces is indented one level deeper |
| DescLayout.PlainLines | c4d_prototype_converter/plugin_main.py:708-728 | with a multi-line property the block opens with `typename [symbol] {` at the depth, has its body one level deeper, and closes with `}` at the depth; otherwise it is one line from `typename [symbol] {` to `}` |
| DescLayout.MultiLinesPadded | c4d_prototype_converter/plugin_main.py:722-724 | every line of the multi-line properties carries the deeper indentation |
| DescLayout.MultiLinesAppend | c4d_prototype_converter/plugin_main.py:722-724 | the multi-line properties are written one after another, each line by line |
| DescLayout.IntToString | c4d_prototype_converter/plugin_main.py:551 | the decimal text of the column count is non-empty and one line |
| DescLayout.GroupProps | c4d_prototype_converter/plugin_main.py:546-553 | a group writes `DEFAULT 1;` exactly when it is the default, `COLUMNS n;` exactly when the column count is neither 0 nor 1, and `SCALE_V;` exactly when it scales vertically |
| DescLayout.GroupPropsNoBreaks | c4d_prototype_converter/plugin_main.py:546-553 | each group property is one line |
| DescLayout.Render | c4d_prototype_converter/plugin_main.py:540-556 | a group opens with `GROUP <symbol> {` at the depth and closes with `}` at the depth; an unhandled type writes nothing |
| DescLayout.GroupLines | c4d_prototype_converter/plugin_main.py:544-556 | a group writes one line per property and per child line, plus its opening and closing lines |
| DescLayout.RenderIndented | c4d_prototype_converter/plugin_main.py:540-728 | every line written for a parameter, children included, is indented at least to its depth |
| DescLayout.GroupIndented | c4d_prototype_converter/plugin_main.py:544-556 | every line of a group is indented at least to its depth |
| DescLayout.GroupLinesIndented | c4d_prototype_converter/plugin_main.py:544-556 | children indented one level deeper keep the whole group indented to its depth |
| DescLayout.PlainIndented | c4d_prototype_converter/plugin_main.py:708-728 | every line of a plain parameter is indented at least to its depth |
| DescLayout.RenderAllIndented | c4d_prototype_converter/plugin_main.py:554-555 | every line of the children is indented at least to their depth |
| DescLayout.PlainNoBreaks | c4d_prototype_converter/plugin_main.py:708-728 | each written line of a plain parameter is one line of the file |
| DescLayout.RenderNoBreaks | c4d_prototype_converter/plugin_main.py:540-728 | with names free of line breaks, each line written for a parameter is one line of the file |
| DescLayout.GroupNoBreaks | c4d_prototype_converter/plugin_main.py:544-556 | each line written for a group is one line of the file |
| DescLayout.RenderAllNoBreaks | c4d_prototype_converter/plugin_main.py:554-555 | each line written for the children is one line of the file |
| DescLayout.RenderReadsBack | c4d_prototype_converter/plugin_main.py:540-728 | the text written for a parameter splits back into exactly its lines, each indented to its depth |
| DescLayout.ItemTexts | c4d_prototype_converter/plugin_main.py:667-669 | one text per entry, in order, each ending in `;` |
| DescLayout.Accepted | c4d_prototype_converter/plugin_main.py:673-676 | the `ACCEPT` list skips `Tbaselist2d` entries and is empty exactly when every entry is one |
| DescLayout.JoinOfTextsEmpty | c4d_prototype_converter/plugin_main.py:673-678 | the entries' text is empty exactly when there are no entries |
| DescLayout.RefuseProp | c4d_prototype_converter/plugin_main.py:665-670 | `REFUSE { … }` is written exactly when the container has entries |
| DescLayout.AcceptProp | c4d_prototype_converter/plugin_main.py:671-679 | corrected: `ACCEPT { … }` is written exactly when an entry other than `Tbaselist2d` remains, and never as the empty `ACCEPT {  }` |
| DescLayout.AcceptPropAsWritten | c4d_prototype_converter/plugin_main.py:671-679 | as written, it raises `TypeError` exactly when a kept entry has a name, because `accept_id + ';'` adds an int to a str; otherwise the property is the corrected one |
| DescLayout.AcceptNamedEntry | c4d_prototype_converter/plugin_main.py:673-676 | any one named entry raises as written, and the corrected version writes its name |
| DescLayout.AcceptSplineExample | c4d_prototype_converter/plugin_main.py:673-676 | the entry `(5101, "Spline")` raises as written; the corrected version writes `ACCEPT { Spline; }` |
| DescLayout.Terminated | c4d_prototype_converter/plugin_main.py:584-585 | each cycle symbol is followed by `;` |
| DescLayout.CyclePropLines | c4d_prototype_converter/plugin_main.py:580-587 | the `CYCLE` property is multi-line, survives `rstrip` unchanged, and splits into `CYCLE {`, one indented line per value, and `}` |
| DescLayout.CycleProp | c4d_prototype_converter/plugin_main.py:576-587 | for a non-empty cycle the property starts with `CYCLE {`, a line break and the first symbol with its `;` at the indentation, and ends with a line break and `}`; `CyclePropLines` gives every line |
| RefReplace.HexDigit | c4d_prototype_converter/c4dutils.py:53 | a value below 16 becomes an upper-case hex digit |
| RefReplace.HexDigitValue | c4d_prototype_converter/c4dutils.py:53 | each upper-case hex digit stands for exactly one value below 16 |
| RefReplace.Hex4 | c4d_prototype_converter/c4dutils.py:53 | `('%04x' % n).upper()` is at least four upper-case hex digits |
| RefReplace.Hex4Value | c4d_prototype_converter/c4dutils.py:53 | the padded numeral reads back as the code point |
| RefReplace.HexLength | c4d_prototype_converter/c4dutils.py:53 | below `16^k` the numeral has at most `k` digits |
| RefReplace.Hex4Length | c4d_prototype_converter/c4dutils.py:53 | a code point below `0x10000` gets exactly four digits |
| RefReplace.EscapeOne | c4d_prototype_converter/c4dutils.py:47-54 | each character becomes ASCII, and stays itself exactly when it is ASCII and none of line feed, carriage return, tab and backspace |
| RefReplace.RefReplaceAscii | c4d_prototype_converter/c4dutils.py:37-57 | the corrected result is pure ASCII |
| RefReplace.RefReplaceAsWritten | c4d_prototype_converter/c4dutils.py:47-54 | as written, the bare `raise UnicodeEncodeError` fails with `TypeError` exactly when the text holds one of the four control characters; otherwise the result is the corrected one |
| RefReplace.UnicodeRefReplace | c4d_prototype_converter/c4dutils.py:43-57 | byte input is decoded as UTF-8 first and a decoding error is passed on; a result is pure ASCII |
| RefReplace.TabRaises | c4d_prototype_converter/c4dutils.py:48-49 | a tab raises as written; corrected, it becomes `\u0009` |
| RefReplace.AsciiUnchanged | c4d_prototype_converter/c4dutils.py:50 | ASCII text without the four control characters comes back unchanged |
| RefReplace.RefReplaceAppend | c4d_prototype_converter/c4dutils.py:47-55 | the escaping works character by character, so it distributes over concatenation |
| RefReplace.RefReplaceRoundTrip | c4d_prototype_converter/c4dutils.py:37-57 | for text of the basic plane without backslashes, reading the `\uXXXX` escapes back gives the original text |
| RefReplace.RefReplace | c4d_prototype_converter/c4dutils.py:37-57 | the corrected escaping never shortens the text and is empty exactly for empty text; `RefReplaceRoundTrip` reads it back and `RefReplaceAscii` shows it is pure ASCII |
| PluginNaming.DashedNameShape | c4d_prototype_converter/ui/ScriptConverter.py:139 | the dashed name holds only lower-case word characters and dashes, has no `/`, and is empty only for an empty name |
| PluginNaming.DefaultDirectoryShape | c4d_prototype_converter/ui/ScriptConverter.py:120-122 | the default directory lies under the write directory, and for a named plugin ends in `plugins/<dashed name>` |
| PluginNaming.DashedName | c4d_prototype_converter/ui/ScriptConverter.py:139 | each run of characters other than word characters becomes one dash, so the name never grows; `DashedNameShape` gives its alphabet |
| PluginNaming.DefaultDirectory | c4d_prototype_converter/ui/ScriptConverter.py:120-122 | the default directory is non-empty and starts with the write directory; `DefaultDirectoryShape` gives its last two parts |
| PyRepr.Repr | c4d_prototype_converter/c4dutils.py:186 | `{!r}` of a string: it is quoted by `"` exactly when it holds `'` but no `"`, else by `'`, and every character of it is printable ASCII |
| PyRepr.HexDigitsValue | c4d_prototype_converter/c4dutils.py:186 | the zero-padded lower-case hex of an escape reads back as the code point |
| PyRepr.UnescapeEscapeChar | c4d_prototype_converter/c4dutils.py:186 | reading the escape written for a character gives the character and continues after it |
| PyRepr.ReprRoundTrip | c4d_prototype_converter/c4dutils.py:186 | reading the literal back gives the string |
| PyRepr.ReprInjective | c4d_prototype_converter/refactor.py:47 | different strings give different literals |
| PyRepr.ReprPlain | c4d_prototype_converter/c4dutils.py:186 | printable text without quotes or backslashes is only wrapped in `'` |
| PyRepr.ReprExamples | c4d_prototype_converter/c4dutils.py:186 | `it's` is quoted by `"`, and a tab is written `\t` |
| Text.SplitThenJoin | c4d_prototype_converter/refactor.py:171-173 | joining the pieces of `split('\n')` with line breaks restores the string |
| Text.JoinThenSplit | c4d_prototype_converter/refactor.py:274-281 | splitting a join of pieces without line breaks gives the pieces back |
| Text.SplitPartsLackSep | c4d_prototype_converter/refactor.py:276 | no piece of a split holds the separator |
| Text.LastIndexOf | c4d_prototype_converter/little_jinja.py:170 | `rfind` gives the last index of the character, or -1 when there is none |
| Text.ReplaceLastLineKeepsEarlierLines | c4d_prototype_converter/refactor.py:171-173 | dropping the last piece of the prefix and appending the new indentation keeps everything up to the last line break and replaces only what follows it |
| Text.LStrip | c4d_prototype_converter/ui/PrototypeConverter.py:143 | the left half of `strip`: exactly the leading run of the given characters is removed |
| Text.RStrip | c4d_prototype_converter/refactor.py:56 | `rstrip` removes exactly the trailing run of the given characters |
| Text.Lower | c4d_prototype_converter/ui/ScriptConverter.py:139 | `lower()` maps each character and keeps the length |
| Text.Upper | c4d_prototype_converter/ui/PrototypeConverter.py:143 | `upper()` maps each character and keeps the length |
| Text.SubNonWordKeepsWordChars | c4d_prototype_converter/ui/ScriptConverter.py:139 | `re.sub('[^\w\d]+', rep, s)` with a non-word replacement keeps the word characters of `s`, in order |
| Text.SubNonWordEmptyIsWordChars | c4d_prototype_converter/ui/PrototypeConverter.py:244 | substituting the empty string leaves exactly the word characters |
| Text.SubNonWordOnlyWordChars | c4d_prototype_converter/ui/PrototypeConverter.py:244 | with a replacement of word characters only, the result has only word characters |
| Text.ParseNatToString | c4d_prototype_converter/generics.py:77-78 | the decimal text of a number reads back as the number |
| Text.NatToStringInjective | c4d_prototype_converter/generics.py:77-78 | different numbers get different decimal texts |
| Text.StripEmptyLinesKeepsInterior | c4d_prototype_converter/refactor.py:274-281 | `strip_empty_lines` keeps a contiguous run of the lines, framed by non-blank lines, and everything before and after the run is blank |
| Text.StripEmptyLinesIdempotent | c4d_prototype_converter/codeconv.py:228-235 | stripping empty lines twice gives the same as once |
| Cst.NewLeaf | c4d_prototype_converter/refactor.py:112-124 | a leaf a fixer creates has no prefix |
| Cst.BlankLine | c4d_prototype_converter/refactor.py:239 | `BlankLine()` is a line-break leaf that prints as nothing |
| Cst.SerializeIsLeafText | c4d_prototype_converter/refactor.py:298 | printing a tree gives the text of its leaves, left to right |
| Cst.SerializeAllAppend | c4d_prototype_converter/refactor.py:298 | printing two runs of trees in a row prints each in turn |
| Cst.Prefix | c4d_prototype_converter/refactor.py:163-171 | a node's prefix is how its printed text begins |
| Cst.WithPrefix | c4d_prototype_converter/refactor.py:239-240 | setting the prefix replaces only the start of the printed text; a tree without leaves is unchanged |
| Pipeline.Partition | c4d_prototype_converter/refactor.py:37-47 | fixers are split into pre-order and post-order in input order; the first fixer of any other order raises `FixerError` with `Illegal fixer order: ` and the order's `repr` |
| Pipeline.IllegalOrderNamesOrder | c4d_prototype_converter/refactor.py:47 | the message is `Illegal fixer order: ` followed by a literal that reads back as the order |
| Pipeline.InsertStable | c4d_prototype_converter/refactor.py:48-50 | inserting into a list sorted by run order keeps it sorted and adds exactly the new fixer |
| Pipeline.SortByRunOrder | c4d_prototype_converter/refactor.py:48-50 | the sort is sorted by run order and a permutation of its input |
| Pipeline.SortKeepsRunOrderGroups | c4d_prototype_converter/refactor.py:48-50 | the sort is stable: fixers of one run order keep their input order |
| Pipeline.GetFixers | c4d_prototype_converter/refactor.py:37-51 | `get_fixers` succeeds exactly when every order is legal, and then returns the pre-order and the post-order fixers, each sorted by run order |
| Pipeline.GetFixersStable | c4d_prototype_converter/codeconv.py:37-51 | fixers that share a run order run in the order they were given |
| Pipeline.PrepareSource | c4d_prototype_converter/refactor.py:54-57 | the code handed to the parser is the input without trailing whitespace and with one line break added |
| FuncDef.PreLeaves | c4d_prototype_converter/refactor.py:110-113 | two leaves per prepended parameter |
| FuncDef.PreLeavesEnd | c4d_prototype_converter/refactor.py:110-113 | the prepended leaves end with the last parameter's name and a `', '` comma |
| FuncDef.PostLeavesEnd | c4d_prototype_converter/refactor.py:115-118 | the appended leaves end with the last parameter's name |
| FuncDef.SpliceAsWrittenNoCommaBeforeParen | c4d_prototype_converter/refactor.py:107-121 | on a parameter list the grammar produces, the splice as written succeeds, keeps both parentheses and never leaves a comma directly before `)` |
| FuncDef.SpliceAsWrittenLeadingComma | c4d_prototype_converter/refactor.py:115-121 | as written, appending `x` to an empty list `()` gives `(,x)`, whose items and commas do not alternate |
| FuncDef.SpliceAsWritten | c4d_prototype_converter/refactor.py:107-121 | as written, the splice fails with `IndexError` exactly when fewer than two children result; otherwise it has two leaves per parameter added and drops at most one comma, and with two or more children keeps the closing parenthesis last and a non-comma first child first |
| FuncDef.SpliceFixed | c4d_prototype_converter/refactor.py:107-121 | corrected, appending never causes the `IndexError`: it fails exactly when the list and the prepended leaves hold fewer than two children; a result has at least those leaves less one comma, and with two or more children keeps the closing parenthesis last and a non-comma first child first; without appended parameters it is the code as written; `SpliceFixedLayout` gives the full layout |
| FuncDef.PopCommaBeforeLastKeeps | c4d_prototype_converter/refactor.py:120-121 | `children[-2]` needs two children and raises `IndexError` otherwise; the pop removes at most the one comma and never the last child, nor a first child that is not a comma |
| FuncDef.SpliceInsertKeepsEnds | c4d_prototype_converter/refactor.py:113-119 | the two slice assignments, with Python's clamping, add every leaf, and from two children on keep the first and the last child in place |
| FuncDef.SpliceFixedAgreesWithoutPost | c4d_prototype_converter/refactor.py:107-121 | without appended parameters, which is how every caller uses it, the corrected splice is the code as written |
| FuncDef.SpliceFixedLayout | c4d_prototype_converter/refactor.py:107-121 | corrected: the parentheses stay, items and commas alternate between them, and the items are the prepended names, the original argument and the appended names, in order |
| FuncDef.PrependSelfScenario | c4d_prototype_converter/refactor.py:110-121 | `()` with `self` prepended becomes `(self)`: the trailing `', '` is dropped again |
| FuncDef.FindIndentation | c4d_prototype_converter/refactor.py:104-105 | the indentation of a suite is its INDENT leaf's text, or the enclosing indentation |
| FuncDef.BodyIndent | c4d_prototype_converter/refactor.py:103-105 | the indentation is `None` exactly when the def has no suite child |
| FuncDef.RewriteChild | c4d_prototype_converter/refactor.py:106-122 | the function's name leaf gets the new name, the parameter list is spliced, every other child stays; without post-parameters the splice is the code as written |
| FuncDef.RewriteChildren | c4d_prototype_converter/refactor.py:103-122 | each child is rewritten in place and the loop fails when one child's rewrite fails |
| FuncDef.StatementLeaf | c4d_prototype_converter/refactor.py:123-124 | the added statement is one leaf: the indentation, the statement without trailing whitespace and a line break |
| FuncDef.Rewrite | c4d_prototype_converter/refactor.py:103-129 | the def is removed exactly when `remove` is set; an added statement lands last at the body's indentation, and without a suite it raises `TypeError` with Python's message for `None + str` (`Errors.NoneConcat`) |
| FuncDef.RewriteAddsStatement | c4d_prototype_converter/refactor.py:123-124 | with a statement to add, the rewritten def is the rewritten children followed by the statement leaf |
| FuncDef.TransformRefactor | c4d_prototype_converter/refactor.py:94-101 | a def whose first leaf is not in column 0 is left untouched; at column 0 it is rewritten |
| FuncDef.TransformCodeconv | c4d_prototype_converter/codeconv.py:86-114 | the earlier copy has no column check and always rewrites |
| FuncDef.VersionsDifferOnlyOffColumnZero | c4d_prototype_converter/codeconv.py:86-114 | the two copies agree except where the newer one leaves a nested def untouched |
| FuncDef.RenameScenario | c4d_prototype_converter/refactor.py:94-129 | `def main():\n  pass\n` renamed to `Run`, with `self` prepended and `return True` added, prints as `def Run(self):\n  pass\n  return True\n` |
| FuncDef.ExampleIndent | c4d_prototype_converter/refactor.py:104-105 | the example body's indentation is two spaces |
| Reindent.IndexOf | c4d_prototype_converter/refactor.py:162 | `list.index` finds the first position of the value, and nothing when it is absent |
| Reindent.Brackets | c4d_prototype_converter/refactor.py:178-183 | an opening bracket is pushed; a matching closing one pops; a mismatch fails the `assert`; a closer on an empty stack fails with `IndexError`; other tokens leave the stack alone |
| Reindent.MatchedPairRestores | c4d_prototype_converter/refactor.py:178-183 | an opening bracket followed by its closer leaves the stack as it was |
| Reindent.NewLine | c4d_prototype_converter/refactor.py:184-201 | on a new line inside a block with a prefix, only the last line of the prefix is replaced with the indentation unit times blocks plus open brackets; otherwise the leaf stays |
| Reindent.Step | c4d_prototype_converter/refactor.py:148-203 | an INDENT records its width and gets the unit times the depth; a DEDENT to column 0 clears the stack; any other DEDENT must find its column on the stack, else it fails, and cuts the stack there; kind and position never change |
| Reindent.Run | c4d_prototype_converter/refactor.py:148-203 | running the fixer over a stream of leaves gives one leaf per leaf; a failure needs a leaf and is a `ValueError` of `list.index`, an `IndexError` of the bracket stack's pop or an `AssertionError` of a mismatched bracket |
| Reindent.Reindent | c4d_prototype_converter/refactor.py:148-203 | the fixer over a whole tree keeps the number of leaves and each leaf's kind, line and column, and fails only in the three ways above |
| Reindent.RunKeepsPositions | c4d_prototype_converter/refactor.py:148-203 | reindenting never changes a leaf's kind, line or column |
| Reindent.RunKeepsOpeners | c4d_prototype_converter/refactor.py:178-183 | the bracket stack only ever holds opening brackets |
| Reindent.RunAppend | c4d_prototype_converter/refactor.py:148-203 | running over two streams in a row is running over their concatenation, and a failure in either is a failure of the whole |
| Reindent.RunQuietAtTopLevel | c4d_prototype_converter/refactor.py:184-186 | with no open block and no INDENT, every leaf stays as it is |
| Reindent.DedentKeepsEarlierLines | c4d_prototype_converter/refactor.py:163-173 | a DEDENT keeps all of its prefix up to the last line break |
| Reindent.NewLineKeepsEarlierLines | c4d_prototype_converter/refactor.py:188-197 | a continuation line keeps all of its prefix up to the last line break |
| Reindent.TwoSpaceBody | c4d_prototype_converter/refactor.py:148-173 | a four-space block becomes a two-space one and closes back to column 0 |
| Reindent.ContinuationLine | c4d_prototype_converter/refactor.py:188-197 | a continuation line inside brackets one block deep is indented two units |
| FutureImports.AddName | c4d_prototype_converter/refactor.py:233-234 | a name is added only when it is not yet collected, so the collection never holds a name twice |
| FutureImports.CollectedFirstSeen | c4d_prototype_converter/refactor.py:222-238 | collecting from nothing keeps each imported name once, in the order first seen |
| FutureImports.CollectLoopIsAddAll | c4d_prototype_converter/refactor.py:223-238 | the loop skips everything up to the `import` keyword and then adds the names of a name list or of a single name, one by one |
| FutureImports.ImportFromAsNames | c4d_prototype_converter/refactor.py:230-234 | `from __future__ import a, b` adds the names of the list |
| FutureImports.Transform | c4d_prototype_converter/refactor.py:206-241 | on a node of the pattern `import_from< 'from' '__future__' 'import' any >` the statement is replaced by an empty line-break leaf that keeps the statement's prefix, its names are added to the collection in order, and the collection stays free of duplicates |
| FutureImports.TransformAllFirstSeen | c4d_prototype_converter/refactor.py:222-241 | over several `__future__` statements the names are collected once each, in first-seen order |
| FutureImports.StripTree | c4d_prototype_converter/refactor.py:206-241 | running the fixer over a tree keeps every leaf and keeps each other node's kind, unless it replaces the node by a line-break leaf |
| FutureImports.StripTreeCollects | c4d_prototype_converter/refactor.py:206-241 | over a whole tree the names collected are those of the matching statements, in tree order |
| FutureImports.StripTreeUntouched | c4d_prototype_converter/refactor.py:206-210 | a tree with no matching statement is left as it is, and nothing is collected |
| FutureImports.StripTreeClears | c4d_prototype_converter/refactor.py:206-241 | no matching statement is left in the output |
| FutureImports.StripTreeIdempotent | c4d_prototype_converter/refactor.py:206-241 | a second run over the output changes nothing and collects nothing more |
| FutureImports.FutureLineRefactor | c4d_prototype_converter/refactor.py:215-220 | the line is `None` exactly when nothing was collected, else `from __future__ import ` and the names joined by `, ` |
| FutureImports.FutureLineCodeconv | c4d_prototype_converter/codeconv.py:199-204 | the earlier copy gives `''` instead of `None`, and the same line otherwise |
| FutureImports.FutureLineVersionsAgree | c4d_prototype_converter/codeconv.py:199-204 | the two copies agree once `None` is read as the empty string |
| Docstrings.StripChildrenReplaces | c4d_prototype_converter/refactor.py:256-261 | every top-level statement that starts with a string literal becomes a blank line, and every other child stays |
| Docstrings.StripChildrenRemembersLast | c4d_prototype_converter/refactor.py:258-260 | the remembered docstring is the one of the last such statement |
| Docstrings.StripChildrenKeepsDoc | c4d_prototype_converter/refactor.py:256-261 | without such a statement the remembered docstring stays as it was |
| Docstrings.Transform | c4d_prototype_converter/refactor.py:255-261 | only the `file_input` node is touched, and its number of children stays |
| Docstrings.StrippedText | c4d_prototype_converter/refactor.py:255-261 | the printed result is the module without its docstring statements |
| Docstrings.TransformIdempotent | c4d_prototype_converter/refactor.py:255-261 | a second pass finds nothing more to strip |
| Docstrings.SplitDocstring | c4d_prototype_converter/refactor.py:284-286 | the code part is the module without its docstring statements |
| Scripts.ExpressionFixers | c4d_prototype_converter/codeconv.py:252-267 | `ObjectData` and `TagData` get the `__future__` fixer, the `message` fixer and their own `main` fixer; any other kind raises `ValueError(kind)`; the indentation fixer is added exactly when an indent is given |
| Scripts.CommandFixers | c4d_prototype_converter/codeconv.py:285-291 | the command script runs the `__future__` fixer, then the `main` fixer, and re-indents exactly when an indent is given |
| Scripts.DropEachPrefixed | c4d_prototype_converter/codeconv.py:297-299 | removing the two-space prefix gives the lines back |
| Scripts.IndentLinesLayout | c4d_prototype_converter/codeconv.py:297-299 | every line of the indented code starts with the prefix, and removing it and rejoining gives the code back |
| Scripts.ExecuteWrapperLayout | c4d_prototype_converter/codeconv.py:296-301 | the wrapper is `def Execute(self, doc):`, every line of the code indented by two spaces, and `  return True`; the code can be read back from it |
| Scripts.ExecuteWrapperStripped | c4d_prototype_converter/codeconv.py:296-304 | stripping empty lines leaves the wrapper unchanged |
| Scripts.StrippedAll | c4d_prototype_converter/codeconv.py:274 | each extracted method is stripped of empty lines, one result per method, in order |
| Scripts.JoinStrippedOfStripped | c4d_prototype_converter/codeconv.py:274 | joining the stripped methods does not depend on whether they were stripped before |
| Scripts.ExpressionScript | c4d_prototype_converter/codeconv.py:238-276 | an unknown kind raises `ValueError`; otherwise the parts are the stripped `__future__` line, the stripped code and the stripped join of the extracted `message` and `main` defs, each def stripped, one empty line apart; the `__future__` part is empty exactly when nothing was imported |
| Scripts.ExpressionScriptParts | c4d_prototype_converter/codeconv.py:252-276 | both kinds give the same parts, and the `message` defs come before the `main` defs |
| Scripts.FutureLineStripped | c4d_prototype_converter/codeconv.py:199-204 | the stripped `__future__` line is empty exactly when nothing was imported |
| Scripts.CommandScript | c4d_prototype_converter/codeconv.py:279-305 | without a `main` all code goes into the `Execute` wrapper; with one the code and the extracted `Execute` are returned; every part is stripped, and the `__future__` part is empty exactly when nothing was imported |
| Scripts.SplitFutureImports | c4d_prototype_converter/refactor.py:289-291 | the `__future__` part is the stripped line, empty exactly when nothing was imported |
| Scripts.SplitGlobalFunction | c4d_prototype_converter/refactor.py:294-300 | the remaining code is the code stripped of empty lines, and the functions are the extracted defs, each stripped, joined by line breaks |
| Scripts.SplitGlobalFunctionAppend | c4d_prototype_converter/refactor.py:299 | the defs come out in extraction order: two runs' defs are joined by one line break |
| Scripts.CommandPartsOf | c4d_prototype_converter/ui/ScriptConverter.py:45-68 | with an extracted `Execute` it becomes the member code and the main check is stripped from the code; without one all code goes into the wrapper and the code is empty |
| Scripts.MemberCodeInClass | c4d_prototype_converter/ui/ScriptConverter.py:163 | indented once more inside the class, the wrapper's lines are the header, the code indented twice and `return True` |
| Scanner.CloseVar | c4d_prototype_converter/little_jinja.py:117 | the lazy `(.*?)\}\}` ends at a `}}` at or after the start |
| Scanner.SkipSpace | c4d_prototype_converter/little_jinja.py:118-121 | the greedy `\s*` consumes exactly the run of whitespace |
| Scanner.MatchAt | c4d_prototype_converter/little_jinja.py:117-121 | a match starts exactly at the position, is not empty, and opens with `{{` for variables and `{%` for control tags |
| Scanner.Search | c4d_prototype_converter/little_jinja.py:66 | `pattern.search(s, offset)` returns the match at the first position at or after the offset where the pattern matches |
| Scanner.SearchIsLeftmost | c4d_prototype_converter/little_jinja.py:66 | no match starts between the offset and the match found |
| Scanner.SearchNoneNoMatch | c4d_prototype_converter/little_jinja.py:66 | when the search finds nothing, the pattern matches nowhere from the offset on |
| Scanner.NoOpenerNoMatch | c4d_prototype_converter/little_jinja.py:117-121 | a string without `{{` and `{%` matches none of the patterns |
| Scanner.Hits | c4d_prototype_converter/little_jinja.py:63-66 | for each rule, the start of its next match, or nothing when the rule is filtered out or has no match |
| Scanner.NearestIsEarliest | c4d_prototype_converter/little_jinja.py:67-69 | the rule picked has the earliest match, and of equally early matches the first rule wins, since only a strictly earlier start replaces it |
| Scanner.Next | c4d_prototype_converter/little_jinja.py:58-77 | once exhausted the scanner stays put; otherwise the previous result is remembered, a found match moves the offset to its end, and it is named after one of the rules searched |
| Scanner.NextIsEarliest | c4d_prototype_converter/little_jinja.py:58-77 | the match found is the earliest of the eligible rules' searches, first rule first among ties; the scanner is exhausted exactly when no eligible rule matches |
| Scanner.Behind | c4d_prototype_converter/little_jinja.py:79-95 | before the first `next` nothing lies behind; after the only, failed, search the whole string does |
| Scanner.SkipLine | c4d_prototype_converter/little_jinja.py:97-104 | the offset moves just past the next line break, and stays when there is none |
| Jinja.TokenizeTiles | c4d_prototype_converter/little_jinja.py:132-178 | the texts and tags the loop sees, followed by the final text, make up the template from the cursor on, nothing lost or repeated |
| Jinja.NoMatchOneText | c4d_prototype_converter/little_jinja.py:132-178 | a template no rule matches is one piece of text |
| Jinja.AppendTop | c4d_prototype_converter/little_jinja.py:134-136 | appending to the innermost open block changes no other block and no block kind |
| Jinja.InnermostIf | c4d_prototype_converter/little_jinja.py:148 | `next(x for x in reversed(open_blocks) if x.type == 'if')` finds the innermost open `if` |
| Jinja.PopBranches | c4d_prototype_converter/little_jinja.py:163-164 | popping removes exactly the `elif` and `else` blocks on top and stops at the first other block |
| Jinja.TrimLastLine | c4d_prototype_converter/little_jinja.py:169-172 | `{%-` cuts the preceding text at its last line break, and leaves it alone when there is none |
| Jinja.Step | c4d_prototype_converter/little_jinja.py:133-174 | `elif` and `else` outside an `if` block raise `ValueError('unmatched …')`, as does `endif` with no block open; `if`, `elif` and `else` open a new empty block; a variable only adds to the innermost block |
| Jinja.Finish | c4d_prototype_converter/little_jinja.py:178-182 | a block still open raises `ValueError('invalid template: unclosed … block')`; otherwise the items are the root's, followed by the final text |
| Jinja.StepKeepsWellFormed | c4d_prototype_converter/little_jinja.py:133-174 | each step keeps the stack of open blocks well-formed: the root at the bottom, and every `elif` or `else` directly above an `if` or `elif` |
| Jinja.MultipleElseUnreachable | c4d_prototype_converter/little_jinja.py:151-157 | when the innermost block is an `if` or `elif`, its `if` has no `else` yet, so the `multiple "else"` error can never be raised |
| Jinja.CloseIfFindsIf | c4d_prototype_converter/little_jinja.py:160-166 | on a well-formed stack with a block open, `endif` always finds its `if`, so the `assert` never fails |
| Jinja.StepErrorsAreUnmatched | c4d_prototype_converter/little_jinja.py:144-162 | on a well-formed stack the only errors a step raises are the three `unmatched` ones |
| Jinja.NextKnown | c4d_prototype_converter/little_jinja.py:117-121 | a match the scanner finds is a `var`, `if`, `elif`, `else` or `endif` |
| Jinja.TokenizeKinds | c4d_prototype_converter/little_jinja.py:132-178 | every piece the loop sees comes from one of the five rules |
| Jinja.FinishErrors | c4d_prototype_converter/little_jinja.py:178-182 | on a well-formed stack the block left open is an `if`, `elif` or `else`, so the end of the template raises only `unclosed if`, `unclosed elif` or `unclosed else` |
| Jinja.BuildErrors | c4d_prototype_converter/little_jinja.py:132-182 | from a well-formed stack, a run of pieces from the five rules fails only with an `unmatched` tag or an unclosed block |
| Jinja.Parse | c4d_prototype_converter/little_jinja.py:116-182 | parsing any template fails only with one of the three `unmatched … instruction` errors or `invalid template: unclosed if/elif/else block`; never `multiple "else"`, an `AssertionError` or an unknown tag |
| Jinja.FirstElif | c4d_prototype_converter/little_jinja.py:191-196 | the branch chosen is the first `elif` whose condition holds, and none is chosen when no condition holds |
| Jinja.NoTagIdentity | c4d_prototype_converter/little_jinja.py:107-206 | a template without `{{` and `{%` renders to itself |
| Jinja.IfBranchSelection | c4d_prototype_converter/little_jinja.py:190-200 | the body of the first test that holds is rendered; when none holds, the corrected version renders the `else` body or nothing, while the code as written renders the `if` body when there are no `elif`s and raises `KeyError` when there are |
| Jinja.RenderItem | c4d_prototype_converter/little_jinja.py:185-202 | rendering a node fails only as written, and then only with the `KeyError` of an `if` none of whose tests holds |
| Jinja.RenderItems | c4d_prototype_converter/little_jinja.py:203-204 | rendering the root's nodes in turn fails only as written, with that `KeyError` |
| Jinja.LittleJinja | c4d_prototype_converter/little_jinja.py:107-206 | corrected, the template renders exactly when it parses; as written, a parsed template fails only with `KeyError`; a parse error is passed on unchanged, so every failure is a parse `ValueError` or that `KeyError` |
| Jinja.OneText | c4d_prototype_converter/little_jinja.py:186-187 | a text renders as itself |
| Jinja.SameChoiceSameText | c4d_prototype_converter/little_jinja.py:185-204 | where some test of every `if` holds, the code as written and the corrected version render the same text |
| Jinja.ElseRendersIfBody | c4d_prototype_converter/little_jinja.py:197-200 | `{% if c %}A{% else %}B{% endif %}` with `c` false renders `A` as written and `B` corrected |
| Jinja.ElifFallThroughFails | c4d_prototype_converter/little_jinja.py:197-200 | `{% if a %}A{% elif b %}B{% endif %}` with both false raises `KeyError` as written and renders nothing corrected |

## Left out

- lib2to3 itself: the tokenizer, the parser, the driver and the pattern matcher. A fixer's `transform` takes the node the pattern matched, and `find_indentation` of the enclosing nodes is a parameter (`enclosing`).
- The Cinema 4D API: `BaseContainer`, `DescID`, the dialogs and GUI gadgets, the icon and colour constants. Description parameters come in already classified (`DescLayout.Param`), so deriving the type name and properties from a container, `render_symbol` and `render_symbol_string` are not modelled.
- `eval` of template expressions and conditions. It is replaced by two parameters: `holds` decides a condition, and `show` gives a variable's text.
- The regex engine in general. The patterns that are modelled, over ASCII word characters, are:
  - the five rules of `little_jinja` (`Scanner`, `Jinja.Rules`);
  - `re.findall('(Name-US|Description-US):(.*)$', code, re.M)` of `get_script_file_metadata` (`ScriptConv.TagAt`, `ScriptConv.FirstTag`, `ScriptConv.LineFields`, `ScriptConv.LastField`);
  - `re.sub('[^\w\d]+', …)` (`Text.SubNonWord`);
  - `re.sub('[^\w\d_]+', …)` of `translate_name` (`Symbols.TranslateBase`), which matches the same characters, since `\w` holds `_`.
- File-system and other I/O, because it cannot be expressed over values:
  - the writing done by `create`: `makedirs`, `shutil.copy`, the plugin, resource and README texts written to disk;
  - `os.path.isfile`, which is a parameter;
  - `get_library_scripts`;
  - the script metadata cache.
- The UTF-8 codec in `unicode_refreplace`. Decoding is a parameter that may fail.
- `os.path.normpath` and `os.path.relpath` in `file_tree`. Items are taken as already normalised paths.
- The iteration order of Python 2 dictionaries. Dictionaries are modelled in insertion order, and the properties are stated so that they hold whatever the order.
- Floating point: `is_minvalue`, `is_maxvalue`, the percent multipliers and the float properties of the description resource.
- Weak-reference liveness in `nullable_ref` and `Node`. When a node dies is not modelled; a dead reference is an identity no longer in the forest, and it dereferences to `None` (`Nodes.Deref`).
- The "at most" check on generic arguments (generics.py:66). It compares an int with a list, which Python 2 always finds false, so it never fires and is modelled as no check.
- `SymbolMap.add_hardcoded_description` (ui/PrototypeConverter.py:196-198). It only records a symbol name that comes from Cinema 4D.
- `strip_main_check` and `fix_userdata_access`. ui/ScriptConverter.py and plugin_main.py call them, but neither module defines them. The first is a parameter of `Scripts.CommandPartsOf`.
- `FixUserDataAccess`. Its `transform` has no body beyond a comment, so it changes nothing.
- The test module testing/test_codeconv.py. It checks nothing: it only prints the parts `refactor_expression_script` returns. As written it stops at line 35 with `AttributeError`, because it calls `iteritems()` on the list that `map` gives back at codeconv.py:276. Its input script (a comment before the docstring, `from __future__ import print_function, division`, bracketed continuation lines, `indent='    '`) is not processed by any lemma.
- FuncDef.RewriteChild: the parameter list goes through the corrected splice, so `FuncDef.Rewrite`, `FuncDef.TransformRefactor` and `FuncDef.TransformCodeconv` give `(x)` where refactor.py:115-121 and codeconv.py:99-105 give `(,x)` for post-parameters on an empty list. No caller passes post-parameters, and without them the two splices agree.
- PyRepr.Repr: a string is read as a Python 2 `str`. The `u` prefix that the `repr` of a `unicode` object adds is not written; code points above `0xFF` get that object's `\u` and `\U` escapes.
- Nodes.GetItem: the `KeyError` carries no key, and the `AttributeError` carries the attribute name instead of Python's full message.
- Reindent.Reindent: re-indenting is not shown to be idempotent. In the source a second run sees a freshly tokenized tree, whose INDENT values and DEDENT columns both reflect the first run's output. Here a DEDENT keeps its column, and the tokenizer and parser that would recompute it are not modelled. So the model's second run can differ: take INDENT values `"    "` and `"        "`, then a DEDENT at column 4 with prefix `"\n    "` and unit `"  "`.
- RefReplace.RefReplace: a code point at or above `0x10000` is written as one `\u` escape with five or six hex digits, as on a wide (UCS-4) Python 2 build. A narrow build, such as Python 2.7 on Windows, iterates over the two UTF-16 surrogates and writes two four-digit escapes. `RefReplace.RefReplaceRoundTrip` is stated for the basic plane only.
- DescLayout.Render: a parameter of a type the converter does not handle writes nothing, as the source does, but the set of handled types is not derived from Cinema 4D's data types.

## Findings

| source | as written | input that shows it | evidently intended | confidence | as-written member | corrected member |
|---|---|---|---|---|---|---|
| c4d_prototype_converter/refactor.py:115-121 | the post-parameters are inserted with a leading comma, and only a comma directly before `)` is removed | `post_params=['x']` on `def f():` gives `(,x)` | a comma only between items: `(x)` | not executed (no caller passes post-parameters) | FuncDef.SpliceAsWrittenLeadingComma | FuncDef.SpliceFixedLayout |
| c4d_prototype_converter/little_jinja.py:197-200 | when no test holds, the loop variable `node` is the last test, so the code checks `data['else']` of that test and renders its `sub` | `{% if c %}A{% else %}B{% endif %}` with `c` false renders `A`; with an `elif` it raises `KeyError` | render the `else` body, or nothing | not executed | Jinja.ElseRendersIfBody | Jinja.IfBranchSelection |
| c4d_prototype_converter/generics.py:40-50 | `had_optional` is never set, so a required argument after an optional one is accepted | `__generic_args__ = [('a', x), 'b']` is accepted, and then `C[()]` fails the `assert` in `__getitem__` | `ValueError` at class creation | not executed | Generics.MisorderedAcceptedAsWritten | Generics.MisorderedRejected |
| c4d_prototype_converter/plugin_main.py:673-677 | `(accept_id if accept_name else str(accept_id)) + ';'` adds an int to a str when the entry has a name | an `ACCEPT` entry `(5101, 'Spline')` raises `TypeError` | write the name: `ACCEPT { Spline; }` | not executed | DescLayout.AcceptSplineExample | DescLayout.AcceptProp |
| c4d_prototype_converter/c4dutils.py:48-49 | a bare `raise UnicodeEncodeError` lacks its five arguments and raises `TypeError`, which the `except` does not catch | `unicode_refreplace(u'a\tb')` | escape the character: `a\u0009b` | not executed | RefReplace.TabRaises | RefReplace.RefReplaceRoundTrip |
| c4d_prototype_converter/ui/ScriptConverter.py:96-107 | `plugin_help` is set to `None` whatever the caller passes | `ScriptConverter(plugin_help='Shows a cube')` has `plugin_help == None`, also after `autofill` | keep the argument | not executed | ScriptConv.PluginHelpDiscardedExample | ScriptConv.NewConverter |

=== FILE: cst.dfy ===
/** The lossless concrete syntax tree the fixers operate on: a leaf carries a
    token kind, its text, the whitespace and comments before it (its prefix)
    and its position; a node carries a grammar symbol and its children.
    Printing a tree concatenates prefix and text of every leaf. */
module Cst {
  import opened Errors

  /** Token kinds the fixers look at; every other kind is `OtherToken`. */
  datatype Token =
    | ENDMARKER
    | NAME
    | STRING
    | NEWLINE
    | INDENT
    | DEDENT
    | LPAR | RPAR | LSQB | RSQB | LBRACE | RBRACE
    | COMMA
    | OtherToken(code: int)

  /** Grammar symbols the fixers look at. */
  datatype Symbol =
    | FileInput
    | FuncDef
    | Parameters
    | Suite
    | SimpleStmt
    | ImportFrom
    | ImportAsNames
    | OtherSymbol(code: int)

  datatype Tree =
    | Leaf(tok: Token, value: string, prefix: string, lineno: nat, column: nat)
    | Node(sym: Symbol, children: seq<Tree>)

  /** A leaf built by a fixer: no prefix, no position. */
  function NewLeaf(tok: Token, value: string): (t: Tree)
    ensures t.Leaf? && t.tok == tok && t.value == value && t.prefix == ""
  {
    Leaf(tok, value, "", 0, 0)
  }

  /** `BlankLine()`: an empty NEWLINE leaf. */
  function BlankLine(): (t: Tree)
    ensures t.Leaf? && t.tok == NEWLINE && Serialize(t) == ""
  {
    NewLeaf(NEWLINE, "")
  }

  function Serialize(t: Tree): string
    decreases t, 1
  {
    match t
    case Leaf(_, v, p, _, _) => p + v
    case Node(_, cs) => SerializeAll(cs)
  }

  function SerializeAll(ts: seq<Tree>): string
    decreases ts, 0
  {
    if |ts| == 0 then "" else Serialize(ts[0]) + SerializeAll(ts[1..])
  }

  lemma {:induction false} SerializeAllAppend(a: seq<Tree>, b: seq<Tree>)
    ensures SerializeAll(a + b) == SerializeAll(a) + SerializeAll(b)
    decreases |a|
  {
    if |a| == 0 {
      assert a + b == b;
    } else {
      assert (a + b)[1..] == a[1..] + b;
      SerializeAllAppend(a[1..], b);
    }
  }

  /** The leaves of a tree, left to right. */
  function Leaves(t: Tree): (r: seq<Tree>)
    ensures forall i :: 0 <= i < |r| ==> r[i].Leaf?
    decreases t, 1
  {
    match t
    case Leaf(_, _, _, _, _) => [t]
    case Node(_, cs) => LeavesAll(cs)
  }

  function LeavesAll(ts: seq<Tree>): (r: seq<Tree>)
    ensures forall i :: 0 <= i < |r| ==> r[i].Leaf?
    decreases ts, 0
  {
    if |ts| == 0 then [] else Leaves(ts[0]) + LeavesAll(ts[1..])
  }

  /** A tree prints as the concatenation of its leaves: the leaf stream
      carries all of the source text. */
  lemma {:induction false} SerializeIsLeafText(t: Tree)
    ensures SerializeAll(Leaves(t)) == Serialize(t)
    decreases t, 1
  {
    match t
    case Leaf(_, _, _, _, _) =>
      assert Leaves(t)[1..] == [];
    case Node(_, cs) =>
      SerializeAllIsLeafText(cs);
  }

  lemma {:induction false} SerializeAllIsLeafText(ts: seq<Tree>)
    ensures SerializeAll(LeavesAll(ts)) == SerializeAll(ts)
    decreases ts, 0
  {
    if |ts| > 0 {
      SerializeIsLeafText(ts[0]);
      SerializeAllIsLeafText(ts[1..]);
      SerializeAllAppend(Leaves(ts[0]), LeavesAll(ts[1..]));
    }
  }

  /** `node.prefix`: the prefix of the first leaf, "" for a childless node. */
  function Prefix(t: Tree): (p: string)
    ensures |p| <= |Serialize(t)| && Serialize(t)[..|p|] == p
    decreases t
  {
    match t
    case Leaf(_, _, p, _, _) => p
    case Node(_, cs) => if |cs| == 0 then "" else Prefix(cs[0])
  }

  /** `node.prefix = p`: sets the prefix of the first leaf, if any. */
  function WithPrefix(t: Tree, p: string): (r: Tree)
    ensures FirstLeaf(t).Ok? ==> Prefix(r) == p
    ensures FirstLeaf(t).Ok? ==> Serialize(r) == p + Serialize(t)[|Prefix(t)|..]
    ensures FirstLeaf(t).Err? ==> r == t
    decreases t
  {
    match t
    case Leaf(k, v, _, l, c) => Leaf(k, v, p, l, c)
    case Node(s, cs) => if |cs| == 0 then t else Node(s, [WithPrefix(cs[0], p)] + cs[1..])
  }

  /** The first leaf reached by always descending into `children[0]`;
      a childless node on the way raises IndexError. */
  function FirstLeaf(t: Tree): (r: Result<Tree>)
    ensures r.Ok? ==> r.value.Leaf?
    ensures r.Ok? ==> Leaves(t) != [] && r.value == Leaves(t)[0]
    decreases t
  {
    match t
    case Leaf(_, _, _, _, _) => Ok(t)
    case Node(_, cs) => if |cs| == 0 then Err(IndexError) else FirstLeaf(cs[0])
  }

  predicate IsLeafOf(t: Tree, tok: Token) {
    t.Leaf? && t.tok == tok
  }
}

=== FILE: description.dfy ===
/** The text of a description resource block: how the prototype converter
    lays out one parameter, a group with its children, and the `REFUSE` and
    `ACCEPT` lists of a link parameter. The Cinema 4D containers the text
    is read from are reduced to the values the layout depends on. */
module DescLayout {
  import opened Errors
  import opened Text

  // ---------------------------------------------------------------------
  // lines and the written text

  /** The text a sequence of lines is written as: every line followed by a
      line break, as each `fp.write(... + '\n')` call leaves it. */
  function Output(lines: seq<string>): string
    decreases |lines|
  {
    if |lines| == 0 then "" else lines[0] + "\n" + Output(lines[1..])
  }

  predicate NoBreaks(lines: seq<string>) {
    forall i :: 0 <= i < |lines| ==> '\n' !in lines[i]
  }

  /** The written text is the lines joined by line breaks, plus a final
      break. */
  lemma {:induction false} OutputIsJoin(lines: seq<string>)
    ensures Output(lines) == Join(lines + [""], "\n")
    decreases |lines|
  {
    if |lines| > 0 {
      OutputIsJoin(lines[1..]);
      assert (lines + [""])[1..] == lines[1..] + [""];
    }
  }

  /** Reading the written text back line by line gives the lines again
      (and the empty rest after the last break). */
  lemma OutputSplits(lines: seq<string>)
    requires NoBreaks(lines)
    ensures Split(Output(lines), '\n') == lines + [""]
  {
    OutputIsJoin(lines);
    var all := lines + [""];
    assert forall i :: 0 <= i < |all| ==> '\n' !in all[i] by {
      forall i | 0 <= i < |all| ensures '\n' !in all[i] {
        if i < |lines| { assert all[i] == lines[i]; }
      }
    }
    JoinThenSplit(all, '\n');
  }

  // ---------------------------------------------------------------------
  // indentation

  /** `self.indent * depth` */
  function Pad(indent: string, depth: nat): string {
    Repeat(indent, depth)
  }

  /** One level deeper extends the indentation of the level above. */
  lemma {:induction false} PadDeeper(indent: string, depth: nat)
    ensures Pad(indent, depth + 1) == Pad(indent, depth) + indent
    decreases depth
  {
    if depth > 0 {
      PadDeeper(indent, depth - 1);
    }
  }

  /** Every line begins with `pad`. */
  predicate AllPadded(lines: seq<string>, pad: string) {
    forall i :: 0 <= i < |lines| ==> StartsWith(lines[i], pad)
  }

  /** The lines behind one more prefix. */
  function PadAll(pad: string, ls: seq<string>): (r: seq<string>)
    ensures |r| == |ls|
    ensures forall i :: 0 <= i < |ls| ==> r[i] == pad + ls[i]
    decreases |ls|
  {
    if |ls| == 0 then [] else [pad + ls[0]] + PadAll(pad, ls[1..])
  }

  /** The lines with their first `n` characters removed. */
  function Unpad(n: nat, ls: seq<string>): (r: seq<string>)
    requires forall i :: 0 <= i < |ls| ==> n <= |ls[i]|
    ensures |r| == |ls|
    ensures forall i :: 0 <= i < |ls| ==> r[i] == ls[i][n..]
    decreases |ls|
  {
    if |ls| == 0 then [] else [ls[0][n..]] + Unpad(n, ls[1..])
  }

  /** Removing the prefix again gives the original lines. */
  lemma UnpadPadAll(pad: string, ls: seq<string>)
    ensures Unpad(|pad|, PadAll(pad, ls)) == ls
  {
    var r := Unpad(|pad|, PadAll(pad, ls));
    forall i | 0 <= i < |ls| ensures r[i] == ls[i] {
      assert (pad + ls[i])[|pad|..] == ls[i];
    }
  }

  lemma PrefixTrans(s: string, p: string, q: string)
    requires StartsWith(s, p) && StartsWith(p, q)
    ensures StartsWith(s, q)
  {
    assert s[..|q|] == p[..|q|];
  }

  // ---------------------------------------------------------------------
  // one parameter

  /** `typename [symbol] {`: a symbol is written only when there is one. */
  function Header(typename: string, symbol: string): string {
    typename + (if symbol != "" then " " + symbol else "") + " {"
  }

  /** Some property spans more than one line. */
  predicate AnyBreak(props: seq<string>) {
    exists i :: 0 <= i < |props| && '\n' in props[i]
  }

  /** Every property without trailing whitespace (`prop.rstrip()`). */
  function RStripAll(props: seq<string>): (r: seq<string>)
    ensures |r| == |props|
    decreases |props|
  {
    if |props| == 0 then [] else [RStrip(props[0], Whitespace)] + RStripAll(props[1..])
  }

  /** The properties that span several lines (`multi == true`) or one line. */
  function Keep(ps: seq<string>, multi: bool): (r: seq<string>)
    ensures forall i :: 0 <= i < |r| ==> ('\n' in r[i] <==> multi)
    decreases |ps|
  {
    if |ps| == 0 then []
    else (if ('\n' in ps[0]) == multi then [ps[0]] else []) + Keep(ps[1..], multi)
  }

  /** The two kinds together are the properties, none lost and none added. */
  lemma {:induction false} KeepPartitions(ps: seq<string>)
    ensures multiset(Keep(ps, false)) + multiset(Keep(ps, true)) == multiset(ps)
    decreases |ps|
  {
    if |ps| > 0 {
      KeepPartitions(ps[1..]);
      var h := [ps[0]];
      assert ps == h + ps[1..];
      assert multiset(ps) == multiset(h) + multiset(ps[1..]);
      if '\n' in ps[0] {
        assert Keep(ps, true) == h + Keep(ps[1..], true);
        assert Keep(ps, false) == Keep(ps[1..], false);
      } else {
        assert Keep(ps, false) == h + Keep(ps[1..], false);
        assert Keep(ps, true) == Keep(ps[1..], true);
      }
    }
  }

  /** Every line of each multi-line property, in order, at `pad`. */
  function MultiLines(pad: string, ms: seq<string>): seq<string>
    decreases |ms|
  {
    if |ms| == 0 then [] else PadAll(pad, Split(ms[0], '\n')) + MultiLines(pad, ms[1..])
  }

  /** The lines one multi-line property becomes, without their indentation,
      joined by line breaks, are that property. */
  lemma PropertyLinesRejoin(pad: string, m: string)
    ensures Join(Unpad(|pad|, PadAll(pad, Split(m, '\n'))), "\n") == m
  {
    UnpadPadAll(pad, Split(m, '\n'));
    SplitThenJoin(m, '\n');
  }

  /** The lines between the opening and the closing line of the
      multi-line layout, one level deeper: the one-line properties joined by
      spaces on one line (when there are any), then every line of each
      multi-line property. */
  function PlainBody(inner: string, props: seq<string>): (r: seq<string>)
    ensures AllPadded(r, inner)
  {
    var stripped := RStripAll(props);
    var singles := Keep(stripped, false);
    var multi := MultiLines(inner, Keep(stripped, true));
    MultiLinesPadded(inner, Keep(stripped, true));
    if |singles| > 0 then
      var line := inner + Join(singles, " ");
      assert line[..|inner|] == inner;
      var r := [line] + multi;
      assert forall i :: 0 < i < |r| ==> r[i] == multi[i - 1];
      r
    else multi
  }

  /** The lines of one non-group parameter at `depth`. When a property spans
      several lines the block opens on its own line, the body follows one
      level deeper, and `}` closes at `depth`; otherwise the whole block is
      one line. */
  function PlainLines(indent: string, depth: nat, typename: string, symbol: string,
                      props: seq<string>): (r: seq<string>)
    ensures AnyBreak(props) ==>
              |r| >= 2 && r[0] == Pad(indent, depth) + Header(typename, symbol)
              && r[|r| - 1] == Pad(indent, depth) + "}"
              && AllPadded(r[1..|r| - 1], Pad(indent, depth + 1))
    ensures !AnyBreak(props) ==>
              |r| == 1 && StartsWith(r[0], Pad(indent, depth) + Header(typename, symbol))
              && EndsWith(r[0], "}")
  {
    var pad := Pad(indent, depth);
    var head := pad + Header(typename, symbol);
    if AnyBreak(props) then
      var body := PlainBody(Pad(indent, depth + 1), props);
      var r := [head] + body + [pad + "}"];
      assert r[1..|r| - 1] == body;
      r
    else
      var line := head + " " + Join(props, " ") + (if |props| > 0 then " " else "") + "}";
      assert line[..|head|] == head;
      [line]
  }

  lemma {:induction false} MultiLinesPadded(pad: string, ms: seq<string>)
    ensures AllPadded(MultiLines(pad, ms), pad)
    decreases |ms|
  {
    if |ms| > 0 {
      MultiLinesPadded(pad, ms[1..]);
      var head := PadAll(pad, Split(ms[0], '\n'));
      var rest := MultiLines(pad, ms[1..]);
      forall i | 0 <= i < |head + rest| ensures StartsWith((head + rest)[i], pad) {
        if i < |head| {
          assert (head + rest)[i] == pad + Split(ms[0], '\n')[i];
          assert (pad + Split(ms[0], '\n')[i])[..|pad|] == pad;
        } else {
          assert (head + rest)[i] == rest[i - |head|];
        }
      }
    }
  }

  /** The multi-line layout writes each multi-line property, without its
      trailing whitespace, as a run of lines one level deeper that joins
      back to it. */
  lemma MultiLinesAppend(pad: string, ms: seq<string>, m: string)
    ensures MultiLines(pad, ms + [m]) == MultiLines(pad, ms) + PadAll(pad, Split(m, '\n'))
    decreases |ms|
  {
    if |ms| == 0 {
      assert [m][1..] == [];
    } else {
      assert (ms + [m])[1..] == ms[1..] + [m];
      MultiLinesAppend(pad, ms[1..], m);
    }
  }

  // ---------------------------------------------------------------------
  // groups and the whole tree

  /** A description parameter, reduced to what its text depends on: a group
      with its flags and children, a parameter of a known type with its
      properties already formatted, or one of a type the converter does not
      handle (nothing is written for it). */
  datatype Param =
    | Group(symbol: string, isDefault: bool, columns: int, scaleV: bool, children: seq<Param>)
    | Plain(typename: string, symbol: string, props: seq<string>)
    | Unhandled

  /** `str(n)` for an integer. */
  function IntToString(n: int): (r: string)
    ensures '\n' !in r && r != ""
  {
    var digits := if n < 0 then NatToString(-n) else NatToString(n);
    assert '\n' !in digits by {
      forall i | 0 <= i < |digits| ensures digits[i] != '\n' {
        assert IsDigit(digits[i]);
      }
    }
    if n < 0 then "-" + digits else digits
  }

  /** The lines after `GROUP sym {`, without their indentation: `DEFAULT 1;`
      for a default group, `COLUMNS n;` unless the column count is 0 or 1,
      `SCALE_V;` for a group that scales vertically. */
  function GroupProps(isDefault: bool, columns: int, scaleV: bool): (r: seq<string>)
    ensures "DEFAULT 1;" in r <==> isDefault
    ensures "COLUMNS " + IntToString(columns) + ";" in r <==> columns != 0 && columns != 1
    ensures "SCALE_V;" in r <==> scaleV
  {
    var cols := "COLUMNS " + IntToString(columns) + ";";
    var dflt := "DEFAULT 1;";
    var scale := "SCALE_V;";
    assert cols[0] == 'C' && dflt[0] == 'D' && scale[0] == 'S';
    assert cols != dflt && cols != scale && dflt != scale;
    var a: seq<string> := if isDefault then [dflt] else [];
    var b: seq<string> := if columns != 0 && columns != 1 then [cols] else [];
    var c: seq<string> := if scaleV then [scale] else [];
    assert forall x :: x in a + b + c <==> x in a || x in b || x in c;
    a + b + c
  }

  lemma GroupPropsNoBreaks(isDefault: bool, columns: int, scaleV: bool)
    ensures NoBreaks(GroupProps(isDefault, columns, scaleV))
  {
    var cols := "COLUMNS " + IntToString(columns) + ";";
    assert '\n' !in cols;
    var a: seq<string> := if isDefault then ["DEFAULT 1;"] else [];
    var b: seq<string> := if columns != 0 && columns != 1 then [cols] else [];
    var c: seq<string> := if scaleV then ["SCALE_V;"] else [];
    assert GroupProps(isDefault, columns, scaleV) == a + b + c;
    assert NoBreaks(a) && NoBreaks(b) && NoBreaks(c);
    NoBreaksAppend(a, b);
    NoBreaksAppend(a + b, c);
  }

  /** `render_parameter`: the lines written for a parameter at `depth`.
      A group opens with `GROUP sym {`, its own properties and its children
      one level deeper, and closes with `}` at `depth`. */
  function Render(indent: string, p: Param, depth: nat): (r: seq<string>)
    ensures p.Group? ==> |r| >= 2 && r[0] == Pad(indent, depth) + "GROUP " + p.symbol + " {"
                         && r[|r| - 1] == Pad(indent, depth) + "}"
    ensures p.Unhandled? ==> r == []
    decreases p, 1
  {
    match p
    case Group(symbol, isDefault, columns, scaleV, children) =>
      GroupLines(indent, depth, symbol, GroupProps(isDefault, columns, scaleV),
                 RenderAll(indent, children, depth + 1))
    case Plain(typename, symbol, props) => PlainLines(indent, depth, typename, symbol, props)
    case Unhandled => []
  }

  /** A group's lines around its properties `gp` and the lines of its
      children `kids`. */
  function GroupLines(indent: string, depth: nat, symbol: string, gp: seq<string>, kids: seq<string>): (r: seq<string>)
    ensures |r| == |gp| + |kids| + 2
  {
    var pad := Pad(indent, depth);
    [pad + "GROUP " + symbol + " {"] + PadAll(Pad(indent, depth + 1), gp) + kids + [pad + "}"]
  }

  function RenderAll(indent: string, ps: seq<Param>, depth: nat): seq<string>
    decreases ps, 0
  {
    if |ps| == 0 then [] else Render(indent, ps[0], depth) + RenderAll(indent, ps[1..], depth)
  }

  /** The names that reach the text contain no line break. */
  predicate CleanNames(p: Param)
    decreases p, 1
  {
    match p
    case Group(symbol, _, _, _, children) => '\n' !in symbol && CleanAll(children)
    case Plain(typename, symbol, _) => '\n' !in typename && '\n' !in symbol
    case Unhandled => true
  }

  predicate CleanAll(ps: seq<Param>)
    decreases ps, 0
  {
    forall i :: 0 <= i < |ps| ==> CleanNames(ps[i])
  }

  lemma AllPaddedAppend(a: seq<string>, b: seq<string>, pad: string)
    requires AllPadded(a, pad) && AllPadded(b, pad)
    ensures AllPadded(a + b, pad)
  {
    forall i | 0 <= i < |a + b| ensures StartsWith((a + b)[i], pad) {
      if i < |a| { assert (a + b)[i] == a[i]; } else { assert (a + b)[i] == b[i - |a|]; }
    }
  }

  lemma PadAllPadded(pad: string, ls: seq<string>)
    ensures AllPadded(PadAll(pad, ls), pad)
  {
    forall i | 0 <= i < |ls| ensures StartsWith(PadAll(pad, ls)[i], pad) {
      assert (pad + ls[i])[..|pad|] == pad;
    }
  }

  /** A block whose first and last lines are at `pad` and whose body is
      deeper is at `pad` throughout. */
  lemma FramedPadded(pad: string, inner: string, first: string, mid: seq<string>, last: string)
    requires StartsWith(first, pad) && StartsWith(last, pad)
    requires StartsWith(inner, pad) && AllPadded(mid, inner)
    ensures AllPadded([first] + mid + [last], pad)
  {
    var r := [first] + mid + [last];
    forall i | 0 <= i < |r| ensures StartsWith(r[i], pad) {
      if 0 < i < |r| - 1 {
        assert r[i] == mid[i - 1];
        PrefixTrans(r[i], inner, pad);
      }
    }
  }

  lemma StartsWithAppend(p: string, x: string)
    ensures StartsWith(p + x, p)
  {
    assert (p + x)[..|p|] == p;
  }

  /** Every line written for a parameter at `depth` is indented at least
      `depth` levels. */
  lemma {:induction false} RenderIndented(indent: string, p: Param, depth: nat)
    ensures AllPadded(Render(indent, p, depth), Pad(indent, depth))
    decreases p, 2
  {
    match p
    case Group(symbol, isDefault, columns, scaleV, children) =>
      GroupIndented(indent, p, depth);
    case Plain(typename, symbol, props) =>
      PlainIndented(indent, depth, typename, symbol, props);
    case Unhandled =>
  }

  lemma {:induction false} GroupIndented(indent: string, p: Param, depth: nat)
    requires p.Group?
    ensures AllPadded(Render(indent, p, depth), Pad(indent, depth))
    decreases p, 1
  {
    RenderAllIndented(indent, p.children, depth + 1);
    GroupLinesIndented(indent, depth, p.symbol, GroupProps(p.isDefault, p.columns, p.scaleV),
                       RenderAll(indent, p.children, depth + 1));
  }

  lemma GroupLinesIndented(indent: string, depth: nat, symbol: string, gp: seq<string>, kids: seq<string>)
    requires AllPadded(kids, Pad(indent, depth + 1))
    ensures AllPadded(GroupLines(indent, depth, symbol, gp, kids), Pad(indent, depth))
  {
    var pad := Pad(indent, depth);
    var inner := Pad(indent, depth + 1);
    PadDeeper(indent, depth);
    StartsWithAppend(pad, indent);
    var props := PadAll(inner, gp);
    PadAllPadded(inner, gp);
    var first := pad + "GROUP " + symbol + " {";
    var last := pad + "}";
    assert first[..|pad|] == pad && last[..|pad|] == pad;
    var r := [first] + props + kids + [last];
    assert GroupLines(indent, depth, symbol, gp, kids) == r;
    forall i | 0 <= i < |r| ensures StartsWith(r[i], pad) {
      if 0 < i <= |props| {
        assert r[i] == props[i - 1];
        PrefixTrans(r[i], inner, pad);
      } else if |props| < i < |r| - 1 {
        assert r[i] == kids[i - 1 - |props|];
        PrefixTrans(r[i], inner, pad);
      }
    }
  }

  lemma PlainIndented(indent: string, depth: nat, typename: string, symbol: string, props: seq<string>)
    ensures AllPadded(PlainLines(indent, depth, typename, symbol, props), Pad(indent, depth))
  {
    var pad := Pad(indent, depth);
    var inner := Pad(indent, depth + 1);
    PadDeeper(indent, depth);
    StartsWithAppend(pad, indent);
    var r := PlainLines(indent, depth, typename, symbol, props);
    StartsWithAppend(pad, Header(typename, symbol));
    if AnyBreak(props) {
      StartsWithAppend(pad, "}");
      FramedPadded(pad, inner, r[0], r[1..|r| - 1], r[|r| - 1]);
      assert r == [r[0]] + r[1..|r| - 1] + [r[|r| - 1]];
    } else {
      PrefixTrans(r[0], pad + Header(typename, symbol), pad);
    }
  }

  lemma {:induction false} RenderAllIndented(indent: string, ps: seq<Param>, depth: nat)
    ensures AllPadded(RenderAll(indent, ps, depth), Pad(indent, depth))
    decreases ps, 0
  {
    if |ps| > 0 {
      RenderIndented(indent, ps[0], depth);
      RenderAllIndented(indent, ps[1..], depth);
      var a := Render(indent, ps[0], depth);
      var b := RenderAll(indent, ps[1..], depth);
      forall i | 0 <= i < |a + b| ensures StartsWith((a + b)[i], Pad(indent, depth)) {
        if i < |a| { assert (a + b)[i] == a[i]; } else { assert (a + b)[i] == b[i - |a|]; }
      }
    }
  }

  // ---------------------------------------------------------------------
  // the text reads back as the same lines

  lemma {:induction false} RepeatNoBreak(s: string, n: nat)
    requires '\n' !in s
    ensures '\n' !in Repeat(s, n)
    decreases n
  {
    if n > 0 {
      RepeatNoBreak(s, n - 1);
    }
  }

  lemma {:induction false} JoinNoBreak(ps: seq<string>, sep: string)
    requires NoBreaks(ps) && '\n' !in sep
    ensures '\n' !in Join(ps, sep)
    decreases |ps|
  {
    if |ps| > 1 {
      JoinNoBreak(ps[1..], sep);
    }
  }

  lemma NoBreaksAppend(a: seq<string>, b: seq<string>)
    requires NoBreaks(a) && NoBreaks(b)
    ensures NoBreaks(a + b)
  {
    forall i | 0 <= i < |a + b| ensures '\n' !in (a + b)[i] {
      if i < |a| { assert (a + b)[i] == a[i]; } else { assert (a + b)[i] == b[i - |a|]; }
    }
  }

  lemma PadAllNoBreaks(pad: string, ls: seq<string>)
    requires '\n' !in pad && NoBreaks(ls)
    ensures NoBreaks(PadAll(pad, ls))
  {
  }

  lemma {:induction false} MultiLinesNoBreaks(pad: string, ms: seq<string>)
    requires '\n' !in pad
    ensures NoBreaks(MultiLines(pad, ms))
    decreases |ms|
  {
    if |ms| > 0 {
      SplitPartsLackSep(ms[0], '\n');
      PadAllNoBreaks(pad, Split(ms[0], '\n'));
      MultiLinesNoBreaks(pad, ms[1..]);
      NoBreaksAppend(PadAll(pad, Split(ms[0], '\n')), MultiLines(pad, ms[1..]));
    }
  }

  lemma PlainNoBreaks(indent: string, depth: nat, typename: string, symbol: string, props: seq<string>)
    requires '\n' !in indent && '\n' !in typename && '\n' !in symbol
    ensures NoBreaks(PlainLines(indent, depth, typename, symbol, props))
  {
    var pad := Pad(indent, depth);
    var inner := Pad(indent, depth + 1);
    RepeatNoBreak(indent, depth);
    RepeatNoBreak(indent, depth + 1);
    var r := PlainLines(indent, depth, typename, symbol, props);
    if AnyBreak(props) {
      var stripped := RStripAll(props);
      var singles := Keep(stripped, false);
      MultiLinesNoBreaks(inner, Keep(stripped, true));
      var body := PlainBody(inner, props);
      if |singles| > 0 {
        JoinNoBreak(singles, " ");
        NoBreaksAppend([inner + Join(singles, " ")], MultiLines(inner, Keep(stripped, true)));
      }
      assert NoBreaks(body);
      assert r == [r[0]] + body + [r[|r| - 1]];
      NoBreaksAppend([r[0]] + body, [r[|r| - 1]]);
    } else {
      JoinNoBreak(props, " ");
    }
  }

  /** With names free of line breaks, every line written is one line of
      the file. */
  lemma {:induction false} RenderNoBreaks(indent: string, p: Param, depth: nat)
    requires '\n' !in indent && CleanNames(p)
    ensures NoBreaks(Render(indent, p, depth))
    decreases p, 2
  {
    match p
    case Group(symbol, isDefault, columns, scaleV, children) =>
      GroupNoBreaks(indent, p, depth);
    case Plain(typename, symbol, props) =>
      PlainNoBreaks(indent, depth, typename, symbol, props);
    case Unhandled =>
  }

  lemma {:induction false} GroupNoBreaks(indent: string, p: Param, depth: nat)
    requires '\n' !in indent && p.Group? && CleanNames(p)
    ensures NoBreaks(Render(indent, p, depth))
    decreases p, 1
  {
    RenderAllNoBreaks(indent, p.children, depth + 1);
    GroupPropsNoBreaks(p.isDefault, p.columns, p.scaleV);
    GroupLinesNoBreaks(indent, depth, p.symbol, GroupProps(p.isDefault, p.columns, p.scaleV),
                       RenderAll(indent, p.children, depth + 1));
  }

  lemma GroupLinesNoBreaks(indent: string, depth: nat, symbol: string, gp: seq<string>, kids: seq<string>)
    requires '\n' !in indent && '\n' !in symbol && NoBreaks(gp) && NoBreaks(kids)
    ensures NoBreaks(GroupLines(indent, depth, symbol, gp, kids))
  {
    var pad := Pad(indent, depth);
    var inner := Pad(indent, depth + 1);
    RepeatNoBreak(indent, depth);
    RepeatNoBreak(indent, depth + 1);
    var props := PadAll(inner, gp);
    PadAllNoBreaks(inner, gp);
    var first := [pad + "GROUP " + symbol + " {"];
    NoBreaksAppend(first, props);
    NoBreaksAppend(first + props, kids);
    NoBreaksAppend(first + props + kids, [pad + "}"]);
  }

  lemma {:induction false} RenderAllNoBreaks(indent: string, ps: seq<Param>, depth: nat)
    requires '\n' !in indent && CleanAll(ps)
    ensures NoBreaks(RenderAll(indent, ps, depth))
    decreases ps, 0
  {
    if |ps| > 0 {
      RenderNoBreaks(indent, ps[0], depth);
      RenderAllNoBreaks(indent, ps[1..], depth);
      NoBreaksAppend(Render(indent, ps[0], depth), RenderAll(indent, ps[1..], depth));
    }
  }

  /** Reading the written block back line by line gives exactly the lines
      rendered, each indented at least `depth` levels. */
  lemma RenderReadsBack(indent: string, p: Param, depth: nat)
    requires '\n' !in indent && CleanNames(p)
    ensures Split(Output(Render(indent, p, depth)), '\n') == Render(indent, p, depth) + [""]
    ensures AllPadded(Render(indent, p, depth), Pad(indent, depth))
  {
    RenderNoBreaks(indent, p, depth);
    OutputSplits(Render(indent, p, depth));
    RenderIndented(indent, p, depth);
  }

  // ---------------------------------------------------------------------
  // the REFUSE and ACCEPT lists of a link parameter

  /** One entry of a `REFUSE` or `ACCEPT` container: a type id and its
      name. */
  datatype ListItem = ListItem(id: int, name: string)

  /** `c4d.Tbaselist2d`: the id an `ACCEPT` list leaves out. */
  const Tbaselist2d: int := 110050

  /** An entry as written: its name when it has one, else its id, then `;`. */
  function ItemText(it: ListItem): (r: string)
    ensures |r| > 0 && r[|r| - 1] == ';'
  {
    (if it.name != "" then it.name else IntToString(it.id)) + ";"
  }

  function ItemTexts(items: seq<ListItem>): (r: seq<string>)
    ensures |r| == |items|
    ensures forall i :: 0 <= i < |items| ==> r[i] == ItemText(items[i])
    decreases |items|
  {
    if |items| == 0 then [] else [ItemText(items[0])] + ItemTexts(items[1..])
  }

  /** The entries an `ACCEPT` list writes: all but `Tbaselist2d`, in order. */
  function Accepted(items: seq<ListItem>): (r: seq<ListItem>)
    ensures forall i :: 0 <= i < |r| ==> r[i].id != Tbaselist2d
    ensures |r| == 0 <==> forall i :: 0 <= i < |items| ==> items[i].id == Tbaselist2d
    decreases |items|
  {
    if |items| == 0 then []
    else
      var rest := Accepted(items[1..]);
      assert forall i :: 0 < i < |items| ==> items[i] == items[1..][i - 1];
      (if items[0].id != Tbaselist2d then [items[0]] else []) + rest
  }

  /** Entries in braces: `{ a; b; }`, with an empty list giving `{  }`. */
  function Braced(keyword: string, texts: seq<string>): string {
    keyword + " { " + Join(texts, " ") + " }"
  }

  lemma {:induction false} JoinOfTextsEmpty(items: seq<ListItem>)
    ensures Join(ItemTexts(items), " ") == "" <==> items == []
    decreases |items|
  {
    if |items| > 1 {
      JoinCons(ItemTexts(items), " ");
    }
  }

  /** `REFUSE { ... }`, written only for a non-empty container. */
  function RefuseProp(refuse: seq<ListItem>): (r: Option<string>)
    ensures r.None? <==> refuse == []
    ensures r.Some? ==> StartsWith(r.value, "REFUSE { ") && EndsWith(r.value, " }")
  {
    if refuse == [] then None
    else
      var prop := Braced("REFUSE", ItemTexts(refuse));
      assert prop[..9] == "REFUSE { ";
      Some(prop)
  }

  /** The `ACCEPT` property as intended: entries written like those of
      `REFUSE`, and no property when nothing is left to accept. */
  function AcceptProp(accept: seq<ListItem>): (r: Option<string>)
    ensures r.None? <==> forall i :: 0 <= i < |accept| ==> accept[i].id == Tbaselist2d
    ensures r.Some? ==> StartsWith(r.value, "ACCEPT { ") && EndsWith(r.value, " }")
    ensures r.Some? ==> r.value != Braced("ACCEPT", [])
  {
    var kept := Accepted(accept);
    if kept == [] then None
    else
      var prop := Braced("ACCEPT", ItemTexts(kept));
      JoinOfTextsEmpty(kept);
      assert prop[..9] == "ACCEPT { ";
      assert |prop| > |Braced("ACCEPT", [])|;
      Some(prop)
  }

  /** Some entry has a name. */
  predicate HasNamed(items: seq<ListItem>) {
    exists i :: 0 <= i < |items| && items[i].name != ""
  }

  /** The `ACCEPT` property as written: each entry is
      `(accept_id if accept_name else str(accept_id)) + ';'`, so a named
      entry adds an int to a str and raises `TypeError`; a list that ends
      up as `ACCEPT {  }` is dropped again. */
  function AcceptPropAsWritten(accept: seq<ListItem>): (r: Result<Option<string>>)
    ensures r.Err? <==> HasNamed(Accepted(accept))
    ensures r.Err? ==> r.error.TypeError?
    ensures r.Ok? ==> r.value == AcceptProp(accept)
  {
    if accept == [] then Ok(None)
    else
      var kept := Accepted(accept);
      if HasNamed(kept) then
        Err(TypeError("unsupported operand type(s) for +: 'int' and 'str'"))
      else
        var prop := Braced("ACCEPT", ItemTexts(kept));
        JoinOfTextsEmpty(kept);
        if prop == Braced("ACCEPT", []) then Ok(None)
        else
          assert |prop| > |Braced("ACCEPT", [])|;
          Ok(Some(prop))
  }

  /** An `ACCEPT` list naming a spline object fails as written, while the
      intended property lists it by name. */
  lemma AcceptNamedEntry(id: int, name: string)
    requires id != Tbaselist2d && name != ""
    ensures AcceptPropAsWritten([ListItem(id, name)]).Err?
    ensures AcceptProp([ListItem(id, name)]) == Some(Braced("ACCEPT", [name + ";"]))
  {
    var items := [ListItem(id, name)];
    assert Accepted(items)[0] == ListItem(id, name);
    assert Accepted(items) == items;
    assert ItemTexts(items) == [name + ";"];
    assert HasNamed(Accepted(items)) by { assert Accepted(items)[0].name != ""; }
  }

  lemma AcceptSplineExample()
    ensures AcceptPropAsWritten([ListItem(5101, "Spline")]).Err?
    ensures AcceptProp([ListItem(5101, "Spline")]) == Some(Braced("ACCEPT", ["Spline;"]))
  {
    AcceptNamedEntry(5101, "Spline");
    assert "Spline" + ";" == "Spline;";
  }

  // ---------------------------------------------------------------------
  // the CYCLE property of an integer parameter

  /** Every symbol followed by `;`. */
  function Terminated(syms: seq<string>): (r: seq<string>)
    ensures |r| == |syms|
    ensures forall i :: 0 <= i < |syms| ==> r[i] == syms[i] + ";"
    decreases |syms|
  {
    if |syms| == 0 then [] else [syms[0] + ";"] + Terminated(syms[1..])
  }

  /** `'CYCLE {\n' + indent + ('\n' + indent).join(cycle_lines) + '\n}'`
      for the symbols of a non-empty cycle. */
  function CycleProp(indent: string, syms: seq<string>): (r: string)
    requires |syms| > 0
    ensures StartsWith(r, "CYCLE {\n" + indent + syms[0] + ";")
    ensures EndsWith(r, "\n}")
  {
    "CYCLE {\n" + indent + Join(Terminated(syms), "\n" + indent) + "\n}"
  }

  lemma RStripKeeps(s: string, cs: set<char>)
    requires |s| > 0 && s[|s| - 1] !in cs
    ensures RStrip(s, cs) == s
  {
  }

  lemma {:induction false} JoinPadded(indent: string, xs: seq<string>)
    requires |xs| >= 1
    ensures indent + Join(xs, "\n" + indent) == Join(PadAll(indent, xs), "\n")
    decreases |xs|
  {
    if |xs| > 1 {
      JoinPadded(indent, xs[1..]);
      JoinCons(xs, "\n" + indent);
      JoinCons(PadAll(indent, xs), "\n");
      assert PadAll(indent, xs)[1..] == PadAll(indent, xs[1..]);
    }
  }

  /** A cycle is a multi-line property (trailing whitespace stripping leaves
      it alone) whose lines are `CYCLE {`, each symbol with `;` one indent
      deeper, and `}`. */
  lemma CyclePropLines(indent: string, syms: seq<string>)
    requires |syms| > 0 && '\n' !in indent && NoBreaks(syms)
    ensures '\n' in CycleProp(indent, syms)
    ensures RStrip(CycleProp(indent, syms), Whitespace) == CycleProp(indent, syms)
    ensures Split(CycleProp(indent, syms), '\n') == ["CYCLE {"] + PadAll(indent, Terminated(syms)) + ["}"]
  {
    var c := CycleProp(indent, syms);
    var padded := PadAll(indent, Terminated(syms));
    JoinPadded(indent, Terminated(syms));
    var body := Join(padded, "\n");
    assert c == "CYCLE {" + "\n" + body + "\n" + "}";
    JoinSnoc(padded, "}", "\n");
    var lines := ["CYCLE {"] + padded + ["}"];
    JoinCons(lines, "\n");
    assert lines[1..] == padded + ["}"];
    assert Join(lines, "\n") == c;
    assert c[7] == '\n';
    assert c[|c| - 1] == '}';
    WhitespaceSet('}');
    RStripKeeps(c, Whitespace);
    forall i | 0 <= i < |lines| ensures '\n' !in lines[i] {
      if 0 < i < |lines| - 1 {
        assert lines[i] == indent + (syms[i - 1] + ";");
      }
    }
    JoinThenSplit(lines, '\n');
  }
}

=== FILE: dialog.dfy ===
/** The virtual-widget bookkeeping of `BaseDialog` (c4dutils.py): fresh ids
    from a counter, the map from a virtual widget id to the real ids it
    allocated (`ForwardMapId`), the memoised map back (`ReverseMapId`), and
    `AddFileSelector`, which allocates a text field and a button for one
    virtual id. The Cinema 4D calls that draw the widgets are left out; the
    dialog is a value and every operation returns the updated one. */
module BaseDialog {
  import opened Errors
  import opened Text
  import PyRepr

  /** A widget dictionary value: the ids under `id.*` keys are integers,
      the other entries are names and the callback. */
  datatype Value = IntVal(n: int) | StrVal(s: string) | Callback

  /** A widget dictionary, as its entries in iteration order. */
  type Widget = seq<(string, Value)>

  /** The dialog's private state: `__widgets` (virtual id to widget) with
      the order its entries are iterated in, `__reverse_cache`,
      `__idcounter` and `__edit_texts`. */
  datatype Dialog = Dialog(
    widgets: map<int, Widget>,
    order: seq<int>,
    cache: map<int, (Option<string>, int)>,
    idCounter: int,
    editTexts: set<int>)

  /** The first id `AllocId` hands out. */
  const FirstId: int := 9000000

  /** `BaseDialog.__init__` */
  function NewDialog(): (d: Dialog)
    ensures d.widgets == map[] && d.order == [] && d.cache == map[] && d.editTexts == {}
    ensures d.idCounter == FirstId
  {
    Dialog(map[], [], map[], FirstId, {})
  }

  // ---------------------------------------------------------------------
  // AllocId

  /** `AllocId`: the counter's value, and the counter moves on by one. */
  function AllocId(d: Dialog): (r: (Dialog, int))
    ensures r.1 == d.idCounter && r.0.idCounter == r.1 + 1
    ensures r.0 == d.(idCounter := r.1 + 1)
  {
    (d.(idCounter := d.idCounter + 1), d.idCounter)
  }

  /** `n` calls of `AllocId` in a row, with the ids they return. */
  function AllocMany(d: Dialog, n: nat): (r: (Dialog, seq<int>))
    ensures |r.1| == n
    decreases n
  {
    if n == 0 then (d, [])
    else
      var (d1, x) := AllocId(d);
      var (d2, xs) := AllocMany(d1, n - 1);
      (d2, [x] + xs)
  }

  /** Successive allocations give consecutive ids, starting at the counter,
      and change nothing else. */
  lemma {:induction false} AllocConsecutive(d: Dialog, n: nat)
    ensures var (nd, ids) := AllocMany(d, n);
            nd == d.(idCounter := d.idCounter + n)
            && forall i :: 0 <= i < n ==> ids[i] == d.idCounter + i
    decreases n
  {
    if n > 0 {
      var (d1, x) := AllocId(d);
      AllocConsecutive(d1, n - 1);
      var (d2, xs) := AllocMany(d1, n - 1);
      assert AllocMany(d, n).1 == [x] + xs;
    }
  }

  /** A fresh dialog hands out 9000000, 9000001, ... */
  lemma AllocFromFirstId(n: nat)
    ensures forall i :: 0 <= i < n ==> AllocMany(NewDialog(), n).1[i] == FirstId + i
  {
    AllocConsecutive(NewDialog(), n);
  }

  // ---------------------------------------------------------------------
  // the widget dictionary

  /** The iteration order lists every virtual id with a widget, once. */
  ghost predicate OrderOk(d: Dialog) {
    (forall j1, j2 :: 0 <= j1 < j2 < |d.order| ==> d.order[j1] != d.order[j2])
    && forall k :: k in d.widgets <==> k in d.order
  }

  /** `__widgets[k] = w`: the entry is replaced, or added at the end of the
      iteration order when the key is new. */
  function Put(d: Dialog, k: int, w: Widget): (r: Dialog)
    ensures r.widgets.Keys == d.widgets.Keys + {k} && r.widgets[k] == w
    ensures forall other :: other in d.widgets && other != k ==> r.widgets[other] == d.widgets[other]
    ensures OrderOk(d) ==> OrderOk(r)
    ensures r.cache == d.cache && r.idCounter == d.idCounter && r.editTexts == d.editTexts
  {
    d.(widgets := d.widgets[k := w], order := if k in d.widgets then d.order else d.order + [k])
  }

  // ---------------------------------------------------------------------
  // ids held by widgets

  /** `key.startswith('id.')` */
  predicate IsIdKey(key: string) {
    StartsWith(key, "id.")
  }

  /** Entry `i` of widget `w` is an `id.*` key holding `p`. */
  predicate HoldsAt(w: Widget, i: int, p: int) {
    0 <= i < |w| && IsIdKey(w[i].0) && w[i].1 == IntVal(p)
  }

  /** The inner loop of `ReverseMapId`: the name (key minus `id.`) of the
      first `id.*` key of `w` whose value is `p`. */
  function FindKey(w: Widget, p: int): (r: Option<string>)
    ensures r.Some? <==> exists i :: HoldsAt(w, i, p)
    ensures r.Some? ==> exists i :: HoldsAt(w, i, p) && r.value == w[i].0[3..]
  {
    if |w| == 0 then None
    else if IsIdKey(w[0].0) && w[0].1 == IntVal(p) then
      assert HoldsAt(w, 0, p);
      Some(w[0].0[3..])
    else
      var r := FindKey(w[1..], p);
      assert forall i :: HoldsAt(w[1..], i, p) <==> HoldsAt(w, i + 1, p);
      assert forall i :: HoldsAt(w, i, p) ==> i > 0 && HoldsAt(w[1..], i - 1, p);
      r
  }

  /** Widget `w` holds `p` under one of its `id.*` keys. */
  ghost predicate Holds(w: Widget, p: int) {
    exists i :: HoldsAt(w, i, p)
  }

  /** The widget at position `j` of the iteration order holds `p`. */
  ghost predicate OrderHolds(ws: map<int, Widget>, order: seq<int>, j: int, p: int) {
    0 <= j < |order| && order[j] in ws && Holds(ws[order[j]], p)
  }

  /** The search of `ReverseMapId` on a cache miss: `(name, widget_id)` for
      the first widget in iteration order holding `p`, else `(None, p)`. */
  function Lookup(ws: map<int, Widget>, order: seq<int>, p: int): (r: (Option<string>, int))
    ensures r.0.Some? <==> exists j :: OrderHolds(ws, order, j, p)
    ensures r.0.None? ==> r.1 == p
    ensures r.0.Some? ==> r.1 in ws && r.1 in order && FindKey(ws[r.1], p) == r.0
  {
    if |order| == 0 then (None, p)
    else
      var k := order[0];
      if k in ws && FindKey(ws[k], p).Some? then
        assert OrderHolds(ws, order, 0, p);
        (FindKey(ws[k], p), k)
      else
        var r := Lookup(ws, order[1..], p);
        assert forall j :: OrderHolds(ws, order[1..], j, p) <==> OrderHolds(ws, order, j + 1, p);
        assert forall j :: OrderHolds(ws, order, j, p) ==> j > 0 && OrderHolds(ws, order[1..], j - 1, p);
        r
  }

  /** No id is held twice: among all `id.*` entries of all widgets, each
      integer value sits at one position only. */
  ghost predicate IdsUnique(ws: map<int, Widget>) {
    forall k1, i1, k2, i2, p ::
      k1 in ws && k2 in ws && HoldsAt(ws[k1], i1, p) && HoldsAt(ws[k2], i2, p)
      ==> k1 == k2 && i1 == i2
  }

  /** Every id held by a widget was allocated before: it is below the
      counter. */
  ghost predicate IdsBelow(ws: map<int, Widget>, counter: int) {
    forall k, i, p :: k in ws && HoldsAt(ws[k], i, p) ==> p < counter
  }

  /** Every `id.*` value is an integer, as in every widget this class
      builds. */
  ghost predicate IdsAreInts(ws: map<int, Widget>) {
    forall k, i :: k in ws && 0 <= i < |ws[k]| && IsIdKey(ws[k][i].0) ==> ws[k][i].1.IntVal?
  }

  /** The dialog's bookkeeping invariant. */
  ghost predicate Valid(d: Dialog) {
    OrderOk(d) && IdsUnique(d.widgets) && IdsBelow(d.widgets, d.idCounter) && IdsAreInts(d.widgets)
  }

  /** When only one position holds `p`, the search finds exactly it. */
  lemma LookupUnique(d: Dialog, k: int, i: nat, p: int)
    requires Valid(d) && k in d.widgets && HoldsAt(d.widgets[k], i, p)
    ensures Lookup(d.widgets, d.order, p) == (Some(d.widgets[k][i].0[3..]), k)
  {
    var ws := d.widgets;
    assert k in d.order;
    var j :| 0 <= j < |d.order| && d.order[j] == k;
    assert OrderHolds(ws, d.order, j, p);
    var r := Lookup(ws, d.order, p);
    var ii :| HoldsAt(ws[r.1], ii, p) && r.0.value == ws[r.1][ii].0[3..];
  }

  // ---------------------------------------------------------------------
  // ReverseMapId

  /** The cache agrees with a fresh search for every id it holds. */
  ghost predicate CacheSound(d: Dialog) {
    forall p :: p in d.cache ==> d.cache[p] == Lookup(d.widgets, d.order, p)
  }

  /** `ReverseMapId(param_id)`: the cached answer if there is one; otherwise
      the search's answer, which is then cached. */
  function ReverseMapId(d: Dialog, p: int): (r: (Dialog, (Option<string>, int)))
    ensures p in r.0.cache && r.0.cache[p] == r.1
    ensures r.0 == d.(cache := r.0.cache)
    ensures forall q :: q in d.cache ==> q in r.0.cache && r.0.cache[q] == d.cache[q]
    ensures CacheSound(d) ==> r.1 == Lookup(d.widgets, d.order, p) && CacheSound(r.0)
  {
    if p in d.cache then (d, d.cache[p])
    else
      var res := Lookup(d.widgets, d.order, p);
      (d.(cache := d.cache[p := res]), res)
  }

  /** Asking again gives the same answer and changes nothing. */
  lemma ReverseMapIdMemoised(d: Dialog, p: int)
    ensures var (d1, r1) := ReverseMapId(d, p);
            ReverseMapId(d1, p) == (d1, r1)
  {
  }

  /** With a sound cache and a valid dialog, the `id.*` entry `i` of widget
      `k` maps back to that widget's id and the key's name. */
  lemma ReverseOfHeldId(d: Dialog, k: int, i: nat, p: int)
    requires Valid(d) && CacheSound(d) && k in d.widgets && HoldsAt(d.widgets[k], i, p)
    ensures ReverseMapId(d, p).1 == (Some(d.widgets[k][i].0[3..]), k)
  {
    LookupUnique(d, k, i, p);
  }

  // ---------------------------------------------------------------------
  // ForwardMapId

  /** The values of a widget's `id.*` keys, in iteration order. */
  function IdValues(w: Widget): (r: seq<Value>)
    ensures |r| <= |w|
    ensures forall x :: x in r <==> exists i :: 0 <= i < |w| && IsIdKey(w[i].0) && w[i].1 == x
  {
    if |w| == 0 then []
    else
      var rest := IdValues(w[1..]);
      assert forall i :: 0 < i < |w| ==> w[i] == w[1..][i - 1];
      if IsIdKey(w[0].0) then [w[0].1] + rest else rest
  }

  /** `ForwardMapId(virtual_id)`: every `id.*` value of the widget, or only
      `virtual_id` when there is no widget or it holds no ids. */
  function ForwardMapId(d: Dialog, v: int): (r: seq<Value>)
    ensures |r| >= 1
    ensures v !in d.widgets || IdValues(d.widgets[v]) == [] ==> r == [IntVal(v)]
    ensures v in d.widgets && IdValues(d.widgets[v]) != [] ==> r == IdValues(d.widgets[v])
  {
    var ids := if v in d.widgets then IdValues(d.widgets[v]) else [];
    if ids == [] then [IntVal(v)] else ids
  }

  /** Forward then back: in a valid dialog with a sound cache, every real id
      a virtual widget yields maps back to that widget. */
  lemma ForwardThenReverse(d: Dialog, v: int, x: Value)
    requires Valid(d) && CacheSound(d)
    requires v in d.widgets && IdValues(d.widgets[v]) != [] && x in ForwardMapId(d, v)
    ensures x.IntVal?
    ensures ReverseMapId(d, x.n).1.1 == v && ReverseMapId(d, x.n).1.0.Some?
  {
    var w := d.widgets[v];
    var i :| 0 <= i < |w| && IsIdKey(w[i].0) && w[i].1 == x;
    assert x.IntVal?;
    assert HoldsAt(w, i, x.n);
    ReverseOfHeldId(d, v, i, x.n);
  }

  // ---------------------------------------------------------------------
  // AddFileSelector

  /** The three file selector kinds. */
  predicate IsSelectType(t: string) {
    t == "load" || t == "save" || t == "directory"
  }

  /** The start of the message for an unknown selector type. */
  const InvalidType := "invalid type: "

  /** The widget dictionary of a file selector with text field `s` and
      button `b`. */
  function SelectorWidget(s: int, b: int, t: string): Widget {
    [("type", StrVal("fileselector")), ("id.string", IntVal(s)), ("id.button", IntVal(b)),
     ("callback", Callback), ("fileselecttype", StrVal(t))]
  }

  /** `AddFileSelector(param_id, flags, type)`: an unknown type is a
      `ValueError`; otherwise two ids, first the text field's then the
      button's, the widget registered under `param_id`, and the text field recorded
      as an edit text. */
  function AddFileSelector(d: Dialog, pid: int, t: string): (r: Result<Dialog>)
    ensures r.Err? <==> !IsSelectType(t)
    ensures r.Err? ==> r.error == ValueError(InvalidType + PyRepr.Repr(t))
    ensures r.Ok? ==> r.value.idCounter == d.idCounter + 2
    ensures r.Ok? ==> pid in r.value.widgets && r.value.widgets[pid] == SelectorWidget(d.idCounter, d.idCounter + 1, t)
    ensures r.Ok? ==> r.value.editTexts == d.editTexts + {d.idCounter} && r.value.cache == d.cache
    ensures r.Ok? ==> r.value.widgets.Keys == d.widgets.Keys + {pid}
    ensures r.Ok? ==> forall k :: k in d.widgets && k != pid ==> r.value.widgets[k] == d.widgets[k]
  {
    if !IsSelectType(t) then Err(ValueError(InvalidType + PyRepr.Repr(t)))
    else
      var (d1, s) := AllocId(d);
      var (d2, b) := AllocId(d1);
      var d3 := Put(d2, pid, SelectorWidget(s, b, t));
      Ok(d3.(editTexts := d3.editTexts + {s}))
  }

  /** The message of an unknown type names it as a Python literal that
      reads back as the type, whatever quotes or escapes it needs. */
  lemma AddFileSelectorNamesType(d: Dialog, pid: int, t: string)
    requires !IsSelectType(t)
    ensures var r := AddFileSelector(d, pid, t);
      r.Err? && r.error.ValueError? && StartsWith(r.error.msg, InvalidType)
      && PyRepr.ReadLiteral(r.error.msg[|InvalidType|..]) == Some(t)
  {
    var lit := PyRepr.Repr(t);
    PyRepr.ReprRoundTrip(t);
    assert (InvalidType + lit)[|InvalidType|..] == lit;
  }

  /** A new dialog satisfies the invariant and its cache is sound. */
  lemma NewDialogValid()
    ensures Valid(NewDialog()) && CacheSound(NewDialog())
  {
  }

  lemma SelectorHolds(s: int, b: int, t: string, i: int, p: int)
    requires HoldsAt(SelectorWidget(s, b, t), i, p)
    ensures (i == 1 && p == s) || (i == 2 && p == b)
  {
    var w := SelectorWidget(s, b, t);
    assert w[0].0[..3] == "typ" && w[3].0[..3] == "cal" && w[4].0[..3] == "fil";
  }

  lemma SelectorIdValues(s: int, b: int, t: string)
    ensures IdValues(SelectorWidget(s, b, t)) == [IntVal(s), IntVal(b)]
  {
    var w := SelectorWidget(s, b, t);
    assert w[0].0[..3] == "typ" && w[3].0[..3] == "cal" && w[4].0[..3] == "fil";
    assert w[1].0[..3] == "id." && w[2].0[..3] == "id.";
    var w4 := w[4..];
    assert IdValues(w4[1..]) == [];
    assert IdValues(w4) == [];
    assert IdValues(w[3..]) == IdValues(w[3..][1..]) && w[3..][1..] == w4;
    assert IdValues(w[2..]) == [IntVal(b)] + IdValues(w[2..][1..]) && w[2..][1..] == w[3..];
    assert IdValues(w[1..]) == [IntVal(s)] + IdValues(w[1..][1..]) && w[1..][1..] == w[2..];
    assert IdValues(w) == IdValues(w[1..]);
  }

  lemma SelectorNames()
    ensures "id.string"[3..] == "string" && "id.button"[3..] == "button"
  {
  }

  /** A file selector keeps the dialog valid, and its two ids were held
      by no widget before. */
  lemma AddFileSelectorValid(d: Dialog, pid: int, t: string)
    requires Valid(d) && IsSelectType(t)
    ensures Valid(AddFileSelector(d, pid, t).value)
    ensures forall k :: k in d.widgets ==> !Holds(d.widgets[k], d.idCounter) && !Holds(d.widgets[k], d.idCounter + 1)
  {
    var nd := AddFileSelector(d, pid, t).value;
    var s := d.idCounter;
    var ws := d.widgets;
    var r := nd.widgets;
    forall k1, i1, k2, i2, p | k1 in r && k2 in r && HoldsAt(r[k1], i1, p) && HoldsAt(r[k2], i2, p)
      ensures k1 == k2 && i1 == i2
    {
      if k1 == pid {
        SelectorHolds(s, s + 1, t, i1, p);
      }
      if k2 == pid {
        SelectorHolds(s, s + 1, t, i2, p);
      }
    }
    forall k, i, p | k in r && HoldsAt(r[k], i, p)
      ensures p < s + 2
    {
      if k == pid {
        SelectorHolds(s, s + 1, t, i, p);
      }
    }
    var w := SelectorWidget(s, s + 1, t);
    assert w[0].0[..3] == "typ" && w[3].0[..3] == "cal" && w[4].0[..3] == "fil";
  }

  /** After `AddFileSelector`, each of the selector's two ids maps back to
      the selector under its name. */
  lemma AddFileSelectorReverse(d: Dialog, pid: int, t: string)
    requires Valid(d) && IsSelectType(t)
    ensures var nd := AddFileSelector(d, pid, t).value;
            Lookup(nd.widgets, nd.order, d.idCounter) == (Some("string"), pid)
            && Lookup(nd.widgets, nd.order, d.idCounter + 1) == (Some("button"), pid)
  {
    var nd := AddFileSelector(d, pid, t).value;
    assert pid in nd.widgets && nd.widgets[pid] == SelectorWidget(d.idCounter, d.idCounter + 1, t);
    AddFileSelectorValid(d, pid, t);
    SelectorReverse(nd, pid, d.idCounter, t);
  }

  /** In a valid dialog, the two ids of a registered file selector map back
      to it. */
  lemma SelectorReverse(d: Dialog, pid: int, s: int, t: string)
    requires Valid(d) && pid in d.widgets && d.widgets[pid] == SelectorWidget(s, s + 1, t)
    ensures Lookup(d.widgets, d.order, s) == (Some("string"), pid)
    ensures Lookup(d.widgets, d.order, s + 1) == (Some("button"), pid)
  {
    var w := SelectorWidget(s, s + 1, t);
    assert HoldsAt(w, 1, s) && HoldsAt(w, 2, s + 1);
    assert w[1].0 == "id.string" && w[2].0 == "id.button";
    SelectorNames();
    LookupUnique(d, pid, 1, s);
    LookupUnique(d, pid, 2, s + 1);
  }

  /** After `AddFileSelector`, the selector's virtual id yields its two
      ids. */
  lemma AddFileSelectorForward(d: Dialog, pid: int, t: string)
    requires IsSelectType(t)
    ensures var nd := AddFileSelector(d, pid, t).value;
            multiset(ForwardMapId(nd, pid)) == multiset{IntVal(d.idCounter), IntVal(d.idCounter + 1)}
  {
    SelectorIdValues(d.idCounter, d.idCounter + 1, t);
  }

  /** Positions whose widgets are the same give the same search result. */
  lemma {:induction false} LookupFrame(ws: map<int, Widget>, ws2: map<int, Widget>, order: seq<int>, p: int)
    requires forall j :: 0 <= j < |order| ==> (order[j] in ws <==> order[j] in ws2)
    requires forall j :: 0 <= j < |order| && order[j] in ws ==> ws[order[j]] == ws2[order[j]]
    ensures Lookup(ws, order, p) == Lookup(ws2, order, p)
  {
    if |order| > 0 {
      LookupFrame(ws, ws2, order[1..], p);
    }
  }

  /** A widget appended at the end of the order that does not hold `p`
      does not change the answer for `p`. */
  lemma {:induction false} LookupSnoc(ws: map<int, Widget>, order: seq<int>, k: int, p: int)
    requires k !in ws || !Holds(ws[k], p)
    ensures Lookup(ws, order + [k], p) == Lookup(ws, order, p)
  {
    if |order| > 0 {
      LookupSnoc(ws, order[1..], k, p);
      assert (order + [k])[1..] == order[1..] + [k];
      assert (order + [k])[0] == order[0];
    } else {
      assert Lookup(ws, [k], p) == Lookup(ws, [k][1..], p);
    }
  }

  /** A file selector under a new virtual id keeps a sound cache sound as
      long as neither of its ids was looked up before. */
  lemma AddFileSelectorKeepsCache(d: Dialog, pid: int, t: string)
    requires Valid(d) && CacheSound(d) && IsSelectType(t)
    requires pid !in d.widgets
    requires d.idCounter !in d.cache && d.idCounter + 1 !in d.cache
    ensures CacheSound(AddFileSelector(d, pid, t).value)
  {
    var s := d.idCounter;
    var w := SelectorWidget(s, s + 1, t);
    forall p | p in d.cache ensures !Holds(w, p) {
      forall i | HoldsAt(w, i, p) ensures false {
        SelectorHolds(s, s + 1, t, i, p);
      }
    }
    PutKeepsCache(d, pid, w);
    var nd := AddFileSelector(d, pid, t).value;
    var put := Put(d, pid, w);
    assert nd.widgets == put.widgets && nd.order == put.order && nd.cache == put.cache;
  }

  /** Registering a new widget that holds none of the cached ids keeps the
      cache sound. */
  lemma PutKeepsCache(d: Dialog, pid: int, w: Widget)
    requires OrderOk(d) && CacheSound(d) && pid !in d.widgets
    requires forall p :: p in d.cache ==> !Holds(w, p)
    ensures CacheSound(Put(d, pid, w))
  {
    var nd := Put(d, pid, w);
    assert nd.order == d.order + [pid];
    assert pid !in d.order;
    forall p | p in nd.cache
      ensures nd.cache[p] == Lookup(nd.widgets, nd.order, p)
    {
      LookupSnoc(nd.widgets, d.order, pid, p);
      LookupFrame(d.widgets, nd.widgets, d.order, p);
    }
  }

  /** The cache is never invalidated: an id looked up before a file
      selector allocates it keeps mapping to itself afterwards. */
  lemma StaleReverseMapping()
    ensures var (d1, r1) := ReverseMapId(NewDialog(), FirstId);
            var d2 := AddFileSelector(d1, 1, "load").value;
            r1 == (None, FirstId)
            && ReverseMapId(d2, FirstId).1 == (None, FirstId)
            && Lookup(d2.widgets, d2.order, FirstId) == (Some("string"), 1)
  {
    var (d1, r1) := ReverseMapId(NewDialog(), FirstId);
    NewDialogValid();
    AddFileSelectorReverse(d1, 1, "load");
  }
}

=== FILE: docstrings.dfy ===
/** `FixStripDocstrings` in refactor.py: in the module's top-level
    statements, every simple statement that starts with a string literal is
    replaced by an empty line, and the last such literal is remembered. */
module Docstrings {
  import opened Errors
  import opened Text
  import opened Cst

  /** A top-level statement the fixer strips. */
  predicate IsDocStatement(c: Tree) {
    c.Node? && c.sym == SimpleStmt && |c.children| > 0 && IsLeafOf(c.children[0], STRING)
  }

  /** The loop over the module's children: the remembered literal and the
      children afterwards. */
  function StripChildren(doc: Option<string>, cs: seq<Tree>): (r: (Option<string>, seq<Tree>))
    ensures |r.1| == |cs|
    decreases |cs|
  {
    if |cs| == 0 then (doc, [])
    else
      var c := cs[0];
      var doc' := if IsDocStatement(c) then Some(c.children[0].value) else doc;
      var rest := StripChildren(doc', cs[1..]);
      (rest.0, [if IsDocStatement(c) then BlankLine() else c] + rest.1)
  }

  /** Each child is replaced by an empty line exactly when it is a
      docstring statement; all others stay as they are. */
  lemma {:induction false} StripChildrenReplaces(doc: Option<string>, cs: seq<Tree>)
    ensures forall i :: 0 <= i < |cs| ==>
              StripChildren(doc, cs).1[i] == (if IsDocStatement(cs[i]) then BlankLine() else cs[i])
    decreases |cs|
  {
    if |cs| > 0 {
      var c := cs[0];
      var doc' := if IsDocStatement(c) then Some(c.children[0].value) else doc;
      StripChildrenReplaces(doc', cs[1..]);
      forall i | 1 <= i < |cs|
        ensures StripChildren(doc, cs).1[i] == StripChildren(doc', cs[1..]).1[i - 1]
      {
      }
    }
  }

  /** Without any docstring statement the remembered literal is whatever
      was remembered before. */
  lemma {:induction false} StripChildrenKeepsDoc(doc: Option<string>, cs: seq<Tree>)
    requires forall i :: 0 <= i < |cs| ==> !IsDocStatement(cs[i])
    ensures StripChildren(doc, cs).0 == doc
    decreases |cs|
  {
    if |cs| > 0 {
      assert forall j :: 0 <= j < |cs| - 1 ==> cs[1..][j] == cs[j + 1];
      StripChildrenKeepsDoc(doc, cs[1..]);
    }
  }

  /** The remembered literal is the one of the last docstring statement,
      quotes included. */
  lemma {:induction false} StripChildrenRemembersLast(doc: Option<string>, cs: seq<Tree>, i: nat)
    requires i < |cs| && IsDocStatement(cs[i])
    requires forall j :: i < j < |cs| ==> !IsDocStatement(cs[j])
    ensures StripChildren(doc, cs).0 == Some(cs[i].children[0].value)
    decreases |cs|
  {
    var c := cs[0];
    var doc' := if IsDocStatement(c) then Some(c.children[0].value) else doc;
    assert StripChildren(doc, cs).0 == StripChildren(doc', cs[1..]).0;
    if i > 0 {
      assert cs[i] == cs[1..][i - 1];
      assert forall j :: i - 1 < j < |cs| - 1 ==> cs[1..][j] == cs[j + 1];
      StripChildrenRemembersLast(doc', cs[1..], i - 1);
    } else {
      assert forall j :: 0 <= j < |cs| - 1 ==> cs[1..][j] == cs[j + 1];
      StripChildrenKeepsDoc(doc', cs[1..]);
    }
  }

  /** `transform`: only the `file_input` node is touched. */
  function Transform(doc: Option<string>, t: Tree): (r: (Option<string>, Tree))
    ensures !(t.Node? && t.sym == FileInput) ==> r == (doc, t)
    ensures t.Node? && t.sym == FileInput ==> r.1.Node? && r.1.sym == FileInput
                                              && |r.1.children| == |t.children|
  {
    if t.Node? && t.sym == FileInput then
      var s := StripChildren(doc, t.children);
      (s.0, Node(FileInput, s.1))
    else (doc, t)
  }

  /** The children left when docstring statements are dropped. */
  function NonDocChildren(cs: seq<Tree>): seq<Tree>
    decreases |cs|
  {
    if |cs| == 0 then []
    else (if IsDocStatement(cs[0]) then [] else [cs[0]]) + NonDocChildren(cs[1..])
  }

  /** The stripped module prints as the module without its docstring
      statements: an empty line prints as nothing. */
  lemma {:induction false} StrippedText(doc: Option<string>, cs: seq<Tree>)
    ensures SerializeAll(StripChildren(doc, cs).1) == SerializeAll(NonDocChildren(cs))
    decreases |cs|
  {
    if |cs| > 0 {
      var c := cs[0];
      var doc' := if IsDocStatement(c) then Some(c.children[0].value) else doc;
      StrippedText(doc', cs[1..]);
      var first := if IsDocStatement(c) then [] else [c];
      SerializeAllAppend(first, NonDocChildren(cs[1..]));
      if IsDocStatement(c) {
        assert SerializeAll(first) == "";
        assert Serialize(BlankLine()) == "";
      } else {
        assert SerializeAll(first) == Serialize(c) by {
          assert first[1..] == [];
        }
      }
    }
  }

  /** After one pass nothing is left to strip: a second fixer finds no
      docstring and changes nothing. */
  lemma {:induction false} StripChildrenIdempotent(doc: Option<string>, cs: seq<Tree>, doc2: Option<string>)
    ensures StripChildren(doc2, StripChildren(doc, cs).1) == (doc2, StripChildren(doc, cs).1)
    decreases |cs|
  {
    if |cs| > 0 {
      var c := cs[0];
      var doc' := if IsDocStatement(c) then Some(c.children[0].value) else doc;
      StripChildrenIdempotent(doc', cs[1..], doc2);
      var out := StripChildren(doc, cs).1;
      assert out[1..] == StripChildren(doc', cs[1..]).1;
      assert !IsDocStatement(out[0]);
      assert out == [out[0]] + out[1..];
    }
  }

  lemma TransformIdempotent(doc: Option<string>, t: Tree)
    ensures Transform(None, Transform(doc, t).1) == (None, Transform(doc, t).1)
  {
    if t.Node? && t.sym == FileInput {
      StripChildrenIdempotent(doc, t.children, None);
    }
  }

  /** `split_docstring` on a parsed module: the code without docstrings
      and the last docstring literal with empty lines around it removed. */
  function SplitDocstring(tree: Tree): (r: (string, string))
    ensures !(tree.Node? && tree.sym == FileInput) ==> r == (Serialize(tree), "")
    ensures tree.Node? && tree.sym == FileInput ==> r.0 == SerializeAll(NonDocChildren(tree.children))
  {
    var out := Transform(None, tree);
    assert tree.Node? && tree.sym == FileInput ==> Serialize(out.1) == SerializeAll(NonDocChildren(tree.children)) by {
      if tree.Node? && tree.sym == FileInput {
        StrippedText(None, tree.children);
      }
    }
    (Serialize(out.1), StripEmptyLines(out.0.GetOr("")))
  }
}

=== FILE: errors.dfy ===
/** Failure-compatible result type shared by every component, and the Python
    exception classes the modelled code raises. */
module Errors {

  /** The exceptions raised by the modelled code, by class. */
  datatype Error =
    | ValueError(msg: string)
    | TypeError(msg: string)
    | KeyError
    | IndexError
    | AttributeError(attr: string)
    | AssertionError
    | FixerError(msg: string)
    | NameError
    | IOError(msg: string)
    | RuntimeError(msg: string)

  /** Python's message for `None + '_'`, a `NoneType` added to a `str`. */
  const NoneConcat: string := "unsupported operand type(s) for +: 'NoneType' and 'str'"

  datatype Option<+T> = None | Some(value: T) {
    function GetOr(default: T): T {
      match this
      case Some(v) => v
      case None => default
    }
  }

  datatype Result<+T> = Ok(value: T) | Err(error: Error) {
    predicate IsFailure() {
      Err?
    }

    function PropagateFailure<U>(): Result<U>
      requires Err?
    {
      Err(error)
    }

    function Extract(): T
      requires Ok?
    {
      value
    }
  }
}

=== FILE: file_list.dfy ===
/** The `FileList` widget of ui/FileList.py: the files a converter will
    write, sorted, laid out as an indented tree and coloured by whether
    they exist. The dialog calls themselves are not modelled; `Render`
    gives the text and colour of each row. */
module FileListWidget {
  import opened Errors
  import opened Text
  import opened Nodes
  import opened Paths
  import opened FileTree

  /** `a <= b` for Python strings: code point by code point, a prefix
      first. */
  predicate StrLe(a: string, b: string)
    decreases |a|
  {
    |a| == 0 || (|b| > 0 && (a[0] < b[0] || (a[0] == b[0] && StrLe(a[1..], b[1..]))))
  }

  lemma {:induction false} StrLeTotal(a: string, b: string)
    ensures StrLe(a, b) || StrLe(b, a)
    decreases |a|
  {
    if |a| > 0 && |b| > 0 && a[0] == b[0] {
      StrLeTotal(a[1..], b[1..]);
    }
  }

  lemma {:induction false} StrLeTrans(a: string, b: string, c: string)
    requires StrLe(a, b) && StrLe(b, c)
    ensures StrLe(a, c)
    decreases |a|
  {
    if |a| > 0 && a[0] == b[0] && b[0] == c[0] {
      StrLeTrans(a[1..], b[1..], c[1..]);
    }
  }

  /** The key a converter gives each file it writes (`plugin`, `directory`, ...). */
  type FileId = string

  /** The sort key of one `(id, path)` item of `files.items()`. */
  function SortKey(x: (FileId, string)): string {
    Lower(x.1)
  }

  predicate SortedByPath(s: seq<(FileId, string)>) {
    forall i :: 0 < i < |s| ==> StrLe(SortKey(s[i - 1]), SortKey(s[i]))
  }

  /** Puts `x` before the first item it does not sort after. */
  function Insert(x: (FileId, string), s: seq<(FileId, string)>): (r: seq<(FileId, string)>)
    requires SortedByPath(s)
    ensures SortedByPath(r) && multiset(r) == multiset(s) + multiset{x}
    ensures |r| > 0 && (r[0] == x || (|s| > 0 && r[0] == s[0]))
  {
    if |s| == 0 || StrLe(SortKey(x), SortKey(s[0])) then [x] + s
    else
      StrLeTotal(SortKey(x), SortKey(s[0]));
      var rest := Insert(x, s[1..]);
      assert s == [s[0]] + s[1..];
      [s[0]] + rest
  }

  /** `sorted(files.items(), key=lambda x: x[1].lower())`. */
  function SortFiles(files: seq<(FileId, string)>): (r: seq<(FileId, string)>)
    ensures SortedByPath(r) && multiset(r) == multiset(files)
  {
    if |files| == 0 then []
    else
      assert files == [files[0]] + files[1..];
      Insert(files[0], SortFiles(files[1..]))
  }

  /** Neighbours in order make every pair in order. */
  lemma {:induction false} SortedPairwise(s: seq<(FileId, string)>, i: nat, j: nat)
    requires SortedByPath(s) && i <= j < |s|
    ensures StrLe(SortKey(s[i]), SortKey(s[j]))
    decreases j - i
  {
    if i == j {
      StrLeRefl(SortKey(s[i]));
    } else {
      SortedPairwise(s, i + 1, j);
      StrLeTrans(SortKey(s[i]), SortKey(s[i + 1]), SortKey(s[j]));
    }
  }

  lemma {:induction false} StrLeRefl(a: string)
    ensures StrLe(a, a)
    decreases |a|
  {
    if |a| > 0 {
      StrLeRefl(a[1..]);
    }
  }

  /** The file name of an item. */
  function FileKey(x: (FileId, string)): string {
    x.1
  }

  datatype FileList = FileList(
    parentPath: string,
    tree: Tree<(FileId, string)>,
    flatNodes: seq<nat>,
    optional: set<FileId>,
    overwrite: bool)

  /** A fresh widget: no files, overwrite off. */
  function NewFileList(): (w: FileList)
    ensures w.flatNodes == [] && w.optional == {} && !w.overwrite
  {
    FileList("", Empty(), [], {}, false)
  }

  /** What `render` needs: the flat nodes are the tree's entries. */
  ghost predicate Valid(w: FileList) {
    TreeInv(w.tree, FileKey) && forall id :: id in w.flatNodes <==> id in w.tree.forest
  }

  /** `set_files`: the tree of the files sorted by lower-cased path, all of
      its entries as rows, and the optional ids as a set. */
  function SetFiles(w: FileList, files: seq<(FileId, string)>, parent: string, optionalIds: seq<FileId>): (r: FileList)
    ensures Valid(r) && NoDups(r.flatNodes)
    ensures forall q :: q in r.tree.entries <==> exists i :: 0 <= i < |files| && q in PathParents(files[i].1)
    ensures forall k :: k in r.optional <==> k in optionalIds
    ensures r.parentPath == parent && r.overwrite == w.overwrite
  {
    var sorted := SortFiles(files);
    var built := FileTreeOf(sorted, FileKey, true);
    SortedFilesContribute(files, sorted);
    FileList(parent, built.0, built.1, (set k | k in optionalIds), w.overwrite)
  }

  lemma SortedFilesContribute(files: seq<(FileId, string)>, sorted: seq<(FileId, string)>)
    requires multiset(sorted) == multiset(files)
    ensures forall q :: Contributed(sorted, FileKey, q) <==> exists i :: 0 <= i < |files| && q in PathParents(files[i].1)
  {
    forall q
      ensures Contributed(sorted, FileKey, q) <==> exists i :: 0 <= i < |files| && q in PathParents(files[i].1)
    {
      if Contributed(sorted, FileKey, q) {
        var i :| 0 <= i < |sorted| && q in PathParents(FileKey(sorted[i]));
        assert sorted[i] in multiset(files);
        var j :| 0 <= j < |files| && files[j] == sorted[i];
      }
      if i :| 0 <= i < |files| && q in PathParents(files[i].1) {
        assert files[i] in multiset(sorted);
        var j :| 0 <= j < |sorted| && sorted[j] == files[i];
        assert q in PathParents(FileKey(sorted[j]));
      }
    }
  }

  function SetOverwrite(w: FileList, overwrite: bool): (r: FileList)
    ensures r.overwrite == overwrite && r.flatNodes == w.flatNodes && r.tree == w.tree
  {
    w.(overwrite := overwrite)
  }

  datatype Colour = Blue | Yellow | Red

  /** A row's label: two spaces per level, the base name, and `/` after a
      directory. */
  function Label(depth: nat, path: string, isdir: bool): string {
    Repeat("  ", depth) + Basename(path) + (if isdir then "/" else "")
  }

  /** A label ends in `/` exactly for a directory, and is indented by two
      spaces per level. */
  lemma LabelShape(depth: nat, path: string, isdir: bool)
    ensures var l := Label(depth, path, isdir);
            (|l| > 0 && l[|l| - 1] == '/' <==> isdir)
            && |l| == 2 * depth + |Basename(path)| + (if isdir then 1 else 0)
            && (forall i :: 0 <= i < 2 * depth ==> l[i] == ' ')
  {
    var l := Label(depth, path, isdir);
    RepeatSpaces(depth);
    var b := Basename(path);
    if !isdir && |l| > 0 {
      if |b| > 0 {
        assert l[|l| - 1] == b[|b| - 1];
        assert b[|b| - 1] in b;
      } else {
        assert l[|l| - 1] == Repeat("  ", depth)[|l| - 1];
      }
    }
  }

  lemma {:induction false} RepeatSpaces(n: nat)
    ensures forall i :: 0 <= i < |Repeat("  ", n)| ==> Repeat("  ", n)[i] == ' '
  {
    if n > 0 {
      RepeatSpaces(n - 1);
      var r := Repeat("  ", n);
      assert r == "  " + Repeat("  ", n - 1);
      forall i | 0 <= i < |r|
        ensures r[i] == ' '
      {
        if i >= 2 {
          assert r[i] == Repeat("  ", n - 1)[i - 2];
        }
      }
    }
  }

  /** The colour of a row: none for a directory or a missing file, blue
      for an optional file, yellow when overwriting, red otherwise. */
  function RowColour(isdir: bool, isFile: bool, optional: bool, overwrite: bool): (c: Option<Colour>)
    ensures c.None? <==> isdir || !isFile
    ensures c == Some(Blue) <==> !isdir && isFile && optional
    ensures c == Some(Yellow) <==> !isdir && isFile && !optional && overwrite
    ensures c == Some(Red) <==> !isdir && isFile && !optional && !overwrite
  {
    if isdir || !isFile then None
    else if optional then Some(Blue)
    else if overwrite then Some(Yellow)
    else Some(Red)
  }

  datatype Row = Row(text: string, colour: Option<Colour>)

  /** What `render` needs of the tree: its nodes linked and ranked by
      creation order, and every row a node. */
  predicate Renderable(w: FileList) {
    Numbered(w.tree) && Linked(w.tree.forest) && Ranked(w.tree.forest, Rank(w.tree))
    && forall id :: id in w.flatNodes ==> id in w.tree.forest
  }

  lemma ValidRenderable(w: FileList)
    requires Valid(w)
    ensures Renderable(w)
  {
    TreeRanked(w.tree);
  }

  /** `row` is the row `render` shows for node `id`: its label at its
      depth, coloured by the entry's kind and file. */
  ghost predicate RowFits(w: FileList, isFile: string -> bool, id: nat, row: Row) {
    Closed(w.tree.forest) && id in w.tree.forest
    && var e := w.tree.forest[id].data;
    (exists d: nat :: row.text == Label(d, e.path, e.isdir) && IsDepth(w.tree.forest, id, d))
    && row.colour == RowColour(e.isdir, isFile(e.path), e.data.0 in w.optional, w.overwrite)
  }

  /** The row of one node: its depth counted up the parent chain. */
  method RenderRow(w: FileList, isFile: string -> bool, id: nat) returns (row: Row)
    requires Renderable(w) && id in w.tree.forest
    ensures RowFits(w, isFile, id, row)
  {
    var f := w.tree.forest;
    var d := Depth(f, Rank(w.tree), id, _ => false);
    var e := f[id].data;
    row := Row(Label(d, e.path, e.isdir), RowColour(e.isdir, isFile(e.path), e.data.0 in w.optional, w.overwrite));
    assert IsDepth(f, id, d);
  }

  /** `render`: one row per flat node, in order. `isFile` answers
      `os.path.isfile` for a path joined to the parent directory. */
  method Render(w: FileList, isFile: string -> bool) returns (rows: seq<Row>)
    requires Renderable(w)
    ensures |rows| == |w.flatNodes|
    ensures forall i :: 0 <= i < |rows| ==> RowFits(w, isFile, w.flatNodes[i], rows[i])
  {
    rows := [];
    for k := 0 to |w.flatNodes|
      invariant |rows| == k
      invariant forall i :: 0 <= i < k ==> RowFits(w, isFile, w.flatNodes[i], rows[i])
    {
      assert w.flatNodes[k] in w.flatNodes;
      var row := RenderRow(w, isFile, w.flatNodes[k]);
      RowsSnoc(w, isFile, rows, row);
      rows := rows + [row];
    }
  }

  lemma RowsSnoc(w: FileList, isFile: string -> bool, rows: seq<Row>, row: Row)
    requires |rows| < |w.flatNodes|
    requires forall i :: 0 <= i < |rows| ==> RowFits(w, isFile, w.flatNodes[i], rows[i])
    requires RowFits(w, isFile, w.flatNodes[|rows|], row)
    ensures forall i :: 0 <= i <= |rows| ==> RowFits(w, isFile, w.flatNodes[i], (rows + [row])[i])
  {
    forall i | 0 <= i <= |rows|
      ensures RowFits(w, isFile, w.flatNodes[i], (rows + [row])[i])
    {
      if i < |rows| {
        assert (rows + [row])[i] == rows[i];
      }
    }
  }

  /** `d` is the number of ancestors of `id`. */
  ghost predicate IsDepth<V>(f: Forest<V>, id: nat, d: nat)
    requires Closed(f) && id in f
  {
    (forall j :: 0 <= j < d ==> AncestorAt(f, id, j).Some?) && AncestorAt(f, id, d).None?
  }
}

=== FILE: file_tree.dfy ===
/** `file_tree` of ui/FileList.py (and its older copy in plugin_main.py):
    a tree of `Node`s with one entry per path prefix of the given file
    names, each entry a child of the entry for its directory.

    Entries are numbered in creation order; `entries` maps each path to its
    entry. File names are taken as already normalised (`normpath` and the
    `relpath` against `parent` are not modelled). */
module FileTree {
  import opened Errors
  import opened Nodes
  import opened Paths
  import opened Text

  /** The `Data(path, isdir, data)` namedtuple every entry carries. */
  datatype Entry<D> = Entry(path: string, isdir: bool, data: D)

  datatype Tree<D> = Tree(forest: Forest<Entry<D>>, entries: map<string, nat>, count: nat)

  function Empty<D>(): (t: Tree<D>)
    ensures t.forest == map[] && t.entries == map[] && t.count == 0
  {
    Tree(map[], map[], 0)
  }

  /** Entries are numbered below `count`, and `entries` points at them. */
  predicate Numbered<D>(t: Tree<D>) {
    (forall id :: id in t.forest ==> id < t.count)
    && (forall q :: q in t.entries ==> t.entries[q] in t.forest)
  }

  /** The entries are exactly the nodes `0 .. count - 1`. */
  ghost predicate Dense<D>(t: Tree<D>) {
    Numbered(t)
    && (forall id: nat :: id < t.count ==> id in t.forest)
    && |t.forest| == t.count
  }

  /** `entries` and the entries' paths are inverse to each other, so each
      path has exactly one entry. */
  ghost predicate OneEntryPerPath<D>(t: Tree<D>) {
    (forall q :: q in t.entries ==> t.entries[q] in t.forest && t.forest[t.entries[q]].data.path == q)
    && (forall id :: id in t.forest ==> t.forest[id].data.path in t.entries
                                        && t.entries[t.forest[id].data.path] == id)
  }

  /** The entry of a path where `path_parents` stops has no parent. */
  ghost predicate TopsParentless<D>(t: Tree<D>)
    requires Numbered(t)
  {
    forall q :: q in t.entries && Top(q) ==> t.forest[t.entries[q]].parent.None?
  }

  /** Any other entry's parent is the entry of its `dirname`. */
  ghost predicate ParentIsDirEntry<D>(t: Tree<D>)
    requires Numbered(t)
  {
    forall q :: q in t.entries && !Top(q) ==>
      Dirname(q) in t.entries && t.forest[t.entries[q]].parent == Some(t.entries[Dirname(q)])
  }

  /** Entries hang off the entries of their directories, created earlier. */
  ghost predicate ParentIsDirname<D>(t: Tree<D>) {
    Numbered(t) && TopsParentless(t) && ParentIsDirEntry(t) && ParentsOlder(t.forest)
  }

  /** Every parent was created before its children. */
  predicate ParentsOlder<V>(f: Forest<V>) {
    forall id :: id in f && f[id].parent.Some? ==> f[id].parent.value < id
  }

  /** An entry is a directory exactly when its path differs from the file
      name of the item it was created for. */
  ghost predicate DirFlags<D>(t: Tree<D>, key: D -> string) {
    forall id :: id in t.forest ==>
      (t.forest[id].data.isdir <==> t.forest[id].data.path != key(t.forest[id].data.data))
  }

  /** What `file_tree` keeps true after every step, for the key function
      that gives each item's file name. */
  ghost predicate TreeInv<D>(t: Tree<D>, key: D -> string) {
    Dense(t) && Linked(t.forest) && OneEntryPerPath(t) && ParentIsDirname(t) && DirFlags(t, key)
  }

  lemma EmptyInv<D>(key: D -> string)
    ensures TreeInv(Empty<D>(), key)
  {
  }

  /** One step of the inner loop: reuse the entry for `q`, or create it
      (a directory unless `q` is the file name itself) and attach it to the
      entry of the previous path. */
  function Place<D>(t: Tree<D>, q: string, filename: string, data: D, pe: Option<nat>): (r: Result<(Tree<D>, nat)>)
    requires Numbered(t) && (pe.Some? ==> pe.value in t.forest)
    ensures r.Ok? ==> Numbered(r.value.0) && r.value.1 in r.value.0.forest
                      && t.forest.Keys <= r.value.0.forest.Keys
  {
    if q in t.entries then Ok((t, t.entries[q]))
    else
      var f1 := Fresh(t, q, filename, data);
      var f2 :- if pe.Some? then AddChild(f1, pe.value, t.count) else Ok(f1);
      Ok((Tree(f2, t.entries[q := t.count], t.count + 1), t.count))
  }

  /** `u` is `t` with one more entry, numbered `count`, for path `q`,
      with the given payload and parent; older nodes are as they were. */
  ghost predicate Grown<D>(t: Tree<D>, u: Tree<D>, q: string, e: Entry<D>, pe: Option<nat>) {
    u.count == t.count + 1 && u.entries == t.entries[q := t.count]
    && u.forest.Keys == t.forest.Keys + {t.count} && |u.forest| == |t.forest| + 1
    && t.count in u.forest && u.forest[t.count].data == e && u.forest[t.count].parent == pe
    && forall id :: id in t.forest ==> id in u.forest && u.forest[id].data == t.forest[id].data
                                       && u.forest[id].parent == t.forest[id].parent
  }

  /** The node created for a new path, before it is attached. */
  function Fresh<D>(t: Tree<D>, q: string, filename: string, x: D): (f: Forest<Entry<D>>)
    requires Numbered(t)
    ensures f.Keys == t.forest.Keys + {t.count} && t.count !in t.forest
    ensures f[t.count] == NodeRec(None, [], Entry(q, q != filename, x))
    ensures forall id :: id in t.forest ==> f[id] == t.forest[id]
  {
    t.forest[t.count := NodeRec(None, [], Entry(q, q != filename, x))]
  }

  lemma FreshGrows<D>(t: Tree<D>, q: string, filename: string, x: D)
    requires Numbered(t) && Linked(t.forest)
    ensures Linked(Fresh(t, q, filename, x))
    ensures |Fresh(t, q, filename, x)| == |t.forest| + 1
  {
    InsertFreshKeepsLinked(t.forest, t.count, NodeRec(None, [], Entry(q, q != filename, x)));
  }

  /** Creating the entry for a new path grows the tree by one linked node. */
  lemma PlaceNewForest<D>(t: Tree<D>, q: string, filename: string, x: D, pe: Option<nat>)
    requires Numbered(t) && Linked(t.forest) && q !in t.entries && (pe.Some? ==> pe.value in t.forest)
    ensures Place(t, q, filename, x, pe).Ok?
    ensures var r := Place(t, q, filename, x, pe).value;
            r.1 == t.count && Linked(r.0.forest)
            && Grown(t, r.0, q, Entry(q, q != filename, x), pe)
  {
    FreshGrows(t, q, filename, x);
    if pe.Some? {
      PlaceUnder(t, q, filename, x, pe.value);
    }
  }

  lemma PlaceUnder<D>(t: Tree<D>, q: string, filename: string, x: D, p: nat)
    requires Numbered(t) && Linked(Fresh(t, q, filename, x)) && q !in t.entries && p in t.forest
    requires |Fresh(t, q, filename, x)| == |t.forest| + 1
    ensures Place(t, q, filename, x, Some(p)).Ok?
    ensures var r := Place(t, q, filename, x, Some(p)).value;
            r.1 == t.count && Linked(r.0.forest)
            && Grown(t, r.0, q, Entry(q, q != filename, x), Some(p))
  {
    AttachFresh(t, Fresh(t, q, filename, x), Entry(q, q != filename, x), p);
  }

  lemma AttachFresh<D>(t: Tree<D>, f1: Forest<Entry<D>>, e: Entry<D>, p: nat)
    requires Linked(f1) && p in t.forest && |f1| == |t.forest| + 1
    requires f1.Keys == t.forest.Keys + {t.count} && t.count !in t.forest
    requires f1[t.count].data == e
    requires forall id :: id in t.forest ==> f1[id] == t.forest[id]
    ensures AddChild(f1, p, t.count).Ok? && AttachedFresh(t, AddChild(f1, p, t.count).value, e, p)
  {
    var f2 := AddChildKept(f1, p, t.count);
    assert |f2| == |f2.Keys| == |f1.Keys| == |f1|;
  }

  /** `f2` is the tree's forest plus a linked node `count` under `p`. */
  ghost predicate AttachedFresh<D>(t: Tree<D>, f2: Forest<Entry<D>>, e: Entry<D>, p: nat) {
    Linked(f2) && |f2| == |t.forest| + 1 && f2.Keys == t.forest.Keys + {t.count}
    && f2[t.count].data == e && f2[t.count].parent == Some(p)
    && forall id :: id in t.forest ==> f2[id].data == t.forest[id].data && f2[id].parent == t.forest[id].parent
  }

  lemma GrownDense<D>(t: Tree<D>, u: Tree<D>, q: string, e: Entry<D>, pe: Option<nat>)
    requires Dense(t) && Grown(t, u, q, e, pe) && (pe.Some? ==> pe.value in t.forest)
    ensures Dense(u)
  {
    forall id: nat | id < u.count
      ensures id in u.forest
    {
      if id < t.count {
        assert id in t.forest;
      }
    }
  }

  lemma GrownOneEntryPerPath<D>(t: Tree<D>, u: Tree<D>, q: string, e: Entry<D>, pe: Option<nat>)
    requires Numbered(t) && OneEntryPerPath(t) && q !in t.entries && e.path == q && Grown(t, u, q, e, pe)
    ensures OneEntryPerPath(u)
  {
    forall p | p in u.entries
      ensures u.entries[p] in u.forest && u.forest[u.entries[p]].data.path == p
    {
      if p != q {
        assert u.entries[p] == t.entries[p];
      }
    }
    forall id | id in u.forest
      ensures u.forest[id].data.path in u.entries && u.entries[u.forest[id].data.path] == id
    {
      if id != t.count {
        assert id in t.forest;
        var p := t.forest[id].data.path;
        assert u.forest[id].data.path == p && p in t.entries && p != q;
      }
    }
  }

  lemma GrownTopsParentless<D>(t: Tree<D>, u: Tree<D>, q: string, e: Entry<D>, pe: Option<nat>)
    requires Numbered(t) && Numbered(u) && TopsParentless(t) && q !in t.entries && Grown(t, u, q, e, pe)
    requires Top(q) ==> pe.None?
    ensures TopsParentless(u)
  {
    forall p | p in u.entries && Top(p)
      ensures u.forest[u.entries[p]].parent.None?
    {
      if p != q {
        assert u.entries[p] == t.entries[p];
      }
    }
  }

  lemma GrownParentIsDirEntry<D>(t: Tree<D>, u: Tree<D>, q: string, e: Entry<D>, pe: Option<nat>)
    requires Numbered(t) && Numbered(u) && ParentIsDirEntry(t) && q !in t.entries && Grown(t, u, q, e, pe)
    requires pe.Some? ==> !Top(q) && Dirname(q) in t.entries && pe.value == t.entries[Dirname(q)]
    requires !Top(q) ==> pe.Some?
    ensures ParentIsDirEntry(u)
  {
    forall p | p in u.entries && !Top(p)
      ensures Dirname(p) in u.entries && u.forest[u.entries[p]].parent == Some(u.entries[Dirname(p)])
    {
      if p != q {
        assert Dirname(p) in t.entries;
        assert u.entries[p] == t.entries[p];
      }
    }
  }

  lemma GrownParentsOlder<D>(t: Tree<D>, u: Tree<D>, q: string, e: Entry<D>, pe: Option<nat>)
    requires Numbered(t) && ParentsOlder(t.forest) && Grown(t, u, q, e, pe)
    requires pe.Some? ==> pe.value in t.forest
    ensures ParentsOlder(u.forest)
  {
    forall id | id in u.forest && u.forest[id].parent.Some?
      ensures u.forest[id].parent.value < id
    {
      if id != t.count {
        assert id in t.forest;
      }
    }
  }

  lemma GrownParentIsDirname<D>(t: Tree<D>, u: Tree<D>, q: string, e: Entry<D>, pe: Option<nat>)
    requires Numbered(u) && ParentIsDirname(t) && q !in t.entries && Grown(t, u, q, e, pe)
    requires pe.None? ==> Top(q)
    requires pe.Some? ==> !Top(q) && Dirname(q) in t.entries && pe.value == t.entries[Dirname(q)]
    ensures ParentIsDirname(u)
  {
    GrownTopsParentless(t, u, q, e, pe);
    GrownParentIsDirEntry(t, u, q, e, pe);
    GrownParentsOlder(t, u, q, e, pe);
  }

  lemma GrownDirFlags<D>(t: Tree<D>, u: Tree<D>, key: D -> string, q: string, x: D, pe: Option<nat>)
    requires DirFlags(t, key) && Grown(t, u, q, Entry(q, q != key(x), x), pe)
    ensures DirFlags(u, key)
  {
  }

  /** Creating the entry for a path keeps the invariant, provided its
      parent is the entry of its `dirname` (or none, where `path_parents`
      stops). */
  lemma PlaceNewKeepsInv<D>(t: Tree<D>, key: D -> string, q: string, x: D, pe: Option<nat>)
    requires TreeInv(t, key) && q !in t.entries
    requires pe.None? ==> Top(q)
    requires pe.Some? ==> !Top(q) && Dirname(q) in t.entries && pe.value == t.entries[Dirname(q)]
    ensures Place(t, q, key(x), x, pe).Ok?
    ensures TreeInv(Place(t, q, key(x), x, pe).value.0, key)
    ensures Place(t, q, key(x), x, pe).value.0.entries == t.entries[q := t.count]
  {
    PlaceNewForest(t, q, key(x), x, pe);
    var u := Place(t, q, key(x), x, pe).value.0;
    var e := Entry(q, q != key(x), x);
    GrownDense(t, u, q, e, pe);
    assert Numbered(u);
    GrownOneEntryPerPath(t, u, q, e, pe);
    GrownParentIsDirname(t, u, q, e, pe);
    GrownDirFlags(t, u, key, q, x, pe);
    assert TreeInv(u, key);
  }

  /** Reusing an existing entry changes nothing. */
  lemma PlaceOldKeepsTree<D>(t: Tree<D>, q: string, filename: string, x: D, pe: Option<nat>)
    requires Numbered(t) && (pe.Some? ==> pe.value in t.forest) && q in t.entries
    ensures Place(t, q, filename, x, pe) == Ok((t, t.entries[q]))
  {
  }

  /** The inner loop over `reversed(list(path_parents(filename)))`, from
      position `k` on, with `pe` the entry of the previous path. */
  function Walk<D>(t: Tree<D>, rev: seq<string>, k: nat, filename: string, data: D, pe: Option<nat>): (r: Result<Tree<D>>)
    requires k <= |rev| && Numbered(t) && (pe.Some? ==> pe.value in t.forest)
    ensures r.Ok? ==> Numbered(r.value)
    decreases |rev| - k
  {
    if k == |rev| then Ok(t)
    else
      var placed :- Place(t, rev[k], filename, data, pe);
      Walk(placed.0, rev, k + 1, filename, data, Some(placed.1))
  }

  /** One step of the walk keeps the invariant and records the path. */
  lemma WalkStep<D>(t: Tree<D>, key: D -> string, rev: seq<string>, k: nat, x: D, pe: Option<nat>)
    returns (nt: Tree<D>, id: nat)
    requires TreeInv(t, key) && WellChained(rev) && k < |rev|
    requires k == 0 ==> pe.None?
    requires k > 0 ==> rev[k - 1] in t.entries && pe == Some(t.entries[rev[k - 1]])
    ensures Place(t, rev[k], key(x), x, pe) == Ok((nt, id))
    ensures TreeInv(nt, key) && nt.entries == t.entries[rev[k] := id]
  {
    var q := rev[k];
    if q in t.entries {
      PlaceOldKeepsTree(t, q, key(x), x, pe);
      nt, id := t, t.entries[q];
    } else {
      if k > 0 {
        assert rev[k - 1] == Dirname(q);
      }
      PlaceNewKeepsInv(t, key, q, x, pe);
      nt, id := Place(t, q, key(x), x, pe).value.0, Place(t, q, key(x), x, pe).value.1;
      PlaceNewForest(t, q, key(x), x, pe);
    }
  }

  lemma WalkUnfold<D>(t: Tree<D>, rev: seq<string>, k: nat, filename: string, x: D, pe: Option<nat>, nt: Tree<D>, id: nat)
    requires Numbered(t) && k < |rev| && (pe.Some? ==> pe.value in t.forest)
    requires Place(t, rev[k], filename, x, pe) == Ok((nt, id))
    ensures Numbered(nt) && id in nt.forest
    ensures Walk(t, rev, k, filename, x, pe) == Walk(nt, rev, k + 1, filename, x, Some(id))
  {
  }

  /** The walk over a chain keeps the invariant. */
  lemma {:induction false} WalkKeepsInv<D>(t: Tree<D>, key: D -> string, rev: seq<string>, k: nat, x: D, pe: Option<nat>)
    requires TreeInv(t, key) && WellChained(rev) && k <= |rev|
    requires k == 0 ==> pe.None?
    requires k > 0 ==> rev[k - 1] in t.entries && pe == Some(t.entries[rev[k - 1]])
    ensures Walk(t, rev, k, key(x), x, pe).Ok?
    ensures TreeInv(Walk(t, rev, k, key(x), x, pe).value, key)
    decreases |rev| - k
  {
    if k < |rev| {
      var nt, id := WalkStep(t, key, rev, k, x, pe);
      WalkKeepsInv(nt, key, rev, k + 1, x, Some(id));
      WalkUnfold(t, rev, k, key(x), x, pe, nt, id);
    }
  }

  /** A successful walk reuses every existing entry and adds exactly the
      chain's paths that had none. */
  lemma {:induction false} WalkEntries<D>(t: Tree<D>, rev: seq<string>, k: nat, filename: string, x: D, pe: Option<nat>)
    requires Numbered(t) && k <= |rev| && (pe.Some? ==> pe.value in t.forest)
    requires Walk(t, rev, k, filename, x, pe).Ok?
    ensures var u := Walk(t, rev, k, filename, x, pe).value;
            (forall q :: q in u.entries <==> q in t.entries || q in rev[k..])
            && (forall q :: q in t.entries ==> u.entries[q] == t.entries[q])
    decreases |rev| - k
  {
    if k < |rev| {
      var placed := Place(t, rev[k], filename, x, pe).value;
      assert placed.0.entries == t.entries[rev[k] := placed.1];
      WalkEntries(placed.0, rev, k + 1, filename, x, Some(placed.1));
      SliceMembers(rev, k);
    }
  }

  lemma SliceMembers<T>(s: seq<T>, k: nat)
    requires k < |s|
    ensures forall y :: y in s[k..] <==> y == s[k] || y in s[k + 1..]
  {
    assert s[k..] == [s[k]] + s[k + 1..];
  }

  /** The paths an item contributes, outermost first. */
  function WalkOrder(filename: string): seq<string> {
    Reverse(PathParents(filename))
  }

  /** The outer loop over the items. */
  function Build<D>(items: seq<D>, key: D -> string): (r: Result<Tree<D>>)
    ensures r.Ok? ==> Numbered(r.value)
    decreases |items|
  {
    if |items| == 0 then Ok(Empty())
    else
      var t :- Build(items[..|items| - 1], key);
      var x := items[|items| - 1];
      Walk(t, WalkOrder(key(x)), 0, key(x), x, None)
  }

  lemma ReverseMembers<T>(s: seq<T>)
    ensures forall y :: y in Reverse(s) <==> y in s
  {
    var r := Reverse(s);
    forall y | y in s
      ensures y in r
    {
      var i :| 0 <= i < |s| && s[i] == y;
      assert r[|s| - 1 - i] == y;
    }
  }

  /** Some item contributes path `q`. */
  ghost predicate Contributed<D>(items: seq<D>, key: D -> string, q: string) {
    exists i :: 0 <= i < |items| && q in PathParents(key(items[i]))
  }

  /** `file_tree` succeeds on every list of items and keeps the
      invariant. */
  lemma {:induction false} BuildInv<D>(items: seq<D>, key: D -> string)
    ensures Build(items, key).Ok?
    ensures TreeInv(Build(items, key).value, key)
    decreases |items|
  {
    if |items| == 0 {
      EmptyInv<D>(key);
    } else {
      var init := items[..|items| - 1];
      BuildInv(init, key);
      var t := Build(init, key).value;
      var x := items[|items| - 1];
      WalkOrderWellChained(key(x));
      WalkKeepsInv(t, key, WalkOrder(key(x)), 0, x, None);
    }
  }

  /** The paths of a list of items are those of all but the last, and
      the last one's. */
  lemma ContributedSnoc<D>(items: seq<D>, key: D -> string, q: string)
    requires |items| > 0
    ensures Contributed(items, key, q) <==>
              Contributed(items[..|items| - 1], key, q) || q in PathParents(key(items[|items| - 1]))
  {
    var init := items[..|items| - 1];
    if Contributed(items, key, q) {
      var i :| 0 <= i < |items| && q in PathParents(key(items[i]));
      if i < |items| - 1 {
        assert init[i] == items[i];
      }
    }
    if Contributed(init, key, q) {
      var i :| 0 <= i < |init| && q in PathParents(key(init[i]));
      assert init[i] == items[i];
    }
  }

  /** The tree has an entry for exactly the paths `path_parents` gives for
      some item: one entry per distinct prefix, reused across items. */
  lemma {:induction false} BuildEntries<D>(items: seq<D>, key: D -> string)
    requires Build(items, key).Ok?
    ensures forall q :: q in Build(items, key).value.entries <==> Contributed(items, key, q)
    decreases |items|
  {
    if |items| > 0 {
      var init := items[..|items| - 1];
      BuildEntries(init, key);
      var t := Build(init, key).value;
      var x := items[|items| - 1];
      var rev := WalkOrder(key(x));
      WalkEntries(t, rev, 0, key(x), x, None);
      ReverseMembers(PathParents(key(x)));
      assert rev[0..] == rev;
      forall q
        ensures q in Build(items, key).value.entries <==> Contributed(items, key, q)
      {
        ContributedSnoc(items, key, q);
      }
    }
  }

  /** The parentless entries among the first `n`, in creation order. */
  function RootsBelow<D>(t: Tree<D>, n: nat): (r: seq<nat>)
    ensures forall id :: id in r <==> id < n && id in t.forest && t.forest[id].parent.None?
    ensures forall i, j :: 0 <= i < j < |r| ==> r[i] < r[j]
  {
    if n == 0 then []
    else
      var id := n - 1;
      var pre := RootsBelow(t, id);
      assert forall i :: 0 <= i < |pre| ==> pre[i] in pre;
      pre + (if id in t.forest && t.forest[id].parent.None? then [id] else [])
  }

  /** `roots`: every parentless entry once. The source iterates a Python 2
      dict here, whose order is unspecified; creation order is one of the
      orders it may produce. */
  function Roots<D>(t: Tree<D>): (r: seq<nat>)
    requires Numbered(t)
    ensures forall id :: id in r <==> id in t.forest && t.forest[id].parent.None?
    ensures forall i, j :: 0 <= i < j < |r| ==> r[i] != r[j]
  {
    RootsBelow(t, t.count)
  }

  /** Later entries rank lower, so a child (always created after its
      parent) ranks below its parent. */
  function Rank<D>(t: Tree<D>): (rank: map<nat, nat>)
    requires Numbered(t)
    ensures rank.Keys == t.forest.Keys
    ensures forall a, b :: a in rank && b in rank && a < b ==> rank[b] < rank[a]
  {
    map id | id in t.forest :: t.count - 1 - id
  }

  lemma TreeRanked<D>(t: Tree<D>)
    requires Numbered(t) && |t.forest| == t.count && Linked(t.forest) && ParentsOlder(t.forest)
    ensures Ranked(t.forest, Rank(t))
  {
    var f, rank := t.forest, Rank(t);
    forall p, c | p in f && c in f[p].children
      ensures rank[c] < rank[p]
    {
      assert f[c].parent == Some(p);
    }
  }

  /** The flat result: each root's pre-order visit, one after another
      (the same loop `visit` runs over a node's children). */
  function Flat<D>(t: Tree<D>): (r: seq<nat>)
    requires TreeRankedHolds(t)
  {
    VisitAll(t.forest, Rank(t), Roots(t), |t.forest|)
  }

  /** A subtree extends through a child of any of its nodes. */
  lemma {:induction false} SubtreeGrows<V>(f: Forest<V>, rank: map<nat, nat>, r: nat, p: nat, c: nat)
    requires Ranked(f, rank) && r in f && p in f && InSubtree(f, rank, r, p) && c in f[p].children
    ensures InSubtree(f, rank, r, c)
    decreases rank[r]
  {
    if p != r {
      var d :| d in f[r].children && InSubtree(f, rank, d, p);
      SubtreeGrows(f, rank, d, p, c);
    }
  }

  /** Every entry lies below some root. */
  lemma {:induction false} RootAbove<D>(t: Tree<D>, key: D -> string, n: nat) returns (r: nat)
    requires TreeInv(t, key) && n in t.forest
    ensures r in Roots(t)
    ensures TreeRankedHolds(t) && InSubtree(t.forest, Rank(t), r, n)
    decreases n
  {
    TreeRanked(t);
    var f := t.forest;
    match f[n].parent
    case None =>
      r := n;
    case Some(p) =>
      assert n in f[p].children && p < n;
      r := RootAbove(t, key, p);
      SubtreeGrows(f, Rank(t), r, p, n);
  }

  predicate TreeRankedHolds<D>(t: Tree<D>) {
    Numbered(t) && Ranked(t.forest, Rank(t))
  }

  /** The flat result lists every entry of the tree exactly once. */
  lemma FlatListsTree<D>(t: Tree<D>, key: D -> string)
    requires TreeInv(t, key)
    ensures TreeRankedHolds(t)
    ensures forall n :: n in Flat(t) <==> n in t.forest
    ensures NoDups(Flat(t))
  {
    TreeRanked(t);
    var f, rank, roots := t.forest, Rank(t), Roots(t);
    forall n
      ensures n in Flat(t) <==> n in f
    {
      VisitAllCovers(f, rank, roots, |f|, n);
      if n in f {
        var r := RootAbove(t, key, n);
      }
      if r :| r in roots && InSubtree(f, rank, r, n) {
        SubtreeRank(f, rank, r, n);
      }
    }
    VisitAllNoDups(f, rank, roots, |f|, None);
  }

  /** `file_tree(items, flat=flat, key=key)` of ui/FileList.py: the tree,
      and its roots or, with `flat`, every entry in visiting order. */
  function FileTreeOf<D>(items: seq<D>, key: D -> string, flat: bool): (r: (Tree<D>, seq<nat>))
    ensures TreeInv(r.0, key)
    ensures forall q :: q in r.0.entries <==> Contributed(items, key, q)
    ensures !flat ==> forall id :: id in r.1 <==> id in r.0.forest && r.0.forest[id].parent.None?
    ensures flat ==> forall id :: id in r.1 <==> id in r.0.forest
    ensures NoDups(r.1)
  {
    BuildInv(items, key);
    BuildEntries(items, key);
    var t := Build(items, key).value;
    FlatListsTree(t, key);
    (t, if flat then Flat(t) else Roots(t))
  }

  /** Without a key function each item is its own file name. */
  function FileTree(items: seq<string>, key: Option<string -> string>, flat: bool): (r: (Tree<string>, seq<nat>))
    ensures key.None? ==> forall q :: q in r.0.entries <==> exists i :: 0 <= i < |items| && q in PathParents(items[i])
    ensures TreeInv(r.0, key.GetOr(x => x))
    ensures forall q :: q in r.0.entries <==> Contributed(items, key.GetOr(x => x), q)
    ensures !flat ==> forall id :: id in r.1 <==> id in r.0.forest && r.0.forest[id].parent.None?
    ensures flat ==> forall id :: id in r.1 <==> id in r.0.forest
    ensures NoDups(r.1)
  {
    FileTreeOf(items, key.GetOr(x => x), flat)
  }

  /** Python's message for calling `None`. */
  const NoneNotCallable := [SingleQuote] + "NoneType" + [SingleQuote] + " object is not callable"

  /** The older copy in plugin_main.py has no default key: calling the
      missing key on the first item fails, so only an empty list gets
      through without one. */
  function FileTreeOld<D>(items: seq<D>, key: Option<D -> string>, flat: bool): (r: Result<(Tree<D>, seq<nat>)>)
    ensures r.Err? <==> key.None? && |items| > 0
    ensures r.Err? ==> r.error == TypeError(NoneNotCallable)
    ensures key.None? && r.Ok? ==> r.value.0.entries == map[] && r.value.1 == []
    ensures key.Some? ==> r == Ok(FileTreeOf(items, key.value, flat))
  {
    match key
    case None =>
      if |items| == 0 then Ok((Empty(), []))
      else Err(TypeError(NoneNotCallable))
    case Some(k) => Ok(FileTreeOf(items, k, flat))
  }
}

=== FILE: funcdef.dfy ===
/** `FixFunctionDef`: renames a matched top-level `def`, splices extra
    parameters into its parameter list, optionally appends one statement to
    its body and optionally extracts it from the module. refactor.py only
    acts on defs whose first leaf is in column 0; codeconv.py acts on every
    match. */
module FuncDef {
  import opened Errors
  import opened Text
  import opened Cst

  /** The fixer's configuration. `addStatement == ""` stands for both
      `None` and the empty string, which the code treats alike. */
  datatype Fixer = Fixer(
    funcname: string,
    newname: string,
    pre: seq<string>,
    post: seq<string>,
    remove: bool,
    addStatement: string)

  /** What `transform` did to the matched def. `Removed` carries the def
      appended to `results`; its place in the parent is left empty. */
  datatype Outcome =
    | Untouched
    | Rewritten(node: Tree)
    | Removed(node: Tree)

  /** The pattern `funcdef< 'def' name='<funcname>' any* >`. */
  predicate Matches(f: Fixer, t: Tree) {
    t.Node? && t.sym == FuncDef && |t.children| >= 2
    && t.children[0].Leaf? && t.children[0].tok == NAME && t.children[0].value == "def"
    && t.children[1].Leaf? && t.children[1].tok == NAME && t.children[1].value == f.funcname
  }

  // ---------------------------------------------------------------------
  // parameter splicing

  /** `NAME p, COMMA ', '` for every prepended parameter. */
  function PreLeaves(pre: seq<string>): (r: seq<Tree>)
    ensures |r| == 2 * |pre|
  {
    if |pre| == 0 then [] else [NewLeaf(NAME, pre[0]), NewLeaf(COMMA, ", ")] + PreLeaves(pre[1..])
  }

  lemma {:induction false} PreLeavesEnd(pre: seq<string>)
    requires |pre| > 0
    ensures PreLeaves(pre)[2 * |pre| - 1] == NewLeaf(COMMA, ", ")
    ensures PreLeaves(pre)[2 * |pre| - 2] == NewLeaf(NAME, pre[|pre| - 1])
    decreases |pre|
  {
    if |pre| > 1 {
      PreLeavesEnd(pre[1..]);
    }
  }

  /** `COMMA ',', NAME q` for every appended parameter. */
  function PostLeaves(post: seq<string>): (r: seq<Tree>)
    ensures |r| == 2 * |post|
  {
    if |post| == 0 then [] else [NewLeaf(COMMA, ","), NewLeaf(NAME, post[0])] + PostLeaves(post[1..])
  }

  lemma {:induction false} PostLeavesEnd(post: seq<string>)
    requires |post| > 0
    ensures PostLeaves(post)[2 * |post| - 1] == NewLeaf(NAME, post[|post| - 1])
    decreases |post|
  {
    if |post| > 1 {
      PostLeavesEnd(post[1..]);
    }
  }

  function NameLeaves(names: seq<string>): (r: seq<Tree>)
    ensures |r| == |names|
  {
    if |names| == 0 then [] else [NewLeaf(NAME, names[0])] + NameLeaves(names[1..])
  }

  /** `children[-2].type == token.COMMA` followed by `children.pop(-2)`. */
  function PopCommaBeforeLast(b: seq<Tree>): Result<seq<Tree>>
  {
    if |b| < 2 then Err(IndexError)
    else if IsLeafOf(b[|b| - 2], COMMA) then Ok(b[..|b| - 2] + [b[|b| - 1]])
    else Ok(b)
  }

  /** The pop needs two children, removes at most the one comma, and
      never the last child or a first child that is not a comma. */
  lemma PopCommaBeforeLastKeeps(b: seq<Tree>)
    ensures PopCommaBeforeLast(b).Ok? <==> |b| >= 2
    ensures PopCommaBeforeLast(b).Err? ==> PopCommaBeforeLast(b).error == IndexError
    ensures |b| >= 2 ==> var v := PopCommaBeforeLast(b).value;
      (|v| == |b| || |v| == |b| - 1) && v[|v| - 1] == b[|b| - 1]
      && (!IsLeafOf(b[0], COMMA) ==> v[0] == b[0])
  {
  }

  /** Lines 107-121 of refactor.py as written: pre-parameters inserted at
      slice position 1, post-parameters at slice position -1, then one comma
      before the last child dropped. Python clamps both slice positions. */
  function SpliceAsWritten(cs: seq<Tree>, pre: seq<string>, post: seq<string>): (r: Result<seq<Tree>>)
    // `children[-2]` needs two children: IndexError otherwise.
    ensures r.Ok? <==> |cs| + 2 * |pre| + 2 * |post| >= 2
    ensures r.Err? ==> r.error == IndexError
    // Two leaves per parameter, less the comma that may be dropped.
    ensures r.Ok? ==> |r.value| == |cs| + 2 * |pre| + 2 * |post|
                      || |r.value| == |cs| + 2 * |pre| + 2 * |post| - 1
    // The closing parenthesis stays last, and the opening one first.
    ensures |cs| >= 2 ==> r.Ok? && r.value[|r.value| - 1] == cs[|cs| - 1]
    ensures |cs| >= 2 && !IsLeafOf(cs[0], COMMA) ==> r.Ok? && r.value[0] == cs[0]
  {
    var m := if |cs| < 1 then |cs| else 1;
    var a := cs[..m] + PreLeaves(pre) + cs[m..];
    var j := if |a| < 1 then 0 else |a| - 1;
    var b := a[..j] + PostLeaves(post) + a[j..];
    SpliceInsertKeepsEnds(cs, PreLeaves(pre), PostLeaves(post));
    PopCommaBeforeLastKeeps(b);
    PopCommaBeforeLast(b)
  }

  /** Both slice insertions of the splice, with Python's clamping: the
      leaves are all added, and from two children on the first and the
      last child stay in place. */
  lemma SpliceInsertKeepsEnds(cs: seq<Tree>, L: seq<Tree>, P: seq<Tree>)
    ensures var m := if |cs| < 1 then |cs| else 1;
      var a := cs[..m] + L + cs[m..];
      var j := if |a| < 1 then 0 else |a| - 1;
      var b := a[..j] + P + a[j..];
      |b| == |cs| + |L| + |P|
      && (|cs| >= 2 ==> b[0] == cs[0] && b[|b| - 1] == cs[|cs| - 1])
  {
    var m := if |cs| < 1 then |cs| else 1;
    var a := cs[..m] + L + cs[m..];
    var j := if |a| < 1 then 0 else |a| - 1;
    var b := a[..j] + P + a[j..];
    if |cs| >= 2 {
      assert a[0] == cs[0] && a[|a| - 1] == cs[|cs| - 1];
      assert b[0] == a[..j][0];
      assert b[|b| - 1] == a[j..][0];
    }
  }

  /** The splice with the separator before the post-parameters emitted only
      when something precedes them: pre-parameters and the trailing-comma
      clean-up first, then the post-parameters. */
  function SpliceFixed(cs: seq<Tree>, pre: seq<string>, post: seq<string>): (r: Result<seq<Tree>>)
    ensures r.Ok? <==> |cs| + 2 * |pre| >= 2
    ensures r.Err? ==> r.error == IndexError
    ensures r.Ok? ==> |r.value| >= |cs| + 2 * |pre| - 1
    ensures |cs| >= 2 ==> r.Ok? && r.value[|r.value| - 1] == cs[|cs| - 1]
    ensures |cs| >= 2 && !IsLeafOf(cs[0], COMMA) ==> r.Ok? && r.value[0] == cs[0]
    // Without post-parameters it is the splice as written.
    ensures post == [] ==> r == SpliceAsWritten(cs, pre, [])
  {
    var a :- SpliceAsWritten(cs, pre, []);
    Ok(AppendPost(a, post))
  }

  /** Inserts the post-parameters before the closing parenthesis, with a
      separating comma only when an item precedes them. */
  function AppendPost(a: seq<Tree>, post: seq<string>): (r: seq<Tree>)
    ensures |r| >= |a|
    ensures |a| >= 2 ==> r[0] == a[0] && r[|r| - 1] == a[|a| - 1]
    ensures |a| < 2 || |post| == 0 ==> r == a
  {
    if |post| == 0 || |a| < 2 then a
    else if |a| == 2 then [a[0]] + PostLeaves(post)[1..] + [a[1]]
    else a[..|a| - 1] + PostLeaves(post) + [a[|a| - 1]]
  }

  /** The shape the grammar gives `parameters`: `(`, at most one argument
      child (a NAME or a `typedargslist` node, never a bare comma), `)`. */
  predicate GrammarParams(cs: seq<Tree>) {
    2 <= |cs| <= 3
    && IsLeafOf(cs[0], LPAR) && IsLeafOf(cs[|cs| - 1], RPAR)
    && (|cs| == 3 ==> !IsLeafOf(cs[1], COMMA))
  }

  /** Items and commas alternate, starting and ending with an item. */
  predicate Alternating(s: seq<Tree>)
    decreases |s|
  {
    |s| == 0
    || (!IsLeafOf(s[0], COMMA)
        && (|s| == 1 || (|s| >= 3 && IsLeafOf(s[1], COMMA) && Alternating(s[2..]))))
  }

  /** The items of an alternating sequence. */
  function Items(s: seq<Tree>): seq<Tree>
  {
    if |s| == 0 then [] else if |s| == 1 then [s[0]] else [s[0]] + Items(s[2..])
  }

  /** Without post-parameters, the corrected splice is the code as written;
      every caller in the repository passes none. */
  lemma SpliceFixedAgreesWithoutPost(cs: seq<Tree>, pre: seq<string>)
    ensures SpliceFixed(cs, pre, []) == SpliceAsWritten(cs, pre, [])
  {
  }

  /** On a grammatical parameter list the code as written never leaves a
      comma leaf directly before the closing parenthesis. */
  lemma SpliceAsWrittenNoCommaBeforeParen(cs: seq<Tree>, pre: seq<string>, post: seq<string>)
    requires GrammarParams(cs)
    ensures SpliceAsWritten(cs, pre, post).Ok?
    ensures var r := SpliceAsWritten(cs, pre, post).value;
      |r| >= 2 && !IsLeafOf(r[|r| - 2], COMMA) && r[|r| - 1] == cs[|cs| - 1] && r[0] == cs[0]
  {
    SpliceAsWrittenShape(cs, pre, post);
    SplicedPartsNoComma(cs, pre, post);
  }

  lemma SplicedPartsNoComma(cs: seq<Tree>, pre: seq<string>, post: seq<string>)
    requires GrammarParams(cs)
    ensures var x := PopCommaBeforeLast([cs[0]] + (PreLeaves(pre) + cs[1..|cs| - 1] + PostLeaves(post)) + [cs[|cs| - 1]]);
      x.Ok? && |x.value| >= 2 && !IsLeafOf(x.value[|x.value| - 2], COMMA)
  {
    SpliceMiddleEnd(cs, pre, post);
    PopCommaBeforeLastBracketed(cs[0], PreLeaves(pre) + cs[1..|cs| - 1] + PostLeaves(post), cs[|cs| - 1]);
  }

  /** What the inserted leaves end with: no comma, or a comma after a name. */
  lemma SpliceMiddleEnd(cs: seq<Tree>, pre: seq<string>, post: seq<string>)
    requires GrammarParams(cs)
    ensures var M := PreLeaves(pre) + cs[1..|cs| - 1] + PostLeaves(post);
      |M| == 0 || !IsLeafOf(M[|M| - 1], COMMA) || (|M| >= 2 && !IsLeafOf(M[|M| - 2], COMMA))
  {
    var L := PreLeaves(pre);
    var P := PostLeaves(post);
    var mid := cs[1..|cs| - 1];
    var M := L + mid + P;
    if |post| > 0 {
      PostLeavesEnd(post);
      LastOfJoin(L + mid, P);
    } else if |cs| == 3 {
      assert M == L + mid;
      LastOfJoin(L, mid);
    } else if |pre| > 0 {
      PreLeavesEnd(pre);
      assert M == L;
    } else {
      assert M == [];
    }
  }

  /** Dropping a comma before the closing child leaves none there, provided
      the one before it is no comma either. */
  lemma PopCommaBeforeLastBracketed(l: Tree, M: seq<Tree>, r: Tree)
    requires IsLeafOf(l, LPAR)
    requires |M| == 0 || !IsLeafOf(M[|M| - 1], COMMA) || (|M| >= 2 && !IsLeafOf(M[|M| - 2], COMMA))
    ensures PopCommaBeforeLast([l] + M + [r]).Ok?
    ensures var res := PopCommaBeforeLast([l] + M + [r]).value;
      |res| >= 2 && !IsLeafOf(res[|res| - 2], COMMA) && res[|res| - 1] == r && res[0] == l
  {
    var b := [l] + M + [r];
    Bracketed(l, M, r);
    if |M| == 0 {
      assert b[|b| - 2] == l;
    } else if !IsLeafOf(M[|M| - 1], COMMA) {
      assert b[|b| - 2] == M[|M| - 1];
    } else {
      BracketedDropSecondLast(l, M, r);
    }
  }

  lemma SpliceAsWrittenShape(cs: seq<Tree>, pre: seq<string>, post: seq<string>)
    requires |cs| >= 2
    ensures SpliceAsWritten(cs, pre, post)
         == PopCommaBeforeLast([cs[0]] + (PreLeaves(pre) + cs[1..|cs| - 1] + PostLeaves(post)) + [cs[|cs| - 1]])
  {
    SpliceShape(cs, PreLeaves(pre), PostLeaves(post));
  }

  /** The splice of refactor.py reshaped: opening child, inserted leaves and
      argument, closing child. */
  lemma SpliceShape<T>(cs: seq<T>, L: seq<T>, P: seq<T>)
    requires |cs| >= 2
    ensures var a := cs[..1] + L + cs[1..];
      a[..|a| - 1] + P + a[|a| - 1..] == [cs[0]] + (L + cs[1..|cs| - 1] + P) + [cs[|cs| - 1]]
  {
    var a := cs[..1] + L + cs[1..];
    assert cs[1..] == cs[1..|cs| - 1] + [cs[|cs| - 1]];
    assert a == [cs[0]] + (L + cs[1..|cs| - 1]) + [cs[|cs| - 1]];
    Bracketed(cs[0], L + cs[1..|cs| - 1], cs[|cs| - 1]);
  }

  lemma LastOfJoin<T>(x: seq<T>, y: seq<T>)
    requires |y| > 0
    ensures (x + y)[|x + y| - 1] == y[|y| - 1]
  {
  }

  lemma BracketedDropSecondLast<T>(l: T, inner: seq<T>, r: T)
    requires |inner| >= 2
    ensures var b := [l] + inner + [r];
      b[|b| - 2] == inner[|inner| - 1]
      && b[..|b| - 2] + [b[|b| - 1]] == [l] + inner[..|inner| - 1] + [r]
      && (b[..|b| - 2] + [b[|b| - 1]])[|inner| - 1] == inner[|inner| - 2]
  {
    var b := [l] + inner + [r];
    assert b[..|b| - 2] == [l] + inner[..|inner| - 1];
  }

  /** The code as written emits a comma with nothing before it: an empty
      parameter list given one post-parameter prints as `(,x)`. */
  lemma SpliceAsWrittenLeadingComma()
    ensures GrammarParams(EmptyParams)
    ensures SpliceAsWritten(EmptyParams, [], ["x"]) == Ok(LeadingComma)
    ensures SerializeAll(LeadingComma) == "(,x)"
    ensures !Alternating(LeadingComma[1..3])
  {
    LeadingCommaSplice();
    LeadingCommaText();
    assert IsLeafOf(LeadingComma[1..3][0], COMMA);
  }

  const EmptyParams := [Leaf(LPAR, "(", "", 1, 8), Leaf(RPAR, ")", "", 1, 9)]
  const LeadingComma := [EmptyParams[0], NewLeaf(COMMA, ","), NewLeaf(NAME, "x"), EmptyParams[1]]

  lemma LeadingCommaSplice()
    ensures SpliceAsWritten(EmptyParams, [], ["x"]) == Ok(LeadingComma)
  {
    var cs := EmptyParams;
    var post := PostLeaves(["x"]);
    assert post == [NewLeaf(COMMA, ","), NewLeaf(NAME, "x")] by {
      assert PostLeaves(["x"][1..]) == [];
    }
    var a := cs[..1] + PreLeaves([]) + cs[1..];
    assert a == cs;
    assert a[..1] + post + a[1..] == LeadingComma;
  }

  lemma LeadingCommaText()
    ensures SerializeAll(LeadingComma) == "(,x)"
  {
    var r := LeadingComma;
    assert SerializeAll(r[3..]) == ")";
    assert SerializeAll(r[2..]) == "x" + ")";
    assert SerializeAll(r[1..]) == "," + ("x" + ")");
    assert SerializeAll(r) == "(" + ("," + ("x" + ")"));
  }

  lemma {:induction false} AlternatingPreThen(pre: seq<string>, x: Tree)
    requires !IsLeafOf(x, COMMA)
    ensures Alternating(PreLeaves(pre) + [x])
    ensures Items(PreLeaves(pre) + [x]) == NameLeaves(pre) + [x]
    decreases |pre|
  {
    if |pre| > 0 {
      AlternatingPreThen(pre[1..], x);
      var s := PreLeaves(pre) + [x];
      assert s[2..] == PreLeaves(pre[1..]) + [x];
    }
  }

  lemma {:induction false} AlternatingPre(pre: seq<string>)
    requires |pre| > 0
    ensures Alternating(PreLeaves(pre)[..2 * |pre| - 1])
    ensures Items(PreLeaves(pre)[..2 * |pre| - 1]) == NameLeaves(pre)
    decreases |pre|
  {
    var s := PreLeaves(pre)[..2 * |pre| - 1];
    if |pre| == 1 {
      assert s == [NewLeaf(NAME, pre[0])];
    } else {
      AlternatingPre(pre[1..]);
      assert s[2..] == PreLeaves(pre[1..])[..2 * |pre[1..]| - 1];
    }
  }

  lemma {:induction false} AlternatingItemThenPost(y: Tree, post: seq<string>)
    requires !IsLeafOf(y, COMMA)
    ensures Alternating([y] + PostLeaves(post))
    decreases |post|
  {
    if |post| > 0 {
      var s := [y] + PostLeaves(post);
      AlternatingItemThenPost(NewLeaf(NAME, post[0]), post[1..]);
      assert s[2..] == [NewLeaf(NAME, post[0])] + PostLeaves(post[1..]);
    }
  }

  lemma {:induction false} ItemsItemThenPost(y: Tree, post: seq<string>)
    ensures Items([y] + PostLeaves(post)) == [y] + NameLeaves(post)
    decreases |post|
  {
    if |post| > 0 {
      var s := [y] + PostLeaves(post);
      ItemsItemThenPost(NewLeaf(NAME, post[0]), post[1..]);
      assert s[2..] == [NewLeaf(NAME, post[0])] + PostLeaves(post[1..]);
    }
  }

  lemma {:induction false} AlternatingThenPost(x: seq<Tree>, post: seq<string>)
    requires Alternating(x) && |x| > 0
    ensures Alternating(x + PostLeaves(post))
    decreases |x|
  {
    var P := PostLeaves(post);
    if |x| == 1 {
      AlternatingItemThenPost(x[0], post);
      assert x == [x[0]];
    } else {
      var s := x + P;
      var t := x[2..];
      AlternatingThenPost(t, post);
      assert s[2..] == t + P;
      assert s[0] == x[0] && s[1] == x[1];
    }
  }

  lemma {:induction false} ItemsThenPost(x: seq<Tree>, post: seq<string>)
    requires |x| % 2 == 1
    ensures Items(x + PostLeaves(post)) == Items(x) + NameLeaves(post)
    decreases |x|
  {
    var P := PostLeaves(post);
    if |x| == 1 {
      ItemsItemThenPost(x[0], post);
      assert x == [x[0]];
    } else {
      var s := x + P;
      var t := x[2..];
      ItemsThenPost(t, post);
      assert s[2..] == t + P;
      assert s[0] == x[0];
    }
  }

  lemma AlternatingPostOnly(post: seq<string>)
    requires |post| > 0
    ensures Alternating(PostLeaves(post)[1..])
    ensures Items(PostLeaves(post)[1..]) == NameLeaves(post)
  {
    var y := NewLeaf(NAME, post[0]);
    PostLeavesAfterComma(post);
    AlternatingItemThenPost(y, post[1..]);
    ItemsItemThenPost(y, post[1..]);
    assert NameLeaves(post) == [y] + NameLeaves(post[1..]);
  }

  lemma PostLeavesAfterComma(post: seq<string>)
    requires |post| > 0
    ensures PostLeaves(post)[1..] == [NewLeaf(NAME, post[0])] + PostLeaves(post[1..])
  {
    var tail := [NewLeaf(NAME, post[0])] + PostLeaves(post[1..]);
    assert PostLeaves(post) == [NewLeaf(COMMA, ",")] + tail;
  }

  /** The splice without post-parameters on a grammatical list. */
  lemma SpliceBase(cs: seq<Tree>, pre: seq<string>) returns (inner: seq<Tree>)
    requires GrammarParams(cs)
    ensures SpliceAsWritten(cs, pre, []) == Ok([cs[0]] + inner + [cs[|cs| - 1]])
    ensures Alternating(inner)
    ensures Items(inner) == NameLeaves(pre) + cs[1..|cs| - 1]
  {
    var a := cs[..1] + PreLeaves(pre) + cs[1..];
    SpliceNoPost(cs, pre);
    if |cs| == 3 {
      inner := SpliceBaseWithArgument(cs, pre);
    } else if |pre| > 0 {
      inner := SpliceBasePreOnly(cs, pre);
    } else {
      assert a == [cs[0], cs[1]];
      inner := [];
      assert !IsLeafOf(a[0], COMMA);
      assert PopCommaBeforeLast(a) == Ok(a);
      assert a == [cs[0]] + inner + [cs[1]];
      assert cs[1..|cs| - 1] == [];
    }
  }

  lemma SpliceNoPost(cs: seq<Tree>, pre: seq<string>)
    requires |cs| >= 1
    ensures SpliceAsWritten(cs, pre, []) == PopCommaBeforeLast(cs[..1] + PreLeaves(pre) + cs[1..])
  {
    var a := cs[..1] + PreLeaves(pre) + cs[1..];
    assert PostLeaves([]) == [];
    assert a[..|a| - 1] + PostLeaves([]) + a[|a| - 1..] == a;
  }

  lemma SpliceBaseWithArgument(cs: seq<Tree>, pre: seq<string>) returns (inner: seq<Tree>)
    requires GrammarParams(cs) && |cs| == 3
    ensures SpliceAsWritten(cs, pre, []) == Ok([cs[0]] + inner + [cs[2]])
    ensures Alternating(inner)
    ensures Items(inner) == NameLeaves(pre) + cs[1..2]
  {
    var a := cs[..1] + PreLeaves(pre) + cs[1..];
    SpliceNoPost(cs, pre);
    inner := PreLeaves(pre) + [cs[1]];
    assert a == [cs[0]] + inner + [cs[2]];
    assert a[|a| - 2] == cs[1];
    assert PopCommaBeforeLast(a) == Ok(a);
    AlternatingPreThen(pre, cs[1]);
    assert cs[1..2] == [cs[1]];
  }

  lemma SpliceBasePreOnly(cs: seq<Tree>, pre: seq<string>) returns (inner: seq<Tree>)
    requires GrammarParams(cs) && |cs| == 2 && |pre| > 0
    ensures SpliceAsWritten(cs, pre, []) == Ok([cs[0]] + inner + [cs[1]])
    ensures Alternating(inner)
    ensures Items(inner) == NameLeaves(pre) + cs[1..1]
  {
    var L := PreLeaves(pre);
    var a := cs[..1] + L + cs[1..];
    SpliceNoPost(cs, pre);
    PreLeavesEnd(pre);
    assert a == [cs[0]] + L + [cs[1]];
    assert a[|a| - 2] == L[|L| - 1];
    inner := L[..2 * |pre| - 1];
    assert a[..|a| - 2] == [cs[0]] + inner;
    assert PopCommaBeforeLast(a) == Ok([cs[0]] + inner + [cs[1]]);
    AlternatingPre(pre);
    assert cs[1..1] == [];
  }

  /** Adding post-parameters keeps an alternating list alternating and
      appends their names to its items. */
  lemma AppendPostLayout(l: Tree, inner: seq<Tree>, r: Tree, post: seq<string>)
    requires Alternating(inner)
    ensures var out := AppendPost([l] + inner + [r], post);
      |out| >= 2 && out[0] == l && out[|out| - 1] == r
      && Alternating(out[1..|out| - 1])
      && Items(out[1..|out| - 1]) == Items(inner) + NameLeaves(post)
  {
    if |post| == 0 {
      AppendNoPost(l, inner, r, post);
    } else if |inner| == 0 {
      AppendPostToEmpty(l, inner, r, post);
    } else {
      AppendPostToItems(l, inner, r, post);
    }
  }

  lemma AppendNoPost(l: Tree, inner: seq<Tree>, r: Tree, post: seq<string>)
    requires Alternating(inner) && |post| == 0
    ensures var out := AppendPost([l] + inner + [r], post);
      |out| >= 2 && out[0] == l && out[|out| - 1] == r
      && Alternating(out[1..|out| - 1])
      && Items(out[1..|out| - 1]) == Items(inner) + NameLeaves(post)
  {
    var out := AppendPost([l] + inner + [r], post);
    assert out[1..|out| - 1] == inner;
    assert NameLeaves(post) == [];
  }

  lemma AppendPostToEmpty(l: Tree, inner: seq<Tree>, r: Tree, post: seq<string>)
    requires |inner| == 0 && |post| > 0
    ensures var out := AppendPost([l] + inner + [r], post);
      |out| >= 2 && out[0] == l && out[|out| - 1] == r
      && Alternating(out[1..|out| - 1])
      && Items(out[1..|out| - 1]) == Items(inner) + NameLeaves(post)
  {
    var P := PostLeaves(post)[1..];
    AlternatingPostOnly(post);
    var out := [l] + P + [r];
    assert [l] + inner + [r] == [l, r];
    assert AppendPost([l] + inner + [r], post) == out;
    assert out[1..|out| - 1] == P;
  }

  lemma AppendPostToItems(l: Tree, inner: seq<Tree>, r: Tree, post: seq<string>)
    requires Alternating(inner) && |inner| > 0 && |post| > 0
    ensures var out := AppendPost([l] + inner + [r], post);
      |out| >= 2 && out[0] == l && out[|out| - 1] == r
      && Alternating(out[1..|out| - 1])
      && Items(out[1..|out| - 1]) == Items(inner) + NameLeaves(post)
  {
    var a := [l] + inner + [r];
    var mid := inner + PostLeaves(post);
    AlternatingThenPost(inner, post);
    AlternatingOddLength(inner);
    ItemsThenPost(inner, post);
    var out := [l] + mid + [r];
    AppendPostShape(l, inner, r, post);
    assert out[1..|out| - 1] == mid;
  }

  lemma AppendPostShape(l: Tree, inner: seq<Tree>, r: Tree, post: seq<string>)
    requires |inner| > 0 && |post| > 0
    ensures AppendPost([l] + inner + [r], post) == [l] + (inner + PostLeaves(post)) + [r]
  {
    var a := [l] + inner + [r];
    Bracketed(l, inner, r);
    InsertBeforeLast(l, inner, r, PostLeaves(post));
  }

  /** The parts of a bracketed sequence. */
  lemma Bracketed<T>(l: T, inner: seq<T>, r: T)
    ensures |[l] + inner + [r]| == |inner| + 2
    ensures ([l] + inner + [r])[..|inner| + 1] == [l] + inner
    ensures ([l] + inner + [r])[|inner| + 1] == r
  {
  }

  lemma InsertBeforeLast<T>(l: T, inner: seq<T>, r: T, p: seq<T>)
    ensures ([l] + inner) + p + [r] == [l] + (inner + p) + [r]
  {
  }

  /** The corrected splice on a grammatical parameter list: parentheses
      kept, items and commas alternate between them, and the items are the
      pre-parameters, the original argument child and the post-parameters,
      in that order. */
  lemma SpliceFixedLayout(cs: seq<Tree>, pre: seq<string>, post: seq<string>)
    requires GrammarParams(cs)
    ensures SpliceFixed(cs, pre, post).Ok?
    ensures var r := SpliceFixed(cs, pre, post).value;
      |r| >= 2 && r[0] == cs[0] && r[|r| - 1] == cs[|cs| - 1]
      && Alternating(r[1..|r| - 1])
      && Items(r[1..|r| - 1]) == NameLeaves(pre) + cs[1..|cs| - 1] + NameLeaves(post)
  {
    var inner := SpliceBase(cs, pre);
    var l, r := cs[0], cs[|cs| - 1];
    SpliceFixedFromBase(cs, pre, post, [l] + inner + [r]);
    AppendPostLayout(l, inner, r, post);
  }

  lemma SpliceFixedFromBase(cs: seq<Tree>, pre: seq<string>, post: seq<string>, base: seq<Tree>)
    requires SpliceAsWritten(cs, pre, []) == Ok(base)
    ensures SpliceFixed(cs, pre, post) == Ok(AppendPost(base, post))
  {
  }

  lemma {:induction false} AlternatingOddLength(s: seq<Tree>)
    requires Alternating(s) && |s| > 0
    ensures |s| % 2 == 1
    decreases |s|
  {
    if |s| > 1 {
      AlternatingOddLength(s[2..]);
    }
  }

  // ---------------------------------------------------------------------
  // transform

  /** `find_indentation(suite)`: the INDENT value of a suite, else the
      indentation found from the enclosing nodes (`enclosing`). */
  function FindIndentation(suite: Tree, enclosing: string): (r: string)
    ensures r == enclosing || (suite.Node? && |suite.children| > 2 && IsLeafOf(suite.children[1], INDENT) && r == suite.children[1].value)
  {
    if suite.Node? && suite.sym == Suite && |suite.children| > 2 && IsLeafOf(suite.children[1], INDENT)
    then suite.children[1].value
    else enclosing
  }

  /** `indent` after the loop: from the last suite child, else `None`. */
  function BodyIndent(cs: seq<Tree>, enclosing: string): (r: Option<string>)
    ensures r.None? <==> forall i :: 0 <= i < |cs| ==> !(cs[i].Node? && cs[i].sym == Suite)
  {
    if |cs| == 0 then None
    else if cs[|cs| - 1].Node? && cs[|cs| - 1].sym == Suite then Some(FindIndentation(cs[|cs| - 1], enclosing))
    else BodyIndent(cs[..|cs| - 1], enclosing)
  }

  /** One iteration of the loop over the def's children. The parameter
      list goes through the corrected splice; without post-parameters,
      which is how every caller uses the fixer, that is the code as
      written. */
  function RewriteChild(f: Fixer, c: Tree): (r: Result<Tree>)
    ensures IsLeafOf(c, NAME) && c.value == f.funcname ==> r == Ok(c.(value := f.newname))
    ensures !(IsLeafOf(c, NAME) && c.value == f.funcname) && !(c.Node? && c.sym == Parameters) ==> r == Ok(c)
    ensures c.Node? && c.sym == Parameters && r.Ok? ==> r.value.Node? && r.value.sym == Parameters
    ensures c.Node? && c.sym == Parameters && f.post == [] ==>
              (r.Ok? <==> SpliceAsWritten(c.children, f.pre, []).Ok?)
              && (r.Ok? ==> r.value.children == SpliceAsWritten(c.children, f.pre, []).value)
  {
    if IsLeafOf(c, NAME) && c.value == f.funcname then Ok(c.(value := f.newname))
    else if c.Node? && c.sym == Parameters then
      var cs :- SpliceFixed(c.children, f.pre, f.post);
      Ok(Node(Parameters, cs))
    else Ok(c)
  }

  function RewriteChildren(f: Fixer, cs: seq<Tree>): (r: Result<seq<Tree>>)
    ensures r.Ok? ==> |r.value| == |cs|
    ensures r.Ok? ==> forall i :: 0 <= i < |cs| ==> RewriteChild(f, cs[i]) == Ok(r.value[i])
    ensures r.Err? ==> exists i :: 0 <= i < |cs| && RewriteChild(f, cs[i]).Err?
  {
    if |cs| == 0 then Ok([])
    else
      var c :- RewriteChild(f, cs[0]);
      var rest :- RewriteChildren(f, cs[1..]);
      assert forall i :: 1 <= i < |cs| ==> cs[i] == cs[1..][i - 1];
      Ok([c] + rest)
  }

  /** The leaf `add_statement` appends: body indent, the statement without
      trailing whitespace, a newline. */
  function StatementLeaf(indent: string, stmt: string): (t: Tree)
    ensures t.Leaf? && t.tok == ENDMARKER && t.prefix == ""
    ensures t.value == indent + RStrip(stmt, Whitespace) + "\n"
  {
    NewLeaf(ENDMARKER, indent + RStrip(stmt, Whitespace) + "\n")
  }

  /** The rewriting shared by both versions, after any column check.
      `enclosing` is `find_indentation` of the def's parent. */
  function Rewrite(f: Fixer, node: Tree, enclosing: string): (r: Result<Outcome>)
    requires Matches(f, node)
    ensures r.Ok? ==> (r.value.Removed? <==> f.remove) && !r.value.Untouched?
    ensures r.Ok? ==> var n := r.value.node;
      n.Node? && n.sym == FuncDef
      && |n.children| == |node.children| + (if f.addStatement == "" then 0 else 1)
      && n.children[1] == node.children[1].(value := f.newname)
      && (f.addStatement != "" ==>
            BodyIndent(node.children, enclosing).Some?
            && n.children[|n.children| - 1]
                 == StatementLeaf(BodyIndent(node.children, enclosing).value, f.addStatement))
    ensures (f.addStatement != "" && BodyIndent(node.children, enclosing).None?
             && RewriteChildren(f, node.children).Ok?) ==> r == Err(TypeError(NoneConcat))
  {
    var cs :- RewriteChildren(f, node.children);
    var cs' :-
      if f.addStatement == "" then Ok(cs)
      else match BodyIndent(node.children, enclosing)
        case None => Err(TypeError(NoneConcat))
        case Some(indent) => Ok(cs + [StatementLeaf(indent, f.addStatement)]);
    var n := Node(FuncDef, cs');
    if f.remove then Ok(Removed(n)) else Ok(Rewritten(n))
  }

  /** `FixFunctionDef.transform` in refactor.py: defs not starting in
      column 0 are left alone. */
  function TransformRefactor(f: Fixer, node: Tree, enclosing: string): (r: Result<Outcome>)
    requires Matches(f, node)
    ensures r.Ok? && r.value.Untouched? <==> node.children[0].column != 0
    ensures node.children[0].column == 0 ==> r == Rewrite(f, node, enclosing)
  {
    // The descent through `children[0]` stops at once: the pattern puts
    // the `def` keyword leaf first.
    var leaf := node.children[0];
    if leaf.column != 0 then Ok(Untouched) else Rewrite(f, node, enclosing)
  }

  /** `FixFunctionDef.transform` in codeconv.py: no column check. */
  function TransformCodeconv(f: Fixer, node: Tree, enclosing: string): (r: Result<Outcome>)
    requires Matches(f, node)
    ensures r.Ok? ==> !r.value.Untouched?
    ensures r == Rewrite(f, node, enclosing)
  {
    Rewrite(f, node, enclosing)
  }

  /** The two versions differ only on defs that do not start in column 0:
      codeconv.py rewrites them, refactor.py leaves them. */
  lemma VersionsDifferOnlyOffColumnZero(f: Fixer, node: Tree, enclosing: string)
    requires Matches(f, node)
    ensures TransformRefactor(f, node, enclosing) == TransformCodeconv(f, node, enclosing)
            || TransformRefactor(f, node, enclosing) == Ok(Untouched)
  {
  }

  /** `()` with `self` prepended becomes `(self)`: the trailing `', '`
      is dropped again. */
  lemma PrependSelfScenario()
    ensures var cs := [Leaf(LPAR, "(", "", 1, 8), Leaf(RPAR, ")", "", 1, 9)];
      SpliceFixed(cs, ["self"], []) == Ok([cs[0], NewLeaf(NAME, "self"), cs[1]])
  {
    var cs := [Leaf(LPAR, "(", "", 1, 8), Leaf(RPAR, ")", "", 1, 9)];
    assert PreLeaves(["self"]) == [NewLeaf(NAME, "self"), NewLeaf(COMMA, ", ")] by {
      assert PreLeaves(["self"][1..]) == [];
    }
    var a := cs[..1] + PreLeaves(["self"]) + cs[1..];
    assert a == [cs[0], NewLeaf(NAME, "self"), NewLeaf(COMMA, ", "), cs[1]];
    assert a[..|a| - 1] + PostLeaves([]) + a[|a| - 1..] == a;
    assert a[..|a| - 2] + [a[|a| - 1]] == [cs[0], NewLeaf(NAME, "self"), cs[1]];
  }

  // `def main():\n  pass\n` as the parser delivers it.
  const ExampleParams := Node(Parameters, [Leaf(LPAR, "(", "", 1, 8), Leaf(RPAR, ")", "", 1, 9)])
  const ExampleBody := Node(SimpleStmt, [Leaf(NAME, "pass", "", 2, 2), Leaf(NEWLINE, "\n", "", 2, 6)])
  const ExampleSuite := Node(Suite, [Leaf(NEWLINE, "\n", "", 1, 11), Leaf(INDENT, "  ", "", 2, 0),
                                     ExampleBody, Leaf(DEDENT, "", "", 3, 0)])
  const ExampleDef := Node(FuncDef, [Leaf(NAME, "def", "", 1, 0), Leaf(NAME, "main", " ", 1, 4),
                                     ExampleParams, Leaf(OtherToken(11), ":", "", 1, 10), ExampleSuite])

  lemma ExampleSuiteText()
    ensures Serialize(ExampleSuite) == "\n  pass\n"
  {
    var pass, nl := Leaf(NAME, "pass", "", 2, 2), Leaf(NEWLINE, "\n", "", 2, 6);
    SerializeCons(nl, []);
    SerializeCons(pass, [nl]);
    var open, indent, dedent := Leaf(NEWLINE, "\n", "", 1, 11), Leaf(INDENT, "  ", "", 2, 0), Leaf(DEDENT, "", "", 3, 0);
    SerializeCons(dedent, []);
    SerializeCons(ExampleBody, [dedent]);
    SerializeCons(indent, [ExampleBody, dedent]);
    SerializeCons(open, [indent, ExampleBody, dedent]);
  }

  lemma SerializeCons(t: Tree, ts: seq<Tree>)
    ensures SerializeAll([t] + ts) == Serialize(t) + SerializeAll(ts)
  {
    assert ([t] + ts)[1..] == ts;
  }

  /** The example def prints as its source text. */
  lemma ExampleDefText()
    ensures Serialize(ExampleDef) == "def" + " main" + "()" + ":" + "\n  pass\n"
  {
    ExampleSuiteText();
    var ch := ExampleDef.children;
    assert Serialize(ExampleParams) == "()" by {
      assert SerializeAll(ExampleParams.children[1..]) == ")";
    }
    assert SerializeAll(ch[4..]) == "\n  pass\n";
    assert SerializeAll(ch[3..]) == ":" + "\n  pass\n";
    assert SerializeAll(ch[2..]) == "()" + (":" + "\n  pass\n");
    assert SerializeAll(ch[1..]) == " main" + ("()" + (":" + "\n  pass\n"));
    assert SerializeAll(ch) == "def" + (" main" + ("()" + (":" + "\n  pass\n")));
  }

  const RunFixer := Fixer("main", "Run", ["self"], [], false, "return True  ")
  const RunParams := Node(Parameters, [Leaf(LPAR, "(", "", 1, 8), NewLeaf(NAME, "self"), Leaf(RPAR, ")", "", 1, 9)])

  lemma RunChildren()
    ensures RewriteChildren(RunFixer, ExampleDef.children)
         == Ok([Leaf(NAME, "def", "", 1, 0), Leaf(NAME, "Run", " ", 1, 4), RunParams,
                Leaf(OtherToken(11), ":", "", 1, 10), ExampleSuite])
  {
    PrependSelfScenario();
    assert RewriteChild(RunFixer, ExampleParams) == Ok(RunParams);
    RewriteChildrenScenario(RunFixer, ExampleDef.children,
      [Leaf(NAME, "def", "", 1, 0), Leaf(NAME, "Run", " ", 1, 4), RunParams,
       Leaf(OtherToken(11), ":", "", 1, 10), ExampleSuite]);
  }

  const RunChildrenAfter := [Leaf(NAME, "def", "", 1, 0), Leaf(NAME, "Run", " ", 1, 4), RunParams,
                              Leaf(OtherToken(11), ":", "", 1, 10), ExampleSuite,
                              NewLeaf(ENDMARKER, "  return True\n")]

  lemma RunTransform()
    ensures TransformRefactor(RunFixer, ExampleDef, "") == Ok(Rewritten(Node(FuncDef, RunChildrenAfter)))
  {
    RunChildren();
    var cs := [Leaf(NAME, "def", "", 1, 0), Leaf(NAME, "Run", " ", 1, 4), RunParams,
               Leaf(OtherToken(11), ":", "", 1, 10), ExampleSuite];
    ExampleIndent();
    RunStatement();
    RewriteAddsStatement(RunFixer, ExampleDef, "", cs, "  ");
    assert cs + [NewLeaf(ENDMARKER, "  return True\n")] == RunChildrenAfter;
  }

  lemma ExampleIndent()
    ensures BodyIndent(ExampleDef.children, "") == Some("  ")
  {
    assert FindIndentation(ExampleSuite, "") == "  ";
  }

  lemma RunStatement()
    ensures StatementLeaf("  ", "return True  ") == NewLeaf(ENDMARKER, "  return True\n")
  {
    var s := "return True  ";
    assert s[12] == ' ' && s[..12][11] == ' ' && s[..11][10] == 'e';
    assert ' ' in Whitespace && 'e' !in Whitespace;
    assert RStrip(s, Whitespace) == RStrip(s[..12], Whitespace);
    assert s[..12][..11] == s[..11];
    assert RStrip(s[..12], Whitespace) == RStrip(s[..11], Whitespace) == s[..11];
    assert s[..11] == "return True";
  }

  /** A kept def with a statement to add gets the rewritten children and
      the statement leaf after them. */
  lemma RewriteAddsStatement(f: Fixer, node: Tree, enclosing: string, cs: seq<Tree>, indent: string)
    requires Matches(f, node) && !f.remove && f.addStatement != ""
    requires RewriteChildren(f, node.children) == Ok(cs)
    requires BodyIndent(node.children, enclosing) == Some(indent)
    ensures Rewrite(f, node, enclosing) == Ok(Rewritten(Node(FuncDef, cs + [StatementLeaf(indent, f.addStatement)])))
  {
  }

  lemma RunText()
    ensures SerializeAll(RunChildrenAfter)
         == "def" + (" Run" + ("(self)" + (":" + ("\n  pass\n" + "  return True\n"))))
  {
    var all := RunChildrenAfter;
    RunTextTail();
    RunParamsText();
    assert SerializeAll(all[1..]) == " Run" + SerializeAll(all[2..]);
  }

  lemma RunParamsText()
    ensures Serialize(RunParams) == "(self)"
  {
    var ch := RunParams.children;
    assert SerializeAll(ch[2..]) == ")";
    assert SerializeAll(ch[1..]) == "self)";
    assert SerializeAll(ch) == "(" + "self)";
  }

  lemma RunTextTail()
    ensures SerializeAll(RunChildrenAfter[3..]) == ":" + ("\n  pass\n" + "  return True\n")
  {
    var all := RunChildrenAfter;
    ExampleSuiteText();
    assert all[5..] == [NewLeaf(ENDMARKER, "  return True\n")];
    assert SerializeAll(all[5..]) == "  return True\n" by {
      assert SerializeAll(all[6..]) == "";
    }
    assert all[4] == ExampleSuite;
    assert SerializeAll(all[4..]) == Serialize(all[4]) + SerializeAll(all[5..]);
    assert Serialize(all[3]) == ":";
  }

  /** `def main():\n  pass\n` renamed to `Run`, with `self` prepended and
      `return True` appended at the body's indentation. */
  lemma RenameScenario()
    ensures TransformRefactor(RunFixer, ExampleDef, "").Ok?
    ensures TransformRefactor(RunFixer, ExampleDef, "").value.Rewritten?
    ensures Serialize(TransformRefactor(RunFixer, ExampleDef, "").value.node)
         == "def" + (" Run" + ("(self)" + (":" + ("\n  pass\n" + "  return True\n"))))
  {
    RunTransform();
    RunText();
  }

  lemma {:induction false} RewriteChildrenScenario(f: Fixer, cs: seq<Tree>, expected: seq<Tree>)
    requires |cs| == |expected|
    requires forall i :: 0 <= i < |cs| ==> RewriteChild(f, cs[i]) == Ok(expected[i])
    ensures RewriteChildren(f, cs) == Ok(expected)
    decreases |cs|
  {
    if |cs| > 0 {
      RewriteChildrenScenario(f, cs[1..], expected[1..]);
      assert expected == [expected[0]] + expected[1..];
    }
  }
}

=== FILE: future_imports.dfy ===
/** `FixStripFutureImports` (refactor.py and codeconv.py share its
    `transform`; only `future_line` differs): every
    `from __future__ import ...` statement is replaced by an empty line and
    the imported names are collected across all matches, each name once, in
    the order first seen. */
module FutureImports {
  import opened Errors
  import opened Text
  import opened Cst

  predicate NoDuplicates(s: seq<string>) {
    forall i, j :: 0 <= i < j < |s| ==> s[i] != s[j]
  }

  /** `if name not in imports: imports.append(name)` */
  function AddName(imports: seq<string>, name: string): (r: seq<string>)
    ensures name in r
    ensures NoDuplicates(imports) ==> NoDuplicates(r)
    ensures forall x :: x in r <==> x in imports || x == name
  {
    if name in imports then imports else imports + [name]
  }

  /** `AddName` for each name in turn. */
  function AddAll(imports: seq<string>, names: seq<string>): (r: seq<string>)
    ensures NoDuplicates(imports) ==> NoDuplicates(r)
    decreases |names|
  {
    if |names| == 0 then imports else AddAll(AddName(imports, names[0]), names[1..])
  }

  /** Reference for first-seen deduplication: an element is kept exactly
      when it does not occur earlier. */
  function FirstOccurrences(s: seq<string>): (r: seq<string>)
    decreases |s|
  {
    if |s| == 0 then []
    else
      var init := s[..|s| - 1];
      FirstOccurrences(init) + (if s[|s| - 1] in init then [] else [s[|s| - 1]])
  }

  lemma {:induction false} FirstOccurrencesElements(s: seq<string>)
    ensures forall x :: x in FirstOccurrences(s) <==> x in s
    decreases |s|
  {
    if |s| > 0 {
      var init := s[..|s| - 1];
      FirstOccurrencesElements(init);
      assert s == init + [s[|s| - 1]];
    }
  }

  lemma {:induction false} FirstOccurrencesUnique(s: seq<string>)
    ensures NoDuplicates(FirstOccurrences(s))
    decreases |s|
  {
    if |s| > 0 {
      var init := s[..|s| - 1];
      FirstOccurrencesUnique(init);
      FirstOccurrencesElements(init);
    }
  }

  /** The fold keeps exactly the first occurrences: collecting `names`
      after the names of `seen` gives the first occurrences of both. */
  lemma {:induction false} AddAllIsFirstOccurrences(seen: seq<string>, names: seq<string>)
    ensures AddAll(FirstOccurrences(seen), names) == FirstOccurrences(seen + names)
    decreases |names|
  {
    if |names| == 0 {
      assert seen + names == seen;
    } else {
      var x := names[0];
      AddNameIsFirstOccurrences(seen, x);
      AddAllIsFirstOccurrences(seen + [x], names[1..]);
      ConsAppend(seen, [x], names[1..]);
      assert [x] + names[1..] == names;
    }
  }

  lemma AddNameIsFirstOccurrences(seen: seq<string>, x: string)
    ensures AddName(FirstOccurrences(seen), x) == FirstOccurrences(seen + [x])
  {
    FirstOccurrencesElements(seen);
    var seen' := seen + [x];
    assert seen'[..|seen'| - 1] == seen;
  }

  /** Collecting into an empty list deduplicates in first-seen order. */
  lemma CollectedFirstSeen(names: seq<string>)
    ensures AddAll([], names) == FirstOccurrences(names)
    ensures NoDuplicates(AddAll([], names))
    ensures forall x :: x in AddAll([], names) <==> x in names
  {
    assert FirstOccurrences([]) == [];
    AddAllIsFirstOccurrences([], names);
    assert [] + names == names;
    FirstOccurrencesUnique(names);
    FirstOccurrencesElements(names);
  }

  /** The NAME leaves directly inside an `import_as_names` node; an
      `a as b` child is a node of its own and is passed over. */
  function NameLeafValues(cs: seq<Tree>): (r: seq<string>)
    ensures |r| <= |cs|
    decreases |cs|
  {
    if |cs| == 0 then []
    else (if IsLeafOf(cs[0], NAME) then [cs[0].value] else []) + NameLeafValues(cs[1..])
  }

  /** The names the loop of `transform` considers, in order and before
      deduplication: nothing before the `import` keyword, then the NAME
      leaves of an `import_as_names` child or a bare NAME leaf. */
  function ImportedNames(cs: seq<Tree>, passedImport: bool): seq<string>
    decreases |cs|
  {
    if |cs| == 0 then []
    else
      var c := cs[0];
      if IsLeafOf(c, NAME) && c.value == "import" then ImportedNames(cs[1..], true)
      else if !passedImport then ImportedNames(cs[1..], false)
      else if c.Node? && c.sym == ImportAsNames then NameLeafValues(c.children) + ImportedNames(cs[1..], true)
      else if IsLeafOf(c, NAME) then [c.value] + ImportedNames(cs[1..], true)
      else ImportedNames(cs[1..], true)
  }

  /** The inner loop over the children of `import_as_names`. */
  function CollectAsNames(imports: seq<string>, cs: seq<Tree>): seq<string>
    decreases |cs|
  {
    if |cs| == 0 then imports
    else if IsLeafOf(cs[0], NAME) && cs[0].value !in imports then CollectAsNames(imports + [cs[0].value], cs[1..])
    else CollectAsNames(imports, cs[1..])
  }

  /** The loop over the statement's children, as written. */
  function CollectLoop(imports: seq<string>, cs: seq<Tree>, passedImport: bool): seq<string>
    decreases |cs|
  {
    if |cs| == 0 then imports
    else
      var c := cs[0];
      if IsLeafOf(c, NAME) && c.value == "import" then CollectLoop(imports, cs[1..], true)
      else if !passedImport then CollectLoop(imports, cs[1..], false)
      else if c.Node? && c.sym == ImportAsNames then CollectLoop(CollectAsNames(imports, c.children), cs[1..], true)
      else if IsLeafOf(c, NAME) then
        CollectLoop(if c.value !in imports then imports + [c.value] else imports, cs[1..], true)
      else CollectLoop(imports, cs[1..], true)
  }

  lemma {:induction false} AddAllAppend(imports: seq<string>, a: seq<string>, b: seq<string>)
    ensures AddAll(imports, a + b) == AddAll(AddAll(imports, a), b)
    decreases |a|
  {
    if |a| == 0 {
      assert a + b == b;
    } else {
      assert (a + b)[0] == a[0] && (a + b)[1..] == a[1..] + b;
      AddAllAppend(AddName(imports, a[0]), a[1..], b);
    }
  }

  lemma {:induction false} CollectAsNamesIsAddAll(imports: seq<string>, cs: seq<Tree>)
    ensures CollectAsNames(imports, cs) == AddAll(imports, NameLeafValues(cs))
    decreases |cs|
  {
    if |cs| > 0 {
      CollectAsNamesIsAddAll(if IsLeafOf(cs[0], NAME) then AddName(imports, cs[0].value) else imports, cs[1..]);
      if IsLeafOf(cs[0], NAME) {
        assert NameLeafValues(cs) == [cs[0].value] + NameLeafValues(cs[1..]);
      } else {
        assert NameLeafValues(cs) == [] + NameLeafValues(cs[1..]);
        assert [] + NameLeafValues(cs[1..]) == NameLeafValues(cs[1..]);
      }
    }
  }

  /** The nested loops add the imported names one by one. */
  lemma {:induction false} CollectLoopIsAddAll(imports: seq<string>, cs: seq<Tree>, passedImport: bool)
    ensures CollectLoop(imports, cs, passedImport) == AddAll(imports, ImportedNames(cs, passedImport))
    decreases |cs|
  {
    if |cs| > 0 {
      var c := cs[0];
      if IsLeafOf(c, NAME) && c.value == "import" {
        CollectLoopIsAddAll(imports, cs[1..], true);
      } else if !passedImport {
        CollectLoopIsAddAll(imports, cs[1..], false);
      } else if c.Node? && c.sym == ImportAsNames {
        CollectAsNamesIsAddAll(imports, c.children);
        CollectLoopIsAddAll(CollectAsNames(imports, c.children), cs[1..], true);
        AddAllAppend(imports, NameLeafValues(c.children), ImportedNames(cs[1..], true));
      } else if IsLeafOf(c, NAME) {
        CollectLoopIsAddAll(AddName(imports, c.value), cs[1..], true);
        assert [c.value] + ImportedNames(cs[1..], true) == ImportedNames(cs, true);
      } else {
        CollectLoopIsAddAll(imports, cs[1..], true);
      }
    }
  }

  /** The fixer's pattern, `import_from< 'from' module_name="__future__"
      'import' any >`: four children, the last one anything. */
  predicate IsFutureImport(t: Tree) {
    t.Node? && t.sym == ImportFrom && |t.children| == 4
    && IsLeafOf(t.children[0], NAME) && t.children[0].value == "from"
    && IsLeafOf(t.children[1], NAME) && t.children[1].value == "__future__"
    && IsLeafOf(t.children[2], NAME) && t.children[2].value == "import"
  }

  /** `transform` on a statement the pattern matched: the collected names
      and the replacement, an empty line that keeps the statement's
      prefix. */
  function Transform(imports: seq<string>, node: Tree): (r: (seq<string>, Tree))
    requires IsFutureImport(node)
    ensures IsLeafOf(r.1, NEWLINE) && r.1.value == "" && r.1.prefix == Prefix(node)
    ensures Serialize(r.1) == Prefix(node)
    ensures NoDuplicates(imports) ==> NoDuplicates(r.0)
    ensures r.0 == AddAll(imports, ImportedNames(node.children, false))
  {
    var collected := CollectLoop(imports, node.children, false);
    CollectLoopIsAddAll(imports, node.children, false);
    (collected, BlankLine().(prefix := Prefix(node)))
  }

  /** The collected names after a run over several matched statements. */
  function TransformAll(imports: seq<string>, nodes: seq<Tree>): (r: seq<string>)
    requires forall i :: 0 <= i < |nodes| ==> IsFutureImport(nodes[i])
    decreases |nodes|
  {
    if |nodes| == 0 then imports else TransformAll(Transform(imports, nodes[0]).0, nodes[1..])
  }

  /** All names imported by the statements, in order, duplicates kept. */
  function AllImportedNames(nodes: seq<Tree>): seq<string>
    requires forall i :: 0 <= i < |nodes| ==> nodes[i].Node?
    decreases |nodes|
  {
    if |nodes| == 0 then [] else ImportedNames(nodes[0].children, false) + AllImportedNames(nodes[1..])
  }

  /** Across all matches, the fixer ends with every imported name exactly
      once, in the order of first import. */
  lemma {:induction false} TransformAllFirstSeen(seen: seq<string>, nodes: seq<Tree>)
    requires forall i :: 0 <= i < |nodes| ==> IsFutureImport(nodes[i])
    ensures TransformAll(FirstOccurrences(seen), nodes) == FirstOccurrences(seen + AllImportedNames(nodes))
    decreases |nodes|
  {
    if |nodes| == 0 {
      assert seen + [] == seen;
    } else {
      var names := ImportedNames(nodes[0].children, false);
      var rest := AllImportedNames(nodes[1..]);
      CollectLoopIsAddAll(FirstOccurrences(seen), nodes[0].children, false);
      AddAllIsFirstOccurrences(seen, names);
      assert Transform(FirstOccurrences(seen), nodes[0]).0 == FirstOccurrences(seen + names);
      TransformAllFirstSeen(seen + names, nodes[1..]);
      assert AllImportedNames(nodes) == names + rest;
      ConsAppend(seen, names, rest);
    }
  }

  // ---------------------------------------------------------------------
  // the fixer over a whole tree

  /** lib2to3 running the fixer over a tree: a statement the pattern
      matches is transformed as a whole (the grammar never nests an
      `import_from` inside another), and the names are collected left to
      right; everything else is kept. */
  function StripTree(imports: seq<string>, t: Tree): (r: (seq<string>, Tree))
    ensures t.Leaf? ==> r.1 == t
    ensures t.Node? ==> (r.1.Node? && r.1.sym == t.sym) || IsLeafOf(r.1, NEWLINE)
    decreases t, 1
  {
    if IsFutureImport(t) then Transform(imports, t)
    else if t.Leaf? then (imports, t)
    else
      var p := StripAll(imports, t.children);
      (p.0, Node(t.sym, p.1))
  }

  function StripAll(imports: seq<string>, ts: seq<Tree>): (r: (seq<string>, seq<Tree>))
    ensures |r.1| == |ts|
    ensures forall i :: 0 <= i < |ts| && ts[i].Leaf? ==> r.1[i] == ts[i]
    ensures forall i :: 0 <= i < |ts| && ts[i].Node? ==>
              (r.1[i].Node? && r.1[i].sym == ts[i].sym) || IsLeafOf(r.1[i], NEWLINE)
    decreases ts, 0
  {
    if |ts| == 0 then (imports, [])
    else
      var a := StripTree(imports, ts[0]);
      var b := StripAll(a.0, ts[1..]);
      (b.0, [a.1] + b.1)
  }

  /** No statement of the tree matches the pattern. */
  predicate NoFutureImport(t: Tree)
    decreases t
  {
    !IsFutureImport(t) && (t.Node? ==> forall i :: 0 <= i < |t.children| ==> NoFutureImport(t.children[i]))
  }

  /** The statements the pattern matches, in traversal order. */
  function Matches(t: Tree): (r: seq<Tree>)
    ensures forall i :: 0 <= i < |r| ==> IsFutureImport(r[i])
    decreases t, 1
  {
    if IsFutureImport(t) then [t]
    else if t.Leaf? then []
    else MatchesAll(t.children)
  }

  function MatchesAll(ts: seq<Tree>): (r: seq<Tree>)
    ensures forall i :: 0 <= i < |r| ==> IsFutureImport(r[i])
    decreases ts, 0
  {
    if |ts| == 0 then [] else Matches(ts[0]) + MatchesAll(ts[1..])
  }

  lemma {:induction false} TransformAllAppend(imports: seq<string>, a: seq<Tree>, b: seq<Tree>)
    requires forall i :: 0 <= i < |a| ==> IsFutureImport(a[i])
    requires forall i :: 0 <= i < |b| ==> IsFutureImport(b[i])
    ensures TransformAll(imports, a + b) == TransformAll(TransformAll(imports, a), b)
    decreases |a|
  {
    if |a| > 0 {
      assert (a + b)[0] == a[0] && (a + b)[1..] == a[1..] + b;
      TransformAllAppend(Transform(imports, a[0]).0, a[1..], b);
    } else {
      assert a + b == b;
    }
  }

  /** Over a whole tree the fixer collects what `TransformAll` collects
      over the matched statements in order, so `TransformAllFirstSeen`
      applies to it. */
  lemma {:induction false} StripTreeCollects(imports: seq<string>, t: Tree)
    ensures StripTree(imports, t).0 == TransformAll(imports, Matches(t))
    decreases t, 1
  {
    if IsFutureImport(t) {
      assert Matches(t)[1..] == [];
    } else if t.Node? {
      StripAllCollects(imports, t.children);
    }
  }

  lemma {:induction false} StripAllCollects(imports: seq<string>, ts: seq<Tree>)
    ensures StripAll(imports, ts).0 == TransformAll(imports, MatchesAll(ts))
    decreases ts, 0
  {
    if |ts| > 0 {
      var a := StripTree(imports, ts[0]);
      StripTreeCollects(imports, ts[0]);
      StripAllCollects(a.0, ts[1..]);
      TransformAllAppend(imports, Matches(ts[0]), MatchesAll(ts[1..]));
    }
  }

  /** A tree without matching statements passes through untouched. */
  lemma {:induction false} StripTreeUntouched(imports: seq<string>, t: Tree)
    requires NoFutureImport(t)
    ensures StripTree(imports, t) == (imports, t)
    decreases t, 1
  {
    if t.Node? {
      StripAllUntouched(imports, t.children);
    }
  }

  lemma {:induction false} StripAllUntouched(imports: seq<string>, ts: seq<Tree>)
    requires forall i :: 0 <= i < |ts| ==> NoFutureImport(ts[i])
    ensures StripAll(imports, ts) == (imports, ts)
    decreases ts, 0
  {
    if |ts| > 0 {
      StripTreeUntouched(imports, ts[0]);
      StripAllUntouched(imports, ts[1..]);
      assert [ts[0]] + ts[1..] == ts;
    }
  }

  /** The output holds no statement the pattern matches: matched ones
      became empty lines, and any other node keeps its symbol and its leaf
      children, so it cannot come to match. */
  lemma {:induction false} StripTreeClears(imports: seq<string>, t: Tree)
    ensures NoFutureImport(StripTree(imports, t).1)
    decreases t, 1
  {
    if !IsFutureImport(t) && t.Node? {
      StripAllClears(imports, t.children);
    }
  }

  lemma {:induction false} StripAllClears(imports: seq<string>, ts: seq<Tree>)
    ensures forall i :: 0 <= i < |ts| ==> NoFutureImport(StripAll(imports, ts).1[i])
    decreases ts, 0
  {
    if |ts| > 0 {
      var a := StripTree(imports, ts[0]);
      StripTreeClears(imports, ts[0]);
      StripAllClears(a.0, ts[1..]);
      var out := StripAll(imports, ts).1;
      assert out == [a.1] + StripAll(a.0, ts[1..]).1;
      forall i | 1 <= i < |ts|
        ensures NoFutureImport(out[i])
      {
        assert out[i] == StripAll(a.0, ts[1..]).1[i - 1];
      }
    }
  }

  /** Stripping is idempotent: a second run over the output, whatever the
      fixer has collected by then, collects nothing and changes nothing. */
  lemma StripTreeIdempotent(imports: seq<string>, again: seq<string>, t: Tree)
    ensures StripTree(again, StripTree(imports, t).1) == (again, StripTree(imports, t).1)
  {
    StripTreeClears(imports, t);
    StripTreeUntouched(again, StripTree(imports, t).1);
  }

  /** `future_line` of refactor.py: None when nothing was collected. */
  function FutureLineRefactor(imports: seq<string>): (r: Option<string>)
    ensures r.None? <==> |imports| == 0
    ensures r.Some? ==> StartsWith(r.value, "from __future__ import ")
                        && r.value[|"from __future__ import "|..] == Join(imports, ", ")
  {
    if |imports| > 0 then Some("from __future__ import " + Join(imports, ", ")) else None
  }

  /** `future_line` of codeconv.py: the empty string when nothing was
      collected. */
  function FutureLineCodeconv(imports: seq<string>): (r: string)
    ensures r == "" <==> |imports| == 0
    ensures |imports| > 0 ==> Some(r) == FutureLineRefactor(imports)
  {
    if |imports| > 0 then "from __future__ import " + Join(imports, ", ") else ""
  }

  /** `fixer.future_line or ''`, as `split_future_imports` uses it: both
      versions agree there. */
  lemma FutureLineVersionsAgree(imports: seq<string>)
    ensures FutureLineRefactor(imports).GetOr("") == FutureLineCodeconv(imports)
  {
  }

  /** `from __future__ import a, b, ...`: the names inside the
      `import_as_names` node are added in order; `from` and the module name
      contribute nothing. */
  lemma ImportFromAsNames(imports: seq<string>, f: Tree, m: Tree, i: Tree, a: Tree)
    requires IsLeafOf(f, NAME) && f.value == "from" && IsLeafOf(m, NAME) && m.value == "__future__"
    requires IsLeafOf(i, NAME) && i.value == "import"
    requires a.Node? && a.sym == ImportAsNames
    ensures Transform(imports, Node(ImportFrom, [f, m, i, a])).0 == AddAll(imports, NameLeafValues(a.children))
  {
    var cs := [f, m, i, a];
    assert "from" != "import" by { assert "from"[0] != "import"[0]; }
    assert "__future__" != "import" by { assert "__future__"[0] != "import"[0]; }
    var names := NameLeafValues(a.children);
    assert cs[3..] == [a] && [a][1..] == [];
    assert ImportedNames(cs[3..], true) == names + [];
    assert names + [] == names;
    assert cs[2..][1..] == cs[3..];
    assert ImportedNames(cs[2..], false) == names;
    assert cs[1..][1..] == cs[2..];
    assert ImportedNames(cs[1..], false) == names;
    assert ImportedNames(cs, false) == names;
    CollectLoopIsAddAll(imports, cs, false);
  }
}

=== FILE: generics.dfy ===
/** generics.py: the `Generic` metaclass, which binds a class to arguments
    named in its `__generic_args__`, and the dictionary `BaseHashDict` /
    `HashDict` whose keys are hashed by a bound function.

    Classes are values here: declaring one checks and normalises its
    argument list, and subscripting one builds the bound subclass. */
module Generics {
  import opened Errors
  import opened Text

  /** One raw `__generic_args__` entry: a bare name, or a tuple whose
      second item (when present) is the default. */
  datatype RawArg<A> = Bare(name: string) | Tupled(name: string, rest: seq<A>)

  /** A normalised entry `(name, default)`; `None` is `NotImplemented`,
      meaning "no default". */
  datatype ArgDecl<A> = ArgDecl(name: string, default: Option<A>)

  /** A generic class: its declared arguments, the bound values
      (`__generic_bind__`, absent on an unbound class) and the unbound class
      it was bound from (`__generic_base__`). */
  datatype GClass<A> = GClass(name: string, args: seq<ArgDecl<A>>, bind: Option<seq<A>>, base: Option<GClass<A>>)

  /** The constructors' `if not self.__generic_bind__` test: an unbound
      class, and one bound to an empty list, both count as unbound. */
  predicate IsBound<A>(c: GClass<A>) {
    c.bind.Some? && |c.bind.value| > 0
  }

  function Normalise<A>(r: RawArg<A>): (d: ArgDecl<A>)
    ensures d.name == r.name
    ensures d.default.Some? <==> r.Tupled? && |r.rest| > 0
    ensures d.default.Some? ==> d.default.value == r.rest[0]
  {
    match r
    case Bare(n) => ArgDecl(n, None)
    case Tupled(n, rest) => ArgDecl(n, if |rest| > 0 then Some(rest[0]) else None)
  }

  /** Defaulted arguments only at the end. */
  predicate DefaultsTrail<A>(args: seq<ArgDecl<A>>) {
    forall i, j :: 0 <= i < j < |args| && args[i].default.Some? ==> args[j].default.Some?
  }

  /** The declaration loop with its `had_optional` flag: the first argument
      without a default that follows one with a default. */
  function Misordered<A>(args: seq<ArgDecl<A>>, i: nat, hadOptional: bool): (r: Option<nat>)
    requires i <= |args|
    ensures r.Some? ==> i <= r.value < |args| && args[r.value].default.None?
                        && (hadOptional || exists j :: i <= j < r.value && args[j].default.Some?)
    decreases |args| - i
  {
    if i == |args| then None
    else if args[i].default.None? && hadOptional then Some(i)
    else Misordered(args, i + 1, hadOptional || args[i].default.Some?)
  }

  /** The loop finds an offender exactly when defaults do not trail. */
  lemma {:induction false} MisorderedIff<A>(args: seq<ArgDecl<A>>, i: nat, hadOptional: bool)
    requires i <= |args|
    ensures Misordered(args, i, hadOptional).None? <==>
              (forall j, k :: i <= j < k < |args| && args[j].default.Some? ==> args[k].default.Some?)
              && (hadOptional ==> forall k :: i <= k < |args| ==> args[k].default.Some?)
    decreases |args| - i
  {
    if i < |args| {
      MisorderedIff(args, i + 1, hadOptional || args[i].default.Some?);
    }
  }

  function MisorderedMessage(cls: string, arg: string): string {
    "invalid " + cls + ".__generic_args__, default argument followed by non-default argument \"" + arg + "\""
  }

  /** `Generic.__init__` for a class statement: a `TypeError` without
      `__generic_args__`, otherwise the normalised, still unbound class.
      As written (`asWritten`) the `had_optional` flag is never raised, so
      the ordering check never fires; the corrected declaration raises the
      `ValueError` for the first non-default argument after a default. */
  function Declare<A>(name: string, raw: Option<seq<RawArg<A>>>, asWritten: bool): (r: Result<GClass<A>>)
    ensures raw.None? <==> r == Err(TypeError(name + ".__generic_args__ is not set"))
    ensures r.Ok? ==> r.value.name == name && r.value.bind.None? && r.value.base.None?
                      && |r.value.args| == |raw.value|
                      && forall i :: 0 <= i < |raw.value| ==> r.value.args[i] == Normalise(raw.value[i])
    ensures raw.Some? && asWritten ==> r.Ok?
  {
    match raw
    case None => Err(TypeError(name + ".__generic_args__ is not set"))
    case Some(entries) =>
      var args := seq(|entries|, i requires 0 <= i < |entries| => Normalise(entries[i]));
      var bad := if asWritten then None else Misordered(args, 0, false);
      if bad.Some? then Err(ValueError(MisorderedMessage(name, args[bad.value].name)))
      else Ok(GClass(name, args, None, None))
  }

  /** The corrected declaration accepts an argument list exactly when its
      defaults trail, and otherwise names the first offender. */
  lemma DeclareChecksOrder<A>(name: string, entries: seq<RawArg<A>>)
    ensures Declare(name, Some(entries), false).Ok? <==>
              DefaultsTrail(seq(|entries|, i requires 0 <= i < |entries| => Normalise(entries[i])))
    ensures Declare(name, Some(entries), false).Err? ==>
              exists k :: 0 <= k < |entries| && Normalise(entries[k]).default.None?
                          && (exists j :: 0 <= j < k && Normalise(entries[j]).default.Some?)
                          && Declare(name, Some(entries), false).error == ValueError(MisorderedMessage(name, entries[k].name))
  {
    var args := seq(|entries|, i requires 0 <= i < |entries| => Normalise(entries[i]));
    MisorderedIff(args, 0, false);
  }

  /** The number of required arguments: the position of the first default. */
  function MinArgs<A>(args: seq<ArgDecl<A>>): (m: nat)
    ensures m <= |args|
    ensures forall i :: 0 <= i < m ==> args[i].default.None?
    ensures m < |args| ==> args[m].default.Some?
  {
    if |args| == 0 then 0
    else if args[0].default.Some? then 0
    else 1 + MinArgs(args[1..])
  }

  /** The binding loop: given values first, defaults for the rest, and the
      `assert` on a missing default. Values past the declared arguments are
      dropped (the "at most" check compares a number with a list and never
      fires in Python 2). */
  function BindArgs<A>(args: seq<ArgDecl<A>>, given: seq<A>): (r: Result<seq<A>>)
    ensures r.Ok? <==> forall i :: |given| <= i < |args| ==> args[i].default.Some?
    ensures r.Err? ==> r.error == AssertionError
    ensures r.Ok? ==> |r.value| == |args|
                      && (forall i :: 0 <= i < |args| && i < |given| ==> r.value[i] == given[i])
                      && (forall i :: |given| <= i < |args| ==> r.value[i] == args[i].default.value)
  {
    if exists i :: |given| <= i < |args| && args[i].default.None? then Err(AssertionError)
    else Ok(seq(|args|, i requires 0 <= i < |args| => if i < |given| then given[i] else args[i].default.value))
  }

  function TakesAtLeast(cls: string, m: nat, n: nat): string {
    cls + " takes at least " + NatToString(m) + " generic arguments (" + NatToString(n) + " given)"
  }

  /** `Generic.__getitem__`: bind the unbound class (an already bound class
      is rebound from its base) to the given values. Too few values raise
      `TypeError`; a missing default raises `AssertionError`. The new
      class is named `Name[repr, ...]`. */
  function Subscript<A>(cls: GClass<A>, given: seq<A>, repr: A -> string): (r: Result<GClass<A>>)
    ensures var c := if cls.base.Some? then cls.base.value else cls;
            && (|given| < MinArgs(c.args) <==> r == Err(TypeError(TakesAtLeast(c.name, MinArgs(c.args), |given|))))
            && (r.Ok? ==> r.value.args == c.args && r.value.base == Some(c)
                          && r.value.bind.Some? && |r.value.bind.value| == |c.args|
                          && forall i :: 0 <= i < |c.args| ==>
                               (i >= |given| ==> c.args[i].default.Some?)
                               && r.value.bind.value[i] == if i < |given| then given[i] else c.args[i].default.value)
  {
    var c := if cls.base.Some? then cls.base.value else cls;
    var m := MinArgs(c.args);
    if |given| < m then Err(TypeError(TakesAtLeast(c.name, m, |given|)))
    else
      var bound :- BindArgs(c.args, given);
      var shown := seq(|bound|, i requires 0 <= i < |bound| => repr(bound[i]));
      Ok(GClass(c.name + "[" + Join(shown, ", ") + "]", c.args, Some(bound), Some(c)))
  }

  /** Binding a bound class again is the same as binding its base. */
  lemma RebindFromBase<A>(cls: GClass<A>, first: seq<A>, second: seq<A>, repr: A -> string)
    requires cls.base.None? && Subscript(cls, first, repr).Ok?
    ensures Subscript(Subscript(cls, first, repr).value, second, repr) == Subscript(cls, second, repr)
  {
  }

  /** With defaults trailing, enough values always bind: the only error
      left is the `TypeError` for too few values. */
  lemma {:induction false} TrailingDefaultsNeverAssert<A>(cls: GClass<A>, given: seq<A>, repr: A -> string)
    requires cls.base.None? && DefaultsTrail(cls.args)
    ensures Subscript(cls, given, repr).Err? ==> Subscript(cls, given, repr).error.TypeError?
  {
    var m := MinArgs(cls.args);
    if |given| >= m {
      forall i | |given| <= i < |cls.args|
        ensures cls.args[i].default.Some?
      {
        assert m < |cls.args| && cls.args[m].default.Some?;
        if i > m {
          assert m < i;
        }
      }
    }
  }

  /** Every class the corrected declaration accepts binds without tripping
      the assertion. */
  lemma DeclaredNeverAsserts<A>(name: string, entries: seq<RawArg<A>>, given: seq<A>, repr: A -> string)
    requires Declare(name, Some(entries), false).Ok?
    ensures var r := Subscript(Declare(name, Some(entries), false).value, given, repr);
            r.Err? ==> r.error.TypeError?
  {
    DeclareChecksOrder(name, entries);
    TrailingDefaultsNeverAssert(Declare(name, Some(entries), false).value, given, repr);
  }

  /** As written, a non-default argument after a default is accepted when
      declared, and binding no values then fails the assertion instead. */
  lemma MisorderedAcceptedAsWritten<A>(x: A, repr: A -> string)
    ensures var c := Declare("C", Some([Tupled("a", [x]), Bare("b")]), true);
            c.Ok? && Subscript(c.value, [], repr) == Err(AssertionError)
  {
    var c := Declare("C", Some([Tupled("a", [x]), Bare("b")]), true).value;
    assert c.args[1] == ArgDecl("b", None);
    assert MinArgs(c.args) == 0;
  }

  /** The corrected declaration rejects that argument list. */
  lemma MisorderedRejected<A>(x: A)
    ensures Declare("C", Some([Tupled("a", [x]), Bare("b")]), false)
            == Err(ValueError(MisorderedMessage("C", "b")))
  {
    var entries: seq<RawArg<A>> := [Tupled("a", [x]), Bare("b")];
    var args := seq(|entries|, i requires 0 <= i < |entries| => Normalise(entries[i]));
    assert args == [ArgDecl("a", Some(x)), ArgDecl("b", None)];
    assert Misordered(args, 0, false) == Some(1);
  }

  // ---------------------------------------------------------------------
  // BaseHashDict

  /** A `BaseHashDict`: the bound hash, the key class's `==`, and the
      entries of the underlying dictionary, each under the key object it
      was first stored with. */
  datatype HashDict<!K, V> = HashDict(hash: K -> int, eq: (K, K) -> bool, entries: seq<(K, V)>)

  /** `BaseHashDict.__init__`: an unbound class raises `TypeError`; a bound
      one starts empty with its first bound value as the hash. */
  function NewHashDict<K, V>(cls: GClass<K -> int>, eq: (K, K) -> bool): (r: Result<HashDict<K, V>>)
    ensures !IsBound(cls) <==> r == Err(TypeError("BaseHashDict object must be bound to generic arguments"))
    ensures r.Ok? ==> r.value.entries == [] && r.value.hash == cls.bind.value[0] && r.value.eq == eq
  {
    if !IsBound(cls) then Err(TypeError("BaseHashDict object must be bound to generic arguments"))
    else Ok(HashDict(cls.bind.value[0], eq, []))
  }

  /** A stored key answers a lookup when the `KeyWrapper` hashes agree and
      the stored key compares equal to the looked-up one. */
  predicate Matches<K>(hash: K -> int, eq: (K, K) -> bool, stored: K, key: K) {
    hash(stored) == hash(key) && eq(stored, key)
  }

  /** The original (unwrapped) keys, as iteration yields them. */
  function Keys<K, V>(d: HashDict<K, V>): (ks: seq<K>)
    ensures |ks| == |d.entries| && forall i :: 0 <= i < |ks| ==> ks[i] == d.entries[i].0
  {
    seq(|d.entries|, i requires 0 <= i < |d.entries| => d.entries[i].0)
  }

  /** The position of the entry answering `key`. */
  function FindKey<K>(hash: K -> int, eq: (K, K) -> bool, keys: seq<K>, key: K): (r: Option<nat>)
    ensures r.Some? ==> r.value < |keys| && Matches(hash, eq, keys[r.value], key)
                        && forall j :: 0 <= j < r.value ==> !Matches(hash, eq, keys[j], key)
    ensures r.None? ==> forall j :: 0 <= j < |keys| ==> !Matches(hash, eq, keys[j], key)
  {
    if |keys| == 0 then None
    else if Matches(hash, eq, keys[0], key) then Some(0)
    else
      match FindKey(hash, eq, keys[1..], key)
      case None => None
      case Some(j) => Some(j + 1)
  }

  function Find<K, V>(d: HashDict<K, V>, key: K): (r: Option<nat>)
    ensures r.Some? ==> r.value < |d.entries|
  {
    FindKey(d.hash, d.eq, Keys(d), key)
  }

  /** `__contains__` */
  predicate Contains<K, V>(d: HashDict<K, V>, key: K) {
    Find(d, key).Some?
  }

  /** `__getitem__`: the stored value, or `KeyError`. */
  function GetItem<K, V>(d: HashDict<K, V>, key: K): (r: Result<V>)
    ensures r.Ok? <==> Contains(d, key)
    ensures r.Err? ==> r.error == KeyError
    ensures r.Ok? ==> exists i :: 0 <= i < |d.entries| && Matches(d.hash, d.eq, d.entries[i].0, key)
                                  && r.value == d.entries[i].1
  {
    match Find(d, key)
    case None => Err(KeyError)
    case Some(i) => Ok(d.entries[i].1)
  }

  /** `get`: the stored value or the default. */
  function Get<K, V>(d: HashDict<K, V>, key: K, default: V): (r: V)
    ensures Contains(d, key) ==> r == GetItem(d, key).value
    ensures !Contains(d, key) ==> r == default
  {
    match Find(d, key)
    case None => default
    case Some(i) => d.entries[i].1
  }

  /** `__setitem__`: an existing entry gets the new value but keeps its
      stored key; otherwise a new entry is added. */
  function SetItem<K, V>(d: HashDict<K, V>, key: K, value: V): (r: HashDict<K, V>)
    ensures r.hash == d.hash && r.eq == d.eq
  {
    match Find(d, key)
    case None => d.(entries := d.entries + [(key, value)])
    case Some(i) => d.(entries := d.entries[i := (d.entries[i].0, value)])
  }

  /** Looking up in a longer key list finds the same entries, and the
      appended key only when nothing earlier answers. */
  lemma {:induction false} FindKeySnoc<K>(hash: K -> int, eq: (K, K) -> bool, keys: seq<K>, k: K, key: K)
    ensures FindKey(hash, eq, keys + [k], key)
            == if FindKey(hash, eq, keys, key).Some? then FindKey(hash, eq, keys, key)
               else if Matches(hash, eq, k, key) then Some(|keys|) else None
  {
    if |keys| == 0 {
      assert keys + [k] == [k];
      assert [k][1..] == [];
    } else {
      assert (keys + [k])[0] == keys[0];
      assert (keys + [k])[1..] == keys[1..] + [k];
      FindKeySnoc(hash, eq, keys[1..], k, key);
    }
  }

  /** Assignment keeps the stored key objects: iteration yields the same
      keys after an update, and one more key after an insertion. */
  lemma KeysAfterSet<K, V>(d: HashDict<K, V>, key: K, value: V)
    ensures Keys(SetItem(d, key, value)) == if Contains(d, key) then Keys(d) else Keys(d) + [key]
  {
  }

  /** A key whose `==` holds for itself reads back what was assigned. */
  lemma SetThenGet<K, V>(d: HashDict<K, V>, key: K, value: V)
    requires d.eq(key, key)
    ensures GetItem(SetItem(d, key, value), key) == Ok(value)
  {
    KeysAfterSet(d, key, value);
    if !Contains(d, key) {
      FindKeySnoc(d.hash, d.eq, Keys(d), key, key);
    }
  }

  /** Assignment leaves every other lookup alone: a key answered by a
      different entry reads as before, and a missing key stays missing
      unless the newly inserted key answers it. */
  lemma SetKeepsOthers<K, V>(d: HashDict<K, V>, key: K, value: V, other: K)
    requires Find(d, other) != Find(d, key) || Find(d, key).None?
    ensures Contains(d, other) ==> GetItem(SetItem(d, key, value), other) == GetItem(d, other)
    ensures !Contains(d, other) ==>
              GetItem(SetItem(d, key, value), other)
              == if !Contains(d, key) && Matches(d.hash, d.eq, key, other) then Ok(value) else Err(KeyError)
  {
    KeysAfterSet(d, key, value);
    if !Contains(d, key) {
      FindKeySnoc(d.hash, d.eq, Keys(d), key, other);
    }
  }

  /** `__delitem__`: `KeyError`, or the dictionary without the answering
      entry. */
  function DelItem<K, V>(d: HashDict<K, V>, key: K): (r: Result<HashDict<K, V>>)
    ensures r.Ok? <==> Contains(d, key)
    ensures r.Err? ==> r.error == KeyError
    ensures r.Ok? ==> var i := Find(d, key).value;
                      r.value.entries == d.entries[..i] + d.entries[i + 1..]
                      && |r.value.entries| == |d.entries| - 1
  {
    match Find(d, key)
    case None => Err(KeyError)
    case Some(i) => Ok(d.(entries := d.entries[..i] + d.entries[i + 1..]))
  }

  /** When exactly one entry answers a key, deleting it leaves none. */
  lemma DelThenMissing<K, V>(d: HashDict<K, V>, key: K)
    requires Contains(d, key)
    requires forall j :: 0 <= j < |d.entries| && j != Find(d, key).value ==> !Matches(d.hash, d.eq, d.entries[j].0, key)
    ensures !Contains(DelItem(d, key).value, key)
  {
    var i := Find(d, key).value;
    var e := DelItem(d, key).value;
    forall j | 0 <= j < |e.entries|
      ensures !Matches(d.hash, d.eq, e.entries[j].0, key)
    {
      if j < i {
        assert e.entries[j] == d.entries[j];
      } else {
        assert e.entries[j] == d.entries[j + 1];
      }
    }
  }

  /** `setdefault`: the stored value, untouched, or the given value,
      inserted. */
  function SetDefault<K, V>(d: HashDict<K, V>, key: K, value: V): (r: (HashDict<K, V>, V))
    ensures Contains(d, key) ==> r == (d, GetItem(d, key).value)
    ensures !Contains(d, key) ==> r == (SetItem(d, key, value), value)
  {
    match Find(d, key)
    case None => (SetItem(d, key, value), value)
    case Some(i) => (d, d.entries[i].1)
  }

  // ---------------------------------------------------------------------
  // HashDict

  /** `HashDict`'s key hash: the function registered for the key's exact
      type, or the built-in `hash`. */
  function TypeHash<K, T(==)>(registry: map<T, K -> int>, typeOf: K -> T, builtin: K -> int): K -> int {
    (v: K) => if typeOf(v) in registry then registry[typeOf(v)](v) else builtin(v)
  }

  /** `specialize_hash_function(type)(func)`: registers `func` for `type`
      and hands `func` back. */
  function Specialize<K, T(==)>(registry: map<T, K -> int>, t: T, func: K -> int): (r: (map<T, K -> int>, K -> int))
    ensures r.1 == func && r.0.Keys == registry.Keys + {t}
  {
    (registry[t := func], func)
  }

  /** After registering, keys of exactly that type hash with the new
      function and keys of every other type (subclasses included, since
      they have a type of their own) hash as before. */
  lemma SpecializeThenHash<K, T>(registry: map<T, K -> int>, t: T, func: K -> int,
                                     typeOf: K -> T, builtin: K -> int, v: K)
    ensures TypeHash(Specialize(registry, t, func).0, typeOf, builtin)(v)
            == if typeOf(v) == t then func(v) else TypeHash(registry, typeOf, builtin)(v)
  {
  }

  /** Without a registered function the built-in hash is used. */
  lemma UnregisteredUsesBuiltin<K, T>(typeOf: K -> T, builtin: K -> int, v: K)
    ensures TypeHash(map[], typeOf, builtin)(v) == builtin(v)
  {
  }
}

=== FILE: jinja.dfy ===
/** `little_jinja(template, context)`: the template is cut into text and
    tags by the scanner, the tags build a tree of `if`/`elif`/`else` blocks
    on a stack of open blocks, and the tree is rendered. Python's `eval` of
    conditions and expressions is replaced by two caller-supplied oracles:
    `holds` for conditions and `show` for `str(eval(expr))`. */
module Jinja {
  import opened Errors
  import opened Text
  import opened Scanner

  /** The rules little_jinja registers, in registration order. */
  const Rules := [Rule("var", VarPattern), Rule("if", TagPattern("if", true)),
                  Rule("elif", TagPattern("elif", true)), Rule("else", TagPattern("else", false)),
                  Rule("endif", TagPattern("endif", false))]

  predicate IsControl(kind: string) {
    kind == "if" || kind == "elif" || kind == "else" || kind == "endif"
  }

  /** The name of a rule little_jinja registers. */
  predicate KnownKind(kind: string) {
    IsControl(kind) || kind == "var"
  }

  /** One iteration of the main loop: the text `behind()` the match, the
      rule that matched, the whole tag and its `group(1)`. */
  datatype Piece = Piece(text: string, kind: string, tag: string, group: string)

  /** The scanner loop. After a control tag that ends in `-%}` the scanner
      skips to the next line before searching on; the final text is what is
      `behind()` the failed search. */
  function Tokenize(st: State): (r: (seq<Piece>, string))
    requires Valid(st) && !st.current.Exhausted?
    decreases |st.s| - st.offset
  {
    var st1 := Next(Rules, st, None);
    if !st1.current.Found? then ([], Behind(st1))
    else
      var m := st1.current.m;
      var tag := st.s[m.start..m.end];
      var st2 := if IsControl(st1.current.name) && EndsWith(tag, "-%}") then SkipLine(st1) else st1;
      var rest := Tokenize(st2);
      ([Piece(Behind(st1), st1.current.name, tag, m.group)] + rest.0, rest.1)
  }

  /** Each piece is tagged with the rule it came from. */
  predicate AllKnown(ps: seq<Piece>) {
    forall i :: 0 <= i < |ps| ==> KnownKind(ps[i].kind)
  }

  /** A match the scanner finds is named after one of the five rules. */
  lemma NextKnown(st: State)
    requires Valid(st) && !st.current.Exhausted?
    ensures Next(Rules, st, None).current.Found? ==> KnownKind(Next(Rules, st, None).current.name)
  {
    var st1 := Next(Rules, st, None);
    if st1.current.Found? {
      var k :| 0 <= k < |Rules| && Rules[k].name == st1.current.name;
      assert k in {0, 1, 2, 3, 4};
    }
  }

  /** Every piece comes from one of the five rules. */
  lemma {:induction false} TokenizeKinds(st: State)
    requires Valid(st) && !st.current.Exhausted?
    ensures AllKnown(Tokenize(st).0)
    decreases |st.s| - st.offset
  {
    var st1 := Next(Rules, st, None);
    NextKnown(st);
    if st1.current.Found? {
      var m := st1.current.m;
      var tag := st.s[m.start..m.end];
      var st2 := if IsControl(st1.current.name) && EndsWith(tag, "-%}") then SkipLine(st1) else st1;
      TokenizeKinds(st2);
      var rest := Tokenize(st2);
      var ps := Tokenize(st).0;
      assert ps[0].kind == st1.current.name && ps[1..] == rest.0;
      assert forall i :: 1 <= i < |ps| ==> ps[i] == rest.0[i - 1];
    }
  }

  /** The pieces written back to back. */
  function Concat(ps: seq<Piece>): string {
    if |ps| == 0 then "" else ps[0].text + ps[0].tag + Concat(ps[1..])
  }

  /** Where the text of the next piece starts: after the last match. */
  function Cursor(st: State): nat {
    if st.current.Found? then st.current.m.end else 0
  }

  /** Scanning loses nothing and repeats nothing: the texts and tags, in
      order, spell out the template from the cursor on. In particular a
      `-%}` tag does not remove the rest of its line: it only keeps tags on
      that line from being recognised. */
  lemma {:induction false} TokenizeTiles(st: State)
    requires Valid(st) && !st.current.Exhausted?
    requires Cursor(st) <= st.offset
    ensures Concat(Tokenize(st).0) + Tokenize(st).1 == st.s[Cursor(st)..]
    decreases |st.s| - st.offset
  {
    var st1 := Next(Rules, st, None);
    var c := Cursor(st);
    BehindAfterNext(st);
    if st1.current.Found? {
      var m := st1.current.m;
      var tag := st.s[m.start..m.end];
      var st2 := if IsControl(st1.current.name) && EndsWith(tag, "-%}") then SkipLine(st1) else st1;
      TokenizeTiles(st2);
      var rest := Tokenize(st2);
      var p := Piece(Behind(st1), st1.current.name, tag, m.group);
      assert Tokenize(st) == ([p] + rest.0, rest.1);
      assert Cursor(st2) == m.end;
      ConcatCons(p, rest.0);
      SliceThree(st.s, c, m.start, m.end);
      calc {
        Concat([p] + rest.0) + rest.1;
        (p.text + p.tag + Concat(rest.0)) + rest.1;
        { AppendAssoc(p.text + p.tag, Concat(rest.0), rest.1); }
        p.text + p.tag + (Concat(rest.0) + rest.1);
        st.s[c..m.start] + st.s[m.start..m.end] + st.s[m.end..];
      }
    } else {
      assert Tokenize(st) == ([], Behind(st1));
      assert Concat([]) + Behind(st1) == Behind(st1);
    }
  }

  lemma AppendAssoc(a: string, b: string, c: string)
    ensures (a + b) + c == a + (b + c)
  {
  }

  /** After `next`, `behind()` is the text from the cursor to the new match
      (or to the end). */
  lemma BehindAfterNext(st: State)
    requires Valid(st) && !st.current.Exhausted? && Cursor(st) <= st.offset
    ensures var st1 := Next(Rules, st, None);
            Behind(st1) == st.s[Cursor(st)..if st1.current.Found? then st1.current.m.start else |st.s|]
  {
  }

  lemma ConcatCons(p: Piece, ps: seq<Piece>)
    ensures Concat([p] + ps) == p.text + p.tag + Concat(ps)
  {
    assert ([p] + ps)[1..] == ps;
  }

  lemma SliceThree(s: string, a: nat, b: nat, c: nat)
    requires a <= b <= c <= |s|
    ensures s[a..b] + s[b..c] + s[c..] == s[a..]
  {
  }

  /** A template whose every match search fails is one piece of text. */
  lemma NoMatchOneText(s: string)
    requires forall j :: 0 <= j < |Rules| ==> Search(Rules[j].pattern, s, 0).None?
    ensures Tokenize(Init(s)) == ([], s)
  {
    NextIsEarliest(Rules, Init(s), None);
  }

  // ---------------------------------------------------------------------
  // the block tree

  datatype Item =
    | Text(data: string)
    | Var(expr: string)
    | If(cond: string, body: seq<Item>, elifs: seq<Branch>, hasElse: bool, elseBody: seq<Item>)

  datatype Branch = Branch(cond: string, body: seq<Item>)

  datatype FrameKind = RootFrame | IfFrame | ElifFrame | ElseFrame

  /** An open block: the `root`, `if`, `elif` or `else` node whose `sub`
      list is being filled. */
  datatype Frame = Frame(kind: FrameKind, cond: string, items: seq<Item>)

  function KindName(k: FrameKind): string {
    match k
    case RootFrame => "root"
    case IfFrame => "if"
    case ElifFrame => "elif"
    case ElseFrame => "else"
  }

  function Kinds(stack: seq<Frame>): (ks: seq<FrameKind>)
    ensures |ks| == |stack|
    ensures forall i :: 0 <= i < |stack| ==> ks[i] == stack[i].kind
  {
    seq(|stack|, i requires 0 <= i < |stack| => stack[i].kind)
  }

  /** `open_blocks[-1].sub.append(item)` */
  function AppendTop(stack: seq<Frame>, it: Item): (r: seq<Frame>)
    requires |stack| >= 1
    ensures |r| == |stack| && Kinds(r) == Kinds(stack)
    ensures r[..|r| - 1] == stack[..|stack| - 1]
  {
    var top := stack[|stack| - 1];
    stack[..|stack| - 1] + [top.(items := top.items + [it])]
  }

  predicate Branching(k: FrameKind) {
    k == IfFrame || k == ElifFrame
  }

  /** The shape every stack of open blocks has: the root at the bottom and
      only there, and an `elif` or `else` block always directly on top of
      the `if` or `elif` block it continues. */
  predicate WellFormed(ks: seq<FrameKind>) {
    |ks| >= 1 && ks[0] == RootFrame
    && (forall i :: 1 <= i < |ks| ==> ks[i] != RootFrame)
    && (forall i :: 1 <= i < |ks| && (ks[i] == ElifFrame || ks[i] == ElseFrame) ==> Branching(ks[i - 1]))
  }

  /** The index of the innermost open `if` below `n`. */
  function InnermostIf(ks: seq<FrameKind>, n: nat): (r: Option<nat>)
    requires n <= |ks|
    ensures r.Some? ==> r.value < n && ks[r.value] == IfFrame
    ensures r.Some? ==> forall i :: r.value < i < n ==> ks[i] != IfFrame
    ensures r.None? ==> forall i :: 0 <= i < n ==> ks[i] != IfFrame
  {
    if n == 0 then None
    else if ks[n - 1] == IfFrame then Some(n - 1)
    else InnermostIf(ks, n - 1)
  }

  /** `if_node.data['else']` for the innermost open `if`: its `else` block
      is set exactly while that block is open above it. */
  predicate ElseSet(ks: seq<FrameKind>) {
    var k := InnermostIf(ks, |ks|);
    k.Some? && exists i :: k.value < i < |ks| && ks[i] == ElseFrame
  }

  /** `while open_blocks[-1].type in ('elif', 'else'): open_blocks.pop()`:
      what stays and what was popped, bottom first. */
  function PopBranches(stack: seq<Frame>): (r: (seq<Frame>, seq<Frame>))
    requires |stack| >= 1 && stack[0].kind == RootFrame
    ensures 1 <= |r.0| <= |stack| && r.0 == stack[..|r.0|] && r.1 == stack[|r.0|..]
    ensures !(r.0[|r.0| - 1].kind == ElifFrame || r.0[|r.0| - 1].kind == ElseFrame)
    ensures forall i :: |r.0| <= i < |stack| ==> stack[i].kind == ElifFrame || stack[i].kind == ElseFrame
  {
    var top := stack[|stack| - 1];
    if top.kind == ElifFrame || top.kind == ElseFrame then
      var r := PopBranches(stack[..|stack| - 1]);
      assert stack[..|stack| - 1][..|r.0|] == stack[..|r.0|];
      (r.0, r.1 + [top])
    else (stack, [])
  }

  function ElifsOf(fs: seq<Frame>): seq<Branch> {
    if |fs| == 0 then []
    else (if fs[0].kind == ElifFrame then [Branch(fs[0].cond, fs[0].items)] else []) + ElifsOf(fs[1..])
  }

  /** The `else` block among the popped ones, if any. */
  function ElseOf(fs: seq<Frame>): Option<seq<Item>> {
    if |fs| == 0 then None
    else if fs[0].kind == ElseFrame then Some(fs[0].items)
    else ElseOf(fs[1..])
  }

  function IfNode(f: Frame, popped: seq<Frame>): Item {
    var e := ElseOf(popped);
    If(f.cond, f.items, ElifsOf(popped), e.Some?, e.GetOr([]))
  }

  /** `endif` after its checks: close the trailing `elif`/`else` blocks and
      then the `if`, and add the finished `if` node to the block below. */
  function CloseIf(stack: seq<Frame>): (r: Result<seq<Frame>>)
    requires |stack| >= 1 && stack[0].kind == RootFrame
    ensures r.Ok? ==> |r.value| >= 1 && r.value[0].kind == RootFrame
  {
    var (rest, popped) := PopBranches(stack);
    var f := rest[|rest| - 1];
    if f.kind != IfFrame then Err(AssertionError)
    else
      assert |rest| >= 2;
      Ok(AppendTop(rest[..|rest| - 1], IfNode(f, popped)))
  }

  /** `{%-`: the text before the tag loses its last line break and what
      follows it. */
  function TrimLastLine(text: string): (r: string)
    ensures LastIndexOf(text, '\n') == -1 ==> r == text
    ensures LastIndexOf(text, '\n') >= 0 ==>
              |r| < |text| && text == r + "\n" + text[|r| + 1..] && '\n' !in text[|r| + 1..]
  {
    var k := LastIndexOf(text, '\n');
    if k >= 0 then
      assert text == text[..k] + "\n" + text[k + 1..];
      var after := text[k + 1..];
      assert '\n' !in after by {
        forall i | 0 <= i < |after| ensures after[i] != '\n' {
          assert after[i] == text[k + 1 + i];
        }
      }
      text[..k]
    else text
  }

  /** One iteration of the main loop on the stack of open blocks. The text
      behind the tag goes into the innermost open block first, trimmed for
      `{%-`. An `elif` or `else` outside an `if`/`elif` block and an
      `endif` outside any block are `ValueError`s. */
  function Step(stack: seq<Frame>, p: Piece): (r: Result<seq<Frame>>)
    requires |stack| >= 1 && stack[0].kind == RootFrame
    ensures r.Ok? ==> |r.value| >= 1 && r.value[0].kind == RootFrame
    ensures p.kind == "elif" && !Branching(stack[|stack| - 1].kind) ==>
              r == Err(ValueError("unmatched \"elif\" instruction"))
    ensures p.kind == "else" && !Branching(stack[|stack| - 1].kind) ==>
              r == Err(ValueError("unmatched \"else\" instruction"))
    ensures p.kind == "endif" && stack[|stack| - 1].kind == RootFrame ==>
              r == Err(ValueError("unmatched \"endif\" instruction"))
    ensures (p.kind == "if" || p.kind == "elif" || p.kind == "else") && r.Ok? ==>
              |r.value| == |stack| + 1 && r.value[|stack|].items == []
    ensures p.kind == "var" ==> r.Ok? && |r.value| == |stack|
    ensures r.Ok? && p.kind != "endif" ==> |r.value| >= |stack| && r.value[..|stack| - 1] == stack[..|stack| - 1]
  {
    var text := if IsControl(p.kind) && StartsWith(p.tag, "{%-") then TrimLastLine(p.text) else p.text;
    var s1 := AppendTop(stack, Text(text));
    var top := stack[|stack| - 1].kind;
    if p.kind == "var" then Ok(AppendTop(s1, Var(p.group)))
    else if p.kind == "if" then Ok(s1 + [Frame(IfFrame, p.group, [])])
    else if p.kind == "elif" then
      if !Branching(top) then Err(ValueError("unmatched \"elif\" instruction"))
      else Ok(s1 + [Frame(ElifFrame, p.group, [])])
    else if p.kind == "else" then
      if !Branching(top) then Err(ValueError("unmatched \"else\" instruction"))
      else if ElseSet(Kinds(stack)) then Err(ValueError("multiple \"else\" instructions"))
      else Ok(s1 + [Frame(ElseFrame, "", [])])
    else if p.kind == "endif" then
      if top == RootFrame then Err(ValueError("unmatched \"endif\" instruction"))
      else CloseIf(s1)
    else Err(AssertionError)
  }

  /** After the loop: the remaining text goes into the innermost block, and
      a block still open is a `ValueError` naming its kind. */
  function Finish(stack: seq<Frame>, tail: string): (r: Result<seq<Item>>)
    requires |stack| >= 1
    ensures |stack| > 1 ==>
              r == Err(ValueError("invalid template: unclosed " + KindName(stack[|stack| - 1].kind) + " block"))
    ensures |stack| == 1 ==> r == Ok(stack[0].items + [Text(tail)])
  {
    var s1 := AppendTop(stack, Text(tail));
    if |s1| != 1 then
      Err(ValueError("invalid template: unclosed " + KindName(s1[|s1| - 1].kind) + " block"))
    else Ok(s1[0].items)
  }

  function Build(stack: seq<Frame>, ps: seq<Piece>, tail: string): (r: Result<seq<Item>>)
    requires |stack| >= 1 && stack[0].kind == RootFrame
    decreases |ps|
  {
    if |ps| == 0 then Finish(stack, tail)
    else
      var s1 :- Step(stack, ps[0]);
      Build(s1, ps[1..], tail)
  }

  /** From a well-formed stack, pieces of the five rules can only fail with
      an `unmatched` tag or an unclosed block. */
  lemma {:induction false} BuildErrors(stack: seq<Frame>, ps: seq<Piece>, tail: string)
    requires |stack| >= 1 && stack[0].kind == RootFrame && WellFormed(Kinds(stack))
    requires AllKnown(ps)
    ensures Build(stack, ps, tail).Err? ==> IsParseError(Build(stack, ps, tail).error)
    decreases |ps|
  {
    if |ps| == 0 {
      FinishErrors(stack, tail);
    } else {
      StepErrorsAreUnmatched(stack, ps[0]);
      if Step(stack, ps[0]).Ok? {
        StepKeepsWellFormed(stack, ps[0]);
        assert forall i :: 0 <= i < |ps[1..]| ==> ps[1..][i] == ps[i + 1];
        BuildErrors(Step(stack, ps[0]).value, ps[1..], tail);
      }
    }
  }

  lemma FinishErrors(stack: seq<Frame>, tail: string)
    requires |stack| >= 1 && stack[0].kind == RootFrame && WellFormed(Kinds(stack))
    ensures Finish(stack, tail).Err? ==> IsParseError(Finish(stack, tail).error)
  {
    if |stack| > 1 {
      var k := stack[|stack| - 1].kind;
      assert Kinds(stack)[|stack| - 1] == k;
      assert Finish(stack, tail).error == Unclosed(k);
    }
  }

  /** The errors a template can raise while it is parsed: a misplaced
      `elif`, `else` or `endif`, or a block left open at the end. */
  predicate IsParseError(e: Error) {
    e == ValueError("unmatched \"elif\" instruction")
    || e == ValueError("unmatched \"else\" instruction")
    || e == ValueError("unmatched \"endif\" instruction")
    || e == Unclosed(IfFrame) || e == Unclosed(ElifFrame) || e == Unclosed(ElseFrame)
  }

  /** The error for a block still open at the end of the template. */
  function Unclosed(k: FrameKind): Error {
    ValueError("invalid template: unclosed " + KindName(k) + " block")
  }

  const RootStack := [Frame(RootFrame, "", [])]

  /** The block tree of a template: the items of the root block. */
  function Parse(s: string): (r: Result<seq<Item>>)
    ensures r.Err? ==> IsParseError(r.error)
  {
    var (ps, tail) := Tokenize(Init(s));
    TokenizeKinds(Init(s));
    assert Kinds(RootStack) == [RootFrame];
    BuildErrors(RootStack, ps, tail);
    Build(RootStack, ps, tail)
  }

  // ---------------------------------------------------------------------
  // the stack discipline

  /** Every step keeps the shape of the stack of open blocks. */
  lemma StepKeepsWellFormed(stack: seq<Frame>, p: Piece)
    requires |stack| >= 1 && stack[0].kind == RootFrame && WellFormed(Kinds(stack))
    requires Step(stack, p).Ok?
    ensures WellFormed(Kinds(Step(stack, p).value))
  {
    var text := if IsControl(p.kind) && StartsWith(p.tag, "{%-") then TrimLastLine(p.text) else p.text;
    var s1 := AppendTop(stack, Text(text));
    var r := Step(stack, p).value;
    if p.kind == "var" {
      assert r == AppendTop(s1, Var(p.group));
    } else if p.kind == "if" || p.kind == "elif" || p.kind == "else" {
      var k := if p.kind == "if" then IfFrame else if p.kind == "elif" then ElifFrame else ElseFrame;
      assert r == s1 + [Frame(k, r[|stack|].cond, [])];
      PushKeepsWellFormed(s1, Frame(k, r[|stack|].cond, []));
    } else {
      assert p.kind == "endif";
      assert r == CloseIf(s1).value;
      CloseIfKeepsWellFormed(s1);
    }
  }

  lemma PushKeepsWellFormed(stack: seq<Frame>, f: Frame)
    requires WellFormed(Kinds(stack)) && f.kind != RootFrame
    requires (f.kind == ElifFrame || f.kind == ElseFrame) ==> Branching(stack[|stack| - 1].kind)
    ensures WellFormed(Kinds(stack + [f]))
  {
    KindsPush(stack, f);
    WellFormedPush(Kinds(stack), f.kind);
  }

  lemma CloseIfKeepsWellFormed(stack: seq<Frame>)
    requires |stack| >= 1 && stack[0].kind == RootFrame && WellFormed(Kinds(stack))
    requires CloseIf(stack).Ok?
    ensures WellFormed(Kinds(CloseIf(stack).value))
  {
    var (rest, popped) := PopBranches(stack);
    var pre := rest[..|rest| - 1];
    assert CloseIf(stack).value == AppendTop(pre, IfNode(rest[|rest| - 1], popped));
    assert pre == stack[..|pre|];
    KindsPrefix(stack, |pre|);
    WellFormedPrefix(Kinds(stack), |pre|);
  }

  lemma KindsPush(stack: seq<Frame>, f: Frame)
    ensures Kinds(stack + [f]) == Kinds(stack) + [f.kind]
  {
  }

  lemma KindsPrefix(stack: seq<Frame>, n: nat)
    requires n <= |stack|
    ensures Kinds(stack[..n]) == Kinds(stack)[..n]
  {
  }

  lemma WellFormedPush(ks: seq<FrameKind>, k: FrameKind)
    requires WellFormed(ks) && k != RootFrame
    requires (k == ElifFrame || k == ElseFrame) ==> Branching(ks[|ks| - 1])
    ensures WellFormed(ks + [k])
  {
    var ks' := ks + [k];
    forall i | 1 <= i < |ks'| && (ks'[i] == ElifFrame || ks'[i] == ElseFrame) ensures Branching(ks'[i - 1]) {
      if i < |ks| {
        assert ks'[i] == ks[i] && ks'[i - 1] == ks[i - 1];
      }
    }
  }

  lemma WellFormedPrefix(ks: seq<FrameKind>, n: nat)
    requires WellFormed(ks) && 1 <= n <= |ks|
    ensures WellFormed(ks[..n])
  {
  }

  /** A second `else` for the same `if` cannot reach its check: after an
      `else` the innermost open block is that `else` (or a block nested in
      it), so the "unmatched" check fires first. */
  lemma MultipleElseUnreachable(ks: seq<FrameKind>)
    requires WellFormed(ks) && Branching(ks[|ks| - 1])
    ensures !ElseSet(ks)
  {
    var k := InnermostIf(ks, |ks|);
    if k.Some? {
      forall i | k.value < i < |ks| ensures ks[i] != ElseFrame {
        if i == |ks| - 1 {
        } else {
          assert ks[i + 1] != IfFrame && ks[i + 1] != RootFrame;
          assert Branching(ks[i]);
        }
      }
    }
  }

  /** `assert open_blocks[-1].type == 'if'` in `endif` always holds: the
      blocks popped before it continue an `if` that is then on top. */
  lemma CloseIfFindsIf(stack: seq<Frame>)
    requires |stack| >= 2 && stack[0].kind == RootFrame && WellFormed(Kinds(stack))
    ensures CloseIf(stack).Ok?
  {
    var (rest, popped) := PopBranches(stack);
    var j := |rest| - 1;
    assert stack[j] == rest[j];
    if j < |stack| - 1 {
      assert Kinds(stack)[j + 1] == stack[j + 1].kind;
      assert Branching(Kinds(stack)[j]);
    } else {
      assert j >= 1;
    }
  }

  /** From a well-formed stack, the "multiple else" and the assertion
      errors never occur: every failing step is one of the "unmatched"
      `ValueError`s. */
  lemma StepErrorsAreUnmatched(stack: seq<Frame>, p: Piece)
    requires |stack| >= 1 && stack[0].kind == RootFrame && WellFormed(Kinds(stack))
    requires IsControl(p.kind) || p.kind == "var"
    ensures Step(stack, p).Err? ==>
              (p.kind == "elif" && Step(stack, p) == Err(ValueError("unmatched \"elif\" instruction")))
              || (p.kind == "else" && Step(stack, p) == Err(ValueError("unmatched \"else\" instruction")))
              || (p.kind == "endif" && Step(stack, p) == Err(ValueError("unmatched \"endif\" instruction")))
  {
    var text := if IsControl(p.kind) && StartsWith(p.tag, "{%-") then TrimLastLine(p.text) else p.text;
    var s1 := AppendTop(stack, Text(text));
    if p.kind == "else" {
      if Branching(stack[|stack| - 1].kind) {
        MultipleElseUnreachable(Kinds(stack));
      }
    } else if p.kind == "endif" {
      if stack[|stack| - 1].kind != RootFrame {
        assert Kinds(s1) == Kinds(stack);
        CloseIfFindsIf(s1);
      }
    }
  }

  // ---------------------------------------------------------------------
  // rendering

  /** The first `elif` whose condition holds. */
  function FirstElif(elifs: seq<Branch>, holds: string -> bool): (r: Option<nat>)
    ensures r.Some? ==> r.value < |elifs| && holds(elifs[r.value].cond)
    ensures r.Some? ==> forall i :: 0 <= i < r.value ==> !holds(elifs[i].cond)
    ensures r.None? ==> forall i :: 0 <= i < |elifs| ==> !holds(elifs[i].cond)
  {
    if |elifs| == 0 then None
    else if holds(elifs[0].cond) then Some(0)
    else match FirstElif(elifs[1..], holds)
      case Some(i) => Some(i + 1)
      case None => None
  }

  /** `render`. `asWritten` selects what the code does when no condition
      holds: it looks up `else` on the last test it tried, so an `if`
      without `elif`s renders its own body when it has an `else`, and an
      `if` with `elif`s fails with `KeyError`. Otherwise the `else` body is
      rendered, if there is one. */
  function RenderItems(items: seq<Item>, holds: string -> bool, show: string -> string, asWritten: bool): (r: Result<string>)
    ensures r.Err? ==> asWritten && r.error == KeyError
    decreases items
  {
    if |items| == 0 then Ok("")
    else
      var a :- RenderItem(items[0], holds, show, asWritten);
      var b :- RenderItems(items[1..], holds, show, asWritten);
      Ok(a + b)
  }

  function RenderItem(it: Item, holds: string -> bool, show: string -> string, asWritten: bool): (r: Result<string>)
    ensures r.Err? ==> asWritten && r.error == KeyError
    decreases it
  {
    match it
    case Text(d) => Ok(d)
    case Var(e) => Ok(show(e))
    case If(c, body, elifs, hasElse, elseBody) =>
      if holds(c) then RenderItems(body, holds, show, asWritten)
      else
        match FirstElif(elifs, holds)
        case Some(i) => RenderItems(elifs[i].body, holds, show, asWritten)
        case None =>
          if !asWritten then
            if hasElse then RenderItems(elseBody, holds, show, asWritten) else Ok("")
          else if |elifs| > 0 then Err(KeyError)
          else if hasElse then RenderItems(body, holds, show, asWritten)
          else Ok("")
  }

  /** `little_jinja(template, context)` */
  function LittleJinja(s: string, holds: string -> bool, show: string -> string, asWritten: bool): (r: Result<string>)
    // Rendering a parsed template fails only as written, and only by the
    // `KeyError` of an `if` whose tests all fail.
    ensures !asWritten ==> (r.Ok? <==> Parse(s).Ok?)
    ensures r.Ok? ==> Parse(s).Ok?
    ensures r.Err? && Parse(s).Ok? ==> asWritten && r.error == KeyError
    ensures Parse(s).Err? ==> r == Err(Parse(s).error)
    // The template's own errors are the parser's `ValueError`s.
    ensures r.Err? ==> IsParseError(r.error) || (asWritten && r.error == KeyError)
  {
    var items :- Parse(s);
    RenderItems(items, holds, show, asWritten)
  }

  /** A template without `{{` and `{%` renders to itself. */
  lemma NoTagIdentity(s: string, holds: string -> bool, show: string -> string, asWritten: bool)
    requires forall j :: 0 <= j ==> !At(s, j, "{{") && !At(s, j, "{%")
    ensures LittleJinja(s, holds, show, asWritten) == Ok(s)
  {
    forall j | 0 <= j < |Rules| ensures Search(Rules[j].pattern, s, 0).None? {
      NoOpenerNoMatch(Rules[j].pattern, s, 0);
    }
    NoMatchOneText(s);
    assert Finish(RootStack, s) == Ok([Text(s)]) by {
      assert RootStack[0].items + [Text(s)] == [Text(s)];
    }
    assert Parse(s) == Ok([Text(s)]);
    assert RenderItems([Text(s)], holds, show, asWritten) == Ok(s) by {
      assert [Text(s)][1..] == [];
      assert s + "" == s;
    }
  }

  /** An `if` block renders the first branch whose condition holds. When
      none holds, the intended reading renders the `else` body (or
      nothing); the code as written renders the `if` body instead when
      there are no `elif`s, and fails with `KeyError` when there are. */
  lemma IfBranchSelection(c: string, body: seq<Item>, elifs: seq<Branch>, hasElse: bool, elseBody: seq<Item>,
                          holds: string -> bool, show: string -> string, asWritten: bool)
    ensures var it := If(c, body, elifs, hasElse, elseBody);
            holds(c) ==> RenderItem(it, holds, show, asWritten) == RenderItems(body, holds, show, asWritten)
    ensures var it := If(c, body, elifs, hasElse, elseBody);
            forall i :: 0 <= i < |elifs| && !holds(c) && holds(elifs[i].cond)
                        && (forall j :: 0 <= j < i ==> !holds(elifs[j].cond)) ==>
              RenderItem(it, holds, show, asWritten) == RenderItems(elifs[i].body, holds, show, asWritten)
    ensures var it := If(c, body, elifs, hasElse, elseBody);
            !holds(c) && (forall i :: 0 <= i < |elifs| ==> !holds(elifs[i].cond)) ==>
              RenderItem(it, holds, show, false)
              == (if hasElse then RenderItems(elseBody, holds, show, false) else Ok(""))
              && RenderItem(it, holds, show, true)
                 == (if |elifs| > 0 then Err(KeyError)
                     else if hasElse then RenderItems(body, holds, show, true) else Ok(""))
  {
    var it := If(c, body, elifs, hasElse, elseBody);
    forall i | 0 <= i < |elifs| && !holds(c) && holds(elifs[i].cond) && (forall j :: 0 <= j < i ==> !holds(elifs[j].cond))
      ensures RenderItem(it, holds, show, asWritten) == RenderItems(elifs[i].body, holds, show, asWritten)
    {
      var f := FirstElif(elifs, holds);
      assert f.Some? && f.value == i;
    }
  }

  /** A lone text renders as itself. */
  lemma OneText(t: string, holds: string -> bool, show: string -> string, asWritten: bool)
    ensures RenderItems([Text(t)], holds, show, asWritten) == Ok(t)
  {
    assert [Text(t)][1..] == [];
    assert t + "" == t;
  }

  /** Where no `if` falls through, the two readings agree. */
  predicate NoFallThrough(items: seq<Item>, holds: string -> bool)
    decreases items
  {
    forall i :: 0 <= i < |items| ==> ItemNoFallThrough(items[i], holds)
  }

  predicate ItemNoFallThrough(it: Item, holds: string -> bool)
    decreases it
  {
    match it
    case If(c, body, elifs, _, _) =>
      (holds(c) || FirstElif(elifs, holds).Some?)
      && NoFallThrough(body, holds)
      && (forall i :: 0 <= i < |elifs| ==> NoFallThrough(elifs[i].body, holds))
    case _ => true
  }

  lemma {:induction false} SameChoiceSameText(items: seq<Item>, holds: string -> bool, show: string -> string)
    ensures NoFallThrough(items, holds) ==>
              RenderItems(items, holds, show, true) == RenderItems(items, holds, show, false)
    decreases items
  {
    if |items| > 0 && NoFallThrough(items, holds) {
      SameChoiceSameItem(items[0], holds, show);
      assert NoFallThrough(items[1..], holds) by {
        forall i | 0 <= i < |items[1..]| ensures ItemNoFallThrough(items[1..][i], holds) {
          assert items[1..][i] == items[i + 1];
        }
      }
      SameChoiceSameText(items[1..], holds, show);
    }
  }

  lemma {:induction false} SameChoiceSameItem(it: Item, holds: string -> bool, show: string -> string)
    ensures ItemNoFallThrough(it, holds) ==>
              RenderItem(it, holds, show, true) == RenderItem(it, holds, show, false)
    decreases it
  {
    if it.If? && ItemNoFallThrough(it, holds) {
      if holds(it.cond) {
        SameChoiceSameText(it.body, holds, show);
      } else {
        var i := FirstElif(it.elifs, holds).value;
        SameChoiceSameText(it.elifs[i].body, holds, show);
      }
    }
  }

  /** `{% if c %}A{% else %}B{% endif %}` with `c` false: the code renders
      `A`, the `else` body `B` is never rendered. */
  lemma ElseRendersIfBody(show: string -> string)
    ensures var it := If("c", [Text("A")], [], true, [Text("B")]);
            var never := (x: string) => false;
            RenderItem(it, never, show, true) == Ok("A") && RenderItem(it, never, show, false) == Ok("B")
  {
    var never := (x: string) => false;
    OneText("A", never, show, true);
    OneText("B", never, show, false);
  }

  /** `{% if a %}A{% elif b %}B{% endif %}` with both false: the code fails
      with `KeyError`; the intended result is the empty string. */
  lemma ElifFallThroughFails(show: string -> string)
    ensures var it := If("a", [Text("A")], [Branch("b", [Text("B")])], false, []);
            var never := (x: string) => false;
            RenderItem(it, never, show, true) == Err(KeyError) && RenderItem(it, never, show, false) == Ok("")
  {
  }
}

=== FILE: nodes.dfy ===
/** The generic tree `Node` and `nullable_ref` of utils.py.

    Python nodes are shared mutable objects that point at each other; here a
    forest is a map from node identities to records, and every operation
    returns the updated map. A node's parent is a `nullable_ref`, modelled
    as an optional identity (a weak reference whose target died is an
    identity that is no longer in the map). */
module Nodes {
  import opened Errors

  /** `nullable_ref`: either empty or referring to one node. */
  type NullableRef = Option<nat>

  /** `nullable_ref.__bool__`. */
  predicate RefTruthy(r: NullableRef) {
    r.Some?
  }

  /** `nullable_ref.__call__`: the node referred to while it is alive;
      an empty reference and one whose node has died both give None. */
  function Deref<V>(f: Forest<V>, r: NullableRef): (n: Option<nat>)
    ensures n.Some? ==> n.value in f && r == n
    ensures n.None? <==> r.None? || r.value !in f
  {
    if r.Some? && r.value in f then r else None
  }

  /** `__bool__` asks only whether the reference was set: a reference
      whose node died is truthy although calling it gives None, and every
      reference that dereferences to a node is truthy. */
  lemma DeadRefTruthy<V>(f: Forest<V>, r: NullableRef)
    ensures Deref(f, r).Some? ==> RefTruthy(r)
    ensures RefTruthy(r) && Deref(f, r).None? <==> r.Some? && r.value !in f
  {
  }

  /** The payload of a node: nothing (`data_cls` None), a `dict`, or a
      namedtuple, whose fields can be read but not assigned. */
  datatype Data<V> =
    | NoData
    | DictData(entries: map<string, V>)
    | ObjData(typeName: string, attrs: map<string, V>)

  /** `type(data).__name__` for the error message of `__setitem__`. */
  function TypeName<V>(d: Data<V>): string {
    match d
    case NoData => "NoneType"
    case DictData(_) => "dict"
    case ObjData(n, _) => n
  }

  /** A node: its parent, its children in order, and its payload. */
  datatype NodeRec<P> = NodeRec(parent: NullableRef, children: seq<nat>, data: P)

  type Forest<P> = map<nat, NodeRec<P>>

  /** The constructor a bound `data_cls` stands for; it may raise. */
  type Constructor<!V> = (seq<V>, map<string, V>) -> Result<Data<V>>

  /** A `Node` class: unbound, or bound (under its generated name such as
      `Node[None]`) to no data class or to a constructor. */
  datatype NodeClass<!V> =
    | Unbound
    | Bound(name: string, dataCls: Option<Constructor<V>>)

  /** `Node.__init__`: a parentless, childless node, or the `TypeError`s for
      an unbound class and for arguments given to a class without data. */
  function NewNode<V>(cls: NodeClass<V>, args: seq<V>, kwargs: map<string, V>): (r: Result<NodeRec<Data<V>>>)
    ensures cls.Unbound? ==> r == Err(TypeError("missing generic arguments for Node class"))
    ensures cls.Bound? && cls.dataCls.None? ==>
              (r.Ok? <==> args == [] && kwargs == map[])
              && (r.Ok? ==> r.value.data == NoData)
              && (r.Err? ==> r.error == TypeError(cls.name + " takes no arguments"))
    ensures cls.Bound? && cls.dataCls.Some? ==>
              (r.Ok? <==> cls.dataCls.value(args, kwargs).Ok?)
              && (r.Ok? ==> r.value.data == cls.dataCls.value(args, kwargs).value)
    ensures r.Ok? ==> !RefTruthy(r.value.parent) && r.value.children == []
  {
    match cls
    case Unbound => Err(TypeError("missing generic arguments for Node class"))
    case Bound(name, None) =>
      if |args| > 0 || |kwargs| > 0 then Err(TypeError(name + " takes no arguments"))
      else Ok(NodeRec(None, [], NoData))
    case Bound(_, Some(make)) =>
      var d :- make(args, kwargs);
      Ok(NodeRec(None, [], d))
  }

  /** `__getitem__`: dictionary lookup (`KeyError`) or attribute lookup
      (`AttributeError`). */
  function GetItem<V>(d: Data<V>, key: string): (r: Result<V>)
    ensures r.Ok? <==> (d.DictData? && key in d.entries) || (d.ObjData? && key in d.attrs)
    ensures r.Ok? ==> r.value == (if d.DictData? then d.entries[key] else d.attrs[key])
    ensures d.DictData? && r.Err? ==> r.error == KeyError
    ensures !d.DictData? && r.Err? ==> r.error == AttributeError(key)
  {
    match d
    case DictData(m) => if key in m then Ok(m[key]) else Err(KeyError)
    case ObjData(_, m) => if key in m then Ok(m[key]) else Err(AttributeError(key))
    case NoData => Err(AttributeError(key))
  }

  /** `get`: the lookup with a default instead of an error. */
  function Get<V>(d: Data<V>, key: string, default: V): (r: V)
    ensures GetItem(d, key).Ok? ==> r == GetItem(d, key).value
    ensures GetItem(d, key).Err? ==> r == default
  {
    match d
    case DictData(m) => if key in m then m[key] else default
    case ObjData(_, m) => if key in m then m[key] else default
    case NoData => default
  }

  /** What Python 2 says when a namedtuple field is assigned: its fields
      are read-only properties. */
  const ReadOnlyField := "can't set attribute"

  /** `__setitem__`: a dictionary takes any key. Other data is assigned
      with `setattr` when it has the attribute, which a namedtuple refuses
      with `AttributeError`, and anything else is the `AttributeError` the
      method raises itself. So only dictionary data can be changed. */
  function SetItem<V>(d: Data<V>, key: string, value: V): (r: Result<Data<V>>)
    ensures r.Ok? <==> d.DictData?
    ensures d.ObjData? && key in d.attrs ==> r == Err(AttributeError(ReadOnlyField))
    ensures !d.DictData? && !(d.ObjData? && key in d.attrs) ==>
              r == Err(AttributeError(TypeName(d) + " has no attribute " + key))
    ensures r.Ok? ==> r.value.DictData? && r.value.entries.Keys == d.entries.Keys + {key}
  {
    match d
    case DictData(m) => Ok(DictData(m[key := value]))
    case ObjData(n, m) =>
      if key in m then Err(AttributeError(ReadOnlyField))
      else Err(AttributeError(TypeName(d) + " has no attribute " + key))
    case NoData => Err(AttributeError(TypeName(d) + " has no attribute " + key))
  }

  /** After a successful assignment the key reads back the new value and
      every other key reads as before. */
  lemma SetThenGet<V>(d: Data<V>, key: string, value: V, other: string)
    requires SetItem(d, key, value).Ok?
    ensures GetItem(SetItem(d, key, value).value, key) == Ok(value)
    ensures other != key ==> GetItem(SetItem(d, key, value).value, other) == GetItem(d, other)
  {
  }

  /** `Node.__setitem__` on a node of the forest: only that node's data
      changes; a failure leaves the forest as it was (no new forest). */
  function SetNodeItem<V>(f: Forest<Data<V>>, id: nat, key: string, value: V): (r: Result<Forest<Data<V>>>)
    requires id in f
    ensures r.Ok? <==> SetItem(f[id].data, key, value).Ok?
    ensures r.Ok? ==> r.value.Keys == f.Keys
                      && r.value[id] == f[id].(data := SetItem(f[id].data, key, value).value)
                      && forall n :: n in f && n != id ==> r.value[n] == f[n]
  {
    var d :- SetItem(f[id].data, key, value);
    Ok(f[id := f[id].(data := d)])
  }

  // ---------------------------------------------------------------------
  // Linking

  predicate NoDups(s: seq<nat>) {
    forall i, j :: 0 <= i < j < |s| ==> s[i] != s[j]
  }

  /** Every identity a record mentions is a node of the forest. */
  predicate Closed<V>(f: Forest<V>) {
    forall id :: id in f ==>
      (f[id].parent.Some? ==> f[id].parent.value in f)
      && (forall c :: c in f[id].children ==> c in f)
  }

  /** The invariant `add_child` and `remove` keep: a node is in a children
      list exactly when its parent is that list's owner, and no list holds a
      node twice. So every node sits in at most one children list. */
  predicate Linked<V>(f: Forest<V>) {
    Closed(f)
    && (forall p, c :: p in f && c in f[p].children ==> f[c].parent == Some(p))
    && (forall c :: c in f && f[c].parent.Some? ==> c in f[f[c].parent.value].children)
    && (forall id :: id in f ==> NoDups(f[id].children))
  }

  /** The position of the first occurrence of `x`. */
  function IndexOf(s: seq<nat>, x: nat): (k: nat)
    requires x in s
    ensures k < |s| && s[k] == x && x !in s[..k]
  {
    if s[0] == x then 0
    else
      assert x in s[1..] by { assert s == [s[0]] + s[1..]; }
      var k := 1 + IndexOf(s[1..], x);
      assert s[..k] == [s[0]] + s[1..][..k - 1];
      k
  }

  /** `list.remove`: drops the first occurrence (nodes compare by identity)
      or raises `ValueError`. */
  function RemoveFirst(s: seq<nat>, x: nat): (r: Result<seq<nat>>)
    ensures r.Ok? <==> x in s
    ensures r.Err? ==> r.error == ValueError("list.remove(x): x not in list")
    ensures r.Ok? ==> |r.value| == |s| - 1
                      && var k := IndexOf(s, x); r.value == s[..k] + s[k + 1..]
  {
    if x in s then
      var k := IndexOf(s, x);
      Ok(s[..k] + s[k + 1..])
    else Err(ValueError("list.remove(x): x not in list"))
  }

  /** In a list without duplicates, removing `x` keeps exactly the other
      elements, still without duplicates. */
  /** Dropping one position keeps a list free of duplicates. */
  lemma NoDupsDrop(s: seq<nat>, k: nat)
    requires k < |s| && NoDups(s)
    ensures NoDups(s[..k] + s[k + 1..])
  {
    var r := s[..k] + s[k + 1..];
    forall i, j | 0 <= i < j < |r|
      ensures r[i] != r[j]
    {
      var ii := if i < k then i else i + 1;
      var jj := if j < k then j else j + 1;
      assert r[i] == s[ii] && r[j] == s[jj];
    }
  }

  lemma RemoveFirstMembers(s: seq<nat>, x: nat)
    requires x in s && NoDups(s)
    ensures forall y :: y in RemoveFirst(s, x).value <==> y in s && y != x
    ensures NoDups(RemoveFirst(s, x).value)
  {
    var k := IndexOf(s, x);
    var r := RemoveFirst(s, x).value;
    assert s == s[..k] + [x] + s[k + 1..];
    assert multiset(s) == multiset(r) + multiset{x};
    assert x !in s[k + 1..] by {
      forall j | k + 1 <= j < |s|
        ensures s[j] != x
      {
      }
    }
    assert x !in r;
    NoDupsDrop(s, k);
  }

  /** `Node.remove`: the node leaves its parent's children and its parent
      is cleared; a parentless node (or one whose parent is gone) only has
      its parent cleared. */
  function Remove<V>(f: Forest<V>, id: nat): (r: Result<Forest<V>>)
    requires id in f
    ensures r.Ok? ==> r.value.Keys == f.Keys && !RefTruthy(r.value[id].parent)
    ensures Deref(f, f[id].parent).None? ==>
              r == Ok(f[id := f[id].(parent := None)])
  {
    var parent := Deref(f, f[id].parent);
    if parent.Some? then
      var p := parent.value;
      var kept :- RemoveFirst(f[p].children, id);
      var f1 := f[p := f[p].(children := kept)];
      Ok(f1[id := f1[id].(parent := None)])
    else
      Ok(f[id := f[id].(parent := None)])
  }

  /** `g` is `f` with `id` detached: the same nodes and data, `id` without
      a parent and in no children list, every other link as before, and no
      children list holding a node twice. */
  ghost predicate Detached<V>(f: Forest<V>, g: Forest<V>, id: nat)
    requires id in f
  {
    g.Keys == f.Keys
    && (forall n :: n in f ==> g[n].data == f[n].data)
    && (forall n :: n in f && n != id ==> g[n].parent == f[n].parent)
    && g[id].parent.None?
    && (forall n, x :: n in f ==> (x in g[n].children <==> x in f[n].children && x != id))
    && (forall n :: n in f ==> NoDups(g[n].children))
  }

  /** Detaching a node from a linked forest leaves it linked. */
  lemma DetachedLinked<V>(f: Forest<V>, g: Forest<V>, id: nat)
    requires id in f && Linked(f) && Detached(f, g, id)
    ensures Linked(g)
  {
    forall n | n in g
      ensures (g[n].parent.Some? ==> g[n].parent.value in g)
              && (forall c :: c in g[n].children ==> c in g)
    {
      if n != id {
        assert g[n].parent == f[n].parent;
      }
    }
    forall p, c | p in g && c in g
      ensures c in g[p].children <==> g[c].parent == Some(p)
    {
      if c != id {
        assert c in g[p].children <==> c in f[p].children;
      }
    }
  }

  /** The case with a live parent: the node leaves that parent's list. */
  lemma RemoveFromParentDetaches<V>(f: Forest<V>, id: nat)
    requires Linked(f) && id in f && f[id].parent.Some?
    ensures Remove(f, id).Ok? && Detached(f, Remove(f, id).value, id)
  {
    var q := f[id].parent.value;
    assert id in f[q].children;
    RemoveFirstMembers(f[q].children, id);
    var g := Remove(f, id).value;
    assert g[q].children == RemoveFirst(f[q].children, id).value;
    forall n | n in f && n != q
      ensures g[n].children == f[n].children
    {
    }
    forall n, x | n in f
      ensures x in g[n].children <==> x in f[n].children && x != id
    {
      if n != q && x == id {
        assert f[id].parent != Some(n);
      }
    }
  }

  /** The parentless case: only the parent is cleared. */
  lemma RemoveParentlessDetaches<V>(f: Forest<V>, id: nat)
    requires Linked(f) && id in f && f[id].parent.None?
    ensures Remove(f, id).Ok? && Detached(f, Remove(f, id).value, id)
  {
    var g := Remove(f, id).value;
    forall n, x | n in f
      ensures x in g[n].children <==> x in f[n].children && x != id
    {
      assert g[n].children == f[n].children;
      if x == id {
        assert f[id].parent != Some(n);
      }
    }
  }

  /** On a linked forest `remove` cannot fail and detaches the node. */
  lemma RemoveDetaches<V>(f: Forest<V>, id: nat)
    requires Linked(f) && id in f
    ensures Remove(f, id).Ok? && Detached(f, Remove(f, id).value, id)
  {
    if f[id].parent.Some? {
      RemoveFromParentDetaches(f, id);
    } else {
      RemoveParentlessDetaches(f, id);
    }
  }

  /** On a linked forest `remove` cannot fail, keeps the forest linked,
      leaves the node in no children list, and changes nothing else: other
      children lists, other parents and all data stay as they were. */
  lemma RemoveKeepsLinked<V>(f: Forest<V>, id: nat)
    requires Linked(f) && id in f
    ensures Remove(f, id).Ok?
    ensures Linked(Remove(f, id).value)
    ensures forall n :: n in f ==> id !in Remove(f, id).value[n].children
    ensures forall n :: n in f ==> Remove(f, id).value[n].data == f[n].data
    ensures forall n :: n in f && n != id ==> Remove(f, id).value[n].parent == f[n].parent
    ensures forall n, c :: n in f && c != id ==>
              (c in Remove(f, id).value[n].children <==> c in f[n].children)
  {
    RemoveDetaches(f, id);
    DetachedLinked(f, Remove(f, id).value, id);
  }

  /** The attaching half of `add_child`: set the parent, then append. */
  function Attach<V>(f: Forest<V>, p: nat, c: nat): (r: Forest<V>)
    requires p in f && c in f
  {
    var f2 := f[c := f[c].(parent := Some(p))];
    f2[p := f2[p].(children := f2[p].children + [c])]
  }

  /** `Node.add_child`: detach the node, then point it at its new parent
      and append it to that parent's children. */
  function AddChild<V>(f: Forest<V>, p: nat, c: nat): (r: Result<Forest<V>>)
    requires p in f && c in f
    ensures r.Ok? ==> r.value.Keys == f.Keys && r.value[c].parent == Some(p)
                      && |r.value[p].children| > 0 && r.value[p].children[|r.value[p].children| - 1] == c
  {
    var f1 :- Remove(f, c);
    Ok(Attach(f1, p, c))
  }

  /** Appending a fresh element keeps a list free of duplicates. */
  lemma NoDupsSnoc(s: seq<nat>, x: nat)
    requires NoDups(s) && x !in s
    ensures NoDups(s + [x])
  {
    forall i, j | 0 <= i < j < |s + [x]|
      ensures (s + [x])[i] != (s + [x])[j]
    {
      assert (s + [x])[i] == s[i];
      if j < |s| {
        assert (s + [x])[j] == s[j];
      }
    }
  }

  /** `g` is `f` with the detached `c` attached under `p`. */
  ghost predicate Attached<V>(f: Forest<V>, g: Forest<V>, p: nat, c: nat)
    requires c in f
  {
    g.Keys == f.Keys
    && (forall n :: n in f ==> g[n].data == f[n].data)
    && (forall n :: n in f && n != c ==> g[n].parent == f[n].parent)
    && g[c].parent == Some(p)
    && (forall n, x :: n in f ==> (x in g[n].children <==> x in f[n].children || (n == p && x == c)))
    && (forall n :: n in f ==> NoDups(g[n].children))
  }

  lemma AttachShape<V>(f: Forest<V>, p: nat, c: nat)
    requires Linked(f) && p in f && c in f && f[c].parent.None?
    ensures Attached(f, Attach(f, p, c), p, c)
  {
    var g := Attach(f, p, c);
    assert c !in f[p].children;
    NoDupsSnoc(f[p].children, c);
    assert g[p].children == f[p].children + [c];
    forall n | n in f && n != p
      ensures g[n].children == f[n].children
    {
    }
  }

  /** Attaching a detached node keeps a forest linked. */
  lemma AttachedLinked<V>(f: Forest<V>, g: Forest<V>, p: nat, c: nat)
    requires Linked(f) && p in f && c in f && f[c].parent.None? && Attached(f, g, p, c)
    ensures Linked(g)
  {
    forall n | n in g
      ensures (g[n].parent.Some? ==> g[n].parent.value in g)
              && (forall x :: x in g[n].children ==> x in g)
    {
      if n != c {
        assert g[n].parent == f[n].parent;
      }
    }
    forall a, x | a in g && x in g
      ensures x in g[a].children <==> g[x].parent == Some(a)
    {
      if x == c {
        assert c !in f[a].children;
      } else {
        assert g[x].parent == f[x].parent;
      }
    }
  }

  /** On a linked forest `add_child` cannot fail and keeps the forest
      linked; the node ends up in exactly one children list, its new
      parent's, once; no other node's parent and no data changes, and
      other nodes keep their membership in every children list. */
  lemma AddChildKeepsLinked<V>(f: Forest<V>, p: nat, c: nat)
    requires Linked(f) && p in f && c in f
    ensures AddChild(f, p, c).Ok?
    ensures Linked(AddChild(f, p, c).value)
    ensures forall n :: n in f ==> (c in AddChild(f, p, c).value[n].children <==> n == p)
    ensures forall n :: n in f ==> AddChild(f, p, c).value[n].data == f[n].data
    ensures forall n :: n in f && n != c ==> AddChild(f, p, c).value[n].parent == f[n].parent
    ensures forall n, x :: n in f && x != c ==>
              (x in AddChild(f, p, c).value[n].children <==> x in f[n].children)
  {
    RemoveDetaches(f, c);
    var f1 := Remove(f, c).value;
    DetachedLinked(f, f1, c);
    AttachShape(f1, p, c);
    var g := Attach(f1, p, c);
    AttachedLinked(f1, g, p, c);
    assert AddChild(f, p, c).value == g;
  }

  /** What `add_child` keeps, without the children lists. */
  lemma AddChildKept<V>(f: Forest<V>, p: nat, c: nat) returns (g: Forest<V>)
    requires Linked(f) && p in f && c in f
    ensures AddChild(f, p, c) == Ok(g) && Linked(g) && g.Keys == f.Keys && g[c].parent == Some(p)
    ensures forall n :: n in f ==> g[n].data == f[n].data
    ensures forall n :: n in f && n != c ==> g[n].parent == f[n].parent
  {
    AddChildKeepsLinked(f, p, c);
    g := AddChild(f, p, c).value;
  }

  /** A newly constructed node joins a linked forest without disturbing
      it. */
  lemma InsertFreshKeepsLinked<V>(f: Forest<V>, id: nat, rec: NodeRec<V>)
    requires Linked(f) && id !in f && rec.parent.None? && rec.children == []
    ensures Linked(f[id := rec])
  {
    var g := f[id := rec];
    forall p, c | p in g && c in g
      ensures c in g[p].children <==> g[c].parent == Some(p)
    {
      if p != id && c != id {
        assert g[p] == f[p] && g[c] == f[c];
      } else if p != id {
        assert id !in f[p].children;
      }
    }
  }

  // ---------------------------------------------------------------------
  // Traversal

  /** A height witness for an acyclic forest: every child ranks below its
      parent, and ranks stay below the forest's size. Python recursion on a
      cyclic forest does not terminate, so traversals require one. */
  predicate Ranked<V>(f: Forest<V>, rank: map<nat, nat>) {
    Closed(f)
    && (forall id :: id in f ==> id in rank && rank[id] < |f|)
    && (forall p, c :: p in f && c in f[p].children ==> rank[c] < rank[p])
  }

  /** `Node.visit`: the order in which `func` is called. The root comes
      first, last after its descendants when `postOrder`, or not at all
      without `withRoot`; the children recurse with the default arguments. */
  function Visit<V>(f: Forest<V>, rank: map<nat, nat>, id: nat, withRoot: bool, postOrder: bool): (r: seq<nat>)
    requires Ranked(f, rank) && id in f
    decreases rank[id] + 1, 0
  {
    (if withRoot && !postOrder then [id] else [])
    + VisitAll(f, rank, f[id].children, rank[id])
    + (if withRoot && postOrder then [id] else [])
  }

  /** The loop over `children`: each child's own pre-order visit. */
  function VisitAll<V>(f: Forest<V>, rank: map<nat, nat>, cs: seq<nat>, top: nat): (r: seq<nat>)
    requires Ranked(f, rank) && forall c :: c in cs ==> c in f && rank[c] < top
    decreases top, |cs|
  {
    if |cs| == 0 then []
    else Visit(f, rank, cs[0], true, false) + VisitAll(f, rank, cs[1..], top)
  }

  /** `n` is `id` or lies below it. */
  predicate InSubtree<V>(f: Forest<V>, rank: map<nat, nat>, id: nat, n: nat)
    requires Ranked(f, rank) && id in f
    decreases rank[id]
  {
    n == id || exists c :: c in f[id].children && InSubtree(f, rank, c, n)
  }

  /** The three modes differ only in where the root goes: descendants are
      always visited pre-order, even with `postOrder`. */
  lemma VisitModes<V>(f: Forest<V>, rank: map<nat, nat>, id: nat)
    requires Ranked(f, rank) && id in f
    ensures Visit(f, rank, id, true, false) == [id] + Visit(f, rank, id, false, false)
    ensures Visit(f, rank, id, true, true) == Visit(f, rank, id, false, false) + [id]
    ensures Visit(f, rank, id, false, true) == Visit(f, rank, id, false, false)
  {
    var below := VisitAll(f, rank, f[id].children, rank[id]);
    assert Visit(f, rank, id, false, false) == [] + below + [];
    assert Visit(f, rank, id, true, false) == [id] + below + [];
    assert Visit(f, rank, id, true, true) == [] + below + [id];
    assert Visit(f, rank, id, false, true) == [] + below + [];
    assert [] + below + [] == below;
    assert [id] + below + [] == [id] + below;
    assert [] + below + [id] == below + [id];
  }

  /** A node is visited exactly when it lies in the subtree: strictly below
      the root without `withRoot`, and the root too with it. */
  lemma {:induction false} VisitCoversSubtree<V>(f: Forest<V>, rank: map<nat, nat>, id: nat, n: nat)
    requires Ranked(f, rank) && id in f
    ensures n in Visit(f, rank, id, true, false) <==> InSubtree(f, rank, id, n)
    decreases rank[id] + 1, 0
  {
    VisitAllCovers(f, rank, f[id].children, rank[id], n);
  }

  lemma {:induction false} VisitAllCovers<V>(f: Forest<V>, rank: map<nat, nat>, cs: seq<nat>, top: nat, n: nat)
    requires Ranked(f, rank) && forall c :: c in cs ==> c in f && rank[c] < top
    ensures n in VisitAll(f, rank, cs, top) <==> exists c :: c in cs && InSubtree(f, rank, c, n)
    decreases top, |cs|
  {
    if |cs| > 0 {
      VisitCoversSubtree(f, rank, cs[0], n);
      VisitAllCovers(f, rank, cs[1..], top, n);
      if n in VisitAll(f, rank, cs, top) {
        if n in Visit(f, rank, cs[0], true, false) {
        } else {
          var c :| c in cs[1..] && InSubtree(f, rank, c, n);
        }
      }
      if c :| c in cs && InSubtree(f, rank, c, n) {
        if c != cs[0] {
          assert c in cs[1..];
        }
      }
    }
  }

  /** A subtree's nodes are in the forest and rank no higher than its root. */
  lemma {:induction false} SubtreeRank<V>(f: Forest<V>, rank: map<nat, nat>, r: nat, n: nat)
    requires Ranked(f, rank) && r in f && InSubtree(f, rank, r, n)
    ensures n in f && rank[n] <= rank[r]
    decreases rank[r]
  {
    if n != r {
      var d :| d in f[r].children && InSubtree(f, rank, d, n);
      SubtreeRank(f, rank, d, n);
    }
  }

  /** Below its root, a subtree node's parent is in the subtree too. */
  lemma {:induction false} SubtreeUp<V>(f: Forest<V>, rank: map<nat, nat>, r: nat, n: nat)
    requires Linked(f) && Ranked(f, rank) && r in f && InSubtree(f, rank, r, n) && n != r
    ensures n in f && f[n].parent.Some? && InSubtree(f, rank, r, f[n].parent.value)
    decreases rank[r]
  {
    var d :| d in f[r].children && InSubtree(f, rank, d, n);
    if d == n {
      assert f[n].parent == Some(r);
    } else {
      SubtreeUp(f, rank, d, n);
    }
  }

  /** Subtrees of two distinct siblings (or two distinct roots) share no
      node. */
  lemma {:induction false} SubtreesDisjoint<V>(f: Forest<V>, rank: map<nat, nat>, a: nat, b: nat, n: nat)
    requires Linked(f) && Ranked(f, rank) && a in f && b in f && a != b && f[a].parent == f[b].parent
    ensures !(InSubtree(f, rank, a, n) && InSubtree(f, rank, b, n))
    decreases if n in f then |f| - rank[n] else 0
  {
    if InSubtree(f, rank, a, n) && InSubtree(f, rank, b, n) {
      if n == a || n == b {
        var other := if n == a then b else a;
        SubtreeUp(f, rank, other, n);
        var p := f[n].parent.value;
        assert other in f[p].children;
        SubtreeRank(f, rank, other, p);
      } else {
        SubtreeUp(f, rank, a, n);
        SubtreeUp(f, rank, b, n);
        var p := f[n].parent.value;
        assert n in f[p].children;
        SubtreesDisjoint(f, rank, a, b, p);
      }
    }
  }

  lemma NoDupsConcat(a: seq<nat>, b: seq<nat>)
    requires NoDups(a) && NoDups(b) && forall x :: x in a ==> x !in b
    ensures NoDups(a + b)
  {
    forall i, j | 0 <= i < j < |a + b|
      ensures (a + b)[i] != (a + b)[j]
    {
      if j < |a| {
        assert (a + b)[i] == a[i] && (a + b)[j] == a[j];
      } else if i >= |a| {
        assert (a + b)[i] == b[i - |a|] && (a + b)[j] == b[j - |a|];
      } else {
        assert (a + b)[i] == a[i] && (a + b)[j] == b[j - |a|];
        assert a[i] in a && b[j - |a|] in b;
      }
    }
  }

  /** In a linked forest `visit` calls `func` on each node at most once. */
  lemma {:induction false} VisitNoDups<V>(f: Forest<V>, rank: map<nat, nat>, id: nat)
    requires Linked(f) && Ranked(f, rank) && id in f
    ensures NoDups(Visit(f, rank, id, true, false))
    decreases rank[id] + 1, 0
  {
    var cs := f[id].children;
    VisitAllNoDups(f, rank, cs, rank[id], Some(id));
    var below := VisitAll(f, rank, cs, rank[id]);
    VisitAllCovers(f, rank, cs, rank[id], id);
    if c :| c in cs && InSubtree(f, rank, c, id) {
      SubtreeRank(f, rank, c, id);
    }
    NoDupsConcat([id], below);
    assert Visit(f, rank, id, true, false) == [id] + below + [];
  }

  lemma {:induction false} VisitAllNoDups<V>(f: Forest<V>, rank: map<nat, nat>, cs: seq<nat>, top: nat, parent: Option<nat>)
    requires Linked(f) && Ranked(f, rank) && NoDups(cs)
    requires forall c :: c in cs ==> c in f && rank[c] < top && f[c].parent == parent
    ensures NoDups(VisitAll(f, rank, cs, top))
    decreases top, |cs|
  {
    if |cs| > 0 {
      var c0 := cs[0];
      VisitNoDups(f, rank, c0);
      assert NoDups(cs[1..]) by {
        forall i, j | 0 <= i < j < |cs| - 1
          ensures cs[1..][i] != cs[1..][j]
        {
          assert cs[1..][i] == cs[i + 1] && cs[1..][j] == cs[j + 1];
        }
      }
      VisitAllNoDups(f, rank, cs[1..], top, parent);
      var head, tail := Visit(f, rank, c0, true, false), VisitAll(f, rank, cs[1..], top);
      forall n | n in head
        ensures n !in tail
      {
        VisitCoversSubtree(f, rank, c0, n);
        VisitAllCovers(f, rank, cs[1..], top, n);
        if c :| c in cs[1..] && InSubtree(f, rank, c, n) {
          var k :| 0 <= k < |cs[1..]| && cs[1..][k] == c;
          assert c == cs[k + 1];
          SubtreesDisjoint(f, rank, c0, c, n);
        }
      }
      NoDupsConcat(head, tail);
    }
  }

  /** The ancestor `k + 1` steps up: `AncestorAt(f, id, 0)` is the parent. */
  function AncestorAt<V>(f: Forest<V>, id: nat, k: nat): (r: Option<nat>)
    requires Closed(f) && id in f
    ensures r.Some? ==> r.value in f
  {
    if k == 0 then f[id].parent
    else
      match AncestorAt(f, id, k - 1)
      case None => None
      case Some(a) => f[a].parent
  }

  /** In a linked, ranked forest a parent ranks above its child. */
  lemma ParentRanksHigher<V>(f: Forest<V>, rank: map<nat, nat>, c: nat)
    requires Linked(f) && Ranked(f, rank) && c in f && f[c].parent.Some?
    ensures f[c].parent.value in f && rank[c] < rank[f[c].parent.value]
  {
    assert c in f[f[c].parent.value].children;
  }

  /** One more step up the ancestor chain. */
  lemma AncestorNext<V>(f: Forest<V>, id: nat, k: nat, a: nat)
    requires Closed(f) && id in f && AncestorAt(f, id, k) == Some(a)
    ensures a in f && AncestorAt(f, id, k + 1) == f[a].parent
  {
  }

  /** The first `n` ancestors all exist and none satisfies `stop`. */
  predicate PassedAll<V>(f: Forest<V>, id: nat, stop: nat -> bool, n: nat)
    requires Closed(f) && id in f
  {
    forall j :: 0 <= j < n ==> AncestorAt(f, id, j).Some? && !stop(AncestorAt(f, id, j).value)
  }

  lemma PassedOneMore<V>(f: Forest<V>, id: nat, stop: nat -> bool, n: nat)
    requires Closed(f) && id in f && PassedAll(f, id, stop, n)
    requires AncestorAt(f, id, n).Some? && !stop(AncestorAt(f, id, n).value)
    ensures PassedAll(f, id, stop, n + 1)
  {
  }

  /** `Node.depth`: the number of ancestors up to, but not including, the
      first one satisfying `stop` (the root's parent, None, ends it too). */
  method Depth<V>(f: Forest<V>, rank: map<nat, nat>, id: nat, stop: nat -> bool) returns (count: nat)
    requires Linked(f) && Ranked(f, rank) && id in f
    ensures forall j :: 0 <= j < count ==> AncestorAt(f, id, j).Some? && !stop(AncestorAt(f, id, j).value)
    ensures AncestorAt(f, id, count).None? || stop(AncestorAt(f, id, count).value)
  {
    count := 0;
    var cur := id;
    while true
      invariant cur in f
      invariant AncestorAt(f, id, count) == f[cur].parent
      invariant PassedAll(f, id, stop, count)
      decreases |f| - rank[cur]
    {
      var next := Deref(f, f[cur].parent);
      if next.None? {
        break;
      }
      if stop(next.value) {
        break;
      }
      ParentRanksHigher(f, rank, cur);
      AncestorNext(f, id, count, next.value);
      PassedOneMore(f, id, stop, count);
      count := count + 1;
      cur := next.value;
    }
  }
}

=== FILE: paths.dfy ===
/** POSIX path helpers and `path_parents` (ui/FileList.py, and its twin in
    plugin_main.py): a path followed by its successive directory names. */
module Paths {
  import opened Errors
  import opened Text

  predicate AllSlashes(s: string) {
    forall i :: 0 <= i < |s| ==> s[i] == '/'
  }

  /** `os.path.dirname`: everything up to the last `/`, with trailing
      slashes removed unless the head is nothing but slashes. */
  function Dirname(p: string): (d: string)
    ensures |d| <= |p| && d == p[..|d|]
    ensures d == p <==> p == "" || AllSlashes(p)
    ensures '/' !in p ==> d == ""
  {
    var i := LastIndexOf(p, '/') + 1;
    var head := p[..i];
    if head != "" && !AllSlashes(head) then
      assert head[i - 1] == '/';
      var d := RStrip(head, {'/'});
      assert |d| < |head|;
      d
    else
      assert AllSlashes(head) && p == head ==> AllSlashes(p);
      assert AllSlashes(p) && p != "" ==> i == |p| by {
        if AllSlashes(p) && p != "" {
          assert p[|p| - 1] == '/';
        }
      }
      head
  }

  /** `os.path.basename`: everything after the last `/`. */
  function Basename(p: string): (b: string)
    ensures '/' !in b
    ensures |b| <= |p| && b == p[|p| - |b|..]
  {
    var b := p[LastIndexOf(p, '/') + 1..];
    assert forall i :: 0 <= i < |b| ==> b[i] == p[LastIndexOf(p, '/') + 1 + i];
    b
  }

  /** Where `path_parents` stops: `dirname` gives nothing or the same. */
  predicate Top(p: string) {
    Dirname(p) == "" || Dirname(p) == p
  }

  /** The generator's loop: successive `dirname`s, stopping at an empty one
      or one equal to the previously yielded one. */
  function ParentsLoop(path: string, prev: Option<string>): (r: seq<string>)
    decreases |path|, if prev == Some(path) then 0 else 1
  {
    var d := Dirname(path);
    if d == "" || prev == Some(d) then []
    else [d] + ParentsLoop(d, Some(d))
  }

  /** `path_parents(path)` */
  function PathParents(path: string): (r: seq<string>)
    ensures |r| >= 1 && r[0] == path
  {
    [path] + ParentsLoop(path, None)
  }

  /** Each item is the `dirname` of the one before. */
  predicate Climbs(r: seq<string>) {
    forall i :: 0 <= i < |r| - 1 ==> r[i + 1] == Dirname(r[i])
  }

  /** No item from position `lo` up to, but not including, the last is a
      stopping point. */
  predicate NoStopBefore(r: seq<string>, lo: nat) {
    forall i :: lo <= i < |r| - 1 ==> !Top(r[i])
  }

  lemma ClimbsCons(x: string, rest: seq<string>)
    requires Climbs(rest) && |rest| > 0 && rest[0] == Dirname(x)
    ensures Climbs([x] + rest)
  {
    var r := [x] + rest;
    forall i | 0 <= i < |r| - 1
      ensures r[i + 1] == Dirname(r[i])
    {
      if i > 0 {
        assert r[i] == rest[i - 1] && r[i + 1] == rest[i];
      }
    }
  }

  lemma NoStopCons(x: string, rest: seq<string>, lo: nat)
    requires NoStopBefore(rest, 0) && (lo == 0 ==> !Top(x))
    ensures NoStopBefore([x] + rest, lo)
  {
    var r := [x] + rest;
    forall i | lo <= i < |r| - 1
      ensures !Top(r[i])
    {
      if i > 0 {
        assert r[i] == rest[i - 1];
      }
    }
  }

  lemma ConsLast<T>(x: T, rest: seq<T>)
    requires |rest| > 0
    ensures ([x] + rest)[|rest|] == rest[|rest| - 1]
  {
  }

  /** The loop's output chains: each item is the `dirname` of the one
      before, the last one is where `dirname` stops, and every item but
      possibly a repeated root moves strictly up. */
  lemma {:induction false} ParentsLoopChain(path: string, prev: Option<string>)
    requires prev.None? || prev == Some(path)
    ensures var r := [path] + ParentsLoop(path, prev);
            Climbs(r) && Top(r[|r| - 1]) && NoStopBefore(r, if prev.Some? then 0 else 1)
    decreases |path|, if prev == Some(path) then 0 else 1
  {
    var d := Dirname(path);
    if d == "" || prev == Some(d) {
    } else {
      ParentsLoopChain(d, Some(d));
      var rest := [d] + ParentsLoop(d, Some(d));
      assert [path] + ParentsLoop(path, prev) == [path] + rest;
      ClimbsCons(path, rest);
      NoStopCons(path, rest, if prev.Some? then 0 else 1);
      ConsLast(path, rest);
    }
  }

  /** `path_parents` yields the path, then each parent directory in turn,
      and stops where `dirname` gives nothing or repeats; only the given
      path itself can be a stopping point before the end (then it is a
      root such as `/`, and comes out twice). */
  lemma PathParentsChain(path: string)
    ensures var r := PathParents(path);
            (forall i :: 0 <= i < |r| - 1 ==> r[i + 1] == Dirname(r[i]))
            && Top(r[|r| - 1])
            && (forall i :: 0 < i < |r| - 1 ==> !Top(r[i]))
            && (|r| > 1 && Top(path) ==> r[1] == path)
  {
    ParentsLoopChain(path, None);
    var r := PathParents(path);
    assert Climbs(r) && NoStopBefore(r, 1);
    if |r| > 1 && Top(path) {
      assert r[1] == Dirname(path);
    }
  }

  /** A filesystem root is yielded twice. */
  lemma RootYieldedTwice()
    ensures PathParents("/") == ["/", "/"]
  {
    assert Dirname("/") == "/";
  }

  /** The directory of a path whose last `/` sits at `k` right after a
      name character is everything before that `/`. */
  lemma DirnameAtSlash(p: string, k: nat)
    requires 0 < k < |p| && p[k] == '/' && p[k - 1] != '/'
    requires forall j :: k < j < |p| ==> p[j] != '/'
    ensures Dirname(p) == p[..k]
  {
    assert LastIndexOf(p, '/') == k;
    var head := p[..k + 1];
    assert !AllSlashes(head) by {
      assert head[k - 1] != '/';
    }
    var d := RStrip(head, {'/'});
    assert d == head[..|d|];
  }

  /** A relative path yields itself and each shorter prefix ending before
      a `/`: `a/b/c` gives `a/b/c`, `a/b`, `a`. */
  lemma RelativeParents()
    ensures PathParents("a/b/c") == ["a/b/c", "a/b", "a"]
  {
    DirnameAtSlash("a/b/c", 3);
    assert "a/b/c"[..3] == "a/b";
    DirnameAtSlash("a/b", 1);
    assert "a/b"[..1] == "a";
    var tail := ParentsLoop("a", Some("a"));
    assert Dirname("a") == "" by { assert '/' !in "a"; }
    assert tail == [];
    ParentsLoopStep("a/b", "a", Some("a/b"), tail);
    ParentsLoopStep("a/b/c", "a/b", None, ["a"] + tail);
  }

  lemma ParentsLoopStep(path: string, d: string, prev: Option<string>, rest: seq<string>)
    requires Dirname(path) == d && d != "" && prev != Some(d)
    requires ParentsLoop(d, Some(d)) == rest
    ensures ParentsLoop(path, prev) == [d] + rest
  {
  }

  /** The order `file_tree` walks a chain in: outermost directory first. */
  function Reverse<T>(s: seq<T>): (r: seq<T>)
    ensures |r| == |s| && forall i :: 0 <= i < |s| ==> r[i] == s[|s| - 1 - i]
  {
    if |s| == 0 then [] else Reverse(s[1..]) + [s[0]]
  }

  /** A chain in walking order: it starts at a stopping point, each item's
      `dirname` is the item before it, and a stopping point after the start
      only repeats the item before it. */
  predicate WellChained(rev: seq<string>) {
    |rev| > 0 && Top(rev[0])
    && forall k :: 0 < k < |rev| ==> rev[k - 1] == Dirname(rev[k]) && (Top(rev[k]) ==> rev[k] == rev[k - 1])
  }

  lemma WalkOrderWellChained(path: string)
    ensures WellChained(Reverse(PathParents(path)))
  {
    PathParentsChain(path);
    ReverseChained(PathParents(path));
  }

  /** A chain as `path_parents` yields it, read backwards, is well
      chained. */
  lemma ReverseChained(r: seq<string>)
    requires |r| >= 1 && Top(r[|r| - 1])
    requires forall i :: 0 <= i < |r| - 1 ==> r[i + 1] == Dirname(r[i])
    requires forall i :: 0 < i < |r| - 1 ==> !Top(r[i])
    requires |r| > 1 && Top(r[0]) ==> r[1] == r[0]
    ensures WellChained(Reverse(r))
  {
    var rev := Reverse(r);
    var n := |r|;
    forall k | 0 < k < n
      ensures rev[k - 1] == Dirname(rev[k]) && (Top(rev[k]) ==> rev[k] == rev[k - 1])
    {
      var j := n - 1 - k;
      assert rev[k] == r[j] && rev[k - 1] == r[j + 1];
      assert r[j + 1] == Dirname(r[j]);
      if j > 0 {
        assert !Top(r[j]);
      }
    }
  }

  // ---------------------------------------------------------------------
  // os.path.join and os.path.splitext

  /** `os.path.join(a, b)`: an absolute `b` replaces `a`; otherwise `b` is
      appended, after a `/` unless `a` is empty or already ends in one. */
  function PathJoin(a: string, b: string): (r: string)
  {
    if StartsWith(b, "/") then b
    else if a == "" || EndsWith(a, "/") then a + b
    else a + "/" + b
  }

  /** `os.path.join(a, *parts)` */
  function PathJoinAll(a: string, parts: seq<string>): string
    decreases |parts|
  {
    if |parts| == 0 then a else PathJoinAll(PathJoin(a, parts[0]), parts[1..])
  }

  /** Joining anything that is not absolute keeps the first path as a
      prefix. */
  lemma JoinExtends(a: string, b: string)
    requires !StartsWith(b, "/")
    ensures StartsWith(PathJoin(a, b), a)
  {
    var j := PathJoin(a, b);
    assert j[..|a|] == a;
  }

  /** A relative name joined under a directory is the path's base name,
      and the directory is what stays before it. */
  lemma JoinName(a: string, b: string)
    requires b != "" && '/' !in b
    ensures Basename(PathJoin(a, b)) == b
    ensures var j := PathJoin(a, b);
            j == j[..|j| - |b|] + b
            && (a == "" || EndsWith(a, "/") ==> j[..|j| - |b|] == a)
            && (a != "" && !EndsWith(a, "/") ==> j[..|j| - |b|] == a + "/")
  {
    NameNotAbsolute(b);
    var j := PathJoin(a, b);
    var pre := if a == "" || EndsWith(a, "/") then a else a + "/";
    assert j == pre + b;
    var k := |pre|;
    assert j[..k] == pre && j[k..] == b;
    assert k == 0 || j[k - 1] == '/';
    forall i | k <= i < |j|
      ensures j[i] != '/'
    {
      assert j[i] == b[i - k];
    }
    assert LastIndexOf(j, '/') == k - 1;
  }

  /** A non-empty name without a `/` is not an absolute path. */
  lemma NameNotAbsolute(b: string)
    requires b != "" && '/' !in b
    ensures !StartsWith(b, "/")
  {
    assert b[..1][0] == b[0];
  }

  /** Joining a name under a directory whose last character is neither
      `/` nor missing gives back that directory as the `dirname`. */
  lemma JoinDirname(a: string, b: string)
    requires b != "" && '/' !in b && a != "" && a[|a| - 1] != '/'
    ensures Dirname(PathJoin(a, b)) == a
  {
    var j := PathJoin(a, b);
    assert b[..1] != "/" by { assert b[..1][0] == b[0]; }
    assert a[|a| - 1..] != "/" by { assert a[|a| - 1..][0] == a[|a| - 1]; }
    assert j == a + "/" + b;
    forall i | |a| < i < |j|
      ensures j[i] != '/'
    {
      assert j[i] == b[i - |a| - 1];
    }
    DirnameAtSlash(j, |a|);
    assert j[..|a|] == a;
  }

  lemma PathJoinAllTwo(a: string, x: string, y: string)
    ensures PathJoinAll(a, [x, y]) == PathJoin(PathJoin(a, x), y)
  {
    var parts := [x, y];
    var last := [y];
    assert parts[1..] == last && last[1..] == [];
    assert PathJoinAll(a, parts) == PathJoinAll(PathJoin(a, x), last);
    assert PathJoinAll(PathJoin(a, x), last) == PathJoinAll(PathJoin(PathJoin(a, x), y), []);
  }

  /** `os.path.join(a, x, y)` for two relative names: the result lies under
      `a`, ends in `y` and has `a` joined with `x` as its directory. */
  lemma JoinTwoNames(a: string, x: string, y: string)
    requires x != "" && '/' !in x && '/' !in y
    ensures StartsWith(PathJoinAll(a, [x, y]), a) && PathJoinAll(a, [x, y]) != ""
    ensures y != "" ==> Basename(PathJoinAll(a, [x, y])) == y
                        && Dirname(PathJoinAll(a, [x, y])) == PathJoin(a, x)
  {
    PathJoinAllTwo(a, x, y);
    var ax := PathJoin(a, x);
    JoinUnderName(a, x);
    if y != "" {
      JoinRelative(ax, y);
    } else {
      assert PathJoin(ax, y) == ax + "/";
      assert (ax + "/")[..|a|] == ax[..|a|];
    }
  }

  lemma JoinUnderName(a: string, x: string)
    requires x != "" && '/' !in x
    ensures StartsWith(PathJoin(a, x), a) && PathJoin(a, x) != ""
    ensures PathJoin(a, x)[|PathJoin(a, x)| - 1] != '/'
  {
    assert x[..1] != "/" by { assert x[..1][0] == x[0]; }
    JoinExtends(a, x);
    var ax := PathJoin(a, x);
    assert ax[|ax| - |x|..] == x;
    assert ax[|ax| - 1] == x[|x| - 1];
  }

  lemma JoinRelative(ax: string, y: string)
    requires ax != "" && ax[|ax| - 1] != '/'
    requires y != "" && '/' !in y
    ensures StartsWith(PathJoin(ax, y), ax)
    ensures Basename(PathJoin(ax, y)) == y && Dirname(PathJoin(ax, y)) == ax
  {
    assert y[..1] != "/" by { assert y[..1][0] == y[0]; }
    JoinExtends(ax, y);
    JoinName(ax, y);
    JoinDirname(ax, y);
  }

  lemma StartsWithTrans(s: string, t: string, u: string)
    requires StartsWith(s, t) && StartsWith(t, u)
    ensures StartsWith(s, u)
  {
    assert s[..|u|] == t[..|t|][..|u|];
  }

  /** The base name of a path is what follows its last `/`. */
  lemma BasenameAfterSlash(x: string, y: string)
    requires '/' !in y
    ensures Basename(x + "/" + y) == y
  {
    var p := x + "/" + y;
    assert p[|x|] == '/';
    forall i | |x| < i < |p|
      ensures p[i] != '/'
    {
      assert p[i] == y[i - |x| - 1];
    }
    assert LastIndexOf(p, '/') == |x|;
    assert p[|x| + 1..] == y;
  }

  /** `os.path.join(a, *parts)` for relative names: the result lies under
      `a` and its base name is the last part. */
  lemma {:induction false} JoinAllNames(a: string, parts: seq<string>)
    requires |parts| >= 1
    requires forall i :: 0 <= i < |parts| ==> parts[i] != "" && '/' !in parts[i]
    ensures StartsWith(PathJoinAll(a, parts), a)
    ensures Basename(PathJoinAll(a, parts)) == parts[|parts| - 1]
    decreases |parts|
  {
    var ax := PathJoin(a, parts[0]);
    JoinUnderName(a, parts[0]);
    var rest := parts[1..];
    assert PathJoinAll(a, parts) == PathJoinAll(ax, rest);
    if |rest| == 0 {
      JoinName(a, parts[0]);
    } else {
      assert forall i :: 0 <= i < |rest| ==> rest[i] == parts[i + 1];
      JoinAllNames(ax, rest);
      StartsWithTrans(PathJoinAll(ax, rest), ax, a);
    }
  }

  /** The position of the first character of `p[lo..hi]` that is not a dot,
      or `hi` when there is none. */
  function SkipDots(p: string, lo: nat, hi: nat): (k: nat)
    requires lo <= hi <= |p|
    ensures lo <= k <= hi && forall i :: lo <= i < k ==> p[i] == '.'
    ensures k < hi ==> p[k] != '.'
    decreases hi - lo
  {
    if lo < hi && p[lo] == '.' then SkipDots(p, lo + 1, hi) else lo
  }

  /** `os.path.splitext(p)`: the extension is everything from the last
      `.` when that dot lies in the last path component and something
      other than dots precedes it in that component; otherwise there is no
      extension. */
  function SplitExt(p: string): (r: (string, string))
    ensures r.0 + r.1 == p
    ensures r.1 == "" || (r.1[0] == '.' && '/' !in r.1 && '.' !in r.1[1..])
  {
    var sepIndex := LastIndexOf(p, '/');
    var dotIndex := LastIndexOf(p, '.');
    if dotIndex > sepIndex && SkipDots(p, sepIndex + 1, dotIndex) < dotIndex then
      assert p[..dotIndex] + p[dotIndex..] == p;
      assert forall i :: 0 < i < |p| - dotIndex ==> p[dotIndex..][i] == p[dotIndex + i];
      (p[..dotIndex], p[dotIndex..])
    else
      (p, "")
  }

  /** A name with a plain suffix splits into the name and that suffix when
      the name's last component has something other than dots in it. */
  lemma SplitExtSuffix(root: string, ext: string)
    requires |ext| >= 1 && ext[0] == '.' && '/' !in ext && '.' !in ext[1..]
    requires exists i :: LastIndexOf(root, '/') < i < |root| && root[i] != '.'
    ensures SplitExt(root + ext) == (root, ext)
  {
    var p := root + ext;
    var s := LastIndexOf(root, '/');
    forall i | |root| <= i < |p|
      ensures p[i] != '/' && (i > |root| ==> p[i] != '.')
    {
      assert p[i] == ext[i - |root|];
      if i > |root| {
        assert ext[1..][i - |root| - 1] == ext[i - |root|];
      }
    }
    assert p[|root|] == '.';
    assert LastIndexOf(p, '.') == |root|;
    assert forall i :: 0 <= i < |root| ==> p[i] == root[i];
    assert LastIndexOf(p, '/') == s;
    var i :| s < i < |root| && root[i] != '.';
    assert p[i] != '.';
    assert p[..|root|] == root;
  }
}

=== FILE: pipeline.dfy ===
/** `RefactoringTool.get_fixers` and `refactor_string`'s source preparation:
    fixers are split into a pre-order and a post-order list by their `order`
    attribute and each list is stably sorted by `run_order`. */
module Pipeline {
  import opened Errors
  import opened Text
  import PyRepr

  /** What the tool reads from a fixer instance. */
  datatype FixerInfo = FixerInfo(name: string, order: string, runOrder: int)

  predicate SortedByRunOrder(s: seq<FixerInfo>) {
    forall i, j :: 0 <= i < j < |s| ==> s[i].runOrder <= s[j].runOrder
  }

  /** The fixers of one run order, in their relative order. */
  function WithRunOrder(s: seq<FixerInfo>, k: int): (r: seq<FixerInfo>)
    ensures forall i :: 0 <= i < |r| ==> r[i].runOrder == k
  {
    if |s| == 0 then []
    else (if s[0].runOrder == k then [s[0]] else []) + WithRunOrder(s[1..], k)
  }

  lemma {:induction false} WithRunOrderAppend(a: seq<FixerInfo>, b: seq<FixerInfo>, k: int)
    ensures WithRunOrder(a + b, k) == WithRunOrder(a, k) + WithRunOrder(b, k)
    decreases |a|
  {
    if |a| == 0 {
      assert a + b == b;
    } else {
      assert (a + b)[1..] == a[1..] + b;
      WithRunOrderAppend(a[1..], b, k);
    }
  }

  lemma {:induction false} WithRunOrderAbove(s: seq<FixerInfo>, k: int)
    requires forall i :: 0 <= i < |s| ==> s[i].runOrder > k
    ensures WithRunOrder(s, k) == []
    decreases |s|
  {
    if |s| > 0 {
      WithRunOrderAbove(s[1..], k);
    }
  }

  /** Where a stable insertion puts `x`: after every element whose run
      order is not greater than its own. */
  function InsertPos(s: seq<FixerInfo>, x: FixerInfo): (p: nat)
    requires SortedByRunOrder(s)
    ensures p <= |s|
    ensures forall i :: 0 <= i < p ==> s[i].runOrder <= x.runOrder
    ensures forall i :: p <= i < |s| ==> s[i].runOrder > x.runOrder
  {
    if |s| == 0 || s[0].runOrder > x.runOrder then 0 else 1 + InsertPos(s[1..], x)
  }

  function InsertStable(s: seq<FixerInfo>, x: FixerInfo): (r: seq<FixerInfo>)
    requires SortedByRunOrder(s)
    ensures SortedByRunOrder(r)
    ensures multiset(r) == multiset(s) + multiset{x}
  {
    var p := InsertPos(s, x);
    InsertAtSorted(s, p, x);
    var a, b := s[..p], s[p..];
    assert s == a + b;
    assert multiset(a + [x] + b) == multiset(a) + multiset{x} + multiset(b);
    a + [x] + b
  }

  lemma InsertAtSorted(s: seq<FixerInfo>, p: nat, x: FixerInfo)
    requires SortedByRunOrder(s) && p <= |s|
    requires forall i :: 0 <= i < p ==> s[i].runOrder <= x.runOrder
    requires forall i :: p <= i < |s| ==> s[i].runOrder > x.runOrder
    ensures SortedByRunOrder(s[..p] + [x] + s[p..])
  {
    var r := s[..p] + [x] + s[p..];
    forall i, j | 0 <= i < j < |r| ensures r[i].runOrder <= r[j].runOrder {
      if j < p {
        assert r[i] == s[i] && r[j] == s[j];
      } else if j == p {
        assert r[i] == s[i];
      } else if i < p {
        assert r[i] == s[i] && r[j] == s[j - 1];
      } else if i == p {
        assert r[j] == s[j - 1];
      } else {
        assert r[i] == s[i - 1] && r[j] == s[j - 1];
      }
    }
  }

  /** `list.sort(key=lambda x: x.run_order)`, which is stable. */
  function SortByRunOrder(s: seq<FixerInfo>): (r: seq<FixerInfo>)
    ensures SortedByRunOrder(r)
    ensures multiset(r) == multiset(s)
  {
    if |s| == 0 then []
    else
      assert s == s[..|s| - 1] + [s[|s| - 1]];
      InsertStable(SortByRunOrder(s[..|s| - 1]), s[|s| - 1])
  }

  lemma InsertStableKeepsRunOrderGroups(s: seq<FixerInfo>, x: FixerInfo, k: int)
    requires SortedByRunOrder(s)
    ensures WithRunOrder(InsertStable(s, x), k)
         == WithRunOrder(s, k) + (if x.runOrder == k then [x] else [])
  {
    var p := InsertPos(s, x);
    if x.runOrder == k {
      WithRunOrderAbove(s[p..], k);
    }
    InsertKeepsRunOrderGroups(s[..p], s[p..], x, k);
    assert s[..p] + s[p..] == s;
  }

  /** Inserting `x` in front of a part with none of its run order puts it
      last in its group. */
  lemma InsertKeepsRunOrderGroups(a: seq<FixerInfo>, b: seq<FixerInfo>, x: FixerInfo, k: int)
    requires x.runOrder == k ==> WithRunOrder(b, k) == []
    ensures WithRunOrder(a + [x] + b, k)
         == WithRunOrder(a + b, k) + (if x.runOrder == k then [x] else [])
  {
    WithRunOrderAppend(a + [x], b, k);
    WithRunOrderAppend(a, [x], k);
    WithRunOrderAppend(a, b, k);
    assert [x][1..] == [];
  }

  /** Stability: within one run order, the sorted list keeps the input order. */
  lemma {:induction false} SortKeepsRunOrderGroups(s: seq<FixerInfo>, k: int)
    ensures WithRunOrder(SortByRunOrder(s), k) == WithRunOrder(s, k)
    decreases |s|
  {
    if |s| > 0 {
      var init := s[..|s| - 1];
      var x := s[|s| - 1];
      SortKeepsRunOrderGroups(init, k);
      InsertStableKeepsRunOrderGroups(SortByRunOrder(init), x, k);
      assert s == init + [x];
      WithRunOrderAppend(init, [x], k);
      assert [x][1..] == [];
    }
  }

  /** The fixers whose `order` is `o`, in input order. */
  function WithOrder(s: seq<FixerInfo>, o: string): (r: seq<FixerInfo>)
    ensures forall i :: 0 <= i < |r| ==> r[i].order == o
    ensures |r| <= |s|
  {
    if |s| == 0 then []
    else (if s[0].order == o then [s[0]] else []) + WithOrder(s[1..], o)
  }

  predicate LegalOrder(f: FixerInfo) {
    f.order == "pre" || f.order == "post"
  }

  /** The message of the `FixerError`: the illegal order as a literal. */
  function IllegalOrder(order: string): (msg: string)
    ensures StartsWith(msg, "Illegal fixer order: ")
  {
    "Illegal fixer order: " + PyRepr.Repr(order)
  }

  /** The message names the order: what follows the fixed text is a
      literal that reads back as the order. */
  lemma IllegalOrderNamesOrder(order: string)
    ensures PyRepr.ReadLiteral(IllegalOrder(order)[|"Illegal fixer order: "|..]) == Some(order)
  {
    var lit := PyRepr.Repr(order);
    PyRepr.ReprRoundTrip(order);
    assert ("Illegal fixer order: " + lit)[|"Illegal fixer order: "|..] == lit;
  }

  /** The loop of `get_fixers` before sorting: the two lists, or a
      FixerError naming the first illegal order. */
  function Partition(s: seq<FixerInfo>): (r: Result<(seq<FixerInfo>, seq<FixerInfo>)>)
    ensures r.Ok? <==> forall i :: 0 <= i < |s| ==> LegalOrder(s[i])
    ensures r.Ok? ==> r.value == (WithOrder(s, "pre"), WithOrder(s, "post"))
    ensures r.Err? ==> (exists i :: 0 <= i < |s| && !LegalOrder(s[i])
                          && r.error == FixerError(IllegalOrder(s[i].order))
                          && forall j :: 0 <= j < i ==> LegalOrder(s[j]))
  {
    if |s| == 0 then Ok(([], []))
    else if !LegalOrder(s[0]) then Err(FixerError(IllegalOrder(s[0].order)))
    else
      match Partition(s[1..])
      case Err(e) =>
        FirstIllegalShift(s, e);
        Err(e)
      case Ok(lists) =>
        assert forall j :: 0 <= j < |s| - 1 ==> s[1..][j] == s[j + 1];
        assert forall j :: 1 <= j < |s| ==> s[j] == s[1..][j - 1];
        assert "pre" != "post" by { assert "pre"[1] != "post"[1]; }
        if s[0].order == "pre" then
          assert s[0].order != "post";
          assert WithOrder(s, "post") == [] + WithOrder(s[1..], "post") == WithOrder(s[1..], "post");
          assert WithOrder(s, "pre") == [s[0]] + WithOrder(s[1..], "pre");
          assert lists == (WithOrder(s[1..], "pre"), WithOrder(s[1..], "post"));
          Ok(([s[0]] + lists.0, lists.1))
        else
          assert WithOrder(s, "pre") == [] + WithOrder(s[1..], "pre") == WithOrder(s[1..], "pre");
          Ok((lists.0, [s[0]] + lists.1))
  }

  /** The first illegal fixer of the tail, behind a legal head, is the
      first illegal fixer of the whole list. */
  lemma FirstIllegalShift(s: seq<FixerInfo>, e: Error)
    requires |s| >= 1 && LegalOrder(s[0])
    requires exists i :: 0 <= i < |s| - 1 && !LegalOrder(s[1..][i])
                         && e == FixerError(IllegalOrder(s[1..][i].order))
                         && forall j :: 0 <= j < i ==> LegalOrder(s[1..][j])
    ensures exists i :: 0 <= i < |s| && !LegalOrder(s[i])
                        && e == FixerError(IllegalOrder(s[i].order))
                        && forall j :: 0 <= j < i ==> LegalOrder(s[j])
  {
    var i :| 0 <= i < |s| - 1 && !LegalOrder(s[1..][i])
             && e == FixerError(IllegalOrder(s[1..][i].order))
             && forall j :: 0 <= j < i ==> LegalOrder(s[1..][j]);
    assert s[1..][i] == s[i + 1];
    forall j | 0 <= j < i + 1
      ensures LegalOrder(s[j])
    {
      if j > 0 {
        assert s[j] == s[1..][j - 1];
      }
    }
  }

  /** `RefactoringTool.get_fixers`. */
  function GetFixers(s: seq<FixerInfo>): (r: Result<(seq<FixerInfo>, seq<FixerInfo>)>)
    ensures r.Ok? <==> forall i :: 0 <= i < |s| ==> LegalOrder(s[i])
    ensures r.Ok? ==> SortedByRunOrder(r.value.0) && SortedByRunOrder(r.value.1)
    ensures r.Ok? ==> (multiset(r.value.0) == multiset(WithOrder(s, "pre"))
                       && multiset(r.value.1) == multiset(WithOrder(s, "post")))
  {
    var lists :- Partition(s);
    Ok((SortByRunOrder(lists.0), SortByRunOrder(lists.1)))
  }

  /** Fixers that share a run order run in the order they were given. */
  lemma GetFixersStable(s: seq<FixerInfo>, k: int)
    requires GetFixers(s).Ok?
    ensures WithRunOrder(GetFixers(s).value.0, k) == WithRunOrder(WithOrder(s, "pre"), k)
    ensures WithRunOrder(GetFixers(s).value.1, k) == WithRunOrder(WithOrder(s, "post"), k)
  {
    SortKeepsRunOrderGroups(WithOrder(s, "pre"), k);
    SortKeepsRunOrderGroups(WithOrder(s, "post"), k);
  }

  /** `code.rstrip() + '\n'`, the text handed to the parser. */
  function PrepareSource(code: string): (r: string)
    ensures EndsWith(r, "\n")
    ensures |r| >= 2 ==> !IsWhitespace(r[|r| - 2])
    ensures StartsWith(code, r[..|r| - 1])
    ensures forall i :: |r| - 1 <= i < |code| ==> IsWhitespace(code[i])
  {
    var body := RStrip(code, Whitespace);
    assert forall i :: |body| <= i < |code| ==> IsWhitespace(code[i]) by {
      forall i | |body| <= i < |code| ensures IsWhitespace(code[i]) {
        WhitespaceSet(code[i]);
      }
    }
    assert |body| > 0 ==> !IsWhitespace(body[|body| - 1]) by {
      if |body| > 0 {
        WhitespaceSet(body[|body| - 1]);
      }
    }
    assert (body + "\n")[..|body|] == body;
    body + "\n"
  }
}

=== FILE: plugin_naming.dfy ===
/** The name derivations the converters share: the dashed, lower-cased
    file name of a plugin and the default output directory under the
    user's plugin folder. */
module PluginNaming {
  import opened Text
  import opened Paths

  /** The name `autofill` falls back to when nothing else names the plugin. */
  const DefaultPluginName := "My Plugin"

  /** `re.sub('[^\w\d]+', '-', name).lower()`: the plugin's file and
      directory name. */
  function DashedName(name: string): (r: string)
    // Each run of other characters collapses to one dash, so the name
    // never grows.
    ensures |r| <= |name|
  {
    SubNonWordShorter(name);
    Lower(SubNonWord(name, "-"))
  }

  /** `os.path.join(write_dir, 'plugins', DashedName(name))` */
  function DefaultDirectory(writeDir: string, name: string): (r: string)
    ensures StartsWith(r, writeDir) && r != ""
  {
    DashedNameShape(name);
    JoinTwoNames(writeDir, "plugins", DashedName(name));
    PathJoinAll(writeDir, ["plugins", DashedName(name)])
  }

  /** A one-character replacement never lengthens the string. */
  lemma {:induction false} SubNonWordShorter(s: string)
    ensures |SubNonWord(s, "-")| <= |s|
    decreases |s|
  {
    if |s| > 0 {
      if IsWordChar(s[0]) {
        SubNonWordShorter(s[1..]);
      } else {
        SubNonWordShorter(s[NonWordRun(s)..]);
      }
    }
  }

  /** Characters a dashed name is made of. */
  predicate IsDashedChar(c: char) {
    (IsWordChar(c) || c == '-') && !('A' <= c <= 'Z')
  }

  /** The substitution leaves only word characters and characters of the
      replacement. */
  lemma {:induction false} SubNonWordChars(s: string, rep: string)
    ensures forall i :: 0 <= i < |SubNonWord(s, rep)| ==>
              IsWordChar(SubNonWord(s, rep)[i]) || SubNonWord(s, rep)[i] in rep
    decreases |s|
  {
    if |s| > 0 {
      if IsWordChar(s[0]) {
        SubNonWordChars(s[1..], rep);
      } else {
        SubNonWordChars(s[NonWordRun(s)..], rep);
      }
    }
  }

  /** The substitution is empty only for the empty string. */
  lemma SubNonWordEmpty(s: string, rep: string)
    requires rep != ""
    ensures SubNonWord(s, rep) == "" <==> s == ""
  {
  }

  /** A dashed name holds only lower-case word characters and dashes, so
      it never contains a `/`; it is empty only for an empty name. */
  lemma DashedNameShape(name: string)
    ensures forall i :: 0 <= i < |DashedName(name)| ==> IsDashedChar(DashedName(name)[i])
    ensures '/' !in DashedName(name)
    ensures DashedName(name) == "" <==> name == ""
  {
    var sub := SubNonWord(name, "-");
    SubNonWordChars(name, "-");
    SubNonWordEmpty(name, "-");
    forall i | 0 <= i < |sub|
      ensures IsDashedChar(DashedName(name)[i])
    {
      assert IsWordChar(sub[i]) || sub[i] == '-';
    }
  }

  /** The default directory lies under the write directory; for a named
      plugin its last component is the dashed name and its parent is the
      `plugins` folder. */
  lemma DefaultDirectoryShape(writeDir: string, name: string)
    ensures StartsWith(DefaultDirectory(writeDir, name), writeDir) && DefaultDirectory(writeDir, name) != ""
    ensures name != "" ==>
              Basename(DefaultDirectory(writeDir, name)) == DashedName(name)
              && Dirname(DefaultDirectory(writeDir, name)) == PathJoin(writeDir, "plugins")
  {
    DashedNameShape(name);
    JoinTwoNames(writeDir, "plugins", DashedName(name));
  }
}

=== FILE: prototype_converter.dfy ===
/** The `Converter` of ui/PrototypeConverter.py and its older copy
    `PrototypeConverter` of plugin_main.py: the settings a user-data
    prototype is turned into a plugin with, how `autofill` completes them,
    which files the plugin consists of, and the checks `create` makes
    before writing anything. */
module ProtoConverter {
  import opened Errors
  import opened Text
  import opened Paths
  import opened PluginNaming
  import Symbols

  /** Which copy of the class: the current one of ui/PrototypeConverter.py
      or the older one of plugin_main.py. */
  datatype Variant = Current | Legacy

  /** The base type a linked prototype object is checked against. */
  datatype BaseType = Obase | Tbase | Xbase | Mbase | OtherBase

  /** The linked prototype: its name and its base type. */
  datatype Link = Link(name: string, base: BaseType)

  /** `plugin_type_info()` when it is not empty. */
  datatype TypeInfo = TypeInfo(resprefix: string, resbase: string, plugintype: Option<string>)

  /** `plugin_type_info()`: the resource prefix, base description and
      plugin kind of the linked object, or nothing (`{}`) without a link or
      for an unsupported type. Materials have a prefix but no plugin kind. */
  function PluginTypeInfo(link: Option<Link>): (r: Option<TypeInfo>)
    ensures r.None? <==> link.None? || link.value.base == OtherBase
    ensures r.Some? ==> |r.value.resprefix| == 1 && IsWordChar(r.value.resprefix[0])
                        && r.value.resbase == r.value.resprefix + "base"
    ensures HasPluginType(r) <==> link.Some? && link.value.base in {Obase, Tbase, Xbase}
  {
    match link
    case None => None
    case Some(l) =>
      match l.base
      case Obase => Some(TypeInfo("O", "Obase", Some("Object")))
      case Tbase => Some(TypeInfo("T", "Tbase", Some("Tag")))
      case Xbase => Some(TypeInfo("X", "Xbase", Some("Shader")))
      case Mbase => Some(TypeInfo("M", "Mbase", None))
      case OtherBase => None
  }

  /** `plugin_type_info().get('plugintype')` is truthy. */
  predicate HasPluginType(info: Option<TypeInfo>) {
    info.Some? && info.value.plugintype.Some?
  }

  /** The converter's settings. `overwrite` is the original's string
      setting, truthy when not empty. */
  datatype Converter = Converter(
    link: Option<Link>,
    pluginName: string,
    pluginId: string,
    resourceName: string,
    symbolPrefix: string,
    iconFile: string,
    directory: string,
    indent: string,
    writePluginStub: bool,
    writeResources: bool,
    symbolMode: string,
    overwrite: string)

  /** The constructor: the symbol mode must be `c4d` or `c4ddev`, and the
      current copy strips whitespace from the plugin id. */
  function NewConverter(
    variant: Variant, link: Option<Link>, pluginName: string, pluginId: string,
    resourceName: string, symbolPrefix: string, iconFile: string, directory: string,
    indent: string, writePluginStub: bool, writeResources: bool,
    symbolMode: string, overwrite: string): (r: Result<Converter>)
    ensures r.Err? <==> symbolMode != "c4d" && symbolMode != "c4ddev"
    ensures r.Err? ==> r.error == AssertionError
    ensures r.Ok? ==> r.value.pluginId == (if variant == Current then Strip(pluginId, Whitespace) else pluginId)
    ensures r.Ok? ==> r.value.link == link && r.value.pluginName == pluginName
                      && r.value.resourceName == resourceName && r.value.symbolPrefix == symbolPrefix
                      && r.value.iconFile == iconFile && r.value.directory == directory
                      && r.value.indent == indent && r.value.writePluginStub == writePluginStub
                      && r.value.writeResources == writeResources && r.value.symbolMode == symbolMode
                      && r.value.overwrite == overwrite
  {
    if symbolMode != "c4d" && symbolMode != "c4ddev" then Err(AssertionError)
    else
      var id := if variant == Current then Strip(pluginId, Whitespace) else pluginId;
      Ok(Converter(link, pluginName, id, resourceName, symbolPrefix, iconFile, directory,
                   indent, writePluginStub, writeResources, symbolMode, overwrite))
  }

  /** The current constructor's plugin id carries no surrounding
      whitespace and is a piece of the given one. */
  lemma NewConverterStripsId(
    link: Option<Link>, pluginName: string, pluginId: string,
    resourceName: string, symbolPrefix: string, iconFile: string, directory: string,
    indent: string, writePluginStub: bool, writeResources: bool,
    symbolMode: string, overwrite: string)
    requires symbolMode == "c4d" || symbolMode == "c4ddev"
    ensures var r := NewConverter(Current, link, pluginName, pluginId, resourceName, symbolPrefix,
                                  iconFile, directory, indent, writePluginStub, writeResources,
                                  symbolMode, overwrite);
            var id := r.value.pluginId;
            r.Ok? && (|id| > 0 ==> !IsWhitespace(id[0]) && !IsWhitespace(id[|id| - 1]))
            && exists i, j :: 0 <= i <= j <= |pluginId| && id == pluginId[i..j]
  {
    var l := LStrip(pluginId, Whitespace);
    var id := RStrip(l, Whitespace);
    WhitespaceSet(if |id| > 0 then id[0] else ' ');
    WhitespaceSet(if |id| > 0 then id[|id| - 1] else ' ');
    if |id| > 0 {
      assert id[0] == l[0];
    }
    var i := |pluginId| - |l|;
    assert id == pluginId[i..i + |id|];
  }

  // ---------------------------------------------------------------------
  // autofill

  /** The resource name `autofill` derives: the type's prefix followed by
      the name with its non-word characters removed, lower-cased. */
  function ResourceNameFor(name: string, info: Option<TypeInfo>): string {
    (if info.Some? then info.value.resprefix else "") + Lower(SubNonWord(name, ""))
  }

  /** The symbol prefix `autofill` derives: the name with non-word runs
      turned into `_`, trailing `_` removed, upper-cased, and one `_`
      appended. */
  function SymbolPrefixFor(name: string): string {
    Upper(RStrip(SubNonWord(name, "_"), {'_'})) + "_"
  }

  /** A derived resource name is the type prefix followed by the lower-cased
      word characters of the name; it is all word characters, so it is a
      single path component. */
  lemma ResourceNameShape(name: string, info: Option<TypeInfo>)
    requires info.Some? ==> |info.value.resprefix| == 1 && IsWordChar(info.value.resprefix[0])
    ensures ResourceNameFor(name, info)
            == (if info.Some? then info.value.resprefix else "") + Lower(WordChars(name))
    ensures forall i :: 0 <= i < |ResourceNameFor(name, info)| ==> IsWordChar(ResourceNameFor(name, info)[i])
    ensures '/' !in ResourceNameFor(name, info)
  {
    SubNonWordEmptyIsWordChars(name);
    var w := WordChars(name);
    var lw := Lower(w);
    forall i | 0 <= i < |lw|
      ensures IsWordChar(lw[i])
    {
      assert lw[i] == LowerChar(w[i]);
    }
    var r := ResourceNameFor(name, info);
    var p := if info.Some? then info.value.resprefix else "";
    forall i | 0 <= i < |r|
      ensures IsWordChar(r[i])
    {
      if i < |p| {
        assert r[i] == p[i];
      } else {
        assert r[i] == lw[i - |p|];
      }
    }
  }

  /** A derived symbol prefix is an upper-case identifier ending in exactly
      one `_`. */
  lemma SymbolPrefixShape(name: string)
    ensures var r := SymbolPrefixFor(name);
            |r| >= 1 && r[|r| - 1] == '_' && Symbols.AllSymbolChars(r)
            && (|r| >= 2 ==> r[|r| - 2] != '_')
  {
    var sub := SubNonWord(name, "_");
    SubNonWordOnlyWordChars(name, "_");
    var t := RStrip(sub, {'_'});
    assert forall i :: 0 <= i < |t| ==> t[i] == sub[i];
    Symbols.UpperOfWordChars(t);
    var u := Upper(t);
    var r := u + "_";
    forall i | 0 <= i < |r|
      ensures Symbols.IsSymbolChar(r[i])
    {
      if i < |u| {
        assert r[i] == u[i];
      }
    }
    if |r| >= 2 {
      assert r[|r| - 2] == UpperChar(t[|t| - 1]);
    }
  }

  /** `autofill()`'s choice of plugin name: the given one, else the linked
      object's name, else the default. */
  function FilledName(c: Converter): (r: string)
    ensures r != ""
    ensures c.pluginName != "" ==> r == c.pluginName
    ensures c.pluginName == "" && c.link.Some? && c.link.value.name != "" ==> r == c.link.value.name
    ensures c.pluginName == "" && (c.link.None? || c.link.value.name == "") ==> r == DefaultPluginName
  {
    var n := if c.pluginName != "" then c.pluginName
             else if c.link.Some? then c.link.value.name
             else "";
    if n != "" then n else DefaultPluginName
  }

  /** `autofill()`: every empty field is derived from the plugin name; a
      field already set is kept. `writeDir` is Cinema 4D's user startup
      folder and `defaultIcon` the bundled default icon; the older copy has
      no icon default. */
  function Autofill(c: Converter, variant: Variant, writeDir: string, defaultIcon: string): (r: Converter)
    ensures r.pluginName == FilledName(c)
    ensures c.resourceName != "" ==> r.resourceName == c.resourceName
    ensures c.symbolPrefix != "" ==> r.symbolPrefix == c.symbolPrefix
    ensures c.directory != "" ==> r.directory == c.directory
    ensures c.iconFile != "" || variant == Legacy ==> r.iconFile == c.iconFile
    ensures r.link == c.link && r.pluginId == c.pluginId && r.indent == c.indent
            && r.writePluginStub == c.writePluginStub && r.writeResources == c.writeResources
            && r.symbolMode == c.symbolMode && r.overwrite == c.overwrite
  {
    var name := FilledName(c);
    c.(pluginName := name,
       resourceName := if c.resourceName != "" then c.resourceName
                       else ResourceNameFor(name, PluginTypeInfo(c.link)),
       symbolPrefix := if c.symbolPrefix != "" then c.symbolPrefix else SymbolPrefixFor(name),
       directory := if c.directory != "" then c.directory else DefaultDirectory(writeDir, name),
       iconFile := if c.iconFile == "" && variant == Current then defaultIcon else c.iconFile)
  }

  /** What `autofill()` puts into an empty field: the resource name, symbol
      prefix and directory derived from the chosen plugin name, and (in the
      current copy) the default icon. */
  lemma AutofillDerives(c: Converter, variant: Variant, writeDir: string, defaultIcon: string)
    ensures var r := Autofill(c, variant, writeDir, defaultIcon);
            (c.resourceName == "" ==> r.resourceName == ResourceNameFor(r.pluginName, PluginTypeInfo(c.link)))
            && (c.symbolPrefix == "" ==> r.symbolPrefix == SymbolPrefixFor(r.pluginName))
            && (c.directory == "" ==> r.directory == DefaultDirectory(writeDir, r.pluginName))
            && (c.iconFile == "" && variant == Current ==> r.iconFile == defaultIcon)
  {
  }

  /** Running `autofill()` twice changes nothing more. */
  lemma AutofillIdempotent(c: Converter, variant: Variant, writeDir: string, defaultIcon: string)
    ensures var a := Autofill(c, variant, writeDir, defaultIcon);
            Autofill(a, variant, writeDir, defaultIcon) == a
  {
    var a := Autofill(c, variant, writeDir, defaultIcon);
    assert FilledName(a) == a.pluginName;
    if a.resourceName == "" {
      assert c.resourceName == "";
    }
  }

  /** After `autofill()` the name, the symbol prefix and the directory are
      set, a derived symbol prefix is an identifier ending in `_`, a derived
      resource name and a derived directory name are single path
      components, and the current copy always has an icon when the default
      one has a name. */
  lemma AutofillFills(c: Converter, variant: Variant, writeDir: string, defaultIcon: string)
    ensures var a := Autofill(c, variant, writeDir, defaultIcon);
            a.pluginName != "" && a.symbolPrefix != "" && a.directory != ""
            && (c.symbolPrefix == "" ==> a.symbolPrefix[|a.symbolPrefix| - 1] == '_'
                                         && Symbols.AllSymbolChars(a.symbolPrefix))
            && (c.resourceName == "" ==> '/' !in a.resourceName)
            && (c.directory == "" ==> StartsWith(a.directory, writeDir)
                                      && Basename(a.directory) == DashedName(a.pluginName))
            && (variant == Current && defaultIcon != "" ==> a.iconFile != "")
  {
    var a := Autofill(c, variant, writeDir, defaultIcon);
    AutofillDerives(c, variant, writeDir, defaultIcon);
    SymbolPrefixShape(a.pluginName);
    ResourceNameShape(a.pluginName, PluginTypeInfo(c.link));
    DefaultDirectoryShape(writeDir, a.pluginName);
    if c.directory == "" {
      assert |a.directory| >= |writeDir|;
      assert a.directory != "" by {
        DashedNameShape(a.pluginName);
        assert Basename(a.directory) != "";
      }
    }
  }

  // ---------------------------------------------------------------------
  // files

  const ResourceIds: set<string> := {"c4d_symbols", "header", "description", "strings_us"}
  const FileIds: set<string> := ResourceIds + {"directory", "plugin", "icon"}

  /** `optional_file_ids()`: files that may already exist. */
  const OptionalIds: set<string> := {"directory", "c4d_symbols"}

  /** `self.directory or self.plugin_name` */
  function ParentDir(c: Converter): string {
    if c.directory != "" then c.directory else c.pluginName
  }

  /** `files()`: the plugin's files by id. The four resource files exist
      exactly when resources are written, the `.pyp` stub exactly when a
      stub is wanted and the linked object has a plugin kind, the icon
      exactly when an icon file is set. */
  function Files(c: Converter): (r: map<string, string>)
    ensures "directory" in r && r["directory"] == ParentDir(c)
    ensures r.Keys <= FileIds
    ensures c.writeResources ==> ResourceIds <= r.Keys
    ensures c.writeResources ==> forall k :: k in ResourceIds ==>
              r[k] == ResourceFiles(ParentDir(c), c.resourceName)[k]
    ensures !c.writeResources ==> r.Keys !! ResourceIds
    ensures "plugin" in r <==> c.writePluginStub && HasPluginType(PluginTypeInfo(c.link))
    ensures "icon" in r <==> c.iconFile != ""
  {
    var parent := ParentDir(c);
    var m0 := map["directory" := parent];
    var m1 := if c.writeResources then m0 + ResourceFiles(parent, c.resourceName) else m0;
    var m2 :=
      if c.writePluginStub && HasPluginType(PluginTypeInfo(c.link)) then
        m1["plugin" := PathJoinAll(parent, [DashedName(c.pluginName) + ".pyp"])]
      else m1;
    if c.iconFile != "" then
      m2["icon" := PathJoinAll(parent, ["res", "icons", c.pluginName + SplitExt(c.iconFile).1])]
    else m2
  }

  /** The four resource files under `parent` for the resource name `name`. */
  function ResourceFiles(parent: string, name: string): (m: map<string, string>)
    ensures m.Keys == ResourceIds
  {
    map["c4d_symbols" := ResourcePath(parent, [], "c4d_symbols.h"),
        "header" := ResourcePath(parent, ["description"], name + ".h"),
        "description" := ResourcePath(parent, ["description"], name + ".res"),
        "strings_us" := ResourcePath(parent, ["strings_us", "description"], name + ".str")]
  }

  /** `os.path.join(parent, 'res', *dirs, file)` */
  function ResourcePath(parent: string, dirs: seq<string>, file: string): (p: string)
    requires forall i :: 0 <= i < |dirs| ==> dirs[i] != "" && '/' !in dirs[i]
    ensures file != "" && '/' !in file ==> StartsWith(p, parent) && Basename(p) == file
  {
    var parts := ["res"] + dirs + [file];
    var p := PathJoinAll(parent, parts);
    assert file != "" && '/' !in file ==> StartsWith(p, parent) && Basename(p) == file by {
      if file != "" && '/' !in file {
        assert forall i :: 0 < i < |parts| - 1 ==> parts[i] == dirs[i - 1];
        JoinAllNames(parent, parts);
      }
    }
    p
  }

  /** The resource files are named after the resource name and lie in the
      `res` folder of the plugin directory. */
  lemma ResourceFilesLayout(parent: string, name: string)
    requires '/' !in name
    ensures var f := ResourceFiles(parent, name);
            (forall k :: k in f ==> StartsWith(f[k], parent))
            && Basename(f["c4d_symbols"]) == "c4d_symbols.h"
            && Basename(f["header"]) == name + ".h"
            && Basename(f["description"]) == name + ".res"
            && Basename(f["strings_us"]) == name + ".str"
  {
  }

  /** The stub is named after the dashed plugin name and lies directly in
      the plugin directory. */
  lemma PluginFileLayout(c: Converter)
    requires c.writePluginStub && HasPluginType(PluginTypeInfo(c.link))
    ensures StartsWith(Files(c)["plugin"], ParentDir(c))
    ensures Basename(Files(c)["plugin"]) == DashedName(c.pluginName) + ".pyp"
    ensures Dirname(Files(c)["plugin"]) == ParentDir(c) || ParentDir(c) == "" || EndsWith(ParentDir(c), "/")
  {
    var parent := ParentDir(c);
    var name := DashedName(c.pluginName) + ".pyp";
    DashedNameShape(c.pluginName);
    JoinAllNames(parent, [name]);
    var parts := [name];
    assert parts[1..] == [];
    assert Files(c)["plugin"] == PathJoin(parent, name);
    if parent != "" && !EndsWith(parent, "/") {
      assert parent[|parent| - 1] != '/' by {
        assert parent[|parent| - 1..][0] == parent[|parent| - 1];
      }
      JoinDirname(parent, name);
    }
  }

  /** The icon is named after the plugin name with the icon file's
      extension and lies in `res/icons`. */
  lemma IconFileLayout(c: Converter)
    requires c.iconFile != "" && '/' !in c.pluginName
    ensures StartsWith(Files(c)["icon"], ParentDir(c))
    ensures Basename(Files(c)["icon"]) == c.pluginName + SplitExt(c.iconFile).1
  {
    var parent := ParentDir(c);
    var ext := SplitExt(c.iconFile).1;
    var name := c.pluginName + ext;
    assert '/' !in name by {
      assert forall i :: 0 <= i < |name| ==> name[i] == if i < |c.pluginName| then c.pluginName[i] else ext[i - |c.pluginName|];
    }
    if name != "" {
      JoinAllNames(parent, ["res", "icons", name]);
    } else {
      assert Files(c)["icon"] == PathJoinAll(parent, ["res", "icons", ""]);
      JoinTwoIcons(parent);
    }
  }

  /** `os.path.join(parent, 'res', 'icons', '')` */
  lemma JoinTwoIcons(parent: string)
    ensures StartsWith(PathJoinAll(parent, ["res", "icons", ""]), parent)
    ensures Basename(PathJoinAll(parent, ["res", "icons", ""])) == ""
  {
    JoinAllNames(parent, ["res", "icons"]);
    var d := PathJoinAll(parent, ["res", "icons"]);
    var parts := ["res", "icons", ""];
    assert parts[1..][1..] == [""] && parts[1..][1..][1..] == [];
    var ps: seq<string> := ["icons"];
    assert ps[1..] == [];
    assert PathJoinAll(parent, parts) == PathJoin(d, "");
    var r := d + "/";
    assert PathJoin(d, "") == r;
    assert LastIndexOf(r, '/') == |d|;
    assert r[..|parent|] == d[..|parent|];
  }

  // ---------------------------------------------------------------------
  // create: the checks made before anything is written

  /** The class name used in `create()`'s messages. */
  function ClassName(variant: Variant): string {
    if variant == Current then "Converter" else "PrototypeConverter"
  }

  /** The first file, in the iteration order `order`, that is not
      optional, has a path, and already exists. */
  function FirstClash(files: map<string, string>, order: seq<string>, exists_: string -> bool): (r: Option<string>)
    ensures r.Some? <==> exists i :: 0 <= i < |order| && Clashes(files, order[i], exists_)
    ensures r.Some? ==> exists i :: 0 <= i < |order| && Clashes(files, order[i], exists_)
                                   && r.value == files[order[i]]
                                   && forall j :: 0 <= j < i ==> !Clashes(files, order[j], exists_)
  {
    if |order| == 0 then None
    else if Clashes(files, order[0], exists_) then Some(files[order[0]])
    else
      var r := FirstClash(files, order[1..], exists_);
      assert forall i :: 0 < i < |order| ==> order[i] == order[1..][i - 1];
      assert r.Some? ==> exists i :: 0 <= i < |order[1..]| && Clashes(files, order[1..][i], exists_)
                                     && r.value == files[order[1..][i]]
                                     && forall j :: 0 <= j < i ==> !Clashes(files, order[1..][j], exists_);
      r
  }

  /** A file the overwrite check refuses. */
  predicate Clashes(files: map<string, string>, k: string, exists_: string -> bool) {
    k in files && files[k] != "" && k !in OptionalIds && exists_(files[k])
  }

  /** The settings checks at the start of `create()`, in the original's
      order: the directory and the link must be set, the current copy also
      requires an all-digit plugin id, and a set icon file must exist
      (`isFile` stands for the file-system query). */
  function Validate(c: Converter, variant: Variant, isFile: string -> bool): (r: Result<()>)
    ensures r.Ok? <==>
              c.directory != "" && c.link.Some?
              && (variant == Current ==> IsDigits(c.pluginId))
              && (c.iconFile != "" ==> isFile(c.iconFile))
    ensures c.directory == "" ==> r == Err(RuntimeError(ClassName(variant) + ".directory must be set"))
    ensures c.directory != "" && c.link.None? ==> r == Err(RuntimeError(ClassName(variant) + ".link must be set"))
    ensures r.Err? && r.error.IOError? ==>
              c.iconFile != "" && !isFile(c.iconFile) && r.error.msg == "File \"" + c.iconFile + "\" does not exist"
  {
    if c.directory == "" then Err(RuntimeError(ClassName(variant) + ".directory must be set"))
    else if c.link.None? then Err(RuntimeError(ClassName(variant) + ".link must be set"))
    else if variant == Current && !IsDigits(c.pluginId) then Err(RuntimeError("Converter.plugin_id is invalid"))
    else if c.iconFile != "" && !isFile(c.iconFile) then
      Err(IOError("File \"" + c.iconFile + "\" does not exist"))
    else Ok(())
  }

  /** The overwrite check of `create()` and the lookup of the symbols
      header that follows it: without `overwrite`, the first clashing file
      in iteration order `order` is reported; a file map without the symbols
      header fails with `KeyError`. On success the result is the file map. */
  function OverwriteCheck(files: map<string, string>, overwrite: string, exists_: string -> bool,
                          order: seq<string>): (r: Result<map<string, string>>)
    requires forall k :: k in files ==> k in order
    ensures r.Ok? <==> (overwrite == "" ==> forall k :: k in files ==> !Clashes(files, k, exists_))
                       && "c4d_symbols" in files
    ensures r.Ok? ==> r.value == files
    ensures r.Err? ==> r.error == KeyError || r.error.IOError?
    ensures r.Err? && r.error.IOError? ==>
              overwrite == "" && exists k :: k in files && Clashes(files, k, exists_)
                                           && r.error.msg == "File \"" + files[k] + "\" already exists"
  {
    var clash := if overwrite == "" then FirstClash(files, order, exists_) else None;
    if clash.Some? then
      Err(IOError("File \"" + clash.value + "\" already exists"))
    else if "c4d_symbols" !in files then Err(KeyError)
    else Ok(files)
  }

  /** The checks at the start of `create()`: the settings first, then the
      files. Without written resources there is no symbols header, so the
      check never passes then. */
  function CreateCheck(c: Converter, variant: Variant, isFile: string -> bool,
                       exists_: string -> bool, order: seq<string>): (r: Result<map<string, string>>)
    requires forall k :: k in Files(c) ==> k in order
    ensures Validate(c, variant, isFile).Err? ==> r == Err(Validate(c, variant, isFile).error)
    ensures Validate(c, variant, isFile).Ok? ==> r == OverwriteCheck(Files(c), c.overwrite, exists_, order)
    ensures r.Ok? ==> c.writeResources && r.value == Files(c)
  {
    var _ :- Validate(c, variant, isFile);
    OverwriteCheck(Files(c), c.overwrite, exists_, order)
  }
}

=== FILE: pyrepr.dfy ===
/** Python 2's `repr` of a string, as `'{!r}'.format` writes it into an
    error message. The text is quoted, and the backslash, the quote, the
    three common control characters and every character that is not
    printable ASCII are escaped. Its partner is `ReadLiteral`, Python's
    reading of a string literal: it gives the string back. */
module PyRepr {
  import opened Errors
  import opened Text

  /** Printable ASCII: what `repr` writes unescaped. */
  predicate IsPrintable(c: char) {
    0x20 <= c as int < 0x7f
  }

  /** The quote `repr` chooses: `"` when the text holds `'` but no `"`,
      otherwise `'`. */
  function QuoteFor(s: string): (q: char)
    ensures q == SingleQuote || q == DoubleQuote
  {
    if SingleQuote in s && DoubleQuote !in s then DoubleQuote else SingleQuote
  }

  // ---------------------------------------------------------------------
  // `'%02x'`, `'%04x'` and `'%08x'`

  /** A hex digit of either case, as a literal may spell it. */
  predicate IsHexDigit(c: char) {
    ('0' <= c <= '9') || ('a' <= c <= 'f') || ('A' <= c <= 'F')
  }

  function HexDigitValue(c: char): (d: nat)
    requires IsHexDigit(c)
    ensures d < 16
  {
    if c <= '9' then c as int - '0' as int
    else if c <= 'F' then c as int - 'A' as int + 10
    else c as int - 'a' as int + 10
  }

  /** The lower-case digit `'%x'` writes for `d`. */
  function LowerHexDigit(d: nat): (c: char)
    requires d < 16
    ensures IsHexDigit(c) && IsPrintable(c) && HexDigitValue(c) == d
  {
    if d < 10 then ('0' as int + d) as char else ('a' as int + d - 10) as char
  }

  function Pow16(k: nat): (p: nat)
    ensures p >= 1
  {
    if k == 0 then 1 else 16 * Pow16(k - 1)
  }

  lemma Pow16Widths()
    ensures Pow16(2) == 0x100 && Pow16(4) == 0x1_0000 && Pow16(8) == 0x1_0000_0000
  {
    assert Pow16(1) == 16;
    assert Pow16(2) == 0x100;
    assert Pow16(3) == 0x1000;
    assert Pow16(4) == 0x1_0000;
    assert Pow16(5) == 0x10_0000;
    assert Pow16(6) == 0x100_0000;
    assert Pow16(7) == 0x1000_0000;
  }

  /** `n` as exactly `k` lower-case hex digits, zero-padded. */
  function HexDigits(n: nat, k: nat): (r: string)
    requires n < Pow16(k)
    ensures |r| == k
    ensures forall i :: 0 <= i < k ==> IsHexDigit(r[i]) && IsPrintable(r[i])
  {
    if k == 0 then ""
    else
      assert n / 16 < Pow16(k - 1);
      HexDigits(n / 16, k - 1) + [LowerHexDigit(n % 16)]
  }

  predicate AllHex(s: string) {
    forall i :: 0 <= i < |s| ==> IsHexDigit(s[i])
  }

  /** The value of a hex numeral. */
  function HexValue(s: string): nat
    requires AllHex(s)
  {
    if |s| == 0 then 0
    else
      var last := s[|s| - 1];
      16 * HexValue(s[..|s| - 1]) + HexDigitValue(last)
  }

  /** The padded numeral reads back as the number. */
  lemma {:induction false} HexDigitsValue(n: nat, k: nat)
    requires n < Pow16(k)
    ensures AllHex(HexDigits(n, k)) && HexValue(HexDigits(n, k)) == n
  {
    if k > 0 {
      assert n / 16 < Pow16(k - 1);
      HexDigitsValue(n / 16, k - 1);
      var h := HexDigits(n / 16, k - 1);
      var r := h + [LowerHexDigit(n % 16)];
      assert HexDigits(n, k) == r;
      assert r[..|r| - 1] == h;
    }
  }

  // ---------------------------------------------------------------------
  // writing

  /** What `repr` writes for one character of a text quoted by `q`. Code
      points above `0xFF` get the `\u` and `\U` escapes of a `unicode`
      object's `repr`. */
  function EscapeChar(c: char, q: char): (r: string)
    ensures |r| >= 1
  {
    Pow16Widths();
    if c == q || c == Backslash then [Backslash, c]
    else if c == '\t' then [Backslash, 't']
    else if c == '\n' then [Backslash, 'n']
    else if c == '\r' then [Backslash, 'r']
    else if c as int < 0x20 || 0x7f <= c as int < 0x100 then [Backslash, 'x'] + HexDigits(c as int, 2)
    else if 0x100 <= c as int < 0x1_0000 then [Backslash, 'u'] + HexDigits(c as int, 4)
    else if 0x1_0000 <= c as int then [Backslash, 'U'] + HexDigits(c as int, 8)
    else [c]
  }

  /** Every character written for `c` is printable ASCII. */
  lemma EscapeCharPrintable(c: char, q: char)
    requires q == SingleQuote || q == DoubleQuote
    ensures forall i :: 0 <= i < |EscapeChar(c, q)| ==> IsPrintable(EscapeChar(c, q)[i])
  {
    Pow16Widths();
    var r := EscapeChar(c, q);
    if c == q || c == Backslash || c == '\t' || c == '\n' || c == '\r' {
    } else if c as int < 0x20 || 0x7f <= c as int < 0x100 {
      var h := HexDigits(c as int, 2);
      assert forall i :: 2 <= i < |r| ==> r[i] == h[i - 2];
    } else if 0x100 <= c as int < 0x1_0000 {
      var h := HexDigits(c as int, 4);
      assert forall i :: 2 <= i < |r| ==> r[i] == h[i - 2];
    } else if 0x1_0000 <= c as int {
      var h := HexDigits(c as int, 8);
      assert forall i :: 2 <= i < |r| ==> r[i] == h[i - 2];
    }
  }

  /** The escaped text, character by character. */
  function EscapeAll(s: string, q: char): string {
    if |s| == 0 then "" else EscapeChar(s[0], q) + EscapeAll(s[1..], q)
  }

  lemma {:induction false} EscapeAllPrintable(s: string, q: char)
    requires q == SingleQuote || q == DoubleQuote
    ensures forall i :: 0 <= i < |EscapeAll(s, q)| ==> IsPrintable(EscapeAll(s, q)[i])
  {
    if |s| > 0 {
      EscapeCharPrintable(s[0], q);
      EscapeAllPrintable(s[1..], q);
      var e, t := EscapeChar(s[0], q), EscapeAll(s[1..], q);
      assert forall i :: |e| <= i < |e + t| ==> (e + t)[i] == t[i - |e|];
    }
  }

  /** `repr(s)`: quoted by the chosen quote, every character escaped as
      needed; the result is printable ASCII throughout. */
  function Repr(s: string): (r: string)
    ensures |r| >= 2 && r[0] == QuoteFor(s) && r[|r| - 1] == QuoteFor(s)
    ensures r[0] == DoubleQuote <==> SingleQuote in s && DoubleQuote !in s
    ensures forall i :: 0 <= i < |r| ==> IsPrintable(r[i])
  {
    var q := QuoteFor(s);
    var body := EscapeAll(s, q);
    EscapeAllPrintable(s, q);
    var r := [q] + body + [q];
    assert forall i :: 1 <= i < |r| - 1 ==> r[i] == body[i - 1];
    r
  }

  // ---------------------------------------------------------------------
  // reading back

  /** `[c] + rest`, failing when reading the rest fails. */
  function Cons(c: char, rest: Option<string>): Option<string> {
    match rest
    case None => None
    case Some(t) => Some([c] + t)
  }

  predicate IsScalar(n: nat) {
    n < 0xD800 || (0xE000 <= n < 0x11_0000)
  }

  /** Python's reading of the text between the quotes of a literal quoted
      by `q`, for the escapes `repr` writes. An unescaped `q` would end the
      literal, so it is not text. */
  function Unescape(t: string, q: char): Option<string>
    decreases |t|
  {
    if |t| == 0 then Some("")
    else if t[0] == q then None
    else if t[0] != Backslash then Cons(t[0], Unescape(t[1..], q))
    else if |t| < 2 then None
    else
      var e := t[1];
      if e == Backslash || e == SingleQuote || e == DoubleQuote then Cons(e, Unescape(t[2..], q))
      else if e == 't' then Cons('\t', Unescape(t[2..], q))
      else if e == 'n' then Cons('\n', Unescape(t[2..], q))
      else if e == 'r' then Cons('\r', Unescape(t[2..], q))
      else if e == 'x' || e == 'u' || e == 'U' then
        var k := if e == 'x' then 2 else if e == 'u' then 4 else 8;
        if |t| >= 2 + k && AllHex(t[2..2 + k]) && IsScalar(HexValue(t[2..2 + k]))
        then Cons(HexValue(t[2..2 + k]) as char, Unescape(t[2 + k..], q))
        else None
      else None
  }

  /** A string literal: a quote, the escaped text and the same quote. */
  function ReadLiteral(lit: string): Option<string> {
    if |lit| >= 2 && (lit[0] == SingleQuote || lit[0] == DoubleQuote) && lit[|lit| - 1] == lit[0]
    then Unescape(lit[1..|lit| - 1], lit[0])
    else None
  }

  lemma UnescapeHex(c: char, e: char, k: nat, q: char, rest: string)
    requires q == SingleQuote || q == DoubleQuote
    requires (e == 'x' && k == 2) || (e == 'u' && k == 4) || (e == 'U' && k == 8)
    requires c as int < Pow16(k)
    ensures Unescape([Backslash, e] + HexDigits(c as int, k) + rest, q) == Cons(c, Unescape(rest, q))
  {
    var h := HexDigits(c as int, k);
    var t := [Backslash, e] + h + rest;
    HexDigitsValue(c as int, k);
    assert t[2..2 + k] == h;
    assert t[2 + k..] == rest;
    assert IsScalar(c as int);
  }

  /** Reading what was written for `c` gives `c` and continues after it. */
  lemma UnescapeEscapeChar(c: char, q: char, rest: string)
    requires q == SingleQuote || q == DoubleQuote
    ensures Unescape(EscapeChar(c, q) + rest, q) == Cons(c, Unescape(rest, q))
  {
    Pow16Widths();
    var t := EscapeChar(c, q) + rest;
    if c == q || c == Backslash {
      assert t == [Backslash, c] + rest && t[2..] == rest;
    } else if c == '\t' || c == '\n' || c == '\r' {
      assert t[2..] == rest;
    } else if c as int < 0x20 || 0x7f <= c as int < 0x100 {
      UnescapeHex(c, 'x', 2, q, rest);
    } else if 0x100 <= c as int < 0x1_0000 {
      UnescapeHex(c, 'u', 4, q, rest);
    } else if 0x1_0000 <= c as int {
      UnescapeHex(c, 'U', 8, q, rest);
    } else {
      assert t == [c] + rest && t[1..] == rest;
    }
  }

  lemma {:induction false} UnescapeEscapeAll(s: string, q: char)
    requires q == SingleQuote || q == DoubleQuote
    ensures Unescape(EscapeAll(s, q), q) == Some(s)
  {
    if |s| > 0 {
      UnescapeEscapeAll(s[1..], q);
      UnescapeEscapeChar(s[0], q, EscapeAll(s[1..], q));
      assert s == [s[0]] + s[1..];
    }
  }

  /** Reading the literal `repr` writes gives back the string. */
  lemma ReprRoundTrip(s: string)
    ensures ReadLiteral(Repr(s)) == Some(s)
  {
    var q := QuoteFor(s);
    var body := EscapeAll(s, q);
    var r := Repr(s);
    assert r == [q] + body + [q];
    assert r[1..|r| - 1] == body;
    UnescapeEscapeAll(s, q);
  }

  /** `repr` is one-to-one: different strings never share a message. */
  lemma ReprInjective(s: string, t: string)
    requires Repr(s) == Repr(t)
    ensures s == t
  {
    ReprRoundTrip(s);
    ReprRoundTrip(t);
  }

  /** Printable text without quotes and backslashes is only wrapped in
      `'`. */
  lemma {:induction false} ReprPlain(s: string)
    requires forall i :: 0 <= i < |s| ==>
               IsPrintable(s[i]) && s[i] != SingleQuote && s[i] != DoubleQuote && s[i] != Backslash
    ensures Repr(s) == [SingleQuote] + s + [SingleQuote]
  {
    assert SingleQuote !in s;
    EscapeAllPlain(s, SingleQuote);
  }

  lemma {:induction false} EscapeAllPlain(s: string, q: char)
    requires q == SingleQuote || q == DoubleQuote
    requires forall i :: 0 <= i < |s| ==> IsPrintable(s[i]) && s[i] != q && s[i] != Backslash
    ensures EscapeAll(s, q) == s
  {
    if |s| > 0 {
      EscapeAllPlain(s[1..], q);
      assert s == [s[0]] + s[1..];
    }
  }

  /** A text holding `'` but no `"` is quoted by `"`, with the `'` kept;
      a tab is written as `\t`. */
  lemma ReprExamples()
    ensures Repr("it" + [SingleQuote] + "s") == [DoubleQuote] + "it" + [SingleQuote] + "s" + [DoubleQuote]
    ensures Repr("a\tb") == [SingleQuote, 'a', Backslash, 't', 'b', SingleQuote]
  {
    var s := "it" + [SingleQuote] + "s";
    assert s[2] == SingleQuote;
    assert DoubleQuote !in s;
    EscapeAllPlain(s, DoubleQuote);
    var u := "a\tb";
    assert SingleQuote !in u;
    assert EscapeAll(u[2..], SingleQuote) == "b" by {
      assert EscapeAll(u[2..][1..], SingleQuote) == "";
    }
    assert EscapeAll(u[1..], SingleQuote) == [Backslash, 't'] + "b";
  }
}

=== FILE: refreplace.dfy ===
/** `unicode_refreplace` of c4dutils.py: the escaping used when writing
    Cinema 4D string tables. ASCII characters are kept; every other
    character becomes `\u` followed by its code point in upper-case hex,
    zero-padded to at least four digits.

    The source routes four control characters (`\n`, `\r`, `\t`, `\b`) to
    the escaping branch with a bare `raise UnicodeEncodeError`; building
    that exception without its five arguments raises `TypeError` instead,
    which the `except UnicodeEncodeError` clause does not catch.
    `RefReplaceAsWritten` models that; `RefReplace` is the evidently
    intended escaping. */
module RefReplace {
  import opened Errors
  import opened Text

  // ---------------------------------------------------------------------
  // `'%04x' % n` followed by `.upper()`

  /** The upper-case hex digit for `d`. */
  function HexDigit(d: nat): (c: char)
    requires d < 16
    ensures IsHexDigit(c)
  {
    if d < 10 then ('0' as int + d) as char else ('A' as int + d - 10) as char
  }

  predicate IsHexDigit(c: char) {
    ('0' <= c <= '9') || ('A' <= c <= 'F')
  }

  function HexDigitValue(c: char): (d: nat)
    requires IsHexDigit(c)
    ensures d < 16 && HexDigit(d) == c
    ensures forall e: nat :: e < 16 && HexDigit(e) == c ==> e == d
  {
    if c <= '9' then c as int - '0' as int else c as int - 'A' as int + 10
  }

  /** The shortest upper-case hex numeral of `n`. */
  function Hex(n: nat): (r: string)
    ensures |r| >= 1 && forall i :: 0 <= i < |r| ==> IsHexDigit(r[i])
  {
    if n < 16 then [HexDigit(n)] else Hex(n / 16) + [HexDigit(n % 16)]
  }

  /** The value of a hex numeral. */
  function HexValue(s: string): nat
    requires forall i :: 0 <= i < |s| ==> IsHexDigit(s[i])
  {
    if |s| == 0 then 0
    else
      var last := s[|s| - 1];
      assert IsHexDigit(last);
      16 * HexValue(s[..|s| - 1]) + HexDigitValue(last)
  }

  /** `k` zeros. */
  function Zeros(k: nat): (r: string)
    ensures |r| == k && forall i :: 0 <= i < k ==> r[i] == '0'
  {
    if k == 0 then "" else "0" + Zeros(k - 1)
  }

  /** Zeros on the left up to `width` characters. */
  function ZeroPad(s: string, width: nat): (r: string)
    ensures |r| == if |s| < width then width else |s|
  {
    Zeros(if |s| < width then width - |s| else 0) + s
  }

  /** `('%04x' % n).upper()` */
  function Hex4(n: nat): (r: string)
    ensures |r| >= 4 && forall i :: 0 <= i < |r| ==> IsHexDigit(r[i])
  {
    var h := Hex(n);
    var z := Zeros(if |h| < 4 then 4 - |h| else 0);
    assert forall i :: |z| <= i < |z + h| ==> (z + h)[i] == h[i - |z|];
    ZeroPad(h, 4)
  }

  lemma {:induction false} HexValueOfHex(n: nat)
    ensures HexValue(Hex(n)) == n
  {
    if n >= 16 {
      HexValueOfHex(n / 16);
      var h := Hex(n / 16);
      var d := HexDigit(n % 16);
      var r := h + [d];
      assert Hex(n) == r;
      assert r[..|r| - 1] == h && r[|r| - 1] == d;
      assert HexDigitValue(d) == n % 16;
      assert HexValue(r) == 16 * HexValue(h) + HexDigitValue(d);
    }
  }

  lemma {:induction false} HexValueLeadingZero(s: string)
    requires forall i :: 0 <= i < |s| ==> IsHexDigit(s[i])
    ensures HexValue("0" + s) == HexValue(s)
    decreases |s|
  {
    if |s| > 0 {
      var z := "0" + s;
      assert z[..|z| - 1] == "0" + s[..|s| - 1];
      HexValueLeadingZero(s[..|s| - 1]);
    }
  }

  lemma {:induction false} HexValueZeros(k: nat, s: string)
    requires forall i :: 0 <= i < |s| ==> IsHexDigit(s[i])
    ensures forall i :: 0 <= i < |Zeros(k) + s| ==> IsHexDigit((Zeros(k) + s)[i])
    ensures HexValue(Zeros(k) + s) == HexValue(s)
  {
    var z := Zeros(k) + s;
    assert forall i :: k <= i < |z| ==> z[i] == s[i - k];
    if k > 0 {
      HexValueZeros(k - 1, s);
      assert Zeros(k) == "0" + Zeros(k - 1);
      assert z == "0" + (Zeros(k - 1) + s);
      HexValueLeadingZero(Zeros(k - 1) + s);
    } else {
      assert z == s;
    }
  }

  /** The padded numeral reads back as the number. */
  lemma Hex4Value(n: nat)
    ensures HexValue(Hex4(n)) == n
  {
    HexValueOfHex(n);
    var h := Hex(n);
    HexValueZeros(if |h| < 4 then 4 - |h| else 0, h);
  }

  function Pow16(k: nat): (p: nat)
    ensures p >= 1
  {
    if k == 0 then 1 else 16 * Pow16(k - 1)
  }

  /** Below `16^k` the shortest numeral has at most `k` digits. */
  lemma {:induction false} HexLength(n: nat, k: nat)
    requires 1 <= k && n < Pow16(k)
    ensures |Hex(n)| <= k
  {
    if n >= 16 {
      assert k > 1;
      HexLength(n / 16, k - 1);
    }
  }

  /** A code point below `0x10000` gets exactly four digits. */
  lemma Hex4Length(n: nat)
    requires n < 0x10000
    ensures |Hex4(n)| == 4
  {
    assert Pow16(4) == 0x10000;
    HexLength(n, 4);
  }

  // ---------------------------------------------------------------------
  // the escaping

  /** The four control characters the source sends to the escape branch. */
  predicate IsForcedEscape(c: char) {
    c == '\n' || c == '\r' || c == '\t' || c == '\U{0008}'
  }

  predicate IsAscii(c: char) {
    c as int < 128
  }

  predicate AllAscii(s: string) {
    forall i :: 0 <= i < |s| ==> IsAscii(s[i])
  }

  /** `'\\u' + ('%04x' % ord(char)).upper()` */
  function Escape(c: char): string {
    [Backslash, 'u'] + Hex4(c as int)
  }

  lemma EscapeAscii(c: char)
    ensures AllAscii(Escape(c))
  {
    var h := Hex4(c as int);
    var r := Escape(c);
    forall i | 0 <= i < |r|
      ensures IsAscii(r[i])
    {
      if i >= 2 {
        assert r[i] == h[i - 2] && IsHexDigit(h[i - 2]);
      }
    }
  }

  /** What one character becomes, as the escaping intends. */
  function EscapeOne(c: char): (r: string)
    ensures AllAscii(r)
    ensures IsAscii(c) && !IsForcedEscape(c) <==> r == [c]
    ensures |r| >= 1
  {
    if IsAscii(c) && !IsForcedEscape(c) then [c]
    else
      EscapeAscii(c);
      assert Escape(c)[0] == Backslash;
      Escape(c)
  }

  /** `unicode_refreplace`, with the four control characters escaped like
      any non-ASCII character. */
  function RefReplace(s: string): (r: string)
    // Nothing is dropped: every character leaves at least one behind.
    ensures |r| >= |s|
    ensures r == "" <==> s == ""
    decreases |s|
  {
    if |s| == 0 then "" else EscapeOne(s[0]) + RefReplace(s[1..])
  }

  /** The output is pure ASCII. */
  lemma {:induction false} RefReplaceAscii(s: string)
    ensures AllAscii(RefReplace(s))
  {
    if |s| > 0 {
      RefReplaceAscii(s[1..]);
      var head := EscapeOne(s[0]);
      var tail := RefReplace(s[1..]);
      assert RefReplace(s) == head + tail;
      assert forall i :: |head| <= i < |head + tail| ==> (head + tail)[i] == tail[i - |head|];
    }
  }

  /** The message Python gives when an exception class that needs five
      arguments is raised without any. */
  const MissingArguments: string := "function takes exactly 5 arguments (0 given)"

  /** `unicode_refreplace` as written: the first of the four control
      characters raises `TypeError`. */
  function RefReplaceAsWritten(s: string): (r: Result<string>)
    ensures r.Err? <==> exists i :: 0 <= i < |s| && IsForcedEscape(s[i])
    ensures r.Err? ==> r.error == TypeError(MissingArguments)
    ensures r.Ok? ==> r.value == RefReplace(s)
  {
    if |s| == 0 then Ok("")
    else if IsForcedEscape(s[0]) then Err(TypeError(MissingArguments))
    else
      var tail :- RefReplaceAsWritten(s[1..]);
      assert forall i :: 1 <= i < |s| ==> s[i] == s[1..][i - 1];
      Ok(EscapeOne(s[0]) + tail)
  }

  /** The argument of `unicode_refreplace`: a unicode string, or a byte
      string that is decoded as UTF-8 first. */
  datatype Input = Unicode(text: string) | Bytes(bytes: seq<bv8>)

  /** `unicode_refreplace` as written on either kind of argument. `decode`
      is Python's UTF-8 codec, which is not part of this model; its errors
      propagate unchanged. Whatever comes out is pure ASCII. */
  function UnicodeRefReplace(x: Input, decode: seq<bv8> -> Result<string>): (r: Result<string>)
    ensures x.Unicode? ==> r == RefReplaceAsWritten(x.text)
    ensures x.Bytes? && decode(x.bytes).Err? ==> r == Err(decode(x.bytes).error)
    ensures x.Bytes? && decode(x.bytes).Ok? ==> r == RefReplaceAsWritten(decode(x.bytes).value)
    ensures r.Ok? ==> AllAscii(r.value)
  {
    var text :- if x.Unicode? then Ok(x.text) else decode(x.bytes);
    var r := RefReplaceAsWritten(text);
    if r.Ok? then RefReplaceAscii(text); r else r
  }

  /** A tab makes the function as written fail where the escaping was
      evidently meant to give `\u0009`. */
  lemma TabRaises()
    ensures RefReplaceAsWritten("a\tb") == Err(TypeError(MissingArguments))
    ensures RefReplace("\t") == [Backslash] + "u0009"
  {
    assert IsForcedEscape("a\tb"[1]);
    assert Hex4(9) == "000" + "9";
    assert RefReplace("\t") == EscapeOne('\t') + "";
  }

  /** Text that is ASCII apart from the four control characters comes out
      unchanged. */
  lemma {:induction false} AsciiUnchanged(s: string)
    requires forall i :: 0 <= i < |s| ==> IsAscii(s[i]) && !IsForcedEscape(s[i])
    ensures RefReplace(s) == s
  {
    if |s| > 0 {
      AsciiUnchanged(s[1..]);
      assert s == [s[0]] + s[1..];
    }
  }

  /** Each character is escaped on its own, in order: the escaping of a
      concatenation is the concatenation of the escapings. */
  lemma {:induction false} RefReplaceAppend(a: string, b: string)
    ensures RefReplace(a + b) == RefReplace(a) + RefReplace(b)
  {
    if |a| > 0 {
      var ab := a + b;
      assert ab[1..] == a[1..] + b && ab[0] == a[0];
      RefReplaceAppend(a[1..], b);
      var e, x, y := EscapeOne(a[0]), RefReplace(a[1..]), RefReplace(b);
      assert RefReplace(ab) == e + (x + y);
      assert RefReplace(a) == e + x;
      ConcatAssoc(e, x, y);
    } else {
      assert a + b == b;
    }
  }

  lemma ConcatAssoc(e: string, x: string, y: string)
    ensures e + (x + y) == (e + x) + y
  {
  }

  // ---------------------------------------------------------------------
  // reading the escapes back

  /** Cinema 4D's reading of a string table entry: `\u` and four hex
      digits stand for that code unit, everything else for itself. */
  function Unescape(s: string): (r: string)
  {
    if |s| >= 6 && s[0] == Backslash && s[1] == 'u'
       && IsHexDigit(s[2]) && IsHexDigit(s[3]) && IsHexDigit(s[4]) && IsHexDigit(s[5])
       && IsScalar(HexValue(s[2..6]))
    then [HexValue(s[2..6]) as char] + Unescape(s[6..])
    else if |s| == 0 then ""
    else [s[0]] + Unescape(s[1..])
  }

  predicate IsScalar(n: nat) {
    n < 0xD800 || (0xE000 <= n < 0x11_0000)
  }

  lemma UnescapeEscape(c: char, rest: string)
    requires c as int < 0x10000
    ensures Unescape(Escape(c) + rest) == [c] + Unescape(rest)
  {
    Hex4Length(c as int);
    Hex4Value(c as int);
    var h := Hex4(c as int);
    var s := Escape(c) + rest;
    assert s == [Backslash, 'u', h[0], h[1], h[2], h[3]] + rest;
    assert s[2..6] == h;
    assert s[6..] == rest;
  }

  lemma UnescapePlain(c: char, rest: string)
    requires c != Backslash
    ensures Unescape([c] + rest) == [c] + Unescape(rest)
  {
    assert ([c] + rest)[1..] == rest;
  }

  /** On text without backslashes and within the basic multilingual
      plane, the escaping loses nothing: reading it back gives the text. */
  lemma {:induction false} RefReplaceRoundTrip(s: string)
    requires forall i :: 0 <= i < |s| ==> s[i] != Backslash && s[i] as int < 0x10000
    ensures Unescape(RefReplace(s)) == s
  {
    if |s| > 0 {
      var c := s[0];
      var rest := RefReplace(s[1..]);
      RefReplaceRoundTrip(s[1..]);
      assert RefReplace(s) == EscapeOne(c) + rest;
      if IsAscii(c) && !IsForcedEscape(c) {
        UnescapePlain(c, rest);
      } else {
        UnescapeEscape(c, rest);
      }
      assert s == [c] + s[1..];
    }
  }
}

=== FILE: reindent.dfy ===
/** `FixIndentation` in refactor.py: every leaf of the tree is visited left
    to right and the indentation is re-levelled to a fixed unit per block.
    The fixer keeps a stack of original indent widths, a stack of open
    brackets and the line of the last leaf seen; this module threads that
    state through a fold over the leaf stream. */
module Reindent {
  import opened Errors
  import opened Text
  import opened Cst

  /** The fixer's mutable fields: `indents`, `compounds`, `line`. */
  datatype State = State(indents: seq<nat>, compounds: seq<Token>, line: nat)

  /** The state after `__init__`. */
  const Initial := State([], [], 0)

  predicate IsOpener(t: Token) {
    t == LPAR || t == LBRACE || t == LSQB
  }

  predicate IsCloser(t: Token) {
    t == RPAR || t == RBRACE || t == RSQB
  }

  /** The opener a closer must match. */
  function OpenerOf(t: Token): (o: Token)
    requires IsCloser(t)
    ensures IsOpener(o)
  {
    if t == RPAR then LPAR else if t == RBRACE then LBRACE else LSQB
  }

  predicate AllOpeners(s: seq<Token>) {
    forall i :: 0 <= i < |s| ==> IsOpener(s[i])
  }

  /** `list.index(x)`: the first position of `x`. */
  function IndexOf(s: seq<nat>, x: nat): (r: Option<nat>)
    ensures r.None? <==> x !in s
    ensures r.Some? ==> r.value < |s| && s[r.value] == x
                        && forall j :: 0 <= j < r.value ==> s[j] != x
  {
    if |s| == 0 then None
    else if s[0] == x then Some(0)
    else match IndexOf(s[1..], x)
      case None => None
      case Some(k) => Some(k + 1)
  }

  /** The bracket stack after one leaf: openers are pushed, a closer must
      match the top (IndexError on an empty stack, AssertionError on a
      mismatch) and pops it, every other token leaves it alone. */
  function Brackets(c: seq<Token>, tok: Token): (r: Result<seq<Token>>)
    ensures IsOpener(tok) ==> r == Ok(c + [tok])
    ensures IsCloser(tok) && |c| == 0 ==> r == Err(IndexError)
    ensures IsCloser(tok) && |c| > 0 && c[|c| - 1] != OpenerOf(tok) ==> r == Err(AssertionError)
    ensures IsCloser(tok) && |c| > 0 && c[|c| - 1] == OpenerOf(tok) ==> r == Ok(c[..|c| - 1])
    ensures !IsOpener(tok) && !IsCloser(tok) ==> r == Ok(c)
    ensures r.Ok? && AllOpeners(c) ==> AllOpeners(r.value)
  {
    if IsOpener(tok) then Ok(c + [tok])
    else if IsCloser(tok) then
      if |c| == 0 then Err(IndexError)
      else if c[|c| - 1] != OpenerOf(tok) then Err(AssertionError)
      else Ok(c[..|c| - 1])
    else Ok(c)
  }

  /** A matched pair leaves the bracket stack as it found it. */
  lemma MatchedPairRestores(c: seq<Token>, close: Token)
    requires IsCloser(close)
    ensures Brackets(c, OpenerOf(close)).Ok?
    ensures Brackets(Brackets(c, OpenerOf(close)).value, close) == Ok(c)
  {
    var pushed := c + [OpenerOf(close)];
    assert pushed[..|pushed| - 1] == c;
  }

  /** The new-line check at the end of `transform` (refactor.py:184-201):
      on the first leaf of a new line the last line of its prefix becomes
      the unit repeated once per open block and open bracket. */
  function NewLine(st: State, t: Tree, unit: string): (r: (State, Tree))
    requires t.Leaf?
    ensures r.0.indents == st.indents && r.0.compounds == st.compounds && r.0.line == t.lineno
    ensures r.1 == t || (st.line != t.lineno && |st.indents| > 0 && t.prefix != ""
                         && r.1 == t.(prefix := ReplaceLastLine(t.prefix, Repeat(unit, |st.indents| + |st.compounds|))))
    ensures st.line == t.lineno || |st.indents| == 0 ==> r.1 == t
  {
    if st.line == t.lineno then (st, t)
    else
      var st' := st.(line := t.lineno);
      if |st.indents| == 0 then (st', t)
      else if t.prefix != "" then
        (st', t.(prefix := ReplaceLastLine(t.prefix, Repeat(unit, |st.indents| + |st.compounds|))))
      else (st', t)
  }

  /** One call of `transform` on a leaf: the next state and the leaf as it
      stands afterwards. */
  function Step(st: State, t: Tree, unit: string): (r: Result<(State, Tree)>)
    requires t.Leaf?
    // Only the value or the prefix of a leaf ever changes.
    ensures r.Ok? ==> r.value.1.Leaf? && r.value.1.tok == t.tok
                      && r.value.1.lineno == t.lineno && r.value.1.column == t.column
    ensures r.Ok? ==> r.value.0.line == t.lineno
    // An INDENT pushes its own width and takes the unit once per level.
    ensures t.tok == INDENT ==> r.Ok? && r.value.0.indents == st.indents + [|t.value|]
                                && r.value.1 == t.(value := Repeat(unit, |st.indents| + 1))
    // A DEDENT in column 0 closes every block.
    ensures t.tok == DEDENT && t.column == 0 ==> r.Ok? && r.value.0.indents == [] && r.value.1 == t
    // Any other DEDENT must name an open width; the blocks after it close.
    ensures t.tok == DEDENT && t.column != 0 ==> (r.Ok? <==> t.column in st.indents)
    ensures t.tok == DEDENT && t.column != 0 && r.Ok? ==>
              exists k :: 0 <= k < |st.indents| && st.indents[k] == t.column
                          && r.value.0.indents == st.indents[..k + 1]
    ensures t.tok == DEDENT && t.column != 0 && r.Ok? ==>
              r.value.1.value == t.value
              && (t.prefix == "" ==> r.value.1 == t)
              && (t.prefix != "" ==> r.value.1.prefix == ReplaceLastLine(t.prefix, Repeat(unit, |r.value.0.indents|)))
    ensures t.tok == INDENT || t.tok == DEDENT ==> r.Ok? ==> r.value.0.compounds == st.compounds
    // Every other leaf goes through the bracket stack and the new-line check.
    ensures t.tok != INDENT && t.tok != DEDENT ==>
              (r.Ok? <==> Brackets(st.compounds, t.tok).Ok?)
    ensures t.tok != INDENT && t.tok != DEDENT && r.Ok? ==>
              r.value.0.indents == st.indents && r.value.0.compounds == Brackets(st.compounds, t.tok).value
              && r.value.1.value == t.value
    ensures r.Ok? && AllOpeners(st.compounds) ==> AllOpeners(r.value.0.compounds)
    // The only failures: `list.index`, and the bracket stack's pop and assert.
    ensures r.Err? ==> r.error.ValueError? || r.error == IndexError || r.error == AssertionError
  {
    if t.tok == INDENT then
      // When the value already is the new indent the node is left as it is
      // and the new-line check below cannot fire, since `line` was just set.
      var indents := st.indents + [|t.value|];
      Ok((State(indents, st.compounds, t.lineno), t.(value := Repeat(unit, |indents|))))
    else if t.tok == DEDENT then
      if t.column == 0 then Ok((State([], st.compounds, t.lineno), t))
      else
        match IndexOf(st.indents, t.column)
        case None => Err(ValueError(NatToString(t.column) + " is not in list"))
        case Some(level) =>
          var indents := st.indents[..level + 1];
          var t' := if t.prefix != "" then t.(prefix := ReplaceLastLine(t.prefix, Repeat(unit, |indents|))) else t;
          Ok((State(indents, st.compounds, t.lineno), t'))
    else
      var c :- Brackets(st.compounds, t.tok);
      Ok(NewLine(State(st.indents, c, st.line), t, unit))
  }

  predicate AllLeaves(ts: seq<Tree>) {
    forall i :: 0 <= i < |ts| ==> ts[i].Leaf?
  }

  /** The fixer applied to a stream of leaves in order, from state `st`. */
  function Run(st: State, ts: seq<Tree>, unit: string): (r: Result<(State, seq<Tree>)>)
    requires AllLeaves(ts)
    ensures r.Ok? ==> |r.value.1| == |ts|
    ensures r.Err? ==> r.error.ValueError? || r.error == IndexError || r.error == AssertionError
    ensures r.Err? ==> |ts| > 0
    decreases |ts|
  {
    if |ts| == 0 then Ok((st, []))
    else
      var first :- Step(st, ts[0], unit);
      var rest :- Run(first.0, ts[1..], unit);
      Ok((rest.0, [first.1] + rest.1))
  }

  /** `FixIndentation(unit)` run over a whole tree. */
  function Reindent(t: Tree, unit: string): (r: Result<seq<Tree>>)
    ensures r.Ok? ==> |r.value| == |Leaves(t)|
    ensures r.Ok? ==> forall i :: 0 <= i < |r.value| ==>
              r.value[i].Leaf? && r.value[i].tok == Leaves(t)[i].tok
              && r.value[i].lineno == Leaves(t)[i].lineno && r.value[i].column == Leaves(t)[i].column
    ensures r.Err? ==> r.error.ValueError? || r.error == IndexError || r.error == AssertionError
  {
    var out :- Run(Initial, Leaves(t), unit);
    RunKeepsPositions(Initial, Leaves(t), unit);
    Ok(out.1)
  }

  /** Every leaf keeps its kind and position; only values and prefixes are
      re-levelled. */
  lemma {:induction false} RunKeepsPositions(st: State, ts: seq<Tree>, unit: string)
    requires AllLeaves(ts)
    requires Run(st, ts, unit).Ok?
    ensures forall i :: 0 <= i < |ts| ==>
              var o := Run(st, ts, unit).value.1[i];
              o.Leaf? && o.tok == ts[i].tok && o.lineno == ts[i].lineno && o.column == ts[i].column
    decreases |ts|
  {
    if |ts| > 0 {
      var first := Step(st, ts[0], unit).value;
      RunKeepsPositions(first.0, ts[1..], unit);
      var out := Run(st, ts, unit).value.1;
      assert out == [first.1] + Run(first.0, ts[1..], unit).value.1;
      forall i | 1 <= i < |ts|
        ensures out[i] == Run(first.0, ts[1..], unit).value.1[i - 1] && ts[i] == ts[1..][i - 1]
      {
      }
    }
  }

  /** The bracket stack only ever holds opening brackets. */
  lemma {:induction false} RunKeepsOpeners(st: State, ts: seq<Tree>, unit: string)
    requires AllLeaves(ts) && AllOpeners(st.compounds)
    requires Run(st, ts, unit).Ok?
    ensures AllOpeners(Run(st, ts, unit).value.0.compounds)
    decreases |ts|
  {
    if |ts| > 0 {
      RunKeepsOpeners(Step(st, ts[0], unit).value.0, ts[1..], unit);
    }
  }

  lemma AllLeavesAppend(a: seq<Tree>, b: seq<Tree>)
    requires AllLeaves(a) && AllLeaves(b)
    ensures AllLeaves(a + b)
  {
    forall i | 0 <= i < |a + b| ensures (a + b)[i].Leaf? {
      if i >= |a| { assert (a + b)[i] == b[i - |a|]; }
    }
  }

  /** Running over two stretches of leaves is running over the first and
      then, from where it stopped, over the second; an error in either
      stretch is an error of the whole. */
  lemma {:induction false} RunAppend(st: State, a: seq<Tree>, b: seq<Tree>, unit: string)
    requires AllLeaves(a) && AllLeaves(b) && AllLeaves(a + b)
    ensures Run(st, a, unit).Err? ==> Run(st, a + b, unit).Err?
    ensures Run(st, a, unit).Ok? && Run(Run(st, a, unit).value.0, b, unit).Err? ==> Run(st, a + b, unit).Err?
    ensures Run(st, a, unit).Ok? && Run(Run(st, a, unit).value.0, b, unit).Ok? ==>
              Run(st, a + b, unit)
                == Ok((Run(Run(st, a, unit).value.0, b, unit).value.0,
                       Run(st, a, unit).value.1 + Run(Run(st, a, unit).value.0, b, unit).value.1))
    decreases |a|
  {
    if |a| == 0 {
      assert a + b == b;
      assert Run(st, a, unit) == Ok((st, []));
      if Run(st, b, unit).Ok? {
        assert [] + Run(st, b, unit).value.1 == Run(st, b, unit).value.1;
      }
    } else {
      HeadTailAppend(a, b);
      var s := Step(st, a[0], unit);
      if s.Ok? {
        RunAppend(s.value.0, a[1..], b, unit);
        if Run(st, a, unit).Ok? {
          var ra := Run(s.value.0, a[1..], unit).value;
          if Run(ra.0, b, unit).Ok? {
            var rb := Run(ra.0, b, unit).value;
            ConsAppend([s.value.1], ra.1, rb.1);
          }
        }
      }
    }
  }

  /** While no block is open and no INDENT arrives, the fixer rewrites
      nothing: code at module level is left exactly as it is. */
  lemma {:induction false} RunQuietAtTopLevel(st: State, ts: seq<Tree>, unit: string)
    requires AllLeaves(ts) && st.indents == []
    requires forall i :: 0 <= i < |ts| ==> ts[i].tok != INDENT
    requires Run(st, ts, unit).Ok?
    ensures Run(st, ts, unit).value.1 == ts
    ensures Run(st, ts, unit).value.0.indents == []
    decreases |ts|
  {
    if |ts| > 0 {
      var s := Step(st, ts[0], unit);
      assert s.value.1 == ts[0] && s.value.0.indents == [];
      RunQuietAtTopLevel(s.value.0, ts[1..], unit);
      assert ts == [ts[0]] + ts[1..];
    }
  }

  /** A dedent back to an open block keeps the earlier prefix lines and
      replaces only the text after the last newline. */
  lemma DedentKeepsEarlierLines(st: State, t: Tree, unit: string)
    requires t.Leaf? && t.tok == DEDENT && t.column != 0 && t.prefix != ""
    requires Step(st, t, unit).Ok?
    ensures var o := Step(st, t, unit).value;
      o.1.prefix == t.prefix[..LastIndexOf(t.prefix, '\n') + 1] + Repeat(unit, |o.0.indents|)
  {
    var o := Step(st, t, unit).value;
    ReplaceLastLineKeepsEarlierLines(t.prefix, Repeat(unit, |o.0.indents|));
  }

  /** The same for the first leaf of a continuation line: the new last
      prefix line counts open blocks and open brackets. */
  lemma NewLineKeepsEarlierLines(st: State, t: Tree, unit: string)
    requires t.Leaf? && t.prefix != "" && st.line != t.lineno && |st.indents| > 0
    ensures NewLine(st, t, unit).1.prefix
         == t.prefix[..LastIndexOf(t.prefix, '\n') + 1] + Repeat(unit, |st.indents| + |st.compounds|)
  {
    ReplaceLastLineKeepsEarlierLines(t.prefix, Repeat(unit, |st.indents| + |st.compounds|));
  }

  // An indented body under `if x:` in four-space style, from the INDENT
  // of line 2 to the DEDENT of line 3.
  const BodyIndent := Leaf(INDENT, "    ", "", 2, 0)
  const BodyName := Leaf(NAME, "y", "", 2, 4)
  const BodyDedent := Leaf(DEDENT, "", "", 3, 0)
  const InBody := State([4], [], 2)
  const BodyIndentTwo := Leaf(INDENT, "  ", "", 2, 0)

  lemma IndentToTwoSpaces()
    ensures Step(State([], [], 1), BodyIndent, "  ") == Ok((InBody, BodyIndentTwo))
  {
    assert Repeat("  ", 1) == "  " by { assert Repeat("  ", 0) == ""; }
    assert [] + [|BodyIndent.value|] == [4];
  }

  /** Re-levelled to two spaces, only the INDENT changes, and the stack is
      empty again after the DEDENT in column 0. */
  lemma TwoSpaceBody()
    ensures Run(State([], [], 1), [BodyIndent, BodyName, BodyDedent], "  ")
         == Ok((State([], [], 3), [BodyIndentTwo, BodyName, BodyDedent]))
  {
    IndentToTwoSpaces();
    BodyTail();
    RunCons(State([], [], 1), BodyIndent, [BodyName, BodyDedent], "  ", InBody, BodyIndentTwo);
    assert [BodyIndent] + [BodyName, BodyDedent] == [BodyIndent, BodyName, BodyDedent];
    assert [BodyIndentTwo] + [BodyName, BodyDedent] == [BodyIndentTwo, BodyName, BodyDedent];
  }

  lemma BodyTail()
    ensures Run(InBody, [BodyName, BodyDedent], "  ") == Ok((State([], [], 3), [BodyName, BodyDedent]))
  {
    SameLineThenDedent(InBody, BodyName, BodyDedent, "  ");
  }

  /** A leaf on the current line that is no bracket, then a DEDENT to
      column 0: nothing is rewritten and every block is closed. */
  lemma SameLineThenDedent(st: State, t: Tree, d: Tree, unit: string)
    requires t.Leaf? && t.lineno == st.line && t.tok != INDENT && t.tok != DEDENT
    requires !IsOpener(t.tok) && !IsCloser(t.tok)
    requires d.Leaf? && d.tok == DEDENT && d.column == 0
    ensures AllLeaves([t, d])
    ensures Run(st, [t, d], unit) == Ok((State([], st.compounds, d.lineno), [t, d]))
  {
    var done := State([], st.compounds, d.lineno);
    assert Step(st, t, unit) == Ok((st, t));
    assert Step(st, d, unit) == Ok((done, d));
    assert Run(done, [], unit) == Ok((done, []));
    RunCons(st, d, [], unit, done, d);
    assert [d] + [] == [d];
    RunCons(st, t, [d], unit, st, t);
    assert [t] + [d] == [t, d];
  }

  /** One step of the fold. */
  lemma RunCons(st: State, t: Tree, ts: seq<Tree>, unit: string, s1: State, t1: Tree)
    requires t.Leaf? && AllLeaves(ts)
    requires Step(st, t, unit) == Ok((s1, t1))
    requires Run(s1, ts, unit).Ok?
    ensures AllLeaves([t] + ts)
    ensures Run(st, [t] + ts, unit) == Ok((Run(s1, ts, unit).value.0, [t1] + Run(s1, ts, unit).value.1))
  {
    AllLeavesCons(t, ts);
    var all := [t] + ts;
    assert all[0] == t && all[1..] == ts;
  }

  lemma AllLeavesCons(t: Tree, ts: seq<Tree>)
    requires t.Leaf? && AllLeaves(ts)
    ensures AllLeaves([t] + ts)
  {
    forall i | 0 <= i < |[t] + ts| ensures ([t] + ts)[i].Leaf? {
      if i > 0 { assert ([t] + ts)[i] == ts[i - 1]; }
    }
  }

  /** Inside one block and one open parenthesis, a continuation line is
      moved to two units: `\n        b` becomes `\n    b`. */
  lemma ContinuationLine()
    ensures Step(State([4], [LPAR], 2), Leaf(NAME, "b", "\n        ", 3, 8), "  ")
         == Ok((State([4], [LPAR], 3), Leaf(NAME, "b", "\n    ", 3, 8)))
  {
    ContinuationPrefix();
  }

  lemma ContinuationPrefix()
    ensures ReplaceLastLine("\n        ", Repeat("  ", 2)) == "\n    "
  {
    assert Repeat("  ", 2) == "    " by { assert Repeat("  ", 0) == ""; }
    assert "\n        " == "\n" + "        ";
    OneLineBreakPrefix("        ", "    ");
  }

  /** A prefix of one line break and some indentation gets the new
      indentation after the same line break. */
  lemma OneLineBreakPrefix(w: string, x: string)
    requires '\n' !in w
    ensures ReplaceLastLine("\n" + w, x) == "\n" + x
  {
    LastNewlineFirst(w);
    ReplaceLastLineKeepsEarlierLines("\n" + w, x);
    assert ("\n" + w)[..1] == "\n";
  }

  lemma LastNewlineFirst(w: string)
    requires '\n' !in w
    ensures LastIndexOf("\n" + w, '\n') == 0
  {
    var p := "\n" + w;
    var k := LastIndexOf(p, '\n');
    assert p[0] == '\n';
  }
}

=== FILE: scanner.dfy ===
/** `RegexScanner` of little_jinja.py: a cursor over a string that, at each
    step, picks among its registered rules the match that starts first.
    The regex engine is replaced by the five patterns little_jinja registers,
    each written out as a search over characters. */
module Scanner {
  import opened Errors
  import opened Text

  /** A successful match: `group(0)` is `s[start..end]`; `group` is
      `group(1)` (empty for patterns without a group). */
  datatype Match = Match(start: nat, end: nat, group: string)

  /** The patterns little_jinja registers:
      `VarPattern` is `\{\{(.*?)\}\}`;
      `TagPattern(kw, true)` is `\{%-?\s*kw\b(.*?)-?%\}`;
      `TagPattern(kw, false)` is `\{%-?\s*kw\s*-?%\}`. */
  datatype Pattern =
    | VarPattern
    | TagPattern(keyword: string, captures: bool)

  datatype Rule = Rule(name: string, pattern: Pattern)

  /** `w` occurs in `s` at index `i`. */
  predicate At(s: string, i: nat, w: string) {
    i + |w| <= |s| && s[i..i + |w|] == w
  }

  /** The lazy `(.*?)\}\}` from `k`: the first `}}` before a line break. */
  function CloseVar(s: string, k: nat): (r: Option<nat>)
    ensures r.Some? ==> k <= r.value && At(s, r.value, "}}")
    decreases |s| - k
  {
    if At(s, k, "}}") then Some(k)
    else if k >= |s| || s[k] == '\n' then None
    else CloseVar(s, k + 1)
  }

  /** The lazy `(.*?)-?%\}` from `k`: the end of the group and of the
      match at the first `-%}` or `%}` before a line break. */
  function CloseTag(s: string, k: nat): (r: Option<(nat, nat)>)
    ensures r.Some? ==> k <= r.value.0 < r.value.1 <= |s|
    decreases |s| - k
  {
    if At(s, k, "-%}") then Some((k, k + 3))
    else if At(s, k, "%}") then Some((k, k + 2))
    else if k >= |s| || s[k] == '\n' then None
    else CloseTag(s, k + 1)
  }

  /** The greedy `\s*` from `j`. */
  function SkipSpace(s: string, j: nat): (r: nat)
    requires j <= |s|
    ensures j <= r <= |s|
    ensures forall i :: j <= i < r ==> IsWhitespace(s[i])
    ensures r < |s| ==> !IsWhitespace(s[r])
    decreases |s| - j
  {
    if j < |s| && IsWhitespace(s[j]) then SkipSpace(s, j + 1) else j
  }

  /** `pattern.match(s, i)`: the match starting exactly at `i`, if any. */
  function MatchAt(p: Pattern, s: string, i: nat): (r: Option<Match>)
    ensures r.Some? ==> r.value.start == i < r.value.end <= |s|
    ensures r.Some? && p.VarPattern? ==> At(s, i, "{{")
    ensures r.Some? && p.TagPattern? ==> At(s, i, "{%")
  {
    match p
    case VarPattern =>
      if !At(s, i, "{{") then None
      else (match CloseVar(s, i + 2)
            case Some(k) => Some(Match(i, k + 2, s[i + 2..k]))
            case None => None)
    case TagPattern(kw, captures) =>
      if !At(s, i, "{%") then None
      else
        var j := if At(s, i + 2, "-") then i + 3 else i + 2;
        var k := SkipSpace(s, j);
        if !At(s, k, kw) then None
        else
          var e := k + |kw|;
          if captures then
            if e < |s| && IsWordChar(s[e]) then None
            else (match CloseTag(s, e)
                  case Some(ge) => Some(Match(i, ge.1, s[e..ge.0]))
                  case None => None)
          else
            var f := SkipSpace(s, e);
            if At(s, f, "-%}") then Some(Match(i, f + 3, ""))
            else if At(s, f, "%}") then Some(Match(i, f + 2, ""))
            else None
  }

  /** `pattern.search(s, off)`: the leftmost match at or after `off`. */
  function Search(p: Pattern, s: string, off: nat): (r: Option<Match>)
    ensures r.Some? ==> off <= r.value.start < r.value.end <= |s|
    ensures r.Some? ==> MatchAt(p, s, r.value.start) == r
    decreases |s| - off
  {
    if off >= |s| then None
    else if MatchAt(p, s, off).Some? then MatchAt(p, s, off)
    else Search(p, s, off + 1)
  }

  /** The match `Search` returns is the leftmost one. */
  lemma {:induction false} SearchIsLeftmost(p: Pattern, s: string, off: nat)
    requires Search(p, s, off).Some?
    ensures forall j :: off <= j < Search(p, s, off).value.start ==> MatchAt(p, s, j).None?
    decreases |s| - off
  {
    var r := Search(p, s, off);
    if MatchAt(p, s, off).None? {
      assert r == Search(p, s, off + 1);
      SearchIsLeftmost(p, s, off + 1);
      forall j | off <= j < r.value.start ensures MatchAt(p, s, j).None? {
        if j > off {
          assert off + 1 <= j < Search(p, s, off + 1).value.start;
        }
      }
    } else {
      assert r.value.start == off;
    }
  }

  /** Without a result there is no match anywhere from `off` on. */
  lemma {:induction false} SearchNoneNoMatch(p: Pattern, s: string, off: nat)
    requires Search(p, s, off).None?
    ensures forall j :: off <= j ==> MatchAt(p, s, j).None?
    decreases |s| - off
  {
    if off >= |s| {
      forall j | off <= j ensures MatchAt(p, s, j).None? {
        MatchAtEnd(p, s, j);
      }
    } else {
      assert Search(p, s, off) == Search(p, s, off + 1);
      SearchNoneNoMatch(p, s, off + 1);
    }
  }

  /** Nothing matches at or past the end of the string. */
  lemma MatchAtEnd(p: Pattern, s: string, j: nat)
    requires |s| <= j
    ensures MatchAt(p, s, j).None?
  {
    assert !At(s, j, "{{") && !At(s, j, "{%");
  }

  /** A string without `{{` and `{%` matches none of the patterns. */
  lemma NoOpenerNoMatch(p: Pattern, s: string, off: nat)
    requires forall j :: 0 <= j ==> !At(s, j, "{{") && !At(s, j, "{%")
    ensures Search(p, s, off).None?
  {
  }

  // ---------------------------------------------------------------------
  // scanner state

  /** `current`: before the first `next`, after a failed `next`, or the
      rule name and match of the last successful one. */
  datatype Current = NotStarted | Exhausted | Found(name: string, m: Match)

  datatype State = State(s: string, offset: nat, previous: Option<Match>, current: Current)

  function Init(s: string): State {
    State(s, 0, None, NotStarted)
  }

  predicate Valid(st: State) {
    st.offset <= |st.s|
  }

  /** `bool(scanner)`: false exactly after a failed `next`. */
  predicate Truthy(st: State) {
    !st.current.Exhausted?
  }

  predicate Eligible(rules: seq<Rule>, names: Option<set<string>>, i: nat)
    requires i < |rules|
  {
    names.None? || rules[i].name in names.value
  }

  /** For each rule, where its match from `off` starts, if it is eligible
      and matches at all. */
  function Hits(rules: seq<Rule>, s: string, off: nat, names: Option<set<string>>): (h: seq<Option<nat>>)
    ensures |h| == |rules|
    ensures forall i :: 0 <= i < |rules| ==>
              h[i] == (if Eligible(rules, names, i) && Search(rules[i].pattern, s, off).Some?
                       then Some(Search(rules[i].pattern, s, off).value.start) else None)
  {
    seq(|rules|, i requires 0 <= i < |rules| =>
      if Eligible(rules, names, i) && Search(rules[i].pattern, s, off).Some?
      then Some(Search(rules[i].pattern, s, off).value.start) else None)
  }

  /** The loop over the rules in `next`: the index of the nearest match seen
      so far; a later rule replaces it only when its match starts strictly
      earlier. */
  function Nearest(h: seq<Option<nat>>, k: nat, best: Option<nat>): (r: Option<nat>)
    requires k <= |h|
    requires best.Some? ==> best.value < k && h[best.value].Some?
    ensures r.Some? ==> r.value < |h| && h[r.value].Some?
    decreases |h| - k
  {
    if k == |h| then best
    else
      var take := h[k].Some? && (best.None? || h[k].value < h[best.value].value);
      Nearest(h, k + 1, if take then Some(k) else best)
  }

  /** The chosen index has the smallest start; any index before it starts
      strictly later. Without a choice there is no hit at all. */
  lemma {:induction false} NearestIsEarliest(h: seq<Option<nat>>, k: nat, best: Option<nat>)
    requires k <= |h|
    requires best.Some? ==> best.value < k && h[best.value].Some?
    requires best.Some? ==> forall j :: 0 <= j < k && h[j].Some? ==>
                              h[best.value].value <= h[j].value && (j < best.value ==> h[best.value].value < h[j].value)
    requires best.None? ==> forall j :: 0 <= j < k ==> h[j].None?
    ensures var r := Nearest(h, k, best);
            r.Some? ==> forall j :: 0 <= j < |h| && h[j].Some? ==>
                          h[r.value].value <= h[j].value && (j < r.value ==> h[r.value].value < h[j].value)
    ensures Nearest(h, k, best).None? ==> forall j :: 0 <= j < |h| ==> h[j].None?
    decreases |h| - k
  {
    if k < |h| {
      var take := h[k].Some? && (best.None? || h[k].value < h[best.value].value);
      NearestIsEarliest(h, k + 1, if take then Some(k) else best);
    }
  }

  /** `next(rule_names)`. Once exhausted the scanner stays exhausted;
      otherwise the previous match is remembered and the offset moves to the
      end of the nearest match. */
  function Next(rules: seq<Rule>, st: State, names: Option<set<string>>): (r: State)
    requires Valid(st)
    ensures Valid(r) && r.s == st.s
    ensures st.current.Exhausted? ==> r == st
    ensures !st.current.Exhausted? ==> r.previous == (if st.current.Found? then Some(st.current.m) else None)
    ensures r.current.Found? ==> r.offset == r.current.m.end && st.offset <= r.current.m.start < r.offset
    ensures r.current.Exhausted? ==> r.offset == st.offset
    ensures !r.current.NotStarted?
    ensures !st.current.Exhausted? && r.current.Found? ==>
              exists i :: 0 <= i < |rules| && rules[i].name == r.current.name
  {
    if st.current.Exhausted? then st
    else
      var previous := if st.current.Found? then Some(st.current.m) else None;
      match Nearest(Hits(rules, st.s, st.offset, names), 0, None)
      case Some(i) =>
        var m := Search(rules[i].pattern, st.s, st.offset).value;
        State(st.s, m.end, previous, Found(rules[i].name, m))
      case None => State(st.s, st.offset, previous, Exhausted)
  }

  /** What `next` found is the earliest match among the eligible rules,
      ties going to the rule registered first; it finds nothing only when
      no eligible rule matches at or after the offset. */
  lemma NextIsEarliest(rules: seq<Rule>, st: State, names: Option<set<string>>)
    requires Valid(st) && !st.current.Exhausted?
    ensures var r := Next(rules, st, names);
            r.current.Found? ==>
              exists i :: 0 <= i < |rules| && Eligible(rules, names, i) && rules[i].name == r.current.name
                          && Search(rules[i].pattern, st.s, st.offset) == Some(r.current.m)
                          && (forall j :: 0 <= j < |rules| && Eligible(rules, names, j) && Search(rules[j].pattern, st.s, st.offset).Some? ==>
                                r.current.m.start <= Search(rules[j].pattern, st.s, st.offset).value.start
                                && (j < i ==> r.current.m.start < Search(rules[j].pattern, st.s, st.offset).value.start))
    ensures Next(rules, st, names).current.Exhausted? <==>
              forall j :: 0 <= j < |rules| && Eligible(rules, names, j) ==> Search(rules[j].pattern, st.s, st.offset).None?
  {
    var h := Hits(rules, st.s, st.offset, names);
    NearestIsEarliest(h, 0, None);
    var r := Next(rules, st, names);
    match Nearest(h, 0, None)
    case Some(i) =>
      assert r.current.m == Search(rules[i].pattern, st.s, st.offset).value;
      forall j | 0 <= j < |rules| && Eligible(rules, names, j) && Search(rules[j].pattern, st.s, st.offset).Some?
        ensures r.current.m.start <= Search(rules[j].pattern, st.s, st.offset).value.start
                && (j < i ==> r.current.m.start < Search(rules[j].pattern, st.s, st.offset).value.start)
      {
        assert h[j].Some?;
      }
    case None =>
      forall j | 0 <= j < |rules| && Eligible(rules, names, j)
        ensures Search(rules[j].pattern, st.s, st.offset).None?
      {
        assert h[j].None?;
      }
  }

  /** Python's `s[a:b]` for `0 <= a, b`: empty when `b <= a`. */
  function Slice(s: string, a: nat, b: nat): (r: string)
    ensures a <= b <= |s| ==> r == s[a..b]
  {
    var b' := if b <= |s| then b else |s|;
    if a < b' then s[a..b'] else ""
  }

  /** `behind()`: the text from the end of the previous match (or the
      start) to the start of the current match (or the end). */
  function Behind(st: State): (r: string)
    ensures st.current.NotStarted? ==> r == ""
    ensures st.current.Exhausted? && st.previous.None? ==> r == st.s
  {
    if st.current.NotStarted? then ""
    else
      var start := if st.previous.None? then 0 else st.previous.value.end;
      var end := if st.current.Exhausted? then |st.s| else st.current.m.start;
      Slice(st.s, start, end)
  }

  /** `skipline()`: the offset moves past the next line break, if there is
      one; nothing else changes. */
  function SkipLine(st: State): (r: State)
    requires Valid(st)
    ensures Valid(r) && r.s == st.s && r.previous == st.previous && r.current == st.current
    ensures st.offset <= r.offset
    ensures FindFrom(st.s, '\n', st.offset) == -1 ==> r.offset == st.offset
    ensures FindFrom(st.s, '\n', st.offset) >= 0 ==>
              r.offset > st.offset && r.s[r.offset - 1] == '\n'
              && forall i :: st.offset <= i < r.offset - 1 ==> r.s[i] != '\n'
  {
    var k := FindFrom(st.s, '\n', st.offset);
    if k >= 0 then st.(offset := k + 1) else st
  }
}

=== FILE: script_converter.dfy ===
/** The `Converter` of ui/ScriptConverter.py, which turns a Cinema 4D
    command script into a command plugin, and its older copy
    `ScriptConverter` of plugin_main.py: the script's metadata comments,
    how `autofill` completes the settings, which files the plugin consists
    of, the checks `create` makes, the values handed to the plugin
    template, and the README text. */
module ScriptConv {
  import opened Errors
  import opened Text
  import opened Paths
  import opened PluginNaming
  import Scripts

  // ---------------------------------------------------------------------
  // get_script_file_metadata

  /** The two metadata fields a script can declare in a comment. */
  datatype Field = NameField | DescriptionField

  function Tag(f: Field): string {
    match f
    case NameField => "Name-US:"
    case DescriptionField => "Description-US:"
  }

  /** The field whose tag starts at position `p` of `line`; the regex tries
      `Name-US` first, and the two tags never start at the same place. */
  function TagAt(line: string, p: nat): (r: Option<Field>)
    requires p <= |line|
    ensures r.Some? ==> StartsWith(line[p..], Tag(r.value))
    ensures r.None? ==> !StartsWith(line[p..], Tag(NameField)) && !StartsWith(line[p..], Tag(DescriptionField))
  {
    if StartsWith(line[p..], Tag(NameField)) then Some(NameField)
    else if StartsWith(line[p..], Tag(DescriptionField)) then Some(DescriptionField)
    else None
  }

  /** No tag starts at a position from `p` up to, not including, `q`. */
  predicate NoTagBetween(line: string, p: nat, q: nat)
    requires q <= |line| + 1
  {
    forall j :: p <= j < q ==> TagAt(line, j).None?
  }

  /** The earliest tag at or after position `p`, with its position. */
  function FirstTag(line: string, p: nat): (r: Option<(Field, nat)>)
    requires p <= |line|
    ensures r.Some? ==> p <= r.value.1 <= |line| && TagAt(line, r.value.1) == Some(r.value.0)
                        && NoTagBetween(line, p, r.value.1)
    ensures r.None? ==> NoTagBetween(line, p, |line| + 1)
    decreases |line| - p
  {
    match TagAt(line, p)
    case Some(f) => Some((f, p))
    case None => if p == |line| then None else FirstTag(line, p + 1)
  }

  /** What `re.findall('(Name-US|Description-US):(.*)$', code, re.M)`
      finds in one line: the earliest tag and the rest of the line after
      it, stripped. A match never crosses a line break, and `.*` takes the
      rest of the line, so a line yields at most one field. */
  function LineField(line: string): (r: Option<(Field, string)>)
  {
    match FirstTag(line, 0)
    case None => None
    case Some((f, q)) =>
      assert |Tag(f)| <= |line| - q;
      Some((f, Strip(line[q + |Tag(f)|..], Whitespace)))
  }

  /** The field a line declares, if any, and its value. */
  type Found = Option<(Field, string)>

  /** `x` declares field `f`. */
  predicate Declares(x: Found, f: Field) {
    x.Some? && x.value.0 == f
  }

  /** `found[i]` is the last entry declaring field `f`. */
  predicate LastDeclaring(found: seq<Found>, f: Field, i: int) {
    0 <= i < |found| && Declares(found[i], f)
    && forall j :: i < j < |found| ==> !Declares(found[j], f)
  }

  /** The field of every line, in order. */
  function LineFields(lines: seq<string>): (r: seq<Found>)
    ensures |r| == |lines| && forall i :: 0 <= i < |lines| ==> r[i] == LineField(lines[i])
  {
    if |lines| == 0 then [] else [LineField(lines[0])] + LineFields(lines[1..])
  }

  /** The value of the last declaration of field `f`: later declarations
      override earlier ones. */
  function LastField(found: seq<Found>, f: Field): (r: Option<string>)
    ensures r.Some? ==> exists i :: LastDeclaring(found, f, i) && found[i].value.1 == r.value
    ensures r.None? ==> forall i :: 0 <= i < |found| ==> !Declares(found[i], f)
    decreases |found|
  {
    if |found| == 0 then None
    else
      var last := found[|found| - 1];
      var init := found[..|found| - 1];
      if Declares(last, f) then
        assert LastDeclaring(found, f, |found| - 1);
        Some(last.value.1)
      else
        var r := LastField(init, f);
        assert forall i :: 0 <= i < |init| ==> init[i] == found[i];
        assert r.Some? ==> exists i :: LastDeclaring(found, f, i) && found[i].value.1 == r.value by {
          if r.Some? {
            var i :| LastDeclaring(init, f, i) && init[i].value.1 == r.value;
            assert LastDeclaring(found, f, i);
          }
        }
        r
  }

  /** The metadata dictionary: `name` and `description` when declared. */
  datatype Metadata = Metadata(name: Option<string>, description: Option<string>)

  /** `get_script_file_metadata`: `content` is the script's text, or
      `None` when the path is not a file (which gives `{}`). */
  function GetMetadata(content: Option<string>): (r: Metadata)
    ensures content.None? ==> r == Metadata(None, None)
    // Each field holds the value of the last line declaring it, and is
    // absent exactly when no line declares it.
    ensures content.Some? ==>
              var lines := Split(content.value, '\n');
              (forall i :: LastDeclaring(LineFields(lines), NameField, i) ==>
                 r.name == Some(LineField(lines[i]).value.1))
              && (r.name.None? <==> forall i :: 0 <= i < |lines| ==> !Declares(LineField(lines[i]), NameField))
    ensures content.Some? ==>
              var lines := Split(content.value, '\n');
              (forall i :: LastDeclaring(LineFields(lines), DescriptionField, i) ==>
                 r.description == Some(LineField(lines[i]).value.1))
              && (r.description.None? <==> forall i :: 0 <= i < |lines| ==> !Declares(LineField(lines[i]), DescriptionField))
  {
    match content
    case None => Metadata(None, None)
    case Some(code) =>
      var found := LineFields(Split(code, '\n'));
      LastFieldIsLast(found, NameField);
      LastFieldIsLast(found, DescriptionField);
      Metadata(LastField(found, NameField), LastField(found, DescriptionField))
  }

  /** Only one entry is the last to declare a field, and `LastField` gives
      its value. */
  lemma LastFieldIsLast(found: seq<Found>, f: Field)
    ensures forall i :: LastDeclaring(found, f, i) ==> LastField(found, f) == Some(found[i].value.1)
    ensures LastField(found, f).None? <==> forall i :: 0 <= i < |found| ==> !Declares(found[i], f)
  {
    forall i | LastDeclaring(found, f, i)
      ensures LastField(found, f) == Some(found[i].value.1)
    {
      LastFieldAt(found, f, i);
    }
  }

  lemma {:induction false} LastFieldAt(found: seq<Found>, f: Field, i: int)
    requires LastDeclaring(found, f, i)
    ensures LastField(found, f) == Some(found[i].value.1)
    decreases |found|
  {
    var init := found[..|found| - 1];
    if i < |found| - 1 {
      assert !Declares(found[|found| - 1], f);
      assert LastDeclaring(init, f, i) by {
        assert forall j :: i < j < |init| ==> init[j] == found[j];
      }
      LastFieldAt(init, f, i);
    }
  }

  /** A line that is nothing but a tag and its value declares that value,
      whatever whitespace surrounds it. */
  lemma TaggedLine(f: Field, pre: string, value: string)
    requires forall j :: 0 <= j <= |pre| ==> TagAt(pre + Tag(f) + value, j).None? || j == |pre|
    ensures LineField(pre + Tag(f) + value) == Some((f, Strip(value, Whitespace)))
  {
    var line := pre + Tag(f) + value;
    assert line[|pre|..] == Tag(f) + value;
    assert line[|pre|..][..|Tag(f)|] == Tag(f);
    var t := TagAt(line, |pre|);
    assert t.Some?;
    assert line[|pre|] == Tag(f)[0];
    assert line[|pre|..][..|Tag(t.value)|] == Tag(t.value);
    assert line[|pre|] == Tag(t.value)[0];
    FirstTagAtFirstMatch(line, 0, |pre|);
    assert line[|pre| + |Tag(f)|..] == value;
  }

  /** `FirstTag` finds the first position that holds a tag. */
  lemma {:induction false} FirstTagAtFirstMatch(line: string, p: nat, q: nat)
    requires p <= q <= |line| && TagAt(line, q).Some?
    requires forall j :: p <= j < q ==> TagAt(line, j).None?
    ensures FirstTag(line, p) == Some((TagAt(line, q).value, q))
    decreases q - p
  {
    if p < q {
      FirstTagAtFirstMatch(line, p + 1, q);
    }
  }

  // ---------------------------------------------------------------------
  // the converter

  /** The converter's settings. `pluginHelp` is `None` or a string, both
      empty values counting as unset. */
  datatype Converter = Converter(
    pluginName: string,
    pluginHelp: Option<string>,
    pluginId: string,
    scriptFile: string,
    iconFile: string,
    directory: string,
    indent: string,
    writeReadme: bool,
    overwrite: bool)

  /** The constructor as written: the `plugin_help` argument is ignored
      and the help text always starts out as `None`. */
  function NewConverterAsWritten(pluginName: string, pluginHelp: string, pluginId: string,
                                 scriptFile: string, iconFile: string, directory: string,
                                 indent: string, writeReadme: bool, overwrite: bool): (r: Converter)
    ensures r.pluginHelp == None
    ensures r.pluginName == pluginName && r.pluginId == pluginId && r.scriptFile == scriptFile
            && r.iconFile == iconFile && r.directory == directory && r.indent == indent
            && r.writeReadme == writeReadme && r.overwrite == overwrite
  {
    Converter(pluginName, None, pluginId, scriptFile, iconFile, directory, indent, writeReadme, overwrite)
  }

  /** The constructor as evidently intended: the help text given by the
      dialog is kept. */
  function NewConverter(pluginName: string, pluginHelp: string, pluginId: string,
                        scriptFile: string, iconFile: string, directory: string,
                        indent: string, writeReadme: bool, overwrite: bool): (r: Converter)
    ensures r.pluginHelp == Some(pluginHelp)
    ensures r == NewConverterAsWritten(pluginName, pluginHelp, pluginId, scriptFile, iconFile,
                                       directory, indent, writeReadme, overwrite).(pluginHelp := Some(pluginHelp))
  {
    Converter(pluginName, Some(pluginHelp), pluginId, scriptFile, iconFile, directory, indent, writeReadme, overwrite)
  }

  /** A string is Python-truthy. */
  predicate Set(s: Option<string>) {
    s.Some? && s.value != ""
  }

  /** The icon suffixes `autofill` looks for next to the script, in order. */
  const IconSuffixes: seq<string> := [".tif", ".tiff", ".png", ".jpg"]

  /** The first `stem + suffix` that is a file. */
  function FirstIcon(stem: string, suffixes: seq<string>, isFile: string -> bool): (r: Option<string>)
    ensures r.Some? ==> exists i :: 0 <= i < |suffixes| && r.value == stem + suffixes[i] && isFile(r.value)
                                    && forall j :: 0 <= j < i ==> !isFile(stem + suffixes[j])
    ensures r.None? ==> forall i :: 0 <= i < |suffixes| ==> !isFile(stem + suffixes[i])
  {
    if |suffixes| == 0 then None
    else if isFile(stem + suffixes[0]) then Some(stem + suffixes[0])
    else
      var r := FirstIcon(stem, suffixes[1..], isFile);
      assert forall i :: 0 < i < |suffixes| ==> suffixes[i] == suffixes[1..][i - 1];
      r
  }

  /** `autofill()`'s choice of plugin name: the given one; else, with a
      script, its declared name or its file name without extension; else
      the default. */
  function FilledName(c: Converter, readFile: string -> Option<string>): (r: string)
    ensures c.pluginName != "" ==> r == c.pluginName
    ensures c.pluginName == "" && c.scriptFile == "" ==> r == DefaultPluginName
    ensures c.pluginName == "" && c.scriptFile != "" && Set(GetMetadata(readFile(c.scriptFile)).name)
            ==> r == GetMetadata(readFile(c.scriptFile)).name.value
    ensures c.pluginName == "" && c.scriptFile != "" && !Set(GetMetadata(readFile(c.scriptFile)).name)
            ==> r == SplitExt(Basename(c.scriptFile)).0
  {
    if c.pluginName != "" then c.pluginName
    else if c.scriptFile != "" then
      var md := GetMetadata(readFile(c.scriptFile));
      if Set(md.name) then md.name.value else SplitExt(Basename(c.scriptFile)).0
    else DefaultPluginName
  }

  /** `autofill()`: an empty name, directory, help text or icon is filled
      in; a set one is kept. `readFile` gives a path's text (`None` when it
      is not a file), `isFile` answers `os.path.isfile`, `writeDir` is
      Cinema 4D's user startup folder and `defaultIcon` the bundled icon. */
  function Autofill(c: Converter, readFile: string -> Option<string>, isFile: string -> bool,
                    writeDir: string, defaultIcon: string): (r: Converter)
    ensures r.pluginName == FilledName(c, readFile)
    ensures c.directory != "" ==> r.directory == c.directory
    ensures c.directory == "" ==> r.directory == DefaultDirectory(writeDir, r.pluginName)
    ensures Set(c.pluginHelp) ==> r.pluginHelp == c.pluginHelp
    ensures !Set(c.pluginHelp) ==> r.pluginHelp == GetMetadata(readFile(c.scriptFile)).description
    ensures c.iconFile != "" ==> r.iconFile == c.iconFile
    ensures r.pluginId == c.pluginId && r.scriptFile == c.scriptFile && r.indent == c.indent
            && r.writeReadme == c.writeReadme && r.overwrite == c.overwrite
  {
    var name := FilledName(c, readFile);
    var icon :=
      if c.iconFile != "" then c.iconFile
      else if c.scriptFile == "" then defaultIcon
      else match FirstIcon(SplitExt(c.scriptFile).0, IconSuffixes, isFile)
           case Some(p) => p
           case None => defaultIcon;
    c.(pluginName := name,
       directory := if c.directory != "" then c.directory else DefaultDirectory(writeDir, name),
       pluginHelp := if Set(c.pluginHelp) then c.pluginHelp else GetMetadata(readFile(c.scriptFile)).description,
       iconFile := icon)
  }

  /** The icon `autofill()` picks for a converter without one: the first
      image next to the script that exists, trying the suffixes in order,
      else the default icon. */
  lemma AutofillIcon(c: Converter, readFile: string -> Option<string>, isFile: string -> bool,
                     writeDir: string, defaultIcon: string)
    requires c.iconFile == ""
    ensures var r := Autofill(c, readFile, isFile, writeDir, defaultIcon);
            var stem := SplitExt(c.scriptFile).0;
            (c.scriptFile == "" ==> r.iconFile == defaultIcon)
            && (c.scriptFile != "" && (forall i :: 0 <= i < |IconSuffixes| ==> !isFile(stem + IconSuffixes[i]))
                ==> r.iconFile == defaultIcon)
            && (c.scriptFile != "" && (exists i :: 0 <= i < |IconSuffixes| && isFile(stem + IconSuffixes[i]))
                ==> exists i :: 0 <= i < |IconSuffixes| && r.iconFile == stem + IconSuffixes[i] && isFile(r.iconFile)
                                && forall j :: 0 <= j < i ==> !isFile(stem + IconSuffixes[j]))
  {
    var stem := SplitExt(c.scriptFile).0;
    var first := FirstIcon(stem, IconSuffixes, isFile);
    if c.scriptFile != "" && first.None? {
      assert forall i :: 0 <= i < |IconSuffixes| ==> !isFile(stem + IconSuffixes[i]);
    }
  }

  /** With a readable script and no name given, the plugin is named by the
      script's last `Name-US:` declaration when that is not empty, and
      otherwise after the script's file name without extension. */
  lemma AutofillNamesAfterScript(c: Converter, readFile: string -> Option<string>, isFile: string -> bool,
                                 writeDir: string, defaultIcon: string)
    requires c.pluginName == "" && c.scriptFile != "" && readFile(c.scriptFile).Some?
    ensures var r := Autofill(c, readFile, isFile, writeDir, defaultIcon);
            var found := LineFields(Split(readFile(c.scriptFile).value, '\n'));
            (forall i :: LastDeclaring(found, NameField, i) ==>
               r.pluginName == if found[i].value.1 != "" then found[i].value.1
                               else SplitExt(Basename(c.scriptFile)).0)
            && ((forall i :: 0 <= i < |found| ==> !Declares(found[i], NameField))
                ==> r.pluginName == SplitExt(Basename(c.scriptFile)).0)
  {
    var found := LineFields(Split(readFile(c.scriptFile).value, '\n'));
    var name := LastField(found, NameField);
    forall i | LastDeclaring(found, NameField, i)
      ensures name == Some(found[i].value.1)
    {
      var k :| LastDeclaring(found, NameField, k) && found[k].value.1 == name.value;
      assert k == i;
    }
  }

  /** Running `autofill()` twice changes nothing more. */
  lemma AutofillIdempotent(c: Converter, readFile: string -> Option<string>, isFile: string -> bool,
                           writeDir: string, defaultIcon: string)
    ensures var a := Autofill(c, readFile, isFile, writeDir, defaultIcon);
            Autofill(a, readFile, isFile, writeDir, defaultIcon) == a
  {
    var a := Autofill(c, readFile, isFile, writeDir, defaultIcon);
    DefaultDirectoryShape(writeDir, a.pluginName);
    assert FilledName(a, readFile) == a.pluginName;
  }

  /** The finding: the help text entered in the dialog never reaches the
      plugin. With the constructor as written, a script that declares no
      description leaves the help unset however the user filled it in;
      with the intended constructor a given help text survives `autofill`. */
  lemma PluginHelpDiscarded(pluginName: string, pluginHelp: string, pluginId: string,
                            scriptFile: string, iconFile: string, directory: string,
                            indent: string, writeReadme: bool, overwrite: bool,
                            readFile: string -> Option<string>, isFile: string -> bool,
                            writeDir: string, defaultIcon: string)
    requires pluginHelp != ""
    requires GetMetadata(readFile(scriptFile)).description.None?
    ensures Autofill(NewConverterAsWritten(pluginName, pluginHelp, pluginId, scriptFile, iconFile,
                                           directory, indent, writeReadme, overwrite),
                     readFile, isFile, writeDir, defaultIcon).pluginHelp == None
    ensures Autofill(NewConverter(pluginName, pluginHelp, pluginId, scriptFile, iconFile,
                                  directory, indent, writeReadme, overwrite),
                     readFile, isFile, writeDir, defaultIcon).pluginHelp == Some(pluginHelp)
  {
  }

  /** A concrete case of the finding: a dialog help text "Shows a cube"
      for a script with no metadata file is lost. */
  lemma PluginHelpDiscardedExample(readFile: string -> Option<string>, isFile: string -> bool)
    requires readFile("cube.py").None?
    ensures Autofill(NewConverterAsWritten("", "Shows a cube", "", "cube.py", "", "", "  ", true, true),
                     readFile, isFile, "/c4d", "icon.tiff").pluginHelp == None
  {
    PluginHelpDiscarded("", "Shows a cube", "", "cube.py", "", "", "  ", true, true,
                        readFile, isFile, "/c4d", "icon.tiff");
  }

  // ---------------------------------------------------------------------
  // files

  /** `self.directory or self.plugin_name` */
  function ParentDir(c: Converter): string {
    if c.directory != "" then c.directory else c.pluginName
  }

  /** `os.path.join(parent, DashedName(name) + '.pyp')`: the plugin file,
      directly in the plugin directory. */
  function PluginFile(parent: string, name: string): (r: string)
    ensures Basename(r) == DashedName(name) + ".pyp" && StartsWith(r, parent)
  {
    var pyp := DashedName(name) + ".pyp";
    assert Basename(PathJoin(parent, pyp)) == pyp && StartsWith(PathJoin(parent, pyp), parent) by {
      DashedNameShape(name);
      assert pyp[..1] != "/" by { assert pyp[..1][0] == pyp[0]; }
      JoinName(parent, pyp);
      JoinExtends(parent, pyp);
    }
    PathJoin(parent, pyp)
  }

  /** `os.path.join(parent, 'res/icons/' + DashedName(name) + ext)`: the
      icon's copy, named after the plugin with the icon's own extension. */
  function IconFile(parent: string, name: string, ext: string): (r: string)
    requires '/' !in ext
    ensures Basename(r) == DashedName(name) + ext && StartsWith(r, parent) && r != ""
  {
    var fn := DashedName(name) + ext;
    var rel := "res/icons/" + fn;
    assert Basename(PathJoin(parent, rel)) == fn && StartsWith(PathJoin(parent, rel), parent)
           && PathJoin(parent, rel) != "" by {
      DashedNameShape(name);
      assert '/' !in fn by {
        assert forall i :: 0 <= i < |fn| ==> fn[i] == if i < |DashedName(name)| then DashedName(name)[i] else ext[i - |DashedName(name)|];
      }
      assert rel[..1] != "/" by { assert rel[..1][0] == 'r'; }
      JoinExtends(parent, rel);
      var j := PathJoin(parent, rel);
      assert j == j[..|j| - |fn| - 1] + "/" + fn;
      BasenameAfterSlash(j[..|j| - |fn| - 1], fn);
    }
    PathJoin(parent, rel)
  }

  /** `os.path.join(parent, 'README.md')` */
  function ReadmeFile(parent: string): (r: string)
    ensures Basename(r) == "README.md" && StartsWith(r, parent)
  {
    var readme := "README.md";
    assert Basename(PathJoin(parent, readme)) == readme && StartsWith(PathJoin(parent, readme), parent) by {
      assert readme[..1] != "/" by { assert readme[..1][0] == 'R'; }
      JoinName(parent, readme);
      JoinExtends(parent, readme);
    }
    PathJoin(parent, readme)
  }

  /** The keys of the dictionary `files()` returns. */
  datatype FileKey = DirectoryKey | PluginKey | IconKey | ReadmeKey

  /** `files()`: the plugin directory, the `.pyp` file named after the
      dashed plugin name, the icon under `res/icons` when an icon is set
      (named after the same dashed name, with the icon's extension), and
      the README when one is wanted; every file lies in the directory. */
  function Files(c: Converter): (r: map<FileKey, string>)
    ensures DirectoryKey in r && PluginKey in r
    ensures IconKey in r <==> c.iconFile != ""
    ensures ReadmeKey in r <==> c.writeReadme
    ensures r[DirectoryKey] == ParentDir(c)
  {
    var parent := ParentDir(c);
    var m := map[DirectoryKey := parent, PluginKey := PluginFile(parent, c.pluginName)];
    var m1 := if c.iconFile != "" then m[IconKey := IconFile(parent, c.pluginName, SplitExt(c.iconFile).1)] else m;
    if c.writeReadme then m1[ReadmeKey := ReadmeFile(parent)] else m1
  }

  /** Every file `files()` names lies in the plugin directory and carries
      the name the template and Cinema 4D expect. */
  lemma FilesLayout(c: Converter)
    ensures Basename(Files(c)[PluginKey]) == DashedName(c.pluginName) + ".pyp"
    ensures StartsWith(Files(c)[PluginKey], ParentDir(c))
    ensures IconKey in Files(c) ==>
              Basename(Files(c)[IconKey]) == DashedName(c.pluginName) + SplitExt(c.iconFile).1
              && StartsWith(Files(c)[IconKey], ParentDir(c)) && Files(c)[IconKey] != ""
    ensures ReadmeKey in Files(c) ==>
              Basename(Files(c)[ReadmeKey]) == "README.md" && StartsWith(Files(c)[ReadmeKey], ParentDir(c))
  {
    var r := Files(c);
    var parent := ParentDir(c);
    assert r[PluginKey] == PluginFile(parent, c.pluginName);
    if c.iconFile != "" {
      assert r[IconKey] == IconFile(parent, c.pluginName, SplitExt(c.iconFile).1);
    }
    if c.writeReadme {
      assert r[ReadmeKey] == ReadmeFile(parent);
    }
  }

  /** The older copy's `files()` in plugin_main.py: the directory and the
      `.pyp` file; with an icon set it fails, because that branch uses the
      helpers `j` and `f` that this method never defines. */
  function LegacyFiles(c: Converter): (r: Result<map<FileKey, string>>)
    ensures r.Err? <==> c.iconFile != ""
    ensures r.Err? ==> r.error == NameError
    ensures r.Ok? ==> r.value.Keys == {DirectoryKey, PluginKey}
    ensures r.Ok? ==> forall k :: k in r.value ==> r.value[k] == Files(c)[k]
  {
    if c.iconFile != "" then Err(NameError)
    else
      var parent := ParentDir(c);
      Ok(map[DirectoryKey := parent, PluginKey := PathJoin(parent, DashedName(c.pluginName) + ".pyp")])
  }

  /** The older copy's `autofill()`: a missing name comes from the script's
      file name (metadata is not read) or the default, a missing directory
      from the name; help and icon are not touched. */
  function LegacyAutofill(c: Converter, writeDir: string): (r: Converter)
    ensures c.pluginName != "" ==> r.pluginName == c.pluginName
    ensures c.pluginName == "" ==>
              r.pluginName == (if c.scriptFile != "" then SplitExt(Basename(c.scriptFile)).0 else DefaultPluginName)
    ensures c.directory != "" ==> r.directory == c.directory
    ensures c.directory == "" ==> r.directory == DefaultDirectory(writeDir, r.pluginName)
    ensures r.pluginHelp == c.pluginHelp && r.iconFile == c.iconFile && r.scriptFile == c.scriptFile
            && r.pluginId == c.pluginId && r.overwrite == c.overwrite
  {
    var name := if c.pluginName != "" then c.pluginName
                else if c.scriptFile != "" then SplitExt(Basename(c.scriptFile)).0
                else DefaultPluginName;
    c.(pluginName := name,
       directory := if c.directory != "" then c.directory else DefaultDirectory(writeDir, name))
  }

  /** Without metadata, the current `autofill()` names the plugin just as
      the older copy does. */
  lemma AutofillAgreesWithLegacy(c: Converter, readFile: string -> Option<string>, isFile: string -> bool,
                                 writeDir: string, defaultIcon: string)
    requires c.scriptFile != "" ==> !Set(GetMetadata(readFile(c.scriptFile)).name)
    ensures Autofill(c, readFile, isFile, writeDir, defaultIcon).pluginName == LegacyAutofill(c, writeDir).pluginName
    ensures Autofill(c, readFile, isFile, writeDir, defaultIcon).directory == LegacyAutofill(c, writeDir).directory
  {
  }

  // ---------------------------------------------------------------------
  // create

  /** The first file, in iteration order `order`, that already exists. */
  function FirstExisting(files: map<FileKey, string>, order: seq<FileKey>, isFile: string -> bool): (r: Option<string>)
    ensures r.Some? ==> exists i :: 0 <= i < |order| && order[i] in files && r.value == files[order[i]] && isFile(r.value)
    ensures r.None? ==> forall i :: 0 <= i < |order| && order[i] in files ==> !isFile(files[order[i]])
  {
    if |order| == 0 then None
    else if order[0] in files && isFile(files[order[0]]) then Some(files[order[0]])
    else
      var r := FirstExisting(files, order[1..], isFile);
      assert forall i :: 0 < i < |order| ==> order[i] == order[1..][i - 1];
      r
  }

  /** The checks at the start of `create()`: without `overwrite` no file
      of the plugin may exist yet (the first one found, in the dictionary's
      iteration order `order`, is reported); then the plugin id must be all
      digits. `isFile` stands for `os.path.isfile`. */
  function CreateCheck(c: Converter, isFile: string -> bool, order: seq<FileKey>): (r: Result<map<FileKey, string>>)
    requires forall k :: k in Files(c) ==> k in order
    ensures r.Ok? <==> (c.overwrite || forall k :: k in Files(c) ==> !isFile(Files(c)[k])) && IsDigits(c.pluginId)
    ensures r.Ok? ==> r.value == Files(c)
    ensures r.Err? ==> r.error.IOError? || r.error == ValueError("Converter.plugin_id is invalid")
    ensures r.Err? && r.error.IOError? ==>
              !c.overwrite && exists k :: k in Files(c) && isFile(Files(c)[k])
                                         && r.error.msg == "File " + [DoubleQuote] + Files(c)[k] + [DoubleQuote] + " already exists"
  {
    var files := Files(c);
    var clash := if c.overwrite then None else FirstExisting(files, order, isFile);
    if clash.Some? then Err(IOError("File " + [DoubleQuote] + clash.value + [DoubleQuote] + " already exists"))
    else if !IsDigits(c.pluginId) then Err(ValueError("Converter.plugin_id is invalid"))
    else Ok(files)
  }

  // ---------------------------------------------------------------------
  // the template context and the README

  /** The values `create()` hands to the command-plugin template. */
  datatype Context = Context(
    pluginName: string,
    pluginId: string,
    pluginClass: string,
    pluginIcon: Option<string>,
    futureImport: string,
    globalCode: string,
    memberCode: string,
    pluginHelp: Option<string>,
    docstrings: string)

  /** The template context: the id without surrounding whitespace, the
      class named by the name's word characters, the icon as a path
      relative to the plugin, and the member code indented once more. */
  function ContextOf(c: Converter, files: map<FileKey, string>, parts: Scripts.CommandParts): (r: Context)
    ensures r.pluginName == c.pluginName && r.pluginHelp == c.pluginHelp
    ensures r.pluginClass == WordChars(c.pluginName)
    ensures r.pluginIcon.Some? <==> IconKey in files && files[IconKey] != ""
    ensures r.pluginIcon.Some? ==> r.pluginIcon.value == "res/icons/" + Basename(files[IconKey])
    ensures r.memberCode == Scripts.IndentLines(parts.memberCode, "  ")
    ensures r.futureImport == parts.futureLine && r.globalCode == parts.code && r.docstrings == parts.docstring
  {
    SubNonWordEmptyIsWordChars(c.pluginName);
    Context(
      c.pluginName,
      Strip(c.pluginId, Whitespace),
      SubNonWord(c.pluginName, ""),
      if IconKey in files && files[IconKey] != "" then Some("res/icons/" + Basename(files[IconKey])) else None,
      parts.futureLine,
      parts.code,
      Scripts.IndentLines(parts.memberCode, "  "),
      c.pluginHelp,
      parts.docstring)
  }

  /** The icon the template refers to is the icon file `files()` places:
      `res/icons/` plus the dashed plugin name and the icon's extension. */
  lemma ContextIconMatchesFiles(c: Converter, parts: Scripts.CommandParts)
    requires c.iconFile != ""
    ensures ContextOf(c, Files(c), parts).pluginIcon
            == Some("res/icons/" + (DashedName(c.pluginName) + SplitExt(c.iconFile).1))
  {
    FilesLayout(c);
  }

  /** The README's body: the docstring without surrounding whitespace,
      then, if it starts with a quote, without that quote character at
      either end. */
  function ReadmeBody(docstring: string): (r: string)
    ensures var d := Strip(docstring, Whitespace);
            StartsWith(d, [DoubleQuote]) ==> r == Strip(d, {DoubleQuote})
    ensures var d := Strip(docstring, Whitespace);
            !StartsWith(d, [DoubleQuote]) && StartsWith(d, [SingleQuote]) ==> r == Strip(d, {SingleQuote})
    ensures var d := Strip(docstring, Whitespace);
            !StartsWith(d, [DoubleQuote]) && !StartsWith(d, [SingleQuote]) ==> r == d
  {
    var d := Strip(docstring, Whitespace);
    if StartsWith(d, [DoubleQuote]) then Strip(d, {DoubleQuote})
    else if StartsWith(d, [SingleQuote]) then Strip(d, {SingleQuote})
    else d
  }

  /** The README: a title line with the plugin name, an empty line, and
      the body. */
  function Readme(pluginName: string, docstring: string): (r: string)
    ensures StartsWith(r, "# " + pluginName + "\n\n") && EndsWith(r, "\n")
    ensures |r| == |pluginName| + 5 + |ReadmeBody(docstring)|
    ensures r[|pluginName| + 4..|r| - 1] == ReadmeBody(docstring)
  {
    var head := "# " + pluginName + "\n\n";
    var body := ReadmeBody(docstring);
    assert (head + body + "\n")[..|head|] == head;
    head + body + "\n"
  }

  /** A docstring quoted by `k` copies of a quote character, around a body
      that neither starts nor ends with that character, comes out as the
      body. */
  lemma ReadmeUnquotes(q: char, k: nat, body: string)
    requires q == DoubleQuote || q == SingleQuote
    requires k >= 1 && |body| > 0 && body[0] != q && body[|body| - 1] != q
    ensures ReadmeBody(Repeat([q], k) + body + Repeat([q], k)) == body
  {
    var quotes := Repeat([q], k);
    var s := quotes + body + quotes;
    assert forall i :: 0 <= i < k ==> quotes[i] == q by {
      RepeatChar(q, k);
    }
    WhitespaceSet(q);
    assert s[0] == q && s[|s| - 1] == q;
    StripUnchanged(s, Whitespace);
    assert Strip(s, Whitespace) == s;
    assert s[..1] == [q];
    StripQuotes(quotes, body, q);
  }

  lemma {:induction false} RepeatChar(q: char, k: nat)
    ensures forall i :: 0 <= i < k ==> Repeat([q], k)[i] == q
    decreases k
  {
    if k > 0 {
      RepeatChar(q, k - 1);
      assert Repeat([q], k) == [q] + Repeat([q], k - 1);
    }
  }

  /** Stripping characters that are not at either end changes nothing. */
  lemma StripUnchanged(s: string, cs: set<char>)
    requires |s| > 0 && s[0] !in cs && s[|s| - 1] !in cs
    ensures Strip(s, cs) == s
  {
  }

  lemma StripQuotes(quotes: string, body: string, q: char)
    requires forall i :: 0 <= i < |quotes| ==> quotes[i] == q
    requires |body| > 0 && body[0] != q && body[|body| - 1] != q
    ensures Strip(quotes + body + quotes, {q}) == body
  {
    var s := quotes + body + quotes;
    var l := LStrip(s, {q});
    assert |l| == |body| + |quotes| by {
      LStripPrefix(quotes, body + quotes, q);
      assert s == quotes + (body + quotes);
    }
    assert l == body + quotes;
    RStripSuffix(body, quotes, q);
  }

  lemma {:induction false} LStripPrefix(quotes: string, rest: string, q: char)
    requires forall i :: 0 <= i < |quotes| ==> quotes[i] == q
    requires |rest| > 0 && rest[0] != q
    ensures LStrip(quotes + rest, {q}) == rest
    decreases |quotes|
  {
    if |quotes| > 0 {
      assert (quotes + rest)[1..] == quotes[1..] + rest;
      LStripPrefix(quotes[1..], rest, q);
    } else {
      assert quotes + rest == rest;
    }
  }

  lemma {:induction false} RStripSuffix(rest: string, quotes: string, q: char)
    requires forall i :: 0 <= i < |quotes| ==> quotes[i] == q
    requires |rest| > 0 && rest[|rest| - 1] != q
    ensures RStrip(rest + quotes, {q}) == rest
    decreases |quotes|
  {
    if |quotes| > 0 {
      assert (rest + quotes)[..|rest + quotes| - 1] == rest + quotes[..|quotes| - 1];
      RStripSuffix(rest, quotes[..|quotes| - 1], q);
    } else {
      assert rest + quotes == rest;
    }
  }
}

=== FILE: scripts.dfy ===
/** The script-level entry points that configure the fixers and assemble
    their outputs: `refactor_expression_script` and `refactor_command_script`
    of codeconv.py, the `split_*` helpers of refactor.py, and the
    `refactor_command_script` of ui/ScriptConverter.py. Running the fixers
    over a parsed module is not modelled here: each entry point takes the
    refactored code and what the fixers collected. */
module Scripts {
  import opened Errors
  import opened Text
  import FuncDef
  import FutureImports

  /** One element of a fixer list. */
  datatype FixerConfig =
    | StripFutureImports
    | FunctionDef(fixer: FuncDef.Fixer)
    | Indentation(unit: string)

  const MessageFixer := FuncDef.Fixer("message", "Message", ["self", "op"], [], true, "return True")
  const ObjectMainFixer := FuncDef.Fixer("main", "GetVirtualObjects", ["self", "op", "hh"], [], true, "")
  const TagMainFixer :=
    FuncDef.Fixer("main", "Execute", ["self", "op", "doc", "host", "bt", "priority", "flags"], [], true, "")
  const CommandMainFixer := FuncDef.Fixer("main", "Execute", ["self", "doc"], [], true, "return True")

  /** The `FixFunctionDef` fixers of a list, in list order: their results
      become the methods, in this order. */
  function FunctionDefs(fs: seq<FixerConfig>): (r: seq<FuncDef.Fixer>)
    ensures |r| <= |fs|
  {
    if |fs| == 0 then []
    else (if fs[0].FunctionDef? then [fs[0].fixer] else []) + FunctionDefs(fs[1..])
  }

  predicate HasIndentation(fs: seq<FixerConfig>) {
    exists i :: 0 <= i < |fs| && fs[i].Indentation?
  }

  /** The fixer list of `refactor_expression_script`: an unknown kind is a
      `ValueError` carrying the kind; otherwise the future-import fixer comes
      first, then `message` and the kind's `main` as function fixers, then a
      re-indenting fixer exactly when an indent unit is given. */
  function ExpressionFixers(kind: string, indent: string): (r: Result<seq<FixerConfig>>)
    ensures r.Ok? <==> kind == "ObjectData" || kind == "TagData"
    ensures r.Err? ==> r.error == ValueError(kind)
    ensures r.Ok? ==> |r.value| >= 1 && r.value[0] == StripFutureImports
    ensures r.Ok? ==> FunctionDefs(r.value)
                      == [MessageFixer, if kind == "ObjectData" then ObjectMainFixer else TagMainFixer]
    ensures r.Ok? ==> (HasIndentation(r.value) <==> indent != "")
  {
    var main :- if kind == "ObjectData" then Ok(ObjectMainFixer)
                else if kind == "TagData" then Ok(TagMainFixer)
                else Err(ValueError(kind));
    var fs := [StripFutureImports, FunctionDef(MessageFixer), FunctionDef(main)];
    var r := if indent != "" then fs + [Indentation(indent)] else fs;
    assert FunctionDefs(r) == [MessageFixer, main] by {
      var tail := r[3..];
      assert FunctionDefs(tail) == [] by {
        if indent != "" {
          assert tail == [Indentation(indent)];
          assert tail[1..] == [];
        } else {
          assert tail == [];
        }
      }
      assert r[2..][1..] == tail;
      assert FunctionDefs(r[2..]) == [main] + FunctionDefs(tail);
      assert r[1..][1..] == r[2..];
      assert FunctionDefs(r[1..]) == [MessageFixer] + FunctionDefs(r[2..]);
      assert FunctionDefs(r) == [] + FunctionDefs(r[1..]);
    }
    assert HasIndentation(r) <==> indent != "" by {
      if indent != "" {
        assert r[3].Indentation?;
      }
    }
    Ok(r)
  }

  /** The fixer list of codeconv.py's `refactor_command_script`. */
  function CommandFixers(indent: string): (r: seq<FixerConfig>)
    ensures |r| >= 2 && r[0] == StripFutureImports && r[1] == FunctionDef(CommandMainFixer)
    ensures HasIndentation(r) <==> indent != ""
  {
    var fs := [StripFutureImports, FunctionDef(CommandMainFixer)];
    var r := if indent != "" then fs + [Indentation(indent)] else fs;
    assert HasIndentation(r) <==> indent != "" by {
      if indent != "" {
        assert r[2].Indentation?;
      }
    }
    r
  }

  // ---------------------------------------------------------------------
  // line layout

  /** `[u + line for line in ls]` */
  function Prefixed(ls: seq<string>, u: string): (r: seq<string>)
    ensures |r| == |ls|
    ensures forall i :: 0 <= i < |ls| ==> r[i] == u + ls[i]
  {
    if |ls| == 0 then [] else [u + ls[0]] + Prefixed(ls[1..], u)
  }

  /** Each line without its first `n` characters. */
  function DropEach(ls: seq<string>, n: nat): (r: seq<string>)
    ensures |r| == |ls|
    ensures forall i :: 0 <= i < |ls| && n <= |ls[i]| ==> r[i] == ls[i][n..]
  {
    if |ls| == 0 then []
    else [ls[0][if n <= |ls[0]| then n else |ls[0]|..]] + DropEach(ls[1..], n)
  }

  /** Removing the prefix again gives the lines back. */
  lemma DropEachPrefixed(ls: seq<string>, u: string)
    ensures DropEach(Prefixed(ls, u), |u|) == ls
  {
    var d := DropEach(Prefixed(ls, u), |u|);
    forall i | 0 <= i < |ls| ensures d[i] == ls[i] {
      assert Prefixed(ls, u)[i] == u + ls[i];
    }
  }

  /** `'\n'.join(u + l for l in s.split('\n'))`: every line of `s`,
      indented by `u`. */
  function IndentLines(s: string, u: string): string {
    Join(Prefixed(Split(s, '\n'), u), "\n")
  }

  /** A line break in `u` + a line without one. */
  lemma PrefixedLackNewline(ls: seq<string>, u: string)
    requires '\n' !in u
    requires forall i :: 0 <= i < |ls| ==> '\n' !in ls[i]
    ensures forall i :: 0 <= i < |ls| ==> '\n' !in Prefixed(ls, u)[i]
  {
    forall i | 0 <= i < |ls| ensures '\n' !in Prefixed(ls, u)[i] {
      assert Prefixed(ls, u)[i] == u + ls[i];
    }
  }

  /** Indenting by a unit without line breaks keeps the lines and puts the
      unit in front of each one; removing it again restores the text. */
  lemma IndentLinesLayout(s: string, u: string)
    requires '\n' !in u
    ensures Split(IndentLines(s, u), '\n') == Prefixed(Split(s, '\n'), u)
    ensures forall i :: 0 <= i < |Split(IndentLines(s, u), '\n')| ==>
              StartsWith(Split(IndentLines(s, u), '\n')[i], u)
    ensures Join(DropEach(Split(IndentLines(s, u), '\n'), |u|), "\n") == s
  {
    var ls := Split(s, '\n');
    SplitPartsLackSep(s, '\n');
    PrefixedLackNewline(ls, u);
    JoinThenSplit(Prefixed(ls, u), '\n');
    forall i | 0 <= i < |ls| ensures StartsWith(Prefixed(ls, u)[i], u) {
      assert (u + ls[i])[..|u|] == u;
    }
    DropEachPrefixed(ls, u);
    SplitThenJoin(s, '\n');
  }

  const ExecuteHeader := "def Execute(self, doc):"
  const ReturnTrue := "  return True"

  /** The member code made of a whole script: `def Execute(self, doc):`,
      every line of the script indented by two spaces, `  return True`. */
  function ExecuteWrapper(code: string): string {
    Join([ExecuteHeader] + Prefixed(Split(code, '\n'), "  ") + [ReturnTrue], "\n")
  }

  /** The wrapper is the header line, the script indented line by line, and
      the closing statement; its lines are exactly those, the first line is
      the header, the last is the `return`, and dropping the two spaces from
      the lines in between gives the script back. */
  lemma ExecuteWrapperLayout(code: string)
    ensures ExecuteWrapper(code) == ExecuteHeader + "\n" + IndentLines(code, "  ") + "\n" + ReturnTrue
    ensures Split(ExecuteWrapper(code), '\n')
            == [ExecuteHeader] + Prefixed(Split(code, '\n'), "  ") + [ReturnTrue]
    ensures var ls := Split(ExecuteWrapper(code), '\n');
            |ls| >= 3 && ls[0] == ExecuteHeader && ls[|ls| - 1] == ReturnTrue
            && Join(DropEach(ls[1..|ls| - 1], 2), "\n") == code
  {
    var mid := Prefixed(Split(code, '\n'), "  ");
    var ls := [ExecuteHeader] + mid + [ReturnTrue];
    assert ([ExecuteHeader] + mid)[1..] == mid;
    JoinCons([ExecuteHeader] + mid, "\n");
    JoinSnoc([ExecuteHeader] + mid, ReturnTrue, "\n");
    SplitPartsLackSep(code, '\n');
    PrefixedLackNewline(Split(code, '\n'), "  ");
    forall i | 0 <= i < |ls| ensures '\n' !in ls[i] {
      if 0 < i < |ls| - 1 {
        assert ls[i] == mid[i - 1];
      }
    }
    JoinThenSplit(ls, '\n');
    assert ls[1..|ls| - 1] == mid;
    IndentLinesLayout(code, "  ");
  }

  // ---------------------------------------------------------------------
  // empty-line stripping of assembled text

  /** Text whose first and last lines are not blank has no empty lines to
      strip. */
  lemma StripEmptyLinesFramed(s: string)
    requires !IsBlank(Split(s, '\n')[0])
    requires !IsBlank(Split(s, '\n')[|Split(s, '\n')| - 1])
    ensures StripEmptyLines(s) == s
  {
    var ls := Split(s, '\n');
    assert LeadingBlank(ls) == 0;
    assert ls[0..] == ls;
    assert TrailingBlankStart(ls) == |ls|;
    assert ls[..|ls|] == ls;
    assert KeptLines(s) == ls;
    SplitThenJoin(s, '\n');
  }

  /** The wrapper starts and ends with non-blank lines, so
      `strip_empty_lines` leaves it alone. */
  lemma ExecuteWrapperStripped(code: string)
    ensures StripEmptyLines(ExecuteWrapper(code)) == ExecuteWrapper(code)
  {
    ExecuteWrapperLayout(code);
    var ls := Split(ExecuteWrapper(code), '\n');
    assert !IsWhitespace(ExecuteHeader[0]);
    assert !IsWhitespace(ReturnTrue[2]);
    StripEmptyLinesFramed(ExecuteWrapper(code));
  }

  /** `[f(x) for x in xs]` */
  function MapSeq<A, B>(xs: seq<A>, f: A -> B): (r: seq<B>)
    ensures |r| == |xs|
    ensures forall i :: 0 <= i < |xs| ==> r[i] == f(xs[i])
  {
    if |xs| == 0 then [] else [f(xs[0])] + MapSeq(xs[1..], f)
  }

  lemma {:induction false} MapSeqAppend<A, B>(a: seq<A>, b: seq<A>, f: A -> B)
    ensures MapSeq(a + b, f) == MapSeq(a, f) + MapSeq(b, f)
    decreases |a|
  {
    if |a| > 0 {
      MapSeqAppend(a[1..], b, f);
      assert (a + b)[1..] == a[1..] + b;
      assert (a + b)[0] == a[0];
    } else {
      assert a + b == b;
    }
  }

  /** `[strip_empty_lines(x) for x in xs]` */
  function StrippedAll(xs: seq<string>): (r: seq<string>)
    ensures |r| == |xs|
    ensures forall i :: 0 <= i < |xs| ==> r[i] == StripEmptyLines(xs[i])
  {
    var r := MapSeq(xs, StripEmptyLines);
    assert forall i :: 0 <= i < |xs| ==> r[i] == StripEmptyLines(xs[i]);
    r
  }

  /** `sep.join(strip_empty_lines(str(x)) for x in results)` */
  function JoinStripped(xs: seq<string>, sep: string): string {
    Join(StrippedAll(xs), sep)
  }

  /** Results of the fixers listed first come first: the pieces of two
      fixers' results are joined with one more separator between them. */
  lemma JoinStrippedAppend(a: seq<string>, b: seq<string>, sep: string)
    requires |a| >= 1 && |b| >= 1
    ensures JoinStripped(a + b, sep) == JoinStripped(a, sep) + sep + JoinStripped(b, sep)
  {
    StrippedAllAppend(a, b);
    JoinAppend(StrippedAll(a), StrippedAll(b), sep);
  }

  lemma StrippedAllAppend(a: seq<string>, b: seq<string>)
    ensures StrippedAll(a + b) == StrippedAll(a) + StrippedAll(b)
  {
    MapSeqAppend(a, b, StripEmptyLines);
  }

  lemma {:induction false} JoinAppend(a: seq<string>, b: seq<string>, sep: string)
    requires |a| >= 1 && |b| >= 1
    ensures Join(a + b, sep) == Join(a, sep) + sep + Join(b, sep)
    decreases |a|
  {
    if |a| == 1 {
      assert (a + b)[1..] == b;
      assert (a + b)[0] == a[0];
    } else {
      JoinAppend(a[1..], b, sep);
      assert (a + b)[1..] == a[1..] + b;
      JoinCons(a + b, sep);
      JoinCons(a, sep);
    }
  }

  /** Stripping the pieces first changes nothing: each piece is already
      free of leading and trailing empty lines. */
  lemma JoinStrippedOfStripped(xs: seq<string>, sep: string)
    ensures JoinStripped(StrippedAll(xs), sep) == JoinStripped(xs, sep)
  {
    forall i | 0 <= i < |xs|
      ensures StrippedAll(StrippedAll(xs))[i] == StrippedAll(xs)[i]
    {
      StripEmptyLinesIdempotent(xs[i]);
    }
    assert StrippedAll(StrippedAll(xs)) == StrippedAll(xs);
  }

  // ---------------------------------------------------------------------
  // codeconv.py

  /** `refactor_expression_script` after the fixers ran: `imports` are the
      collected `__future__` names, `code` the refactored module text, and
      `messages`/`mains` the defs the `message` and `main` fixers
      extracted. The methods are joined with one empty line between them.
      Each part is free of leading and trailing empty lines; an unknown
      kind is an error whatever the code. */
  function ExpressionScript(kind: string, imports: seq<string>, code: string,
                            messages: seq<string>, mains: seq<string>): (r: Result<(string, string, string)>)
    ensures r.Ok? <==> kind == "ObjectData" || kind == "TagData"
    ensures r.Err? ==> r.error == ValueError(kind)
    ensures r.Ok? ==> StripEmptyLines(r.value.0) == r.value.0
                      && StripEmptyLines(r.value.1) == r.value.1
                      && StripEmptyLines(r.value.2) == r.value.2
    ensures r.Ok? ==> (|imports| == 0 <==> r.value.0 == "")
    ensures r.Ok? && |messages| == 0 && |mains| == 0 ==> r.value.2 == ""
    ensures r.Ok? ==> r.value == (StripEmptyLines(FutureImports.FutureLineCodeconv(imports)),
                                  StripEmptyLines(code),
                                  StripEmptyLines(JoinStripped(messages + mains, "\n\n")))
  {
    var fixers :- ExpressionFixers(kind, "");
    var methods := JoinStripped(messages + mains, "\n\n");
    var future := FutureImports.FutureLineCodeconv(imports);
    StripEmptyLinesIdempotent(future);
    StripEmptyLinesIdempotent(code);
    StripEmptyLinesIdempotent(methods);
    FutureLineStripped(imports);
    assert |messages + mains| == 0 ==> methods == "";
    assert StripEmptyLines("") == "" by {
      assert Split("", '\n') == [""];
      assert IsBlank("");
    }
    Ok((StripEmptyLines(future), StripEmptyLines(code), StripEmptyLines(methods)))
  }

  /** The kind only chooses the `main` fixer: both kinds give the same
      three parts for the same fixer output, and the `message` defs come
      before the `main` defs, one empty line apart. */
  lemma ExpressionScriptParts(imports: seq<string>, code: string, messages: seq<string>, mains: seq<string>)
    ensures ExpressionScript("ObjectData", imports, code, messages, mains)
         == ExpressionScript("TagData", imports, code, messages, mains)
    ensures |messages| >= 1 && |mains| >= 1 ==>
              ExpressionScript("TagData", imports, code, messages, mains).value.2
              == StripEmptyLines(JoinStripped(messages, "\n\n") + "\n\n" + JoinStripped(mains, "\n\n"))
  {
    if |messages| >= 1 && |mains| >= 1 {
      JoinStrippedAppend(messages, mains, "\n\n");
    }
  }

  /** The `__future__` line is one non-blank line, so stripping keeps it. */
  lemma FutureLineStripped(imports: seq<string>)
    ensures StripEmptyLines(FutureImports.FutureLineCodeconv(imports)) == "" <==> |imports| == 0
  {
    var f := FutureImports.FutureLineCodeconv(imports);
    if |imports| == 0 {
      assert Split("", '\n') == [""];
      assert IsBlank("");
    } else {
      var ls := Split(f, '\n');
      var i, j := StripEmptyLinesKeepsInterior(f);
      assert f[0] == 'f';
      assert |ls[0]| > 0 && ls[0][0] == 'f' by {
        SplitFirstChar(f, '\n');
      }
      assert !IsBlank(ls[0]);
      assert KeptLines(f) != [] by {
        assert LeadingBlank(ls) == 0;
        assert TrailingBlankStart(ls[0..]) > 0;
      }
      NonEmptyKeptLines(f);
    }
  }

  /** A non-separator first character stays the first character of the
      first piece. */
  lemma SplitFirstChar(s: string, c: char)
    requires |s| > 0 && s[0] != c
    ensures |Split(s, c)[0]| > 0 && Split(s, c)[0][0] == s[0]
  {
  }

  /** Kept lines that include a non-blank one join to a non-empty string. */
  lemma NonEmptyKeptLines(s: string)
    requires KeptLines(s) != []
    ensures StripEmptyLines(s) != ""
  {
    var ls := Split(s, '\n');
    var kept := KeptLines(s);
    var i, j := StripEmptyLinesKeepsInterior(s);
    assert !IsBlank(kept[0]) by { assert kept[0] == ls[i]; }
    assert |kept[0]| > 0;
    if |kept| == 1 {
    } else {
      JoinCons(kept, "\n");
    }
  }

  /** codeconv.py's `refactor_command_script` after the fixers ran. When
      `main` was not extracted, the whole script becomes the member code
      of `Execute` and the global code is empty; otherwise the global code
      is the refactored module and the member code the extracted def. */
  function CommandScript(imports: seq<string>, code: string, mains: seq<string>): (r: (string, string, string))
    ensures |mains| == 0 ==> r.1 == "" && r.2 == ExecuteWrapper(code)
    ensures |mains| > 0 ==> r.1 == StripEmptyLines(code) && r.2 == StripEmptyLines(mains[0])
    ensures StripEmptyLines(r.0) == r.0 && StripEmptyLines(r.1) == r.1 && StripEmptyLines(r.2) == r.2
    ensures |imports| == 0 <==> r.0 == ""
  {
    var future := FutureImports.FutureLineCodeconv(imports);
    var result := if |mains| == 0 then (future, "", ExecuteWrapper(code)) else (future, code, mains[0]);
    StripEmptyLinesIdempotent(result.0);
    StripEmptyLinesIdempotent(result.1);
    StripEmptyLinesIdempotent(result.2);
    FutureLineStripped(imports);
    ExecuteWrapperStripped(code);
    assert StripEmptyLines("") == "" by {
      assert Split("", '\n') == [""];
      assert IsBlank("");
    }
    (StripEmptyLines(result.0), StripEmptyLines(result.1), StripEmptyLines(result.2))
  }

  // ---------------------------------------------------------------------
  // refactor.py helpers

  /** `split_future_imports` after the fixer ran: the module text is kept
      and the `__future__` line (empty when nothing was imported) comes
      out stripped. It agrees with codeconv.py's `future_line`. */
  function SplitFutureImports(code: string, imports: seq<string>): (r: (string, string))
    ensures r.0 == code
    ensures r.1 == "" <==> |imports| == 0
    ensures r.1 == StripEmptyLines(FutureImports.FutureLineCodeconv(imports))
  {
    FutureImports.FutureLineVersionsAgree(imports);
    FutureLineStripped(imports);
    (code, StripEmptyLines(FutureImports.FutureLineRefactor(imports).GetOr("")))
  }

  /** `split_and_refactor_global_function` after the fixer ran: the text
      of the module and the extracted defs, each stripped of empty lines and
      joined by a line break (codeconv.py separates methods by an empty
      line instead). Without an extracted def the second part is empty. */
  function SplitGlobalFunction(code: string, results: seq<string>): (r: (string, string))
    ensures StripEmptyLines(r.0) == r.0
    ensures |results| == 0 ==> r.1 == ""
    ensures |results| == 1 ==> r.1 == StripEmptyLines(results[0])
    ensures r.0 == StripEmptyLines(code) && r.1 == Join(StrippedAll(results), "\n")
  {
    StripEmptyLinesIdempotent(code);
    (StripEmptyLines(code), JoinStripped(results, "\n"))
  }

  /** The defs come out in the order the fixer extracted them: the defs
      of two runs are the first run's, a line break, the second run's. */
  lemma SplitGlobalFunctionAppend(code: string, a: seq<string>, b: seq<string>)
    requires |a| >= 1 && |b| >= 1
    ensures SplitGlobalFunction(code, a + b).1
         == SplitGlobalFunction(code, a).1 + "\n" + SplitGlobalFunction(code, b).1
  {
    JoinStrippedAppend(a, b, "\n");
  }

  // ---------------------------------------------------------------------
  // ui/ScriptConverter.py

  /** The parts a command plugin is generated from. */
  datatype CommandParts = CommandParts(futureLine: string, docstring: string, code: string, memberCode: string)

  /** ui/ScriptConverter.py's `refactor_command_script` after its four
      helper passes: `execFunc` is the extracted `main` (empty when there
      was none). Without it the whole script moves into `Execute` and no
      global code is left; with it the global code goes through
      `stripMainCheck`, a helper the module calls but does not define. */
  function CommandPartsOf(futureLine: string, docstring: string, code: string, execFunc: string,
                          stripMainCheck: string -> string): (r: CommandParts)
    ensures r.futureLine == futureLine && r.docstring == docstring
    ensures execFunc == "" ==> r.code == "" && r.memberCode == ExecuteWrapper(code)
    ensures execFunc != "" ==> r.memberCode == execFunc && r.code == stripMainCheck(code)
  {
    if execFunc != "" then CommandParts(futureLine, docstring, stripMainCheck(code), execFunc)
    else CommandParts(futureLine, docstring, "", ExecuteWrapper(code))
  }

  /** The member code as placed in the plugin class: one more indent of two
      spaces on every line. For the wrapped script that is the header at
      two spaces, the script at four, and the `return` at four. */
  lemma MemberCodeInClass(code: string)
    ensures Split(IndentLines(ExecuteWrapper(code), "  "), '\n')
            == ["  " + ExecuteHeader] + Prefixed(Prefixed(Split(code, '\n'), "  "), "  ") + ["  " + ReturnTrue]
  {
    ExecuteWrapperLayout(code);
    IndentLinesLayout(ExecuteWrapper(code), "  ");
    PrefixedFramed(ExecuteHeader, Prefixed(Split(code, '\n'), "  "), ReturnTrue, "  ");
  }

  lemma PrefixedFramed(h: string, mid: seq<string>, t: string, u: string)
    ensures Prefixed([h] + mid + [t], u) == [u + h] + Prefixed(mid, u) + [u + t]
  {
    PrefixedAppend([h] + mid, [t], u);
    PrefixedAppend([h], mid, u);
    assert Prefixed([h], u) == [u + h];
    assert Prefixed([t], u) == [u + t];
  }

  lemma {:induction false} PrefixedAppend(a: seq<string>, b: seq<string>, u: string)
    ensures Prefixed(a + b, u) == Prefixed(a, u) + Prefixed(b, u)
    decreases |a|
  {
    if |a| > 0 {
      PrefixedAppend(a[1..], b, u);
      assert (a + b)[1..] == a[1..] + b;
      assert (a + b)[0] == a[0];
    } else {
      assert a + b == b;
    }
  }
}

=== FILE: symbols.dfy ===
/** `SymbolMap` of ui/PrototypeConverter.py (plugin_main.py holds an
    identical copy): the C++-style symbols a user-data prototype's
    parameters get in the generated description resource. Names are
    translated to upper-case identifiers, made unique with a numeric
    suffix, and numbered from 1000 on. */
module Symbols {
  import opened Errors
  import opened Text

  // ---------------------------------------------------------------------
  // translate_name

  /** `re.sub('[^\w\d_]+', '_', name).upper().strip('_')` */
  function TranslateBase(name: string): string {
    Strip(Upper(SubNonWord(name, "_")), {'_'})
  }

  predicate IsSymbolChar(c: char) {
    ('A' <= c <= 'Z') || ('0' <= c <= '9') || c == '_'
  }

  predicate AllSymbolChars(s: string) {
    forall i :: 0 <= i < |s| ==> IsSymbolChar(s[i])
  }

  lemma UpperOfWordChars(s: string)
    requires forall i :: 0 <= i < |s| ==> IsWordChar(s[i])
    ensures AllSymbolChars(Upper(s))
  {
    var u := Upper(s);
    forall i | 0 <= i < |u|
      ensures IsSymbolChar(u[i])
    {
      assert u[i] == UpperChar(s[i]) && IsWordChar(s[i]);
    }
  }

  lemma LStripKeepsSymbolChars(u: string)
    requires AllSymbolChars(u)
    ensures AllSymbolChars(LStrip(u, {'_'}))
  {
    var l := LStrip(u, {'_'});
    forall i | 0 <= i < |l|
      ensures IsSymbolChar(l[i])
    {
      assert l[i] == u[|u| - |l| + i];
    }
  }

  lemma RStripKeepsSymbolChars(l: string)
    requires AllSymbolChars(l)
    ensures AllSymbolChars(RStrip(l, {'_'}))
  {
    var b := RStrip(l, {'_'});
    forall i | 0 <= i < |b|
      ensures IsSymbolChar(b[i])
    {
      assert b[i] == l[i];
    }
  }

  lemma StripKeepsSymbolChars(u: string)
    requires AllSymbolChars(u)
    ensures var b := Strip(u, {'_'});
            AllSymbolChars(b) && (|b| > 0 ==> b[0] != '_' && b[|b| - 1] != '_')
  {
    var l := LStrip(u, {'_'});
    LStripKeepsSymbolChars(u);
    RStripKeepsSymbolChars(l);
    var b := RStrip(l, {'_'});
    if |b| > 0 {
      assert b[0] == l[0];
    }
  }

  /** A translated name is an upper-case identifier without `_` at either
      end. */
  lemma TranslateBaseShape(name: string)
    ensures var b := TranslateBase(name);
            AllSymbolChars(b) && (|b| > 0 ==> b[0] != '_' && b[|b| - 1] != '_')
  {
    var s := SubNonWord(name, "_");
    SubNonWordOnlyWordChars(name, "_");
    UpperOfWordChars(s);
    StripKeepsSymbolChars(Upper(s));
  }

  /** The `index`-th candidate of the uniqueness loop: the name itself,
      then the name followed by 1, 2, ... */
  function Candidate(base: string, index: nat): string {
    base + (if index != 0 then NatToString(index) else "")
  }

  lemma CandidateInjective(base: string, i: nat, j: nat)
    requires Candidate(base, i) == Candidate(base, j)
    ensures i == j
  {
    var ci := Candidate(base, i);
    if i != 0 && j != 0 {
      assert ci[|base|..] == NatToString(i);
      assert Candidate(base, j)[|base|..] == NatToString(j);
      NatToStringInjective(i, j);
    }
  }

  /** The first candidate from `index` on that is not taken. Each taken
      candidate is removed from `taken` before moving on; the candidates
      are distinct, so that does not change the answer, and the search
      ends because `taken` shrinks. */
  function FirstFree(base: string, taken: set<string>, index: nat): (r: nat)
    ensures r >= index && Candidate(base, r) !in taken
    ensures forall j :: index <= j < r ==> Candidate(base, j) in taken
    decreases |taken|
  {
    var c := Candidate(base, index);
    if c !in taken then index
    else
      var r := FirstFree(base, taken - {c}, index + 1);
      assert Candidate(base, r) != c by {
        if Candidate(base, r) == c {
          CandidateInjective(base, r, index);
        }
      }
      r
  }

  /** The parts of `SymbolMap` that symbol allocation uses:
      `curr_id`, `symbols` (with its insertion order), `descid_to_symbol`,
      `descid_to_node` and `prefix`. A description id is kept abstract as
      its sequence of level ids. */
  datatype SymbolMap = SymbolMap(
    currId: int,
    symbols: map<string, int>,
    order: seq<string>,
    descidToSymbol: map<seq<int>, string>,
    descidToNode: map<seq<int>, Param>,
    prefix: string)

  /** `SymbolMap(prefix)` */
  function NewSymbolMap(prefix: string): (m: SymbolMap)
    ensures m.currId == 1000 && m.symbols == map[] && m.prefix == prefix
  {
    SymbolMap(1000, map[], [], map[], map[], prefix)
  }

  /** The name `translate_name` starts from: the translated name, after
      the prefix when `addPrefix`. */
  function NameBase(m: SymbolMap, name: string, addPrefix: bool): string {
    (if addPrefix then m.prefix else "") + TranslateBase(name)
  }

  /** `translate_name(name, add_prefix, unique)`: with `unique`, the first
      candidate that is not already a symbol. */
  function TranslateName(m: SymbolMap, name: string, addPrefix: bool, unique: bool): (r: string)
    ensures !unique ==> r == NameBase(m, name, addPrefix)
    ensures !unique && !addPrefix ==> r == TranslateBase(name)
    ensures unique ==> r !in m.symbols
  {
    var base := NameBase(m, name, addPrefix);
    if unique then Candidate(base, FirstFree(base, m.symbols.Keys, 0)) else base
  }

  /** A unique name is the first candidate that is free: every candidate
      before it is a symbol already. */
  lemma TranslateNameFirstFree(m: SymbolMap, name: string, addPrefix: bool) returns (k: nat)
    ensures var base := NameBase(m, name, addPrefix);
            TranslateName(m, name, addPrefix, true) == Candidate(base, k)
            && forall j :: 0 <= j < k ==> Candidate(base, j) in m.symbols
  {
    k := FirstFree(NameBase(m, name, addPrefix), m.symbols.Keys, 0);
  }

  /** A name that is not a symbol yet is used unchanged. */
  lemma TranslateNameFreshBase(m: SymbolMap, name: string, addPrefix: bool)
    requires NameBase(m, name, addPrefix) !in m.symbols
    ensures TranslateName(m, name, addPrefix, true) == NameBase(m, name, addPrefix)
  {
    var k := TranslateNameFirstFree(m, name, addPrefix);
    var base := NameBase(m, name, addPrefix);
    assert Candidate(base, 0) == base;
  }

  // ---------------------------------------------------------------------
  // allocate_symbol

  /** The data type of a parameter's last description level, as far as
      symbol allocation tells them apart. */
  datatype DType = Separator | Group | OtherType

  /** What `allocate_symbol` reads from a parameter node: its description
      id, the data type, `DESC_NAME` and `DESC_SHORT_NAME` (empty when
      unset). */
  datatype Param = Param(descid: seq<int>, dtype: DType, name: string, shortName: string)

  /** The name a symbol is made from: the short name or else the name;
      `_GROUP` after a group's, the parent's name and a space before any
      other's whose parent is a parameter with a name. `parentName` is
      `None` when the parent is the proxy root, which has no data. */
  function SymbolName(p: Param, parentName: Option<string>): (r: string)
    ensures var own := if p.shortName != "" then p.shortName else p.name;
            (p.dtype == Group ==> r == own + "_GROUP")
            && (p.dtype != Group && parentName.Some? && parentName.value != "" ==>
                  r == parentName.value + " " + own)
            && (p.dtype != Group && (parentName.None? || parentName.value == "") ==> r == own)
  {
    var own := if p.shortName != "" then p.shortName else p.name;
    if p.dtype == Group then own + "_GROUP"
    else if parentName.Some? && parentName.value != "" then parentName.value + " " + own
    else own
  }

  /** An unnamed separator gets no symbol. */
  predicate Unnamed(p: Param) {
    p.dtype == Separator && p.name == ""
  }

  /** `allocate_symbol(node)`: nothing for an unnamed separator; otherwise
      a unique symbol with the next id, registered under the symbol and
      the node's description id. */
  function AllocateSymbol(m: SymbolMap, p: Param, parentName: Option<string>): (r: (SymbolMap, Option<(string, int)>))
    ensures Unnamed(p) <==> r.1.None?
    ensures r.1.None? ==> r.0 == m
    ensures r.1.Some? ==> var (sym, id) := r.1.value;
              id == m.currId && r.0.currId == m.currId + 1
              && sym !in m.symbols && r.0.symbols == m.symbols[sym := id]
              && r.0.order == m.order + [sym]
              && r.0.descidToSymbol == m.descidToSymbol[p.descid := sym]
              && r.0.descidToNode == m.descidToNode[p.descid := p]
              && r.0.prefix == m.prefix
              && sym == TranslateName(m, SymbolName(p, parentName), true, true)
  {
    if Unnamed(p) then (m, None)
    else
      var sym := TranslateName(m, SymbolName(p, parentName), true, true);
      var id := m.currId;
      (m.(currId := id + 1, symbols := m.symbols[sym := id], order := m.order + [sym],
          descidToSymbol := m.descidToSymbol[p.descid := sym],
          descidToNode := m.descidToNode[p.descid := p]),
       Some((sym, id)))
  }

  /** What the map keeps true: ids run from 1000 below `curr_id`, no two
      symbols share an id, the order lists each symbol once, and every
      registered description id names a symbol. */
  ghost predicate SymInv(m: SymbolMap) {
    m.currId >= 1000 && IdsInRange(m) && IdsDistinct(m) && OrderDistinct(m)
    && OrderListsSymbols(m) && DescidsRegistered(m)
  }

  ghost predicate IdsInRange(m: SymbolMap) {
    forall s :: s in m.symbols ==> 1000 <= m.symbols[s] < m.currId
  }

  ghost predicate IdsDistinct(m: SymbolMap) {
    forall s, t :: s in m.symbols && t in m.symbols && s != t ==> m.symbols[s] != m.symbols[t]
  }

  ghost predicate OrderDistinct(m: SymbolMap) {
    forall i, j :: 0 <= i < j < |m.order| ==> m.order[i] != m.order[j]
  }

  ghost predicate OrderListsSymbols(m: SymbolMap) {
    forall s :: s in m.symbols <==> s in m.order
  }

  ghost predicate DescidsRegistered(m: SymbolMap) {
    forall d :: d in m.descidToSymbol ==> m.descidToSymbol[d] in m.symbols
  }

  lemma NewSymbolMapInv(prefix: string)
    ensures SymInv(NewSymbolMap(prefix))
  {
  }

  /** One allocation: a fresh symbol with the current id, the id advanced. */
  ghost predicate AllocStep(m: SymbolMap, m': SymbolMap, sym: string, d: seq<int>) {
    sym !in m.symbols && m'.currId == m.currId + 1
    && m'.symbols == m.symbols[sym := m.currId] && m'.order == m.order + [sym]
    && m'.descidToSymbol == m.descidToSymbol[d := sym]
  }

  lemma AllocStepIds(m: SymbolMap, m': SymbolMap, sym: string, d: seq<int>)
    requires SymInv(m) && AllocStep(m, m', sym, d)
    ensures IdsInRange(m') && IdsDistinct(m')
  {
    forall s | s in m'.symbols
      ensures 1000 <= m'.symbols[s] < m'.currId
    {
      if s != sym {
        assert s in m.symbols;
      }
    }
    forall s, t | s in m'.symbols && t in m'.symbols && s != t
      ensures m'.symbols[s] != m'.symbols[t]
    {
      if s != sym && t != sym {
        assert s in m.symbols && t in m.symbols;
      } else if s != sym {
        assert m.symbols[s] < m.currId;
      } else {
        assert m.symbols[t] < m.currId;
      }
    }
  }

  lemma AllocStepOrder(m: SymbolMap, m': SymbolMap, sym: string, d: seq<int>)
    requires SymInv(m) && AllocStep(m, m', sym, d)
    ensures OrderDistinct(m') && OrderListsSymbols(m') && DescidsRegistered(m')
  {
    assert sym !in m.order;
    forall i, j | 0 <= i < j < |m'.order|
      ensures m'.order[i] != m'.order[j]
    {
      assert m'.order[i] == m.order[i];
      if j < |m.order| {
        assert m'.order[j] == m.order[j];
      }
    }
  }

  /** Allocation keeps the invariant. */
  lemma AllocateKeepsInv(m: SymbolMap, p: Param, parentName: Option<string>)
    requires SymInv(m)
    ensures SymInv(AllocateSymbol(m, p, parentName).0)
  {
    var r := AllocateSymbol(m, p, parentName);
    if r.1.Some? {
      AllocStepIds(m, r.0, r.1.value.0, p.descid);
      AllocStepOrder(m, r.0, r.1.value.0, p.descid);
    }
  }

  /** Allocating for a list of parameters, in order, with each one's parent
      name; the ids handed out, in order. */
  function AllocateAll(m: SymbolMap, ps: seq<(Param, Option<string>)>): (r: (SymbolMap, seq<int>))
    decreases |ps|
  {
    if |ps| == 0 then (m, [])
    else
      var (m1, a) := AllocateSymbol(m, ps[0].0, ps[0].1);
      var (m2, ids) := AllocateAll(m1, ps[1..]);
      (m2, (if a.Some? then [a.value.1] else []) + ids)
  }

  /** Parameters other than unnamed separators. */
  function Named(ps: seq<(Param, Option<string>)>): nat {
    if |ps| == 0 then 0 else (if Unnamed(ps[0].0) then 0 else 1) + Named(ps[1..])
  }

  /** Ids are handed out consecutively from the current one, one per named
      parameter, and the invariant holds throughout. */
  lemma {:induction false} AllocateAllConsecutive(m: SymbolMap, ps: seq<(Param, Option<string>)>)
    requires SymInv(m)
    ensures var (m', ids) := AllocateAll(m, ps);
            SymInv(m') && |ids| == Named(ps) && m'.currId == m.currId + |ids|
            && forall i :: 0 <= i < |ids| ==> ids[i] == m.currId + i
    decreases |ps|
  {
    if |ps| > 0 {
      var (m1, a) := AllocateSymbol(m, ps[0].0, ps[0].1);
      AllocateKeepsInv(m, ps[0].0, ps[0].1);
      AllocateAllConsecutive(m1, ps[1..]);
    }
  }

  /** A fresh map numbers its symbols 1000, 1001, ... */
  lemma AllocateFromThousand(prefix: string, ps: seq<(Param, Option<string>)>)
    ensures var ids := AllocateAll(NewSymbolMap(prefix), ps).1;
            forall i :: 0 <= i < |ids| ==> ids[i] == 1000 + i
  {
    NewSymbolMapInv(prefix);
    AllocateAllConsecutive(NewSymbolMap(prefix), ps);
  }

  // ---------------------------------------------------------------------
  // get_cycle_symbol

  /** `get_cycle_symbol(node, cycle_name)`: the node's symbol (`nodeSymbol`,
      allocated now when it has none), `_`, and the cycle name translated
      without prefix or uniqueness. An unnamed separator has no symbol to
      give, and the concatenation fails. */
  function GetCycleSymbol(m: SymbolMap, p: Param, parentName: Option<string>,
                          nodeSymbol: Option<string>, cycleName: string): (r: Result<(SymbolMap, string)>)
    ensures nodeSymbol.Some? && nodeSymbol.value != "" ==>
              r == Ok((m, nodeSymbol.value + "_" + TranslateBase(cycleName)))
    ensures (nodeSymbol.None? || nodeSymbol.value == "") ==>
              (r.Err? <==> Unnamed(p))
              && (r.Err? ==> r.error == TypeError(NoneConcat))
              && (r.Ok? ==> var a := AllocateSymbol(m, p, parentName);
                            r.value == (a.0, a.1.value.0 + "_" + TranslateBase(cycleName)))
  {
    if nodeSymbol.Some? && nodeSymbol.value != "" then
      Ok((m, nodeSymbol.value + "_" + TranslateName(m, cycleName, false, false)))
    else
      var a := AllocateSymbol(m, p, parentName);
      if a.1.None? then Err(TypeError(NoneConcat))
      else Ok((a.0, a.1.value.0 + "_" + TranslateName(a.0, cycleName, false, false)))
  }
}

=== FILE: text.dfy ===
/** Python string primitives used throughout the converter: `str.split` on
    one character, `str.join`, `strip`/`rstrip`, ASCII case mapping, the
    `[^\w\d]+` substitutions, decimal formatting and `strip_empty_lines`. */
module Text {

  /** The characters Python 2's `str.isspace` and argument-less `strip`
      treat as whitespace. */
  predicate IsWhitespace(c: char) {
    c == ' ' || c == '\t' || c == '\n' || c == '\r' || c == '\U{000B}' || c == '\U{000C}'
  }

  /** The two quote characters and the backslash, by code point. */
  const SingleQuote: char := 39 as char
  const DoubleQuote: char := 34 as char
  const Backslash: char := 92 as char

  /** Membership in the regex class `\w` without the UNICODE flag. */
  predicate IsWordChar(c: char) {
    ('a' <= c <= 'z') || ('A' <= c <= 'Z') || ('0' <= c <= '9') || c == '_'
  }

  predicate IsDigit(c: char) {
    '0' <= c <= '9'
  }

  /** `not line or line.isspace()` */
  predicate IsBlank(line: string) {
    forall i :: 0 <= i < |line| ==> IsWhitespace(line[i])
  }

  /** `str.isdigit()` on a byte string: non-empty and all decimal digits. */
  predicate IsDigits(s: string) {
    |s| > 0 && forall i :: 0 <= i < |s| ==> IsDigit(s[i])
  }

  predicate StartsWith(s: string, p: string) {
    |p| <= |s| && s[..|p|] == p
  }

  predicate EndsWith(s: string, p: string) {
    |p| <= |s| && s[|s| - |p|..] == p
  }

  // ---------------------------------------------------------------------
  // split / join

  /** `s.split(sep)` for a one-character separator. */
  function Split(s: string, sep: char): (parts: seq<string>)
    ensures |parts| >= 1
    decreases |s|
  {
    if |s| == 0 then [""]
    else
      var rest := Split(s[1..], sep);
      if s[0] == sep then [""] + rest
      else [[s[0]] + rest[0]] + rest[1..]
  }

  /** No piece of a split contains the separator. */
  lemma {:induction false} SplitPartsLackSep(s: string, sep: char)
    ensures forall i :: 0 <= i < |Split(s, sep)| ==> sep !in Split(s, sep)[i]
    decreases |s|
  {
    if |s| > 0 {
      SplitPartsLackSep(s[1..], sep);
      var rest := Split(s[1..], sep);
      if s[0] != sep {
        assert sep !in [s[0]] + rest[0];
      }
    }
  }

  /** `sep.join(parts)` */
  function Join(parts: seq<string>, sep: string): string
  {
    if |parts| == 0 then ""
    else if |parts| == 1 then parts[0]
    else parts[0] + sep + Join(parts[1..], sep)
  }

  lemma JoinCons(parts: seq<string>, sep: string)
    requires |parts| >= 2
    ensures Join(parts, sep) == parts[0] + sep + Join(parts[1..], sep)
  {
  }

  /** Appending one more part adds exactly one separator. */
  lemma {:induction false} JoinSnoc(parts: seq<string>, x: string, sep: string)
    requires |parts| >= 1
    ensures Join(parts + [x], sep) == Join(parts, sep) + sep + x
    decreases |parts|
  {
    if |parts| == 1 {
      assert parts + [x] == [parts[0], x];
      assert ([parts[0], x])[1..] == [x];
    } else {
      assert (parts + [x])[1..] == parts[1..] + [x];
      JoinSnoc(parts[1..], x, sep);
    }
  }

  /** Joining the pieces of a split restores the string. */
  lemma {:induction false} SplitThenJoin(s: string, c: char)
    ensures Join(Split(s, c), [c]) == s
    decreases |s|
  {
    if |s| > 0 {
      var rest := Split(s[1..], c);
      SplitThenJoin(s[1..], c);
      if s[0] == c {
        assert Split(s, c) == [""] + rest;
        assert ([""] + rest)[1..] == rest;
        assert s == [c] + s[1..];
      } else {
        var parts := Split(s, c);
        assert parts == [[s[0]] + rest[0]] + rest[1..];
        if |rest| == 1 {
          assert s == [s[0]] + s[1..];
        } else {
          assert parts[1..] == rest[1..];
          JoinCons(rest, [c]);
          assert s == [s[0]] + s[1..];
        }
      }
    }
  }

  /** A string without the separator splits into itself. */
  lemma {:induction false} SplitNoSep(w: string, c: char)
    requires c !in w
    ensures Split(w, c) == [w]
    decreases |w|
  {
    if |w| > 0 {
      assert c !in w[1..] by {
        forall i | 0 <= i < |w[1..]| ensures w[1..][i] != c {
          assert w[1..][i] == w[i + 1];
        }
      }
      SplitNoSep(w[1..], c);
      assert w == [w[0]] + w[1..];
    }
  }

  /** Splitting distributes over a separator occurrence. */
  lemma {:induction false} SplitAround(x: string, y: string, c: char)
    ensures Split(x + [c] + y, c) == Split(x, c) + Split(y, c)
    decreases |x|
  {
    if |x| == 0 {
      assert x + [c] + y == [c] + y;
      assert ([c] + y)[1..] == y;
    } else {
      var s := x + [c] + y;
      assert s[0] == x[0];
      assert s[1..] == x[1..] + [c] + y;
      SplitAround(x[1..], y, c);
      var restX := Split(x[1..], c);
      if x[0] == c {
        ConsAppend([""], restX, Split(y, c));
      } else {
        HeadTailAppend(restX, Split(y, c));
        ConsAppend([[x[0]] + restX[0]], restX[1..], Split(y, c));
      }
    }
  }

  lemma HeadTailAppend<T>(u: seq<T>, v: seq<T>)
    requires |u| >= 1
    ensures (u + v)[0] == u[0] && (u + v)[1..] == u[1..] + v
  {
  }

  lemma ConsAppend<T>(h: seq<T>, t: seq<T>, v: seq<T>)
    ensures (h + t) + v == h + (t + v)
  {
  }

  /** Splitting a join of separator-free parts gives the parts back. */
  lemma {:induction false} JoinThenSplit(parts: seq<string>, c: char)
    requires |parts| >= 1
    requires forall i :: 0 <= i < |parts| ==> c !in parts[i]
    ensures Split(Join(parts, [c]), c) == parts
    decreases |parts|
  {
    SplitNoSep(parts[0], c);
    if |parts| > 1 {
      JoinThenSplit(parts[1..], c);
      SplitAround(parts[0], Join(parts[1..], [c]), c);
      assert Join(parts, [c]) == parts[0] + [c] + Join(parts[1..], [c]);
      assert parts == [parts[0]] + parts[1..];
    }
  }

  // ---------------------------------------------------------------------
  // searching

  /** `s.rfind(c)`: the last index of `c`, or -1. */
  function LastIndexOf(s: string, c: char): (k: int)
    ensures -1 <= k < |s|
    ensures k >= 0 ==> s[k] == c
    ensures forall i :: k < i < |s| ==> s[i] != c
  {
    if |s| == 0 then -1
    else if s[|s| - 1] == c then |s| - 1
    else LastIndexOf(s[..|s| - 1], c)
  }

  /** `s.find(c, start)`: the first index at or after `start`, or -1. */
  function FindFrom(s: string, c: char, start: nat): (k: int)
    ensures k == -1 || (start <= k < |s| && s[k] == c)
    ensures forall i :: start <= i < |s| && (k == -1 || i < k) ==> s[i] != c
    decreases |s| - start
  {
    if start >= |s| then -1
    else if s[start] == c then start
    else FindFrom(s, c, start + 1)
  }

  /** `'\n'.join(p.split('\n')[:-1] + [x])`: the last line of `p` replaced by `x`. */
  function ReplaceLastLine(p: string, x: string): string
  {
    var lines := Split(p, '\n');
    Join(lines[..|lines| - 1] + [x], "\n")
  }

  /** Every line of `p` but the last is kept verbatim; only the text after
      the last newline is replaced. */
  lemma ReplaceLastLineKeepsEarlierLines(p: string, x: string)
    ensures ReplaceLastLine(p, x) == p[..LastIndexOf(p, '\n') + 1] + x
  {
    var k := LastIndexOf(p, '\n');
    if k < 0 {
      assert '\n' !in p;
      SplitNoSep(p, '\n');
    } else {
      var a := p[..k];
      var b := p[k + 1..];
      assert p == a + ['\n'] + b;
      assert '\n' !in b by {
        forall i | 0 <= i < |b| ensures b[i] != '\n' {
          assert b[i] == p[k + 1 + i];
        }
      }
      SplitAround(a, b, '\n');
      SplitNoSep(b, '\n');
      var lines := Split(p, '\n');
      assert lines == Split(a, '\n') + [b];
      assert lines[..|lines| - 1] == Split(a, '\n');
      JoinSnoc(Split(a, '\n'), x, "\n");
      SplitThenJoin(a, '\n');
      assert p[..k + 1] == a + "\n";
    }
  }

  // ---------------------------------------------------------------------
  // strip

  /** `s.lstrip(chars)` */
  function LStrip(s: string, cs: set<char>): (r: string)
    ensures |r| <= |s| && r == s[|s| - |r|..]
    ensures forall i :: 0 <= i < |s| - |r| ==> s[i] in cs
    ensures |r| > 0 ==> r[0] !in cs
  {
    if |s| > 0 && s[0] in cs then LStrip(s[1..], cs) else s
  }

  /** `s.rstrip(chars)` */
  function RStrip(s: string, cs: set<char>): (r: string)
    ensures |r| <= |s| && r == s[..|r|]
    ensures forall i :: |r| <= i < |s| ==> s[i] in cs
    ensures |r| > 0 ==> r[|r| - 1] !in cs
  {
    if |s| > 0 && s[|s| - 1] in cs then RStrip(s[..|s| - 1], cs) else s
  }

  /** `s.strip(chars)` */
  function Strip(s: string, cs: set<char>): string
  {
    RStrip(LStrip(s, cs), cs)
  }

  const Whitespace: set<char> := {' ', '\t', '\n', '\r', '\U{000B}', '\U{000C}'}

  lemma WhitespaceSet(c: char)
    ensures c in Whitespace <==> IsWhitespace(c)
  {
  }

  // ---------------------------------------------------------------------
  // case mapping and character classes

  function LowerChar(c: char): char {
    if 'A' <= c <= 'Z' then (c as int + 32) as char else c
  }

  function UpperChar(c: char): char {
    if 'a' <= c <= 'z' then (c as int - 32) as char else c
  }

  /** `str.lower()` on a byte string (ASCII letters only). */
  function Lower(s: string): (r: string)
    ensures |r| == |s|
    ensures forall i :: 0 <= i < |s| ==> r[i] == LowerChar(s[i])
  {
    if |s| == 0 then "" else [LowerChar(s[0])] + Lower(s[1..])
  }

  /** `str.upper()` on a byte string (ASCII letters only). */
  function Upper(s: string): (r: string)
    ensures |r| == |s|
    ensures forall i :: 0 <= i < |s| ==> r[i] == UpperChar(s[i])
  {
    if |s| == 0 then "" else [UpperChar(s[0])] + Upper(s[1..])
  }

  /** Length of the maximal leading run of non-word characters. */
  function NonWordRun(s: string): (n: nat)
    ensures n <= |s|
    ensures forall i :: 0 <= i < n ==> !IsWordChar(s[i])
    ensures n < |s| ==> IsWordChar(s[n])
  {
    if |s| == 0 || IsWordChar(s[0]) then 0 else 1 + NonWordRun(s[1..])
  }

  /** `re.sub('[^\w\d]+', rep, s)`: every maximal run of non-word
      characters becomes one copy of `rep`. */
  function SubNonWord(s: string, rep: string): string
    decreases |s|
  {
    if |s| == 0 then ""
    else if IsWordChar(s[0]) then [s[0]] + SubNonWord(s[1..], rep)
    else rep + SubNonWord(s[NonWordRun(s)..], rep)
  }

  /** The word characters of `s`, in order. */
  function WordChars(s: string): (r: string)
    ensures forall i :: 0 <= i < |r| ==> IsWordChar(r[i])
  {
    if |s| == 0 then ""
    else if IsWordChar(s[0]) then [s[0]] + WordChars(s[1..])
    else WordChars(s[1..])
  }

  lemma {:induction false} WordCharsAppend(a: string, b: string)
    ensures WordChars(a + b) == WordChars(a) + WordChars(b)
    decreases |a|
  {
    if |a| > 0 {
      assert (a + b)[1..] == a[1..] + b;
      WordCharsAppend(a[1..], b);
    } else {
      assert a + b == b;
    }
  }

  lemma {:induction false} WordCharsOfNonWord(s: string)
    requires forall i :: 0 <= i < |s| ==> !IsWordChar(s[i])
    ensures WordChars(s) == ""
    decreases |s|
  {
    if |s| > 0 {
      WordCharsOfNonWord(s[1..]);
    }
  }

  /** With a replacement free of word characters, the substitution keeps
      exactly the word characters of the input, in order. */
  lemma {:induction false} SubNonWordKeepsWordChars(s: string, rep: string)
    requires forall i :: 0 <= i < |rep| ==> !IsWordChar(rep[i])
    ensures WordChars(SubNonWord(s, rep)) == WordChars(s)
    decreases |s|
  {
    if |s| > 0 {
      if IsWordChar(s[0]) {
        SubNonWordKeepsWordChars(s[1..], rep);
        WordCharsAppend([s[0]], SubNonWord(s[1..], rep));
      } else {
        var n := NonWordRun(s);
        SubNonWordKeepsWordChars(s[n..], rep);
        WordCharsAppend(rep, SubNonWord(s[n..], rep));
        WordCharsOfNonWord(rep);
        assert s == s[..n] + s[n..];
        WordCharsAppend(s[..n], s[n..]);
        WordCharsOfNonWord(s[..n]);
      }
    }
  }

  /** With a replacement made only of word characters (such as "_" or ""),
      the result contains nothing but word characters. */
  lemma {:induction false} SubNonWordOnlyWordChars(s: string, rep: string)
    requires forall i :: 0 <= i < |rep| ==> IsWordChar(rep[i])
    ensures forall i :: 0 <= i < |SubNonWord(s, rep)| ==> IsWordChar(SubNonWord(s, rep)[i])
    decreases |s|
  {
    if |s| > 0 {
      if IsWordChar(s[0]) {
        SubNonWordOnlyWordChars(s[1..], rep);
      } else {
        SubNonWordOnlyWordChars(s[NonWordRun(s)..], rep);
      }
    }
  }

  /** Deleting the non-word runs (`re.sub('[^\w\d]+', '', s)`) is the same
      as keeping the word characters. */
  lemma {:induction false} SubNonWordEmptyIsWordChars(s: string)
    ensures SubNonWord(s, "") == WordChars(s)
    decreases |s|
  {
    if |s| > 0 {
      if IsWordChar(s[0]) {
        SubNonWordEmptyIsWordChars(s[1..]);
      } else {
        var n := NonWordRun(s);
        SubNonWordEmptyIsWordChars(s[n..]);
        assert s == s[..n] + s[n..];
        WordCharsAppend(s[..n], s[n..]);
        WordCharsOfNonWord(s[..n]);
      }
    }
  }

  /** `s * n` */
  function Repeat(s: string, n: nat): (r: string)
    ensures |r| == n * |s|
  {
    if n == 0 then "" else s + Repeat(s, n - 1)
  }

  // ---------------------------------------------------------------------
  // decimal numbers

  function DigitChar(d: nat): char
    requires d < 10
  {
    ['0', '1', '2', '3', '4', '5', '6', '7', '8', '9'][d]
  }

  /** `str(n)` for a natural number. */
  function NatToString(n: nat): (r: string)
    ensures |r| >= 1
    ensures forall i :: 0 <= i < |r| ==> IsDigit(r[i])
  {
    if n < 10 then [DigitChar(n)] else NatToString(n / 10) + [DigitChar(n % 10)]
  }

  /** `int(s)` for a string of decimal digits. */
  function ParseDecimal(s: string): nat
    requires forall i :: 0 <= i < |s| ==> IsDigit(s[i])
  {
    if |s| == 0 then 0
    else
      var last := s[|s| - 1];
      assert IsDigit(last);
      10 * ParseDecimal(s[..|s| - 1]) + (last as int - '0' as int)
  }

  /** Decimal formatting is inverted by decimal parsing. */
  lemma {:induction false} ParseNatToString(n: nat)
    ensures ParseDecimal(NatToString(n)) == n
  {
    if n >= 10 {
      ParseNatToString(n / 10);
      var r := NatToString(n);
      assert r[..|r| - 1] == NatToString(n / 10);
    }
  }

  lemma NatToStringInjective(a: nat, b: nat)
    requires NatToString(a) == NatToString(b)
    ensures a == b
  {
    ParseNatToString(a);
    ParseNatToString(b);
  }

  // ---------------------------------------------------------------------
  // strip_empty_lines

  /** Number of leading blank lines. */
  function LeadingBlank(ls: seq<string>): (n: nat)
    ensures n <= |ls|
    ensures forall k :: 0 <= k < n ==> IsBlank(ls[k])
    ensures n < |ls| ==> !IsBlank(ls[n])
  {
    if |ls| == 0 || !IsBlank(ls[0]) then 0 else 1 + LeadingBlank(ls[1..])
  }

  /** Index after the last non-blank line. */
  function TrailingBlankStart(ls: seq<string>): (m: nat)
    ensures m <= |ls|
    ensures forall k :: m <= k < |ls| ==> IsBlank(ls[k])
    ensures m > 0 ==> !IsBlank(ls[m - 1])
  {
    if |ls| == 0 || !IsBlank(ls[|ls| - 1]) then |ls| else TrailingBlankStart(ls[..|ls| - 1])
  }

  /** The lines `strip_empty_lines` keeps. */
  function KeptLines(s: string): seq<string>
  {
    var ls := Split(s, '\n');
    var a := LeadingBlank(ls);
    var rest := ls[a..];
    rest[..TrailingBlankStart(rest)]
  }

  /** `strip_empty_lines(s)` (refactor.py and codeconv.py share this code). */
  function StripEmptyLines(s: string): string
  {
    Join(KeptLines(s), "\n")
  }

  /** The kept lines are a contiguous run of the input's lines, framed by
      non-blank lines, and everything outside the run is blank. */
  lemma StripEmptyLinesKeepsInterior(s: string) returns (i: nat, j: nat)
    ensures j <= |Split(s, '\n')| && i <= j
    ensures KeptLines(s) == Split(s, '\n')[i..j]
    ensures forall k :: 0 <= k < i ==> IsBlank(Split(s, '\n')[k])
    ensures forall k :: j <= k < |Split(s, '\n')| ==> IsBlank(Split(s, '\n')[k])
    ensures i < j ==> !IsBlank(Split(s, '\n')[i]) && !IsBlank(Split(s, '\n')[j - 1])
  {
    i, j := TrimBlankLines(Split(s, '\n'));
  }

  /** Dropping leading and then trailing blank lines keeps a contiguous run
      framed by non-blank lines. */
  lemma TrimBlankLines(ls: seq<string>) returns (i: nat, j: nat)
    ensures j <= |ls| && i <= j
    ensures var rest := ls[LeadingBlank(ls)..]; rest[..TrailingBlankStart(rest)] == ls[i..j]
    ensures forall k :: 0 <= k < i ==> IsBlank(ls[k])
    ensures forall k :: j <= k < |ls| ==> IsBlank(ls[k])
    ensures i < j ==> !IsBlank(ls[i]) && !IsBlank(ls[j - 1])
  {
    var a := LeadingBlank(ls);
    var rest := ls[a..];
    var m := TrailingBlankStart(rest);
    assert rest[..m] == ls[a..a + m];
    forall k | a + m <= k < |ls| ensures IsBlank(ls[k]) {
      assert ls[k] == rest[k - a];
    }
    if 0 < m {
      assert ls[a + m - 1] == rest[m - 1];
      assert ls[a] == rest[0];
    }
    i, j := a, a + m;
  }

  /** Stripping empty lines twice is the same as once. */
  lemma StripEmptyLinesIdempotent(s: string)
    ensures StripEmptyLines(StripEmptyLines(s)) == StripEmptyLines(s)
  {
    var kept := KeptLines(s);
    var t := StripEmptyLines(s);
    var ls := Split(s, '\n');
    var a := LeadingBlank(ls);
    var rest := ls[a..];
    var m := TrailingBlankStart(rest);
    assert kept == rest[..m];
    if |kept| == 0 {
      assert t == "";
      assert Split("", '\n') == [""];
      assert IsBlank("");
    } else {
      assert !IsBlank(kept[0]) by { assert kept[0] == rest[0]; }
      assert !IsBlank(kept[|kept| - 1]);
      SplitPartsLackSep(s, '\n');
      forall i | 0 <= i < |kept| ensures '\n' !in kept[i] {
        assert kept[i] == ls[a + i];
      }
      JoinThenSplit(kept, '\n');
      assert Split(t, '\n') == kept;
      assert LeadingBlank(kept) == 0;
      assert kept[0..] == kept;
      assert TrailingBlankStart(kept) == |kept|;
      assert KeptLines(t) == kept;
    }
  }
}

=== FILE: userdata.dfy ===
/** `userdata_tree` of ui/PrototypeConverter.py (plugin_main.py holds an
    identical copy): the user-data parameters of an object arranged as a
    tree of `Node`s under a proxy root, by each parameter's parent group.

    Node 0 is the proxy root, node 1 the main user-data group, and node
    `k + 2` the `k`-th parameter in the order the user-data container lists
    them. */
module UserData {
  import opened Errors
  import opened Nodes

  /** A user-data parameter: its description id and the `DESC_PARENTGROUP`
      entry of its container. */
  datatype UdParam = UdParam(descid: seq<int>, parentGroup: seq<int>)

  /** What each node holds. */
  datatype UdNode = ProxyRoot | MainGroup | ParamNode(index: nat)

  /** `params` after the first loop: each description id to the node made
      for it, a later parameter with the same id replacing the earlier. */
  function ParamIds(ud: seq<UdParam>): (ids: map<seq<int>, nat>)
    decreases |ud|
  {
    if |ud| == 0 then map[]
    else ParamIds(ud[..|ud| - 1])[ud[|ud| - 1].descid := |ud| + 1]
  }

  /** Every parameter's id is present, and each id maps to the node of a
      parameter carrying it. */
  lemma {:induction false} ParamIdsKeys(ud: seq<UdParam>)
    ensures forall k :: 0 <= k < |ud| ==> ud[k].descid in ParamIds(ud)
    ensures forall d :: d in ParamIds(ud) ==>
              2 <= ParamIds(ud)[d] < |ud| + 2 && ud[ParamIds(ud)[d] - 2].descid == d
    decreases |ud|
  {
    if |ud| > 0 {
      var init := ud[..|ud| - 1];
      ParamIdsKeys(init);
      forall k | 0 <= k < |ud| - 1
        ensures ud[k].descid in ParamIds(ud)
      {
        assert init[k] == ud[k];
      }
      forall d | d in ParamIds(ud) && d != ud[|ud| - 1].descid
        ensures ud[ParamIds(ud)[d] - 2].descid == d
      {
        assert ParamIds(ud)[d] == ParamIds(init)[d];
        assert init[ParamIds(init)[d] - 2] == ud[ParamIds(init)[d] - 2];
      }
    }
  }

  /** A later parameter with the same id replaces the earlier one: no
      parameter after the one an id maps to carries that id. */
  lemma {:induction false} ParamIdsLast(ud: seq<UdParam>)
    ensures forall d, k :: d in ParamIds(ud) && 0 <= k < |ud| && ParamIds(ud)[d] - 2 < k ==> ud[k].descid != d
    decreases |ud|
  {
    if |ud| > 0 {
      var init := ud[..|ud| - 1];
      ParamIdsLast(init);
      ParamIdsKeys(init);
      forall d, k | d in ParamIds(ud) && 0 <= k < |ud| && ParamIds(ud)[d] - 2 < k
        ensures ud[k].descid != d
      {
        if d != ud[|ud| - 1].descid {
          assert ParamIds(ud)[d] == ParamIds(init)[d];
          if k < |ud| - 1 {
            assert init[k] == ud[k];
          }
        }
      }
    }
  }

  /** `params` once the main group is registered under `mainId`. */
  function NodeIds(ud: seq<UdParam>, mainId: seq<int>): map<seq<int>, nat> {
    ParamIds(ud)[mainId := 1]
  }

  /** What node `n` holds. */
  function NodeData(n: nat): UdNode {
    if n == 0 then ProxyRoot else if n == 1 then MainGroup else ParamNode(n - 2)
  }

  /** Nodes 0 .. n - 1, each parentless and childless. */
  function Fresh(n: nat): (f: Forest<UdNode>)
    ensures forall m: nat :: m in f <==> m < n
    ensures forall m :: m in f ==> f[m] == NodeRec(None, [], NodeData(m))
  {
    if n == 0 then map[] else Fresh(n - 1)[n - 1 := NodeRec(None, [], NodeData(n - 1))]
  }

  lemma FreshLinked(n: nat)
    ensures Linked(Fresh(n))
  {
  }

  /** The nodes the first loop and the main group create. */
  function InitialForest(ud: seq<UdParam>): Forest<UdNode> {
    Fresh(|ud| + 2)
  }

  /** The node a parameter's entry is looked up to. */
  function Slot(ud: seq<UdParam>, ids: map<seq<int>, nat>, k: nat): nat
    requires k < |ud| && ud[k].descid in ids
  {
    ids[ud[k].descid]
  }

  /** Where a parameter's node goes: its parent group's node, or the proxy
      root when the parent group is not a known id (the `KeyError`
      branch). */
  function ParentSlot(ud: seq<UdParam>, ids: map<seq<int>, nat>, k: nat): nat
    requires k < |ud|
  {
    if ud[k].parentGroup in ids then ids[ud[k].parentGroup] else 0
  }

  ghost predicate IdsIn(ud: seq<UdParam>, ids: map<seq<int>, nat>, f: Forest<UdNode>) {
    0 in f && (forall d :: d in ids ==> ids[d] in f)
    && (forall k :: 0 <= k < |ud| ==> ud[k].descid in ids)
  }

  lemma IdsInSameKeys(ud: seq<UdParam>, ids: map<seq<int>, nat>, f: Forest<UdNode>, g: Forest<UdNode>)
    requires IdsIn(ud, ids, f) && g.Keys == f.Keys
    ensures IdsIn(ud, ids, g)
  {
    forall d | d in ids
      ensures ids[d] in g
    {
      assert ids[d] in f.Keys;
    }
  }

  /** No entry before `k` attaches node `n`. */
  ghost predicate UntouchedBefore(ud: seq<UdParam>, ids: map<seq<int>, nat>, k: nat, n: nat)
    requires k <= |ud| && forall j :: 0 <= j < |ud| ==> ud[j].descid in ids
  {
    forall j :: 0 <= j < k ==> Slot(ud, ids, j) != n
  }

  /** No entry after `j` and before `k` attaches entry `j`'s node again. */
  ghost predicate LastBefore(ud: seq<UdParam>, ids: map<seq<int>, nat>, j: nat, k: nat)
    requires j < k <= |ud| && forall i :: 0 <= i < |ud| ==> ud[i].descid in ids
  {
    forall i :: j < i < k ==> Slot(ud, ids, i) != Slot(ud, ids, j)
  }

  /** What the second loop keeps after `k` entries: the forest is linked
      over the same nodes with the same data, a node no entry has attached
      keeps its parent, and a node sits under the parent of its latest
      attachment. */
  ghost predicate LoopInv(f0: Forest<UdNode>, f: Forest<UdNode>, ud: seq<UdParam>, ids: map<seq<int>, nat>, k: nat) {
    k <= |ud| && IdsIn(ud, ids, f) && Linked(f) && f.Keys == f0.Keys
    && (forall n :: n in f0 ==> f[n].data == f0[n].data)
    && (forall n :: n in f0 && UntouchedBefore(ud, ids, k, n) ==> f[n].parent == f0[n].parent)
    && (forall j :: 0 <= j < k && LastBefore(ud, ids, j, k) ==>
          f[Slot(ud, ids, j)].parent == Some(ParentSlot(ud, ids, j)))
  }

  /** Attaching entry `k`'s node moves no other node. */
  lemma StepFrame(f0: Forest<UdNode>, f: Forest<UdNode>, g: Forest<UdNode>, ud: seq<UdParam>, ids: map<seq<int>, nat>, k: nat)
    requires k < |ud| && IdsIn(ud, ids, f) && f.Keys == f0.Keys && g.Keys == f.Keys
    requires forall n :: n in f0 && UntouchedBefore(ud, ids, k, n) ==> f[n].parent == f0[n].parent
    requires forall n :: n in f && n != Slot(ud, ids, k) ==> g[n].parent == f[n].parent
    ensures forall n :: n in f0 && UntouchedBefore(ud, ids, k + 1, n) ==> g[n].parent == f0[n].parent
  {
    forall n | n in f0 && UntouchedBefore(ud, ids, k + 1, n)
      ensures g[n].parent == f0[n].parent
    {
      assert Slot(ud, ids, k) != n;
    }
  }

  /** After attaching entry `k`'s node, every latest attachment holds. */
  lemma StepLast(f: Forest<UdNode>, g: Forest<UdNode>, ud: seq<UdParam>, ids: map<seq<int>, nat>, k: nat)
    requires k < |ud| && IdsIn(ud, ids, f) && g.Keys == f.Keys
    requires forall j :: 0 <= j < k && LastBefore(ud, ids, j, k) ==>
               f[Slot(ud, ids, j)].parent == Some(ParentSlot(ud, ids, j))
    requires forall n :: n in f && n != Slot(ud, ids, k) ==> g[n].parent == f[n].parent
    requires g[Slot(ud, ids, k)].parent == Some(ParentSlot(ud, ids, k))
    ensures forall j :: 0 <= j < k + 1 && LastBefore(ud, ids, j, k + 1) ==>
              g[Slot(ud, ids, j)].parent == Some(ParentSlot(ud, ids, j))
  {
    forall j | 0 <= j < k + 1 && LastBefore(ud, ids, j, k + 1)
      ensures g[Slot(ud, ids, j)].parent == Some(ParentSlot(ud, ids, j))
    {
      if j < k {
        assert Slot(ud, ids, k) != Slot(ud, ids, j);
        assert LastBefore(ud, ids, j, k);
      }
    }
  }

  lemma LoopInit(f0: Forest<UdNode>, ud: seq<UdParam>, ids: map<seq<int>, nat>)
    requires IdsIn(ud, ids, f0) && Linked(f0)
    ensures LoopInv(f0, f0, ud, ids, 0)
  {
  }

  lemma LoopDone(f0: Forest<UdNode>, f: Forest<UdNode>, ud: seq<UdParam>, ids: map<seq<int>, nat>)
    requires LoopInv(f0, f, ud, ids, |ud|)
    ensures Linked(f) && f.Keys == f0.Keys
    ensures forall n :: n in f0 ==> f[n].data == f0[n].data
    ensures forall n :: n in f0 && UntouchedBefore(ud, ids, |ud|, n) ==> f[n].parent == f0[n].parent
    ensures forall j :: 0 <= j < |ud| && LastBefore(ud, ids, j, |ud|) ==>
              f[Slot(ud, ids, j)].parent == Some(ParentSlot(ud, ids, j))
  {
  }

  lemma LoopStepOk(f0: Forest<UdNode>, f: Forest<UdNode>, ud: seq<UdParam>, ids: map<seq<int>, nat>, k: nat)
    requires LoopInv(f0, f, ud, ids, k) && k < |ud|
    ensures ParentSlot(ud, ids, k) in f && Slot(ud, ids, k) in f
    ensures AddChild(f, ParentSlot(ud, ids, k), Slot(ud, ids, k)).Ok?
  {
    var g := AddChildKept(f, ParentSlot(ud, ids, k), Slot(ud, ids, k));
  }

  lemma LoopStep(f0: Forest<UdNode>, f: Forest<UdNode>, g: Forest<UdNode>, ud: seq<UdParam>, ids: map<seq<int>, nat>, k: nat)
    requires LoopInv(f0, f, ud, ids, k) && k < |ud|
    requires AddChild(f, ParentSlot(ud, ids, k), Slot(ud, ids, k)) == Ok(g)
    ensures LoopInv(f0, g, ud, ids, k + 1)
  {
    var p, c := ParentSlot(ud, ids, k), Slot(ud, ids, k);
    var g' := AddChildKept(f, p, c);
    LoopInvStep(f0, f, g', ud, ids, k);
  }

  /** The invariant moves on to `k + 1` once entry `k`'s node, and only
      it, sits under its parent slot. */
  lemma LoopInvStep(f0: Forest<UdNode>, f: Forest<UdNode>, g: Forest<UdNode>, ud: seq<UdParam>, ids: map<seq<int>, nat>, k: nat)
    requires LoopInv(f0, f, ud, ids, k) && k < |ud|
    requires Linked(g) && g.Keys == f.Keys && g[Slot(ud, ids, k)].parent == Some(ParentSlot(ud, ids, k))
    requires forall n :: n in f ==> g[n].data == f[n].data
    requires forall n :: n in f && n != Slot(ud, ids, k) ==> g[n].parent == f[n].parent
    ensures LoopInv(f0, g, ud, ids, k + 1)
  {
    IdsInSameKeys(ud, ids, f, g);
    StepFrame(f0, f, g, ud, ids, k);
    StepLast(f, g, ud, ids, k);
  }

  /** `add_child` of a parentless node only appends it to the new
      parent's children. */
  lemma AddChildParentless(f: Forest<UdNode>, p: nat, c: nat)
    requires p in f && c in f && f[c].parent.None?
    ensures AddChild(f, p, c).Ok?
    ensures forall n :: n in f ==>
              AddChild(f, p, c).value[n].children == f[n].children + (if n == p then [c] else [])
  {
  }

  /** Reference for the order of siblings: the nodes of the first `k`
      entries whose parent slot is `p`, in entry order (entry `j` owns node
      `j + 2` when ids are distinct). */
  function Kids(ud: seq<UdParam>, ids: map<seq<int>, nat>, k: nat, p: nat): (r: seq<nat>)
    requires k <= |ud|
    ensures forall i :: 0 <= i < |r| ==> 2 <= r[i] < k + 2
  {
    if k == 0 then []
    else Kids(ud, ids, k - 1, p) + (if ParentSlot(ud, ids, k - 1) == p then [k + 1] else [])
  }

  /** Every entry owns its own node, and that node starts parentless. */
  ghost predicate Pristine(f0: Forest<UdNode>, ud: seq<UdParam>, ids: map<seq<int>, nat>)
    requires IdsIn(ud, ids, f0)
  {
    forall j :: 0 <= j < |ud| ==> Slot(ud, ids, j) == j + 2 && f0[j + 2].parent.None?
  }

  /** After `k` entries of a pristine run, each node's children are its
      original ones followed by `Kids`. */
  ghost predicate SiblingsInOrder(f0: Forest<UdNode>, f: Forest<UdNode>, ud: seq<UdParam>, ids: map<seq<int>, nat>, k: nat)
    requires IdsIn(ud, ids, f0) && k <= |ud|
  {
    Pristine(f0, ud, ids) && f.Keys == f0.Keys
    && forall p :: p in f0 ==> f[p].children == f0[p].children + Kids(ud, ids, k, p)
  }

  /** In a pristine run, entry `k`'s node is still parentless when its
      turn comes. */
  lemma NextSlotParentless(f0: Forest<UdNode>, f: Forest<UdNode>, ud: seq<UdParam>, ids: map<seq<int>, nat>, k: nat)
    requires LoopInv(f0, f, ud, ids, k) && k < |ud| && IdsIn(ud, ids, f0) && Pristine(f0, ud, ids)
    ensures Slot(ud, ids, k) == k + 2 && k + 2 in f && f[k + 2].parent.None?
  {
    assert UntouchedBefore(ud, ids, k, k + 2) by {
      forall j | 0 <= j < k ensures Slot(ud, ids, j) != k + 2 {
        assert Slot(ud, ids, j) == j + 2;
      }
    }
  }

  lemma KidsStep(f0: Forest<UdNode>, f: Forest<UdNode>, g: Forest<UdNode>, ud: seq<UdParam>, ids: map<seq<int>, nat>, k: nat)
    requires k < |ud| && IdsIn(ud, ids, f0) && SiblingsInOrder(f0, f, ud, ids, k) && g.Keys == f.Keys
    requires forall n :: n in f ==>
               g[n].children == f[n].children + (if n == ParentSlot(ud, ids, k) then [k + 2] else [])
    ensures SiblingsInOrder(f0, g, ud, ids, k + 1)
  {
    forall n | n in f0
      ensures g[n].children == f0[n].children + Kids(ud, ids, k + 1, n)
    {
      assert Kids(ud, ids, k + 1, n) == Kids(ud, ids, k, n) + (if ParentSlot(ud, ids, k) == n then [k + 2] else []);
    }
  }

  /** One pass of the second loop's body. */
  method Attach1(f0: Forest<UdNode>, f: Forest<UdNode>, ud: seq<UdParam>, ids: map<seq<int>, nat>, k: nat)
    returns (g: Forest<UdNode>)
    requires LoopInv(f0, f, ud, ids, k) && k < |ud|
    ensures LoopInv(f0, g, ud, ids, k + 1)
    ensures SiblingsInOrder(f0, f, ud, ids, k) ==> SiblingsInOrder(f0, g, ud, ids, k + 1)
  {
    LoopStepOk(f0, f, ud, ids, k);
    if SiblingsInOrder(f0, f, ud, ids, k) {
      NextSlotParentless(f0, f, ud, ids, k);
      AddChildParentless(f, ParentSlot(ud, ids, k), k + 2);
      KidsStep(f0, f, AddChild(f, ParentSlot(ud, ids, k), k + 2).value, ud, ids, k);
    }
    g := AddChild(f, ParentSlot(ud, ids, k), Slot(ud, ids, k)).value;
    LoopStep(f0, f, g, ud, ids, k);
  }

  /** The second loop: each entry's node is attached to its parent group's
      node, or to the proxy root when the parent group is not a known id
      (the `KeyError` branch). `add_child` cannot raise on the linked
      forest the loop keeps. */
  method AttachAll(f0: Forest<UdNode>, ud: seq<UdParam>, ids: map<seq<int>, nat>) returns (f: Forest<UdNode>)
    requires IdsIn(ud, ids, f0) && Linked(f0)
    ensures LoopInv(f0, f, ud, ids, |ud|)
    // When every entry owns a fresh node, siblings come in entry order.
    ensures Pristine(f0, ud, ids) ==> SiblingsInOrder(f0, f, ud, ids, |ud|)
  {
    f := f0;
    var k := 0;
    LoopInit(f0, ud, ids);
    while k < |ud|
      invariant LoopInv(f0, f, ud, ids, k)
      invariant Pristine(f0, ud, ids) ==> SiblingsInOrder(f0, f, ud, ids, k)
      decreases |ud| - k
    {
      var f' := Attach1(f0, f, ud, ids, k);
      f := f';
      k := k + 1;
    }
  }

  /** The nodes of the first loop, with the main group added under the
      proxy root. */
  method WithMainGroup(ud: seq<UdParam>) returns (f1: Forest<UdNode>)
    ensures Linked(f1) && (forall n: nat :: n in f1 <==> n < |ud| + 2)
    ensures forall n :: n in f1 ==> f1[n].data == NodeData(n)
    ensures f1[0].parent == None && f1[1].parent == Some(0)
    ensures forall n :: 2 <= n < |ud| + 2 ==> f1[n].parent == None
    ensures forall n :: n in f1 ==> f1[n].children == (if n == 0 then [1] else [])
  {
    MainUnderRoot(|ud| + 2);
    MainOnlyChild(|ud| + 2);
    f1 := AddChild(Fresh(|ud| + 2), 0, 1).value;
  }

  /** Node 1 added under node 0 of a fresh forest: linked, with every
      other node still parentless. */
  lemma MainUnderRoot(n: nat)
    requires n >= 2
    ensures AddChild(Fresh(n), 0, 1).Ok?
    ensures var f1 := AddChild(Fresh(n), 0, 1).value;
            Linked(f1) && f1.Keys == Fresh(n).Keys
            && (forall m :: m in f1 ==> f1[m].data == NodeData(m))
            && f1[0].parent == None && f1[1].parent == Some(0)
            && (forall m :: 2 <= m < n ==> f1[m].parent == None)
  {
    FreshLinked(n);
    var g1 := AddChildKept(Fresh(n), 0, 1);
  }

  /** ... and only the root has a child, the main group. */
  lemma MainOnlyChild(n: nat)
    requires n >= 2
    ensures AddChild(Fresh(n), 0, 1).Ok?
    ensures var f1 := AddChild(Fresh(n), 0, 1).value;
            forall m :: m in f1 ==> f1[m].children == (if m == 0 then [1] else [])
  {
    var f0 := Fresh(n);
    AddChildParentless(f0, 0, 1);
    var g1 := AddChild(f0, 0, 1).value;
    forall m | m in g1
      ensures g1[m].children == (if m == 0 then [1] else [])
    {
      assert f0[m].children == [];
    }
  }

  /** No two parameters share an id, and none takes the main group's. */
  predicate DistinctIds(ud: seq<UdParam>, mainId: seq<int>) {
    (forall i, j :: 0 <= i < j < |ud| ==> ud[i].descid != ud[j].descid)
    && (forall i :: 0 <= i < |ud| ==> ud[i].descid != mainId)
  }

  /** `userdata_tree(ud)`: the forest of the proxy root, the main group
      (registered under `mainId`) and one node per parameter. It never
      raises; the proxy root has no parent; the main group hangs under the
      root unless a parameter reuses its id; and a parameter whose id no
      later parameter repeats (and that is not the main group's) ends up
      under `ParentSlot`: its parent group's node, or the root. */
  method UserdataTree(ud: seq<UdParam>, mainId: seq<int>) returns (f: Forest<UdNode>)
    ensures Linked(f) && (forall n: nat :: n in f <==> n < |ud| + 2)
    ensures f[0].parent == None && f[0].data == ProxyRoot && f[1].data == MainGroup
    ensures (forall k :: 0 <= k < |ud| ==> ud[k].descid != mainId) ==> f[1].parent == Some(0)
    ensures forall j :: 0 <= j < |ud| && ud[j].descid != mainId
                        && (forall k :: j < k < |ud| ==> ud[k].descid != ud[j].descid) ==>
              f[j + 2].parent == Some(ParentSlot(ud, NodeIds(ud, mainId), j))
    // With distinct ids, the root's children are the main group and then
    // the parameters that fall back to it, and every other node's children
    // are the parameters placed under it, all in parameter order.
    ensures DistinctIds(ud, mainId) ==>
              forall p :: p in f ==> f[p].children == (if p == 0 then [1] else []) + Kids(ud, NodeIds(ud, mainId), |ud|, p)
  {
    var ids := NodeIds(ud, mainId);
    ParamIdsKeys(ud);
    var f1 := WithMainGroup(ud);
    if DistinctIds(ud, mainId) {
      forall j | 0 <= j < |ud|
        ensures Slot(ud, ids, j) == j + 2
      {
        SlotOfLast(ud, mainId, j);
      }
      assert Pristine(f1, ud, ids);
    }
    f := AttachAll(f1, ud, ids);
    LoopDone(f1, f, ud, ids);
    RootUntouched(ud, mainId);
    if forall k :: 0 <= k < |ud| ==> ud[k].descid != mainId {
      MainUntouched(ud, mainId);
    }
    ParamParents(f, ud, mainId);
  }

  /** No entry attaches the proxy root. */
  lemma RootUntouched(ud: seq<UdParam>, mainId: seq<int>)
    ensures forall k :: 0 <= k < |ud| ==> ud[k].descid in NodeIds(ud, mainId)
    ensures UntouchedBefore(ud, NodeIds(ud, mainId), |ud|, 0)
  {
    ParamIdsKeys(ud);
    var ids := NodeIds(ud, mainId);
    forall j | 0 <= j < |ud|
      ensures Slot(ud, ids, j) != 0
    {
      var d := ud[j].descid;
      if d != mainId {
        assert ids[d] == ParamIds(ud)[d];
      }
    }
  }

  /** No entry attaches the main group unless a parameter reuses its id. */
  lemma MainUntouched(ud: seq<UdParam>, mainId: seq<int>)
    requires forall k :: 0 <= k < |ud| ==> ud[k].descid != mainId
    ensures forall k :: 0 <= k < |ud| ==> ud[k].descid in NodeIds(ud, mainId)
    ensures UntouchedBefore(ud, NodeIds(ud, mainId), |ud|, 1)
  {
    ParamIdsKeys(ud);
    var ids := NodeIds(ud, mainId);
    forall j | 0 <= j < |ud|
      ensures Slot(ud, ids, j) != 1
    {
      assert ids[ud[j].descid] == ParamIds(ud)[ud[j].descid];
    }
  }

  /** Latest attachments, restated per parameter. */
  lemma ParamParents(f: Forest<UdNode>, ud: seq<UdParam>, mainId: seq<int>)
    requires forall k :: 0 <= k < |ud| ==> ud[k].descid in NodeIds(ud, mainId)
    requires forall j :: 0 <= j < |ud| && LastBefore(ud, NodeIds(ud, mainId), j, |ud|) ==>
               Slot(ud, NodeIds(ud, mainId), j) in f
               && f[Slot(ud, NodeIds(ud, mainId), j)].parent == Some(ParentSlot(ud, NodeIds(ud, mainId), j))
    ensures forall j :: 0 <= j < |ud| && ud[j].descid != mainId
                        && (forall k :: j < k < |ud| ==> ud[k].descid != ud[j].descid) ==>
              j + 2 in f && f[j + 2].parent == Some(ParentSlot(ud, NodeIds(ud, mainId), j))
  {
    forall j | 0 <= j < |ud| && ud[j].descid != mainId
                && (forall k :: j < k < |ud| ==> ud[k].descid != ud[j].descid)
      ensures j + 2 in f && f[j + 2].parent == Some(ParentSlot(ud, NodeIds(ud, mainId), j))
    {
      SlotOfLast(ud, mainId, j);
    }
  }

  /** The node a parameter is looked up to is its own when no later
      parameter repeats its id and it is not the main group's; and then no
      later entry attaches that node again. */
  lemma SlotOfLast(ud: seq<UdParam>, mainId: seq<int>, j: nat)
    requires j < |ud| && ud[j].descid != mainId
    requires forall k :: j < k < |ud| ==> ud[k].descid != ud[j].descid
    ensures forall k :: 0 <= k < |ud| ==> ud[k].descid in NodeIds(ud, mainId)
    ensures Slot(ud, NodeIds(ud, mainId), j) == j + 2 && LastBefore(ud, NodeIds(ud, mainId), j, |ud|)
  {
    var ids := NodeIds(ud, mainId);
    ParamIdsKeys(ud);
    ParamIdsLast(ud);
    var d := ud[j].descid;
    assert ids[d] == ParamIds(ud)[d];
    assert ParamIds(ud)[d] == j + 2;
    forall k | j < k < |ud|
      ensures Slot(ud, ids, k) != j + 2
    {
      var e := ud[k].descid;
      if e != mainId {
        assert ids[e] == ParamIds(ud)[e];
      }
    }
  }

  /** With distinct ids, none equal to the main group's, parameter `k`'s
      parent is the main group when its parent group is the main group's
      id, the parameter whose id its parent group is, and otherwise the
      proxy root. */
  lemma ParentSlotDistinct(ud: seq<UdParam>, mainId: seq<int>, k: nat)
    requires forall i, j :: 0 <= i < j < |ud| ==> ud[i].descid != ud[j].descid
    requires forall i :: 0 <= i < |ud| ==> ud[i].descid != mainId
    requires k < |ud|
    ensures var ps := ParentSlot(ud, NodeIds(ud, mainId), k);
            var pg := ud[k].parentGroup;
            (pg == mainId ==> ps == 1)
            && (forall j :: 0 <= j < |ud| && ud[j].descid == pg ==> ps == j + 2)
            && (pg != mainId && (forall j :: 0 <= j < |ud| ==> ud[j].descid != pg) ==> ps == 0)
  {
    ParamIdsKeys(ud);
    var ids := NodeIds(ud, mainId);
    var pg := ud[k].parentGroup;
    forall j | 0 <= j < |ud| && ud[j].descid == pg
      ensures ParentSlot(ud, ids, k) == j + 2
    {
      var n := ParamIds(ud)[pg];
      assert ud[n - 2].descid == pg;
      assert n - 2 == j;
    }
  }
}
